=== FILE: README.md ===
# EchoFinder, modelled in Dafny

EchoFinder recommends songs. It has three parts:

- an Express backend that merges Spotify and Last.fm data into track and artist
  documents, stores them in MongoDB and serves recommendations;
- a Python recommendation engine that ingests tracks, turns each track into a
  vector (a text embedding followed by five min-max scaled numeric features)
  and ranks the stored tracks by cosine similarity to a user's preference
  vector;
- a React Native app that onboards the user (genres, then artists), keeps
  their ids and preferences on the device, and lets them like and dislike
  recommended songs.

The project models the logic of each core file, one Dafny module per file:

| module | file | what it holds |
|---|---|---|
| `Helper` | helper.js | merging, title normalisation, artist selection, top-track de-duplication |
| `DbUtils` | dbUtils.js | match filters, update documents, upsert loops |
| `SpotifyService` | spotify/service.js | popularity sort, title cleaning, the three search choices |
| `HandleError` | handleError.js | error message precedence |
| `GetRecommendations` | getRecommendations.js | the stocked-library gate and the fallback |
| `Recommend` | recommendSongsForUser.py | user data, candidates, preference vector, scoring, top 40 |
| `BatchEmbeddings` | insertEmbeddings.py | the batch embedding job |
| `SingleSong` | createEmbeddingForSong.py | the one-song embedding job |
| `TrackIngest` | insertTracks.py | loading a track file and imputing popularity |
| `IngestUtils` | utils.py | the standalone upload helpers |
| `UserPreferences`, `UserDetails` | the two mobile contexts | reducers and persisted state |
| `SongsList`, `SongTile`, `Layout`, `ArtistSelection`, `GenreSelection` | the mobile screens | scores, removal and undo, icons, routes, onboarding steps |

Shared modules:

- `Common`: options, ASCII case, trimming, splitting, a stable descending sort.
- `Vectors`: dot product, L2 normalisation and cosine similarity. The square root is a parameter characterised by its defining property.
- `Features`: scikit-learn min-max scaling with NaN passed through, `fillna(0)`, round-half-even, and the popularity imputation that the three Python scripts share.
- `Frames`: pandas frames as columns plus rows, and MongoDB collections with `UpdateMany` upserts and `bulk_write`.

Database and HTTP answers, clocks, UUIDs and random draws are parameters of the operations that use them.
Objects whose fields the source updates in place are classes:

- the three Python job classes (`EmbeddingsOps`, `SingleSongEmbedding`, `Tracks`) and `Recommender`;
- the two mobile context providers;
- the song-list screen;
- the track item whose score is assigned in place.

The in-place shuffle works on an `array`.

## Model

| member | source | states |
|---|---|---|
| `Helper.ChunksSpec` | express_backend/src/common/helper.js:26-32 | the chunks concatenate back to the input; there are ceil(n/size) of them; each holds 1 to `size` elements, and all but the last hold exactly `size` |
| `Helper.ChunkArray` | express_backend/src/common/helper.js:26-32 | the pushing loop returns exactly the chunk list that `ChunksSpec` describes |
| `Helper.StripFromSuffixLeftmost` | express_backend/src/common/helper.js:792 | the soundtrack-suffix replacement cuts at the leftmost position where the pattern matches, and no earlier position matches |
| `Helper.StripFromSuffixNone` | express_backend/src/common/helper.js:792 | when nothing is cut, the suffix pattern matches nowhere in the title |
| `Helper.RemoveParensPlainPrefix` | express_backend/src/common/helper.js:793 | text without "(" passes through the group removal unchanged |
| `Helper.NormalizePlain` | express_backend/src/common/helper.js:790-796 | a title that is already trimmed, lower-case and free of quotes and parentheses is its own normal form |
| `Helper.NoClosingQuoteNoStrip` | express_backend/src/common/helper.js:792 | a title that does not end with `"` keeps its suffix, because the pattern is anchored at a closing quote |
| `Helper.NormalizeSuffixExample` | express_backend/src/common/helper.js:790-796 | `A - From "B"` normalises to `a` |
| `Helper.NormalizeParensExample` | express_backend/src/common/helper.js:790-796 | `A (Live)` normalises to `a` |
| `Helper.NormalizeNotIdempotent` | express_backend/src/common/helper.js:790-796 | a title exists whose normal form normalises again to something different: the group removal can expose a suffix the earlier replacement could not see |
| `Helper.MergeFields` | express_backend/src/common/helper.js:34-110 | the merge is undefined exactly when Spotify's album lacks `images`; otherwise the image URL is Spotify's first album image URL, else Last.fm's first image text, else ""; height and width are that image's when truthy, else 300; the release is Spotify's album name, else Last.fm's album name, else ""; the wiki summary is Last.fm's when truthy, else ""; the tags are Last.fm's tag names joined by ",", else ""; the artist names are Spotify's, else the one Last.fm artist name |
| `Helper.TagsTextJoins` | express_backend/src/common/helper.js:100-101 | the tag text lists the tag names in order, joined by "," |
| `Helper.MergePrecedence` | express_backend/src/common/helper.js:77-105 | the title is the first truthy of Spotify's name, Last.fm's name and the fallback; the song id is Spotify's id when truthy, else the lower-cased fallback id; Spotify's popularity is taken when truthy, else 0; Last.fm's listener and play counts are taken when truthy, else 0, and its mbid, else null; the popularity score is 0 and embeddings are pending |
| `Helper.MergeSongIdNonEmpty` | express_backend/src/common/helper.js:42 | the song id is never empty |
| `Helper.MergeYear` | express_backend/src/common/helper.js:96 | the year is the non-empty text of the release date before its first "-", else null |
| `Helper.MergeDuration` | express_backend/src/common/helper.js:80-81 | the duration is in seconds, from Spotify first and then Last.fm; it is 0 only when neither gives a non-zero value |
| `Helper.MergeSourceAlwaysSpotify` | express_backend/src/common/helper.js:44-50 | `mergeResults` lists "spotify" as a source whatever the Spotify lookup did |
| `Helper.WithIdsSourceReflectsData` | express_backend/src/common/helper.js:112-188 | `mergeResults_withIds` lists exactly the services that returned data |
| `Helper.MergeSourcesDiverge` | express_backend/src/common/helper.js:44-50 | the two merges disagree on the sources of a track whose Spotify lookup failed |
| `Helper.MergeAsWrittenTitle` | express_backend/src/common/helper.js:78 | as written, the title falls back to `baseSong.title`, which the callers never set, so it is Spotify's name, else Last.fm's name, else undefined; the fallback id starts with "undefined-" |
| `Helper.FallbackIdCollidesAsWritten` | express_backend/src/common/helper.js:42 | as written, two different songs of one artist that Spotify does not identify get the same song id |
| `Helper.FallbackIdDistinct` | express_backend/src/common/helper.js:42 | reading the `song` property the callers set, songs whose lower-cased titles differ get different fallback ids |
| `Helper.ApiToCall` | express_backend/src/common/helper.js:733 | mode 1 exactly when both flags are truthy, 2 when only Spotify is, 3 otherwise |
| `Helper.HandleTracksAlwaysBothApis` | express_backend/src/common/helper.js:613-615 | each flag is coerced to true, so every track goes to both services whatever flags are passed |
| `Helper.UnnamedSongKept` | express_backend/src/common/helper.js:663-671 | as written, a chart song that neither service names is dropped; reading `song`, it is kept whenever the song has a name |
| `Helper.BlocksIffSameName` | express_backend/src/common/helper.js:266-286 | the `find` over stored records reads a property they lack, so an earlier record blocks a new one exactly when the names agree |
| `Helper.StoreAllNames` | express_backend/src/common/helper.js:680-701 | a name is stored exactly when some kept artist entry carries it |
| `Helper.StoreAllIsFirstOccurrences` | express_backend/src/common/helper.js:680-701 | the stored records are the first occurrence of each name, in input order |
| `Helper.StoreAllUniqueNames` | express_backend/src/common/helper.js:680-701 | no two stored records share a name |
| `Helper.StoreAllNamed` | express_backend/src/common/helper.js:680-701 | `handleTracks_v2` never stores a record without a name |
| `Helper.ArtistsToStore` | express_backend/src/common/helper.js:266-286 | the loops of both versions compute `StoreAll` of the merged tracks' artists |
| `Helper.NonDuplicatesMembership` | express_backend/src/common/helper.js:451-481 | a top track is kept exactly when it is in the list and no entry of the list makes it a duplicate |
| `Helper.PairsForSound` | express_backend/src/common/helper.js:451-481 | every recorded pair (a, b) has b in the list, and b makes a a duplicate |
| `Helper.PairsForEmpty` | express_backend/src/common/helper.js:451-481 | an entry records a pair exactly when it has a duplicate |
| `Helper.SplitDuplicates` | express_backend/src/common/helper.js:451-481 | the nested loops return the kept entries and the duplicate pairs that the two specification functions define |
| `Helper.AddBackDuplicates` | express_backend/src/common/helper.js:483-508 | the kept entries stay in front; with pairs, the first pair's first title is added under the favourite artist, then each pair in order adds its first title exactly when no entry so far covers it, and nothing else is added; afterwards every pair is covered |
| `Helper.AddUncoveredCovers` | express_backend/src/common/helper.js:491-506 | after the add-back loop every pair is covered by some entry, and so is everything covered before it |
| `Helper.AddUncoveredAdded` | express_backend/src/common/helper.js:491-506 | every entry the add-back loop appends is the first title and rank of one of the pairs |
| `Helper.FindCovering` | express_backend/src/common/helper.js:492-496 | the search reports exactly whether some entry has either title of the pair and either of its ranks |
| `Helper.FilterTopTracks` | express_backend/src/common/helper.js:451-508 | both phases together: every entry that no other entry duplicates is kept, in order, followed by exactly the titles the add-back phase adds for the pairs found; every pair found is covered |
| `DbUtils.KeptIsTruthyButEmptyArray` | express_backend/src/database/dbUtils.js:494 | the values `$set` receives are the truthy ones, except an empty array, which is truthy but `== ""` |
| `DbUtils.BuildSafeMatchFilter` | express_backend/src/database/dbUtils.js:106-128 | the filter lists, in field order, one condition for each usable id |
| `DbUtils.BuildSafeMatchFilterArtist` | express_backend/src/database/dbUtils.js:130-148 | the same for the two artist ids |
| `DbUtils.UsableConditionsSpec` | express_backend/src/database/dbUtils.js:106-128 | a condition is collected for exactly the usable ids, carrying the id untrimmed |
| `DbUtils.NoUsableConditions` | express_backend/src/database/dbUtils.js:106-128 | no condition is collected exactly when no id is usable |
| `DbUtils.FilterOfSpec` | express_backend/src/database/dbUtils.js:120-127 | the filter is a fresh `_id` (an insert) exactly when no id is usable, the one condition when one is, and `$or` of all of them otherwise |
| `DbUtils.BlankIdUnusable` | express_backend/src/database/dbUtils.js:109 | an id of white space only is not usable |
| `DbUtils.TrackUpdateOps` | express_backend/src/database/dbUtils.js:485-502 | the update document built for one track is the one `TrackUpdate` defines |
| `DbUtils.TrackUpdatePartitions` | express_backend/src/database/dbUtils.js:485-502 | every property other than the timestamps ends up in exactly one of `$set` and `$setOnInsert`, with its value |
| `DbUtils.TrackUpdateOverlap` | express_backend/src/database/dbUtils.js:485-502 | the two documents share a key only where the track carries a timestamp itself |
| `DbUtils.ZeroPopularityOnlyOnInsert` | express_backend/src/database/dbUtils.js:494 | a popularity of 0 never overwrites a stored popularity and is written only on insert |
| `DbUtils.BulkUpdateTrackDetails` | express_backend/src/database/dbUtils.js:478-524 | one upsert per track, in order, each with its filter and update document; the loop finishes exactly when every track has a title and no call throws; otherwise it stops at the first track without a title (returning undefined) or at the first throwing call (the catch returns the upserts so far) |
| `DbUtils.BulkUpdateArtistDetails` | express_backend/src/database/dbUtils.js:434-476 | one upsert per artist, in order, each with its filter and a fresh UUID; the loop finishes exactly when no call throws, and otherwise the catch returns the upserts before the first throwing call |
| `DbUtils.StoreFavArtists` | express_backend/src/database/dbUtils.js:550-605 | the upserts issued are one for each record that `FavCalled` lists, in that order |
| `DbUtils.StoreFavArtistsCalls` | express_backend/src/database/dbUtils.js:550-605 | the k-th upsert carries the k-th listed record's query and fresh id |
| `DbUtils.FavCalledIncreasing` | express_backend/src/database/dbUtils.js:552-599 | calls are issued in record order, at most one per record |
| `DbUtils.FavCalledStopsAtDuplicate` | express_backend/src/database/dbUtils.js:591-594 | a duplicate-key failure ends the batch: no call is issued for a later record |
| `DbUtils.FavCalledComplete` | express_backend/src/database/dbUtils.js:550-605 | without duplicate-key failures, every record with a `fav_artist` gets its upsert |
| `DbUtils.RecommendationOpsSpec` | express_backend/src/database/dbUtils.js:632-663 | either every recommendation is written, each expiring an hour from now, or none is |
| `DbUtils.QueryArtistSpec` | express_backend/src/database/dbUtils.js:997 | the name looked up is the artist text before the first ":", trimmed |
| `DbUtils.FindTracksWithArtistAndSongName` | express_backend/src/database/dbUtils.js:989-1015 | one entry per chart song, in order, each queried with its artist key, its title and a seven-day window |
| `DbUtils.CacheRefOpsSpec` | express_backend/src/database/dbUtils.js:1139-1172 | each entry keeps its rank, category and track, and expires two days from now when its trimmed, lower-cased category is "hot-100", seven days otherwise |
| `DbUtils.UpperHot100IsHot` | express_backend/src/database/dbUtils.js:1146 | the comparison ignores case: "HOT-100" gets the two-day expiry |
| `SpotifyService.SortByPopularity` | express_backend/src/spotify/service.js:9-11 | the array ends holding `SortDesc` of its old contents, which is a permutation of them (the ensures of `Common.SortDesc`) in descending popularity (`Common.SortDescSorted`) |
| `SpotifyService.SortDescHead` | express_backend/src/spotify/service.js:9-11 | the first element after sorting is a most popular one |
| `SpotifyService.MostPopularMatchSpec` | express_backend/src/spotify/service.js:13-40 | the chosen element is a match, no match is more popular, and there is a choice exactly when something matches |
| `SpotifyService.CleanTitleLower` | express_backend/src/spotify/service.js:42-49 | the cleaned title has no ASCII capital letter |
| `SpotifyService.CleanTitleShape` | express_backend/src/spotify/service.js:42-49 | a one-line title, once cleaned, has no "-", no "!" and no parenthesised group |
| `SpotifyService.CleanTitleExample` | express_backend/src/spotify/service.js:42-49 | a live release cleans to the bare title |
| `SpotifyService.PickSpec` | express_backend/src/spotify/service.js:51-104 | a track is picked exactly when some result's cleaned title equals the query's; the pick passes the artist filter whenever the narrowing applies, and no eligible result is more popular |
| `SpotifyService.SearchSongSpec` | express_backend/src/spotify/service.js:51-104 | when nothing throws, the search returns a track exactly when some result's cleaned title equals the cleaned query title, and otherwise undefined |
| `SpotifyService.ArtistKeysAgree` | express_backend/src/spotify/service.js:20-27 | lower-casing then trimming the query and trimming then lower-casing the listed names give the same key |
| `SpotifyService.ArtistIdByNameSpec` | express_backend/src/spotify/service.js:13-40 | the artist found has the query's name key and no artist with that key is more popular; undefined exactly when none has it |
| `SpotifyService.ArtistInfoNoMatch` | express_backend/src/spotify/service.js:106-153 | with every item named, the details are all undefined exactly when no item's trimmed lower-case name equals the query's |
| `SpotifyService.ArtistInfoMostPopular` | express_backend/src/spotify/service.js:106-153 | otherwise the details are those of the most popular matching item |
| `SpotifyService.IdsOfSpec` | express_backend/src/spotify/service.js:165-181 | an id is requested exactly when it is non-empty and some artist carries it |
| `SpotifyService.RequestedWhenIdReadable` | express_backend/src/spotify/service.js:175-181 | an id with a character other than white space and "," makes the request happen |
| `SpotifyService.TwoBlankIdsNotRequested` | express_backend/src/spotify/service.js:175-181 | two blank ids lose their one comma and trim to nothing, so no request is made |
| `SpotifyService.ThreeBlankIdsRequested` | express_backend/src/spotify/service.js:175-181 | with three blank ids only the first comma goes, and the request is made |
| `SpotifyService.MultipleArtistsFromSpotify` | express_backend/src/spotify/service.js:155-209 | the ids requested, and one formatted artist per artist of the response, in order; image fields always have a value |
| `HandleError.ParseError` | express_backend/src/common/handleError.js:7-79 | an object comes back exactly for a TypeError that passes every earlier guard, carrying its message; every other error gives a string, and a falsy error gives "Unknown error occurred." |
| `HandleError.AxiosFirst` | express_backend/src/common/handleError.js:11-35 | for an Axios error the name, runtime class and validation messages play no part |
| `HandleError.NetworkBeforeStatus` | express_backend/src/common/handleError.js:17-23 | a network code is reported before the HTTP status and names the URL |
| `HandleError.StatusMessagePrecedence` | express_backend/src/common/handleError.js:25-32 | with a status and no network code, the message is the first truthy of `data.error`, `data.message` and `statusText`, else "Unknown server error" |
| `HandleError.DuplicateKey` | express_backend/src/common/handleError.js:38-42 | a MongoDB error with code 11000 yields the duplicate-key message whatever its text |
| `HandleError.SystemCodes` | express_backend/src/common/handleError.js:50-61 | a remaining error with a string code gets a string: "Connection reset by peer." for ECONNRESET, "Broken pipe — likely due to abrupt connection close." for EPIPE, "Port already in use." for EADDRINUSE, and otherwise one starting "System Error [code]: " |
| `HandleError.ValidationMessages` | express_backend/src/common/handleError.js:44-47 | a validation error yields "Validation Error: " followed by its messages joined with ", "; every present message occurs in the text, a missing one contributes nothing, and no errors or one message-less error give the bare prefix |
| `HandleError.CatchAll` | express_backend/src/common/handleError.js:78 | the catch-all returns the error's own message when truthy, else "Unexpected error occurred." |
| `GetRecommendations.CountMatched` | express_backend/src/recommendations/getRecommendations.js:85-92 | the counting loop gives the number of artists with matched tracks and the total of their tracks |
| `GetRecommendations.StockedCounts` | express_backend/src/recommendations/getRecommendations.js:85-92 | artists holding at least m matched tracks each add at least m per artist to both counters |
| `GetRecommendations.GatePasses` | express_backend/src/recommendations/getRecommendations.js:98-99 | no favourite artists, or 20 matched tracks for every favourite artist, pass the gate |
| `GetRecommendations.GateNeedsTwentyEach` | express_backend/src/recommendations/getRecommendations.js:98-99 | one matched track for every artist can still fail the gate |
| `GetRecommendations.RefetchNamesSelect` | express_backend/src/recommendations/getRecommendations.js:161-172 | the names to refetch are, in document order, the details name (else the favourite-artist name) of exactly the artists with fewer than 30 matched tracks; the list is empty exactly when no artist has fewer than 30 |
| `GetRecommendations.FallbackRecs` | express_backend/src/recommendations/getRecommendations.js:234-266 | nothing when the cache read fails, the cached tracks when there are 40 or more; otherwise a TypeError exactly when a chart scrape fulfilled with a value without `tracks`, and else the cached tracks followed by the greatest-of-all-time and then the hot-100 tracks |
| `GetRecommendations.RecommendationsBranches` | express_backend/src/recommendations/getRecommendations.js:23-214 | below 40 stored recommendations: with no data at all the fallback is returned; with preferences but a failed artist lookup an empty list; with artist data the recommender's answer is returned and stored exactly when the gate passes and it is truthy; a throwing fallback makes every other response the empty list and refetches nothing |
| `GetRecommendations.GateFailsRefetches` | express_backend/src/recommendations/getRecommendations.js:138-200 | when the gate fails and every artist has matched tracks, the fallback is returned and the refetched names, chunked by two, are the selected names, refetched exactly when the fallback did not throw |
| `Recommend.UserGenres` | recommendation_engine/recommender/recommendSongsForUser.py:44-55 | the genres are the first entry of the user's first genre document split on ","; none without a document; an empty list raises |
| `Recommend.LikedIgnoresUserAndScore` | recommendation_engine/recommender/recommendSongsForUser.py:75-88 | every user's interactions feed the liked list, whatever their score |
| `Recommend.CandidatesSpec` | recommendation_engine/recommender/recommendSongsForUser.py:96-176 | a candidate row is a stored track labelled with a query it satisfies, and every such pair is a row |
| `Frames.DropDuplicates` | recommendation_engine/database/utils.py:203 | equal rows are kept once: the result has the same columns, no repeated row, exactly the rows of the input, and keeps them in the order of their first occurrences |
| `Recommend.NoDeduplication` | recommendation_engine/recommender/recommendSongsForUser.py:148-156 | a liked track by a favourite artist is a candidate twice |
| `Recommend.EmptyGenreMatchesAll` | recommendation_engine/recommender/recommendSongsForUser.py:44-55 | a stored genre "" matches every track with text tags |
| `Recommend.ArtistPathsAgree` | recommendation_engine/recommender/recommendSongsForUser.py:178-186 | the sample check and the database query select the same tracks by artist |
| `Recommend.CheckGenresIgnoresCase` | recommendation_engine/recommender/recommendSongsForUser.py:188-200 | the sample check ignores the case of the favourite genres |
| `Recommend.GenreCaseQueryMisses` | recommendation_engine/recommender/recommendSongsForUser.py:96-176 | the case-sensitive database query misses a tag with a capital letter that the sample check matches |
| `Recommend.GenreSubstringSampleMisses` | recommendation_engine/recommender/recommendSongsForUser.py:188-200 | the sample check compares whole tags, so it misses a longer tag the query matches |
| `Recommend.SafeMean` | recommendation_engine/recommender/recommendSongsForUser.py:253-257 | no vectors give the zero vector of width 389; otherwise a NaN-free component times the count is the column sum, and a NaN anywhere in a component makes it 0 |
| `Recommend.SafeMeanOfCopies` | recommendation_engine/recommender/recommendSongsForUser.py:253-257 | the mean of copies of one NaN-free vector is that vector |
| `Recommend.PrefVectorConvex` | recommendation_engine/recommender/recommendSongsForUser.py:345-347 | each component of the preference lies between the smallest and the largest of the three means' components |
| `Recommend.PrefOfEqualMeans` | recommendation_engine/recommender/recommendSongsForUser.py:345-347 | three equal means give that mean back |
| `Recommend.RaggedNotOk` | recommendation_engine/recommender/recommendSongsForUser.py:292-430 | two stored vectors of different widths make the similarity step fail |
| `Recommend.BonusValues` | recommendation_engine/recommender/recommendSongsForUser.py:393-419 | the bonus lies in {0, 0.05, 0.10, 0.15} |
| `Recommend.EmptyPrefScoresBonus` | recommendation_engine/recommender/recommendSongsForUser.py:363-419 | with no candidate embeddings a song's final score is its bonus |
| `Recommend.Top40Spec` | recommendation_engine/recommender/recommendSongsForUser.py:456-458 | at most 40 rows, best first, drawn from the scored rows, and no row left out scores above a row kept |
| `Recommend.Recommender.FetchUserDetails` | recommendation_engine/recommender/recommendSongsForUser.py:40-94 | the three user fields after the step, or all unset when the genre step raises |
| `Recommend.Recommender.FetchTracksBasedOnUserPref` | recommendation_engine/recommender/recommendSongsForUser.py:96-176 | the candidates are the three labelled sets concatenated; no candidates raise |
| `Recommend.Recommender.GetAllEmbeddings` | recommendation_engine/recommender/recommendSongsForUser.py:259-290 | every stored embedding and those of the requested songs; an empty collection raises |
| `Recommend.Recommender.AddLabelBonus` | recommendation_engine/recommender/recommendSongsForUser.py:393-419 | 0.05 is added to the bonus of exactly the rows of the label |
| `Recommend.Recommender.CalculateSimilarity` | recommendation_engine/recommender/recommendSongsForUser.py:292-430 | the scored rows with their bonuses, or unset when the arithmetic fails |
| `Recommend.Recommender.FetchSimilarSongs` | recommendation_engine/recommender/recommendSongsForUser.py:432-462 | the 40 best rows, or nothing changed without scored rows |
| `Recommend.Recommender.Start` | recommendation_engine/recommender/recommendSongsForUser.py:517-534 | the run fails with the lost user details exactly when the user's first genre document has an empty `fav_genres` (a missing document gives no genres and the run goes on), with no candidates exactly when no track is a candidate, and with no embeddings exactly when the embeddings collection is empty, and succeeds otherwise; on success the candidates and requested embeddings are those the queries define, and when the widths agree the recommendations are the 40 best rows scored against the preference vector; otherwise they stay unset |
| `Features.ScaleTo01Inverse` | recommendation_engine/database/insertEmbeddings.py:98-109 | off a constant column, scaling is undone by multiplying back and adding the minimum |
| `Features.MinMaxNaNAt` | recommendation_engine/database/insertEmbeddings.py:98-109 | a present value is scaled over the range of the present values, and NaN stays NaN |
| `Features.MinMaxNaNExtremes` | recommendation_engine/database/insertEmbeddings.py:98-109 | the smallest present value maps to 0 and, unless all are equal, the largest to 1 |
| `Features.MinMaxNaNMonotone` | recommendation_engine/database/insertEmbeddings.py:98-109 | scaling keeps the order of the present values |
| `Features.ScaledFilled` | recommendation_engine/database/insertEmbeddings.py:178-190 | a scaled column after `fillna(0)` lies in [0, 1], with 0 where the value was missing |
| `Features.CombinedPresent` | recommendation_engine/database/insertTracks.py:116-131 | a row's combined signal is NaN exactly when a count it uses is NaN |
| `Features.ImputeKeepsUnmasked` | recommendation_engine/database/insertTracks.py:136-139 | rows outside the mask keep their popularity |
| `Features.ImputeMaskedRange` | recommendation_engine/database/insertTracks.py:133-139 | a masked row gets a popularity exactly when its signal is not NaN, and then an integer from 1 to 100 |
| `Features.ImputeExtremes` | recommendation_engine/database/insertTracks.py:133-139 | the largest signal gets 100 and the smallest 1, unless all signals tie |
| `Features.ImputeMonotone` | recommendation_engine/database/insertTracks.py:133-139 | among masked rows, a larger signal never gets a smaller popularity |
| `Features.ImputeSingleRow` | recommendation_engine/database/insertTracks.py:133-139 | a single masked row gets popularity 1, or NaN when a count it uses is NaN |
| `Features.EmbeddingUnit` | recommendation_engine/database/insertEmbeddings.py:192-207 | the stored vector has unit length whenever the text vector is not zero |
| `Features.EmbeddingDirection` | recommendation_engine/database/insertEmbeddings.py:192-207 | the stored vector is the concatenation scaled by one positive factor |
| `Features.UpsertFinds` | recommendation_engine/database/createEmbeddingForSong.py:294-315 | after an upsert, a lookup by its key finds the updated document in place, or the inserted one at the end |
| `Features.UpsertEmbeddingIdempotent` | recommendation_engine/database/createEmbeddingForSong.py:294-315 | storing the same document twice leaves the collection as storing it once |
| `Features.UpsertStatusFinds` | recommendation_engine/database/createEmbeddingForSong.py:317-338 | after the status upsert the song is "done" with its new popularity and keeps its other fields |
| `Features.UpsertOtherKey` | recommendation_engine/database/createEmbeddingForSong.py:294-338 | an upsert under another key does not move a lookup |
| `Vectors.L2NormalizeIdempotent` | recommendation_engine/database/insertEmbeddings.py:192 | normalising twice changes nothing |
| `Vectors.L2NormalizeDirection` | recommendation_engine/database/insertEmbeddings.py:192 | normalising multiplies by a positive factor |
| `Vectors.CosSimUnit` | recommendation_engine/recommender/recommendSongsForUser.py:363-382 | for unit vectors the similarity is the dot product |
| `BatchEmbeddings.SelectTracksSpec` | recommendation_engine/database/insertEmbeddings.py:23-29 | a forced run takes every track, otherwise exactly the pending ones |
| `BatchEmbeddings.ConcatenateNames` | recommendation_engine/database/insertEmbeddings.py:31-41 | the present, non-empty names joined with "," |
| `BatchEmbeddings.ConcatenatedNamesSplit` | recommendation_engine/database/insertEmbeddings.py:31-41 | splitting the joined names on "," gives the kept names back when none contains a comma |
| `BatchEmbeddings.NamesDisagree` | recommendation_engine/database/insertEmbeddings.py:35-36 | an unnamed artist is skipped here, while the single-song job stops on it |
| `BatchEmbeddings.NewPopularitiesSpec` | recommendation_engine/database/insertEmbeddings.py:126-155 | a re-scored row gets a whole score from 1 to 100, or NaN when a count it uses is NaN; other rows keep theirs |
| `BatchEmbeddings.ScaledColumnAt` | recommendation_engine/database/insertEmbeddings.py:178-190 | a scaled column lies in [0, 1], is 0 where the field is missing, and the field's position in the batch's range elsewhere |
| `BatchEmbeddings.NumericFeaturesRange` | recommendation_engine/database/insertEmbeddings.py:178-190 | every numeric feature lies in [0, 1] |
| `BatchEmbeddings.OneRowFeatures` | recommendation_engine/database/insertEmbeddings.py:178-190 | a batch of one track scales every numeric feature to 0 |
| `BatchEmbeddings.BatchDocsEmbedding` | recommendation_engine/database/insertEmbeddings.py:172-207 | every stored vector has the text width plus five components, unit length when its text vector is not zero, and is its row's normalised text followed by its features, normalised |
| `BatchEmbeddings.EmbeddingsOps.Start` | recommendation_engine/database/insertEmbeddings.py:274-304 | an empty selection or a failed export writes nothing; otherwise every document is upserted and every row marked done |
| `BatchEmbeddings.BatchStoresEverySong` | recommendation_engine/database/insertEmbeddings.py:225-272 | after a successful run with distinct song ids, every selected song has its vector stored and is marked done |
| `SingleSong.AggregateSpec` | recommendation_engine/database/createEmbeddingForSong.py:62-97 | the aggregated bounds are present exactly when some track has a value, hold every present value and are both attained |
| `SingleSong.FreshBoundsSpec` | recommendation_engine/database/createEmbeddingForSong.py:62-97 | an empty collection yields no bounds; otherwise every numeric field has the aggregated bounds of its column |
| `SingleSong.UpsertStatusKeepsBounds` | recommendation_engine/database/createEmbeddingForSong.py:62-97 | marking songs as embedded does not move the bounds |
| `SingleSong.SingleSongEmbedding.GetMinMaxFromDb` | recommendation_engine/database/createEmbeddingForSong.py:62-97 | the cached bounds when present and not forced; otherwise fresh bounds, stored in the cache with the current time |
| `SingleSong.MinMaxScaleConstant` | recommendation_engine/database/createEmbeddingForSong.py:100-103 | on a constant column the hand-written scaler gives 0.5 where scikit-learn's gives 0 |
| `SingleSong.FreshBoundsScale` | recommendation_engine/database/createEmbeddingForSong.py:223-240 | with bounds computed from the collection, no field meets one null bound and one present bound, so the scaler never subtracts a null bound and raises no TypeError |
| `SingleSong.NumericalsInRange` | recommendation_engine/database/createEmbeddingForSong.py:223-252 | with bounds from a collection holding the track, every field has bounds and scales without a TypeError: equal bounds give the scalar 0.5; different bounds give a one-row Series whose cell is present exactly when the track has the value; the cell after `fillna(0)` lies in [0, 1] and is 0 for a missing value |
| `SingleSong.PlannedFreshOk` | recommendation_engine/database/createEmbeddingForSong.py:223-292 | with fresh bounds and named artists, the run succeeds exactly when the four fields have all equal or all different bounds; every failure is the ValueError `np.array` raises on scalars mixed with Series |
| `SingleSong.MixedBoundsRaise` | recommendation_engine/database/createEmbeddingForSong.py:229-252 | a collection where every track has the same year but the durations differ makes every run stop with that ValueError |
| `SingleSong.ConcatenatedNamesSplit` | recommendation_engine/database/createEmbeddingForSong.py:105-113 | the joined names split back into the names when none contains a comma |
| `SingleSong.PopularityNormalizedZero` | recommendation_engine/database/createEmbeddingForSong.py:219-221 | on a one-row frame the popularity feature is 0 |
| `SingleSong.PlannedFresh` | recommendation_engine/database/createEmbeddingForSong.py:254-292 | the vector of a successful run is the text width plus five, has unit length when the text vector is not zero, and its popularity feature is 0 |
| `SingleSong.FreshFeaturesInUnit` | recommendation_engine/database/createEmbeddingForSong.py:223-273 | with fresh bounds from a collection holding the track, the five features after `fillna(0)` lie in [0, 1] |
| `SingleSong.ScaleFields` | recommendation_engine/database/createEmbeddingForSong.py:229-245 | the field loop stops with the TypeError exactly when some bounded field meets a null bound; otherwise it gives the four entries, each the scaler's result or 0.5 for an unbounded field, and the `*_normalized` columns of the bounded fields |
| `SingleSong.SingleSongEmbedding.GenerateEmbeddingNumericals` | recommendation_engine/database/createEmbeddingForSong.py:223-252 | fills the bounds cache, then reports the TypeError when a field subtracts a null bound, the ValueError when scalars and Series mix, and otherwise the four scaled values and the `*_normalized` columns |
| `SingleSong.SingleSongEmbedding.Start` | recommendation_engine/database/createEmbeddingForSong.py:340-351 | a missing song stops before anything is read; otherwise the result is the planned run on the cached or fresh bounds, and a successful run upserts the vector and marks the track done with its popularity; a run that stops writes nothing |
| `SingleSong.StartSucceeds` | recommendation_engine/database/createEmbeddingForSong.py:340-351 | a fresh run on a collection holding the song, with named artists and every numeric field taking two different values, succeeds even when the song itself lacks some fields, each missing one giving the feature 0 |
| `SingleSong.MissingYearCases` | recommendation_engine/database/createEmbeddingForSong.py:100-103 | a song without a year, against different numeric year bounds, gets a NaN cell that becomes the feature 0; when no song has a year the field is the scalar 0.5 |
| `TrackIngest.NextMatchLeftmost` | recommendation_engine/database/insertTracks.py:22-29 | no match of the "feat." separator starts before the one found, nor anywhere when none is found |
| `TrackIngest.FeatSplitRebuild` | recommendation_engine/database/insertTracks.py:22-29 | putting the separators back between the parts gives the artist string |
| `TrackIngest.FeatPartsClean` | recommendation_engine/database/insertTracks.py:22-29 | no part still contains a separator |
| `TrackIngest.ArtistEntriesRebuild` | recommendation_engine/database/insertTracks.py:22-29 | k separators give k + 1 entries, whose names with the separators put back give the artist string |
| `TrackIngest.ModifyArtist` | recommendation_engine/database/insertTracks.py:22-29 | one `{name, spotify_id: ""}` entry per part, in order |
| `TrackIngest.ReplaceCharProperties` | recommendation_engine/database/insertTracks.py:46-53 | after the tag replacement no "_" is left, and it can be undone where there was no "," |
| `TrackIngest.CleanedRows` | recommendation_engine/database/insertTracks.py:31-44 | the frame keeps the file's columns less the listening ones, and each row once |
| `TrackIngest.DefaultsRowSpec` | recommendation_engine/database/insertTracks.py:55-69 | the defaults fill exactly the default columns the file lacked and change nothing else |
| `TrackIngest.ShapeRowSpec` | recommendation_engine/database/insertTracks.py:46-73 | the keys, rewritten fields, defaults and kept fields of a reshaped row |
| `TrackIngest.ShapedFrameRows` | recommendation_engine/database/insertTracks.py:46-73 | row by row, the reshaped frame is the reshaped row |
| `TrackIngest.ShapeTrackFrame` | recommendation_engine/database/insertTracks.py:46-73 | the step-by-step reshaping gives the reshaped frame, or the first exception in source order |
| `TrackIngest.ImputedColumnSpec` | recommendation_engine/database/insertTracks.py:77-139 | a positive popularity is kept; a missing or non-positive one becomes an integer from 1 to 100, or NaN when a count it uses is NaN |
| `TrackIngest.ImputedNoMask` | recommendation_engine/database/insertTracks.py:116 | without a row to re-score the frame is left as it is |
| `TrackIngest.MasksDiverge` | recommendation_engine/database/insertTracks.py:112-114 | a track with popularity 50 and Spotify popularity 0 keeps its 50 here, while the embedding scripts re-score it |
| `TrackIngest.ScoreMaskWithinRescoreMask` | recommendation_engine/database/insertTracks.py:112-114 | every row this mask selects, the embedding scripts' mask selects too |
| `TrackIngest.Tracks.LoadDataframe` | recommendation_engine/database/insertTracks.py:31-75 | the loaded frame is the cleaned and reshaped file, or the exception that stops it |
| `TrackIngest.Tracks.UpdatePopularity` | recommendation_engine/database/insertTracks.py:77-139 | the popularity column becomes the imputed column |
| `TrackIngest.Tracks.InsertInDatabase` | recommendation_engine/database/insertTracks.py:141-163 | one upsert per record; a failure is caught and nothing is written |
| `TrackIngest.Tracks.Start` | recommendation_engine/database/insertTracks.py:165-171 | load, impute and write; an exception from the first two ends the run |
| `Frames.SetColumnSame` | recommendation_engine/database/utils.py:68-69 | writing a column's own cells back leaves the frame as it is |
| `Frames.BulkSetLeavesOthers` | recommendation_engine/database/utils.py:23-48 | a write never removes documents, leaves untargeted ones as they were, and appends only targeted ones |
| `Frames.BulkSetKeepsKey` | recommendation_engine/database/utils.py:23-48 | every document keeps its `song_id` through a write |
| `Frames.BulkSetLastWins` | recommendation_engine/database/utils.py:23-48 | for each key the last record carrying it wins |
| `Frames.BulkSetFresh` | recommendation_engine/database/utils.py:23-48 | records with distinct new keys are appended exactly, in order |
| `Frames.BulkUpsert` | recommendation_engine/database/utils.py:23-48 | one request per record, in order; a record without `song_id` raises before anything is written |
| `IngestUtils.TimestampedRows` | recommendation_engine/database/utils.py:68-69 | a row keeps a timestamp it had; a frame without the column gets the same timestamp in every row; nothing else changes |
| `IngestUtils.TimestampedIdempotent` | recommendation_engine/database/utils.py:68-69 | stamping twice is stamping once |
| `IngestUtils.HandleTracks` | recommendation_engine/database/utils.py:50-81 | the stamped frame is bulk-upserted; any exception is caught |
| `IngestUtils.PrepareDataFrame` | recommendation_engine/database/utils.py:199-241 | the reshaped frame, or nothing when a step raises |
| `IngestUtils.PrepareMatchesLoad` | recommendation_engine/database/utils.py:199-241 | on a file with both listening columns, this gives the frame the track loader does |
| `IngestUtils.PrepareStricterThanLoad` | recommendation_engine/database/utils.py:199-241 | a file without `user_id` loads through the track loader but is refused here |
| `IngestUtils.UpdateEmbeddings` | recommendation_engine/database/utils.py:130-169 | a file without `song_id` writes nothing; otherwise every row's record is upserted, with its timestamp under the corrected key `updatedAt` (the misspelt key the code writes is modelled by `EmbeddingRecordAsWritten`) |
| `IngestUtils.EmbeddingStored` | recommendation_engine/database/utils.py:145-155 | after the write, the song of a row (when no later row repeats its id) is stored with that row's vector and the new timestamp |
| `IngestUtils.StaleTimestampAsWritten` | recommendation_engine/database/utils.py:151 | with the key as written, re-embedding a stored song never refreshes its `updatedAt` |
| `UserPreferences.ReduceFrames` | mobile/src/context/UserPreferencesContext.tsx:31-66 | each action touches only its own fields |
| `UserPreferences.ReduceIdempotent` | mobile/src/context/UserPreferencesContext.tsx:31-66 | dispatching the same action twice is dispatching it once |
| `UserPreferences.SetsCommute` | mobile/src/context/UserPreferencesContext.tsx:36-47 | setting genres and setting artists commute |
| `UserPreferences.AfterInitSpec` | mobile/src/context/UserPreferencesContext.tsx:89-113 | from the initial state, `init` restores every stored list, clears `loading`, and marks onboarding complete exactly when a non-empty status string is stored |
| `UserPreferences.RestartAfterDeleteOnboarded` | mobile/src/context/UserPreferencesContext.tsx:127-133 | as written, the "false" that `deletePreferences` stores marks onboarding complete at the next start |
| `UserPreferences.RestartIntendedAgrees` | mobile/src/context/UserPreferencesContext.tsx:89-137 | with the intended status test a restart agrees with the state the session left behind |
| `UserPreferences.PreferencesProvider.Init` | mobile/src/context/UserPreferencesContext.tsx:89-113 | the state after `init` is the one `AfterInit` defines |
| `UserPreferences.PreferencesProvider.DeletePreferences` | mobile/src/context/UserPreferencesContext.tsx:127-133 | both lists are removed, the status "false" is stored, and the state is reset |
| `UserPreferences.PreferencesProvider.SetOnboardingStatus` | mobile/src/context/UserPreferencesContext.tsx:135-138 | "true" is stored and onboarding is marked complete |
| `UserPreferences.DeleteThenRestart` | mobile/src/context/UserPreferencesContext.tsx:89-133 | after a delete, the running session shows onboarding as not completed and a restarted one as completed |
| `UserDetails.ReduceSpec` | mobile/src/context/UserDetailsContext.tsx:25-45 | SET_IDS sets both ids and CLEAR_IDS nulls both, each keeping `loading`; STOP_LOADING changes only `loading` |
| `UserDetails.ChosenIdsStable` | mobile/src/context/UserDetailsContext.tsx:67-91 | once both ids are stored, a second `initUser` keeps them |
| `UserDetails.UserDetailsProvider.InitUser` | mobile/src/context/UserDetailsContext.tsx:67-91 | the stored ids are reused, only missing ones are generated and stored, and loading ends |
| `UserDetails.UserDetailsProvider.DeleteAccount` | mobile/src/context/UserDetailsContext.tsx:93-98 | both keys are removed and both ids cleared |
| `UserDetails.StartDeleteRestart` | mobile/src/context/UserDetailsContext.tsx:67-98 | deleting the account and starting again generates new ids |
| `SongsList.NewScore` | mobile/app/songs/list.tsx:195-205 | the new score is always -1, 0 or 5 |
| `SongsList.NewScoreTable` | mobile/app/songs/list.tsx:195-205 | the full transition table, and pressing the same button twice from an unscored track returns it to 0 |
| `SongsList.WithoutSong` | mobile/app/songs/list.tsx:213-215 | exactly the entries with another song id are kept |
| `SongsList.NegativeScores` | mobile/app/songs/list.tsx:149-157 | exactly the entries with a negative score are kept |
| `SongsList.SongListScreen.RegisterLikeOrDislike` | mobile/app/songs/list.tsx:188-245 | the new score, the removal with its saved list and pending deletion for a dislike, and the mutation sent otherwise |
| `SongsList.SongListScreen.UndoRemoval` | mobile/app/songs/list.tsx:257-265 | the last pending deletion is dropped and the saved list restored |
| `SongsList.SongListScreen.OnDismissSnackBar` | mobile/app/songs/list.tsx:247-255 | one mutation per pending deletion, in order, and the snackbar hides |
| `SongsList.DislikeThenUndo` | mobile/app/songs/list.tsx:188-265 | disliking a recommended track and undoing restores the list and the pending deletions, and sends nothing |
| `SongsList.TwoRemovalsOneUndo` | mobile/app/songs/list.tsx:188-265 | after two removals and one undo, only the first removed track stays removed |
| `SongTile.FindBySpotifyId` | mobile/src/components/SongTile.tsx:41 | a match is found exactly when some entry has the item's Spotify id |
| `SongTile.ButtonNamesPairing` | mobile/src/components/SongTile.tsx:39-55 | the two icons are never both filled; the like icon is filled exactly for a positive score, the dislike icon for any other score of a found entry |
| `SongTile.AbsentShowsOutlines` | mobile/src/components/SongTile.tsx:39-55 | a track absent from the liked list shows both outlines |
| `Layout.RootLayout` | mobile/app/_layout.tsx:69-85 | the loading view exactly when the app is not ready |
| `Layout.RouteCases` | mobile/app/_layout.tsx:76-80 | home exactly when onboarding is complete with genres, the start screen exactly when neither list holds anything, and artists win over genres otherwise |
| `Layout.ReonboardingSkipsArtistsAsWritten` | mobile/app/_layout.tsx:76-80 | as written, re-choosing genres after a delete lands on home with no artists |
| `Layout.ReonboardingIntended` | mobile/app/_layout.tsx:76-80 | with the intended status test, the same sequence resumes at the genre step |
| `ArtistSelection.Toggle` | mobile/app/onboarding/artist-selection.tsx:176-180 | the toggled entry is present exactly when it was absent, and every other entry's presence is unchanged |
| `ArtistSelection.ToggleTwice` | mobile/app/onboarding/artist-selection.tsx:176-180 | toggling an absent entry twice restores the list |
| `ArtistSelection.ToggleNoDuplicates` | mobile/app/onboarding/artist-selection.tsx:176-180 | toggling keeps a list free of duplicates |
| `ArtistSelection.ArtistsToShowSpec` | mobile/app/onboarding/artist-selection.tsx:49-81 | the offered artists are duplicate-free and are exactly the route parameter's, or else those of the stored genres |
| `ArtistSelection.Shuffle` | mobile/app/onboarding/artist-selection.tsx:83-98 | the shuffled array is a permutation of the input |
| `ArtistSelection.ShowArtists` | mobile/app/onboarding/artist-selection.tsx:49-81 | the artists shown are a permutation of the derived list |
| `ArtistSelection.InitialSelection` | mobile/app/onboarding/artist-selection.tsx:42-46 | the stored artists when genres are stored, else none |
| `ArtistSelection.MoveToNextPage` | mobile/app/onboarding/artist-selection.tsx:140-164 | the payload sent; onboarding complete, artists stored and "/home" only when the reply has no error |
| `ArtistSelection.FinishOnboarding` | mobile/app/onboarding/artist-selection.tsx:140-164 | a successful move leaves onboarding complete with the selection stored |
| `GenreSelection.GenresCatalogue` | mobile/app/onboarding/genre-selection.tsx:19-30 | ten distinct genres |
| `GenreSelection.ToggleGenreKeepsCatalogue` | mobile/app/onboarding/genre-selection.tsx:72-76 | toggling keeps a duplicate-free subset of the catalogue, so at most ten genres are selected |
| `GenreSelection.InitialGenres` | mobile/app/onboarding/genre-selection.tsx:56-60 | the stored genres when there are any, else the current selection |
| `GenreSelection.MoveToNextPage` | mobile/app/onboarding/genre-selection.tsx:114-149 | the payload sent; the genres stored and the artist step pushed only when the reply has no error, with an alert otherwise |
| `GenreSelection.GenreStepThenArtistStep` | mobile/app/onboarding/genre-selection.tsx:114-149 | the parameter name does not match the artist step's, which still offers exactly the selected genres' artists |
| `Common.TrimLowerCommute` | express_backend/src/spotify/service.js:20-27 | trimming and lower-casing commute |
| `Common.JoinSplit` | recommendation_engine/recommender/recommendSongsForUser.py:44-55 | splitting then joining with the same separator gives the string back |
| `Common.SortDescSorted` | recommendation_engine/recommender/recommendSongsForUser.py:456-458 | the result of the sort is in descending order of the key |

## Left out

- Network, HTTP and database calls are not modelled as I/O. Their answers are parameters, and the stores are sequences of documents. Concurrency (`Promise.allSettled`, async ordering) is not modelled: awaited calls run in program order.
- Clocks (`Date.now()`, `datetime.now()`), UUIDs, ObjectIds, `Math.random()` (the shuffle's draws) and `Device.osInternalBuildId` are parameters.
- `fallbackRecs` draws four random chart tracks (express_backend/src/recommendations/getRecommendations.js:256-262) but never returns them; it returns the whole list (:265). The unused draws are left out.
- Printing and logging are left out.
- Floating-point arithmetic (min-max scaling, cosine similarity, means, `np.around`, the 0.05 bonuses) is modelled on exact reals. Rounding error, overflow and infinities are not captured. NaN is modelled only where the code tests for it or `fillna` removes it.
- The square root is a parameter characterised by `r * r == x && r >= 0`. The text-embedding model is a parameter that maps a descriptor to a vector.
- Common.Lower, Common.Upper: fold only ASCII letters. JavaScript `toLowerCase` and Python `str.lower` fold all of Unicode. `NormalizeTitle`, the fallback song id, `CleanTitle`, genre normalisation and the artist-name keys therefore disagree with the code on non-ASCII capitals such as "É".
- SpotifyService.SortByPopularity: that equal popularities keep their input order holds by the construction of `Common.SortDesc` (each element is inserted after the equal ones before it) and is not stated as a lemma.
- Common.SortDesc: stable. pandas `sort_values` (quicksort) is not, so `Recommend.Top40Spec` fixes the order of tied scores where the code may order them differently.
- Recommend.GenreMatch: treats the genre in the `$regex` query as a literal substring. Regular-expression metacharacters are not interpreted, and an invalid pattern such as "c++", which makes the query fail in the code, is not modelled.
- DbUtils.FavCalled: issues the upsert for any string name. The code builds `new RegExp("^" + name.trim() + "$", "i")` from the unescaped name, so a name such as "*NSYNC" throws and the per-artist `catch` skips that record. The model does not interpret the pattern.
- Helper.MergeFields: treats the tag objects and the artist objects as non-null. Mapping over a null tag entry throws in the code.
- The year that the merge stores is text and the scripts read it as a number. The model treats the year column as an optional number.
- MongoDB's NaN doubles are modelled as a missing value (`None`) in the numeric columns.
- The text fields of a track (title, release, tags, wiki summary) are strings here. The scripts' `astype(str)` renders a missing one as "None" or "nan"; Features.Descriptor does not model that rendering.
- The express routes, the Last.fm and Billboard clients and the app screens outside the core (home, preferences, start page) are not part of this model.
- `prepareDataForSample`, the recommender's sample-data path, is modelled only through the two checks it calls (`checkArtistName`, `checkGenres`).
- The genre step's first `useEffect` (mobile/app/onboarding/genre-selection.tsx:50-54), which calls `initUser` when no user id is known yet, is not modelled on the screen. `UserDetails.UserDetailsProvider.InitUser` models what that call does.
- `getSimilarSongs`, the last step of every recommender run (recommendation_engine/recommender/recommendSongsForUser.py:464-528), is not part of this model. It left-joins the top 40 with their track documents on `song_id`, turns `_id` and `image` into text and drops `__v`, `updatedAt` and `artistRef`; the model's recommendations stop at the top 40 rows before that join.
- The CSV exports of the batch job are a parameter that succeeds or fails. File contents are not modelled.

## Findings

| source | as written | input that shows it | evidently intended | confidence | as-written member | corrected member |
|---|---|---|---|---|---|---|
| express_backend/src/common/helper.js:42 | the fallback id and the title fallback read `baseSong.title`, but every caller passes `{song, artist, rank}` (dbUtils.js:1002-1007) | two songs of one artist that Spotify does not find both get the song id "undefined-<artist>", so the second upsert overwrites the first | read `baseSong.song` | not executed | `Helper.FallbackIdCollidesAsWritten` | `Helper.FallbackIdDistinct` |
| express_backend/src/common/helper.js:78 | a chart song that neither service names gets an undefined title, and `handleTracks_v2` drops it | a chart entry with song "X" and no Spotify or Last.fm match | the title falls back to `baseSong.song` and the track is kept | not executed | `Helper.MergeAsWrittenTitle` | `Helper.UnnamedSongKept` |
| recommendation_engine/database/utils.py:151 | the embeddings upsert writes the timestamp under the key `updaatedAt` | re-uploading a stored song's embedding leaves its `updatedAt` unchanged | write `updatedAt` | not executed | `IngestUtils.StaleTimestampAsWritten` | `IngestUtils.EmbeddingStored` |
| mobile/src/context/UserPreferencesContext.tsx:130 | `deletePreferences` stores the string "false", and `init` tests the stored status for truthiness | delete the preferences, restart, choose genres, restart: the app goes to home with no artists chosen | treat only "true" as complete | not executed | `UserPreferences.RestartAfterDeleteOnboarded` | `UserPreferences.RestartIntendedAgrees` |

=== FILE: artist_selection.dfy ===
/**
 * The artist step of the mobile app's onboarding: the artists offered for
 * the chosen genres, their in-place shuffle, the initial selection, the
 * toggle of one artist and the move to the home screen once the choice is
 * stored.
 */
module ArtistSelection {
  import opened Common
  import UserPreferences

  // ---------------------------------------------------------------------------
  // Toggling a choice (the genre step toggles genres the same way)
  // ---------------------------------------------------------------------------

  /**
   * `prev.includes(x) ? prev.filter(a => a !== x) : [...prev, x]`: removes
   * every occurrence of a chosen entry, appends an unchosen one at the end.
   */
  function Toggle(prev: seq<string>, x: string): (r: seq<string>)
    ensures x in r <==> x !in prev
    ensures forall y :: y != x ==> (y in r <==> y in prev)
    ensures x !in prev ==> r == prev + [x]
  {
    if x in prev then RemoveAll(prev, x) else prev + [x]
  }

  /**
   * Toggling an absent entry twice restores the list, and toggling keeps a
   * list free of duplicates.
   */
  lemma ToggleTwice(prev: seq<string>, x: string)
    requires x !in prev
    ensures Toggle(Toggle(prev, x), x) == prev
  {
    RemoveAllAbsent(prev, x);
    RemoveAllAppend(prev, x);
  }

  lemma {:induction false} RemoveAllAppend(s: seq<string>, x: string)
    requires RemoveAll(s, x) == s
    ensures RemoveAll(s + [x], x) == s
  {
    if s == [] {
      assert [] + [x] == [x];
      assert [x][1..] == [];
    } else {
      assert s[0] != x;
      assert (s + [x])[0] == s[0] && (s + [x])[1..] == s[1..] + [x];
      assert RemoveAll(s[1..], x) == s[1..];
      RemoveAllAppend(s[1..], x);
    }
  }

  lemma {:induction false} ToggleNoDuplicates(prev: seq<string>, x: string)
    requires NoDuplicates(prev)
    ensures NoDuplicates(Toggle(prev, x))
  {
    if x in prev {
      RemoveAllNoDuplicates(prev, x);
    }
  }

  lemma {:induction false} RemoveAllNoDuplicates(s: seq<string>, x: string)
    requires NoDuplicates(s)
    ensures NoDuplicates(RemoveAll(s, x))
  {
    if s != [] {
      assert NoDuplicates(s[1..]) by {
        forall i, j | 0 <= i < j < |s[1..]| ensures s[1..][i] != s[1..][j] {
          assert s[1..][i] == s[i + 1] && s[1..][j] == s[j + 1];
        }
      }
      RemoveAllNoDuplicates(s[1..], x);
      if s[0] != x {
        assert s[0] !in s[1..];
        var r := RemoveAll(s[1..], x);
        assert s[0] !in r;
        assert RemoveAll(s, x) == [s[0]] + r;
        forall i, j | 0 <= i < j < |[s[0]] + r| ensures ([s[0]] + r)[i] != ([s[0]] + r)[j] {
          if i == 0 {
            assert ([s[0]] + r)[j] == r[j - 1];
          } else {
            assert ([s[0]] + r)[i] == r[i - 1] && ([s[0]] + r)[j] == r[j - 1];
          }
        }
      }
    }
  }

  // ---------------------------------------------------------------------------
  // The artists offered
  // ---------------------------------------------------------------------------

  /** `genreMap[g.trim().toLowerCase()] ?? []`. */
  function ArtistsOfGenre(g: string, genreMap: map<string, seq<string>>): seq<string>
  {
    var key := Lower(JsTrim(g));
    if key in genreMap then genreMap[key] else []
  }

  /** `genres.flatMap(g => genreMap[g.trim().toLowerCase()] ?? [])`. */
  function ArtistsOfGenres(genres: seq<string>, genreMap: map<string, seq<string>>): (r: seq<string>)
    ensures forall a :: a in r <==> exists k :: 0 <= k < |genres| && a in ArtistsOfGenre(genres[k], genreMap)
  {
    if genres == [] then []
    else
      var rest := ArtistsOfGenres(genres[1..], genreMap);
      assert forall k :: 1 <= k < |genres| ==> genres[k] == genres[1..][k - 1];
      ArtistsOfGenre(genres[0], genreMap) + rest
  }

  /**
   * The list the screen offers before shuffling: the de-duplicated route
   * parameter when it is non-empty, else the de-duplicated artists of the
   * stored genres (none when no genres are stored).
   */
  function ArtistsToShow(fromReq: Option<seq<string>>, genres: Option<seq<string>>,
                         genreMap: map<string, seq<string>>): (r: seq<string>)
  {
    if fromReq.None? || |fromReq.value| == 0 then
      if genres.Some? then Dedup(ArtistsOfGenres(genres.value, genreMap)) else []
    else Dedup(fromReq.value)
  }

  /**
   * Without a route parameter the offered artists are exactly those the
   * genre map lists for some stored genre (looked up trimmed and lower-cased),
   * each once; unknown genres add nothing.
   */
  lemma ArtistsToShowSpec(fromReq: Option<seq<string>>, genres: Option<seq<string>>, genreMap: map<string, seq<string>>)
    ensures NoDuplicates(ArtistsToShow(fromReq, genres, genreMap))
    ensures (fromReq.None? || fromReq.value == []) && genres.Some? ==>
      forall a :: a in ArtistsToShow(fromReq, genres, genreMap) <==>
        exists k :: 0 <= k < |genres.value| && Lower(JsTrim(genres.value[k])) in genreMap
                    && a in genreMap[Lower(JsTrim(genres.value[k]))]
    ensures (fromReq.None? || fromReq.value == []) && genres.None? ==> ArtistsToShow(fromReq, genres, genreMap) == []
    ensures fromReq.Some? && fromReq.value != [] ==>
      forall a :: a in ArtistsToShow(fromReq, genres, genreMap) <==> a in fromReq.value
  {
    if fromReq.None? || |fromReq.value| == 0 {
      if genres.Some? {
        DedupProperties(ArtistsOfGenres(genres.value, genreMap));
      }
    } else {
      DedupProperties(fromReq.value);
    }
  }

  /**
   * `shuffle(array)`: walks `currentIndex` down from the length, swapping
   * each position with one at or below it. `picks[c]` is the index
   * `Math.floor(Math.random() * (c + 1))` drawn when `currentIndex` is c + 1.
   */
  method Shuffle(a: array<string>, picks: seq<nat>)
    requires |picks| == a.Length
    requires forall c :: 0 <= c < |picks| ==> picks[c] <= c
    modifies a
    ensures multiset(a[..]) == multiset(old(a[..]))
  {
    var currentIndex := a.Length;
    while currentIndex != 0
      invariant 0 <= currentIndex <= a.Length
      invariant multiset(a[..]) == multiset(old(a[..]))
    {
      var randomIndex := picks[currentIndex - 1];
      currentIndex := currentIndex - 1;
      a[currentIndex], a[randomIndex] := a[randomIndex], a[currentIndex];
    }
  }

  /**
   * The offered-artists effect: derives the list, shuffles it in place and
   * shows it; the shown artists are a permutation of the derived ones.
   */
  method ShowArtists(fromReq: Option<seq<string>>, genres: Option<seq<string>>,
                     genreMap: map<string, seq<string>>, picks: seq<nat>) returns (shown: seq<string>)
    requires |picks| == |ArtistsToShow(fromReq, genres, genreMap)|
    requires forall c :: 0 <= c < |picks| ==> picks[c] <= c
    ensures multiset(shown) == multiset(ArtistsToShow(fromReq, genres, genreMap))
  {
    var list := ArtistsToShow(fromReq, genres, genreMap);
    var a := new string[|list|](i requires 0 <= i < |list| => list[i]);
    assert a[..] == list;
    Shuffle(a, picks);
    shown := a[..];
  }

  // ---------------------------------------------------------------------------
  // Initial selection and the move to the next page
  // ---------------------------------------------------------------------------

  /** `genres?.length` is truthy. */
  predicate NonEmpty(l: Option<seq<string>>)
  {
    l.Some? && |l.value| > 0
  }

  /** The initial selection: the stored artists (or none) when genres are stored, else empty. */
  function InitialSelection(prefs: UserPreferences.PrefState): (r: seq<string>)
    ensures !NonEmpty(prefs.genres) ==> r == []
    ensures NonEmpty(prefs.genres) && prefs.artists.Some? ==> r == prefs.artists.value
  {
    if NonEmpty(prefs.genres) then (if prefs.artists.Some? then prefs.artists.value else []) else []
  }

  /** The document sent to the user-update endpoint. */
  datatype UserPrefPayload = UserPrefPayload(userId: string, deviceId: string, favGenres: seq<string>, favArtists: seq<string>)

  /** What `storeUserPref` resolves to: nothing, or a message whose `error` flag is set or not. */
  datatype StoreReply = NoReply | Reply(error: bool)

  /** `!dbRes?.error`: no reply, or a reply without error, lets the screen proceed. */
  predicate Proceeds(reply: StoreReply)
  {
    reply.NoReply? || !reply.error
  }

  /**
   * `moveToNextPage`: sends the ids, the stored genres (or none) and the
   * selection. Only when the reply carries no error does it mark onboarding
   * complete, store the selected artists and go to "/home".
   */
  method MoveToNextPage(prefs: UserPreferences.PreferencesProvider, userId: Option<string>, deviceId: Option<string>,
                        selected: seq<string>, reply: StoreReply)
    returns (payload: UserPrefPayload, route: Option<string>)
    modifies prefs
    ensures payload.userId == (if userId.Some? then userId.value else "")
    ensures payload.deviceId == (if deviceId.Some? then deviceId.value else "")
    ensures payload.favGenres == (if old(prefs.state.genres).Some? then old(prefs.state.genres).value else [])
    ensures payload.favArtists == selected
    ensures Proceeds(reply) ==>
      && route == Some("/home")
      && prefs.state == UserPreferences.Reduce(UserPreferences.Reduce(old(prefs.state),
                          UserPreferences.SetOnboardingAction), UserPreferences.SetArtistsAction(selected))
      && prefs.storage == old(prefs.storage).(onboardingStatus := Some("true"), artistsSelected := Some(selected))
    ensures !Proceeds(reply) ==> route.None? && prefs.state == old(prefs.state) && prefs.storage == old(prefs.storage)
  {
    payload := UserPrefPayload(if userId.Some? then userId.value else "",
                               if deviceId.Some? then deviceId.value else "",
                               if prefs.state.genres.Some? then prefs.state.genres.value else [],
                               selected);
    route := None;
    if Proceeds(reply) {
      prefs.SetOnboardingStatus();
      prefs.SetArtists(selected);
      route := Some("/home");
    }
  }

  /**
   * After a successful move the preferences hold the selection and
   * onboarding is complete, so with genres stored the root layout's next
   * start goes to the home screen.
   */
  method FinishOnboarding(prefs: UserPreferences.PreferencesProvider, selected: seq<string>)
    returns (route: Option<string>)
    requires NonEmpty(prefs.state.genres)
    modifies prefs
    ensures route == Some("/home")
    ensures prefs.state.onboardingCompleted && prefs.state.artists == Some(selected) && NonEmpty(prefs.state.genres)
    ensures prefs.storage.onboardingStatus == Some("true") && prefs.storage.artistsSelected == Some(selected)
  {
    var payload;
    payload, route := MoveToNextPage(prefs, None, None, selected, Reply(false));
  }
}

=== FILE: batch_embeddings.dfy ===
/**
 * The batch embedding job of the recommendation engine (`EmbeddingsOps`):
 * it selects the tracks still waiting for an embedding (or all of them when
 * forced), re-scores missing popularities, min-max scales the numeric
 * columns over the batch, encodes each track's descriptor, and upserts every
 * vector into the embeddings collection and "done" into the tracks
 * collection. Any exception ends the run with nothing more written.
 *
 * The collections are sequences held by the object; the encoder, the square
 * root, the clock and the outcome of the CSV export are parameters.
 */
module BatchEmbeddings {
  import opened Common
  import opened Vectors
  import opened Features
  import SingleSong

  /** Why a run stops before writing to the database. */
  datatype Error =
    | EmptyBatch       // no track selected: the empty frame has no `artists` column
    | FileWriteFailed  // the CSV export raised

  /** The tracks whose status is "pending", in collection order. */
  function Pending(tracks: seq<TrackDoc>): (r: seq<TrackDoc>)
    ensures |r| <= |tracks|
    ensures forall t :: t in r <==> t in tracks && t.embeddingsStatus == "pending"
  {
    if tracks == [] then []
    else
      var rest := Pending(tracks[1..]);
      assert forall t :: t in tracks <==> t == tracks[0] || t in tracks[1..];
      if tracks[0].embeddingsStatus == "pending" then [tracks[0]] + rest else rest
  }

  /** `getTracksFromDb`: every track when `forceUpdate` is the string "true", else the pending ones. */
  function SelectTracks(tracks: seq<TrackDoc>, forceUpdate: string): seq<TrackDoc>
  {
    if forceUpdate == "true" then tracks else Pending(tracks)
  }

  /** A forced run takes every track; otherwise exactly the pending ones. */
  lemma SelectTracksSpec(tracks: seq<TrackDoc>, forceUpdate: string)
    ensures forceUpdate == "true" ==> SelectTracks(tracks, forceUpdate) == tracks
    ensures forceUpdate != "true" ==> forall t :: t in SelectTracks(tracks, forceUpdate) <==> t in tracks && t.embeddingsStatus == "pending"
  {
  }

  /** `i.get("name")` is truthy: the name is present, not null and not empty. */
  predicate HasName(e: ArtistEntry)
  {
    e.name.Some? && e.name.value != ""
  }

  /** The names the batch keeps, in order. */
  function KeptNames(artists: seq<ArtistEntry>): (r: seq<string>)
    ensures |r| <= |artists|
    ensures forall i :: 0 <= i < |r| ==> r[i] != ""
    ensures forall i :: 0 <= i < |artists| && HasName(artists[i]) ==> artists[i].name.value in r
  {
    if artists == [] then []
    else
      var rest := KeptNames(artists[1..]);
      assert forall i :: 1 <= i < |artists| ==> artists[i] == artists[1..][i - 1];
      if HasName(artists[0]) then [artists[0].name.value] + rest else rest
  }

  lemma {:induction false} KeptNamesAppend(a: seq<ArtistEntry>, e: ArtistEntry)
    ensures KeptNames(a + [e]) == KeptNames(a) + (if HasName(e) then [e.name.value] else [])
  {
    if a != [] {
      assert (a + [e])[1..] == a[1..] + [e];
      KeptNamesAppend(a[1..], e);
    }
  }

  /**
   * `concatenateNames` of this script: the names that are present and
   * non-empty joined with ",", the others skipped.
   */
  method ConcatenateNames(artists: seq<ArtistEntry>) returns (r: string)
    ensures r == Join(KeptNames(artists), ",")
  {
    var names: seq<string> := [];
    for i := 0 to |artists|
      invariant names == KeptNames(artists[..i])
    {
      assert artists[..i + 1] == artists[..i] + [artists[i]];
      KeptNamesAppend(artists[..i], artists[i]);
      if artists[i].name.Some? && artists[i].name.value != "" {
        names := names + [artists[i].name.value];
      }
    }
    assert artists[..|artists|] == artists;
    r := Join(names, ",");
  }

  /** The kept names are recovered by splitting when none contains a comma. */
  lemma ConcatenatedNamesSplit(artists: seq<ArtistEntry>)
    requires |KeptNames(artists)| > 0
    requires forall i :: 0 <= i < |artists| && artists[i].name.Some? ==> ',' !in artists[i].name.value
    ensures Split(Join(KeptNames(artists), ","), ',') == KeptNames(artists)
  {
    KeptNamesNoComma(artists);
    assert "," == [','];
    SplitJoin(KeptNames(artists), ',');
  }

  lemma {:induction false} KeptNamesNoComma(artists: seq<ArtistEntry>)
    requires forall i :: 0 <= i < |artists| && artists[i].name.Some? ==> ',' !in artists[i].name.value
    ensures forall i :: 0 <= i < |KeptNames(artists)| ==> ',' !in KeptNames(artists)[i]
  {
    if artists != [] {
      assert forall i :: 0 <= i < |artists| - 1 ==> artists[1..][i] == artists[i + 1];
      KeptNamesNoComma(artists[1..]);
    }
  }

  /** When every artist has a non-empty name, both scripts build the same names. */
  lemma NamesAgree(artists: seq<ArtistEntry>)
    requires forall i :: 0 <= i < |artists| ==> HasName(artists[i])
    ensures SingleSong.ArtistNames(artists) == Some(KeptNames(artists))
  {
    if artists != [] {
      assert forall i :: 0 <= i < |artists| - 1 ==> artists[1..][i] == artists[i + 1];
      NamesAgree(artists[1..]);
    }
  }

  /** An unnamed artist is skipped here, while the single-song job stops on it. */
  lemma NamesDisagree()
    ensures KeptNames([ArtistEntry(None), ArtistEntry(Some("A"))]) == ["A"]
    ensures SingleSong.ArtistNames([ArtistEntry(None), ArtistEntry(Some("A"))]).None?
  {
    var a := [ArtistEntry(None), ArtistEntry(Some("A"))];
    assert a[1..] == [ArtistEntry(Some("A"))];
    assert a[1..][1..] == [];
  }

  /** The `artists` column after `sanitizeDataframe`. */
  function ArtistColumn(rows: seq<TrackDoc>): (c: seq<string>)
    ensures |c| == |rows|
  {
    seq(|rows|, i requires 0 <= i < |rows| => Join(KeptNames(rows[i].artists), ","))
  }

  /** `sanitizeDataframe`: the names of every row concatenated, row by row. */
  method SanitizeArtists(rows: seq<TrackDoc>) returns (names: seq<string>)
    ensures names == ArtistColumn(rows)
  {
    names := [];
    for i := 0 to |rows|
      invariant names == ArtistColumn(rows)[..i]
    {
      var n := ConcatenateNames(rows[i].artists);
      names := names + [n];
    }
  }

  /** The imputation inputs and mask of the batch. */
  function PopRows(rows: seq<TrackDoc>): (r: seq<PopRow>)
    ensures |r| == |rows| && forall i :: 0 <= i < |rows| ==> r[i] == PopRowOf(rows[i])
  {
    seq(|rows|, i requires 0 <= i < |rows| => PopRowOf(rows[i]))
  }

  function Mask(rows: seq<TrackDoc>): (m: seq<bool>)
    ensures |m| == |rows| && forall i :: 0 <= i < |rows| ==> m[i] == NeedsRescore(PopRowOf(rows[i]))
  {
    seq(|rows|, i requires 0 <= i < |rows| => NeedsRescore(PopRowOf(rows[i])))
  }

  /** The `popularity_score` column after `createNumericalEmbeddings`; None is NaN. */
  function NewPopularities(rows: seq<TrackDoc>): (r: seq<Option<real>>)
    requires |rows| > 0
    ensures |r| == |rows|
  {
    Impute(PopRows(rows), Mask(rows))
  }

  /**
   * A re-scored row gets a whole score from 1 to 100, or NaN when its play
   * or listener count (or, when Spotify is used, its Spotify popularity) is
   * NaN; the others keep their positive score.
   */
  lemma NewPopularitiesSpec(rows: seq<TrackDoc>, i: nat)
    requires |rows| > 0 && i < |rows|
    ensures NeedsRescore(PopRowOf(rows[i])) ==>
      (NewPopularities(rows)[i].None? <==> Combined(PopRows(rows), Mask(rows))[i].None?)
      && (NewPopularities(rows)[i].Some? ==>
            var p := NewPopularities(rows)[i].value; p.Floor as real == p && 1.0 <= p <= 100.0)
    ensures rows[i].playCount.None? && NeedsRescore(PopRowOf(rows[i])) ==> NewPopularities(rows)[i].None?
    ensures !NeedsRescore(PopRowOf(rows[i])) ==>
      NewPopularities(rows)[i] == rows[i].popularity && rows[i].popularity.value > 0.0
  {
    var pr, m := PopRows(rows), Mask(rows);
    ImputeAt(pr, m, i);
    CombinedPresent(pr, m, i);
    if m[i] {
      ImputeMaskedRange(pr, m, i);
    }
  }

  /** One numeric column min-max scaled over the batch with NaN passed through, then `fillna(0)`. */
  function ScaledColumn(rows: seq<TrackDoc>, f: NumericField): (c: seq<real>)
    ensures |c| == |rows|
  {
    FillZero(MinMaxNaN(Column(rows, f)))
  }

  /** The five numeric features of every row, in feature order. */
  function NumericFeatureRows(rows: seq<TrackDoc>, pops: seq<Option<real>>): (f: seq<seq<real>>)
    requires |pops| == |rows|
    ensures |f| == |rows|
    ensures forall i :: 0 <= i < |rows| ==> |f[i]| == NumericDim
  {
    var y, d := ScaledColumn(rows, Year), ScaledColumn(rows, Duration);
    var p, l := ScaledColumn(rows, TotalPlayCounts), ScaledColumn(rows, TotalListenersCounts);
    var pn := FillZero(MinMaxNaN(pops));
    seq(|rows|, i requires 0 <= i < |rows| => [y[i], d[i], p[i], l[i], pn[i]])
  }

  /** Row i's features, field by field. */
  lemma NumericFeatureRowAt(rows: seq<TrackDoc>, pops: seq<Option<real>>, i: nat)
    requires |pops| == |rows| && i < |rows|
    ensures NumericFeatureRows(rows, pops)[i] == [ScaledColumn(rows, Year)[i], ScaledColumn(rows, Duration)[i],
      ScaledColumn(rows, TotalPlayCounts)[i], ScaledColumn(rows, TotalListenersCounts)[i], FillZero(MinMaxNaN(pops))[i]]
  {
  }

  /** A scaled column lies in [0, 1], is 0 where the field is missing, and the field's position in the batch's range elsewhere. */
  lemma ScaledColumnAt(rows: seq<TrackDoc>, f: NumericField, i: nat)
    requires i < |rows|
    ensures 0.0 <= ScaledColumn(rows, f)[i] <= 1.0
    ensures Field(rows[i], f).None? ==> ScaledColumn(rows, f)[i] == 0.0
    ensures Field(rows[i], f).Some? ==>
      var c := Column(rows, f);
      ScaledColumn(rows, f)[i] == ScaleTo01(c[i].value, SeqMin(Values(c)), SeqMax(Values(c)))
  {
    var c := Column(rows, f);
    ScaledFilled(c, i);
    if c[i].Some? {
      MinMaxNaNAt(c, i);
    }
  }

  /**
   * Every numeric feature lies in [0, 1]; with `ScaledColumnAt`, a missing
   * field (such as the null year of a track without a release date) gives 0
   * and a present one its position between the batch's smallest and largest
   * present values; a NaN popularity gives 0 too.
   */
  lemma NumericFeaturesRange(rows: seq<TrackDoc>, pops: seq<Option<real>>, i: nat)
    requires |pops| == |rows| && i < |rows|
    ensures forall k :: 0 <= k < NumericDim ==> 0.0 <= NumericFeatureRows(rows, pops)[i][k] <= 1.0
    ensures pops[i].None? ==> NumericFeatureRows(rows, pops)[i][4] == 0.0
  {
    var r := NumericFeatureRows(rows, pops)[i];
    NumericRowUnit(rows, pops, i);
    UnitRow(r);
  }

  /** Row i's five features each lie in [0, 1], and a NaN popularity gives 0. */
  lemma NumericRowUnit(rows: seq<TrackDoc>, pops: seq<Option<real>>, i: nat)
    requires |pops| == |rows| && i < |rows|
    ensures UnitRowOf(NumericFeatureRows(rows, pops)[i], pops[i].None?)
  {
    ScaledUnit(rows, Year, i);
    ScaledUnit(rows, Duration, i);
    ScaledUnit(rows, TotalPlayCounts, i);
    ScaledUnit(rows, TotalListenersCounts, i);
    PopsUnit(pops, i);
    UnitList(ScaledColumn(rows, Year)[i], ScaledColumn(rows, Duration)[i], ScaledColumn(rows, TotalPlayCounts)[i],
             ScaledColumn(rows, TotalListenersCounts)[i], FillZero(MinMaxNaN(pops))[i], pops[i].None?);
    NumericFeatureRowAt(rows, pops, i);
  }

  lemma UnitList(y: real, d: real, p: real, l: real, pn: real, zeroLast: bool)
    requires InUnit(y) && InUnit(d) && InUnit(p) && InUnit(l) && InUnit(pn) && (zeroLast ==> pn == 0.0)
    ensures UnitRowOf([y, d, p, l, pn], zeroLast)
  {
  }

  /** Five components each in [0, 1], the last one 0 when `zeroLast`. */
  predicate UnitRowOf(r: seq<real>, zeroLast: bool)
  {
    |r| == NumericDim && InUnit(r[0]) && InUnit(r[1]) && InUnit(r[2]) && InUnit(r[3]) && InUnit(r[4])
    && (zeroLast ==> r[4] == 0.0)
  }

  lemma UnitRow(r: seq<real>)
    requires UnitRowOf(r, false)
    ensures forall k :: 0 <= k < NumericDim ==> 0.0 <= r[k] <= 1.0
  {
    forall k | 0 <= k < NumericDim
      ensures 0.0 <= r[k] <= 1.0
    {
      assert InUnit(r[k]);
    }
  }

  predicate InUnit(x: real)
  {
    0.0 <= x <= 1.0
  }

  lemma ScaledUnit(rows: seq<TrackDoc>, f: NumericField, i: nat)
    requires i < |rows|
    ensures InUnit(ScaledColumn(rows, f)[i])
  {
    ScaledFilled(Column(rows, f), i);
  }

  lemma PopsUnit(pops: seq<Option<real>>, i: nat)
    requires i < |pops|
    ensures InUnit(FillZero(MinMaxNaN(pops))[i])
    ensures pops[i].None? ==> FillZero(MinMaxNaN(pops))[i] == 0.0
  {
    ScaledFilled(pops, i);
  }

  /** A batch of one track scales every numeric feature to 0, whichever values are missing. */
  lemma OneRowFeatures(t: TrackDoc)
    ensures NumericFeatureRows([t], NewPopularities([t])) == [[0.0, 0.0, 0.0, 0.0, 0.0]]
  {
    var rows := [t];
    var pops := NewPopularities(rows);
    forall f
      ensures ScaledColumn(rows, f) == [0.0]
    {
      var c := Column(rows, f);
      if c[0].Some? {
        MinMaxNaNConstant(c, c[0].value);
      }
    }
    if pops[0].Some? {
      MinMaxNaNConstant(pops, pops[0].value);
    }
    assert FillZero(MinMaxNaN(pops)) == [0.0];
  }

  /** The document stored for each row, given the `artists` column and the numeric features. */
  function BatchDocs(rows: seq<TrackDoc>, names: seq<string>, f: seq<seq<real>>, encode: string -> Vec, sqrt: real -> real, timestamp: string)
    : (docs: seq<EmbeddingDoc>)
    requires |names| == |rows| && |f| == |rows| && IsSqrt(sqrt)
    ensures |docs| == |rows|
    ensures forall i :: 0 <= i < |rows| ==>
      docs[i].songId == rows[i].songId && docs[i].spotifyId == rows[i].spotifyId
      && docs[i].lastfmId == rows[i].lastfmId && docs[i].updatedAt == timestamp
  {
    seq(|rows|, i requires 0 <= i < |rows| =>
      var t := rows[i];
      var text := encode(Descriptor(t.title, names[i], t.release, t.allTags, t.wikiSummary));
      EmbeddingDoc(t.songId, t.spotifyId, t.lastfmId, Embedding(text, f[i], sqrt), timestamp))
  }

  /**
   * Every stored vector has the text width plus five components, has unit
   * length when its text vector is not zero, and is its row's normalised text
   * followed by its features, scaled by one positive factor.
   */
  lemma BatchDocsEmbedding(rows: seq<TrackDoc>, names: seq<string>, encode: string -> Vec, sqrt: real -> real, timestamp: string, i: nat)
    requires |rows| > 0 && |names| == |rows| && IsSqrt(sqrt) && IsEncoder(encode) && i < |rows|
    ensures var t := rows[i];
      var text := encode(Descriptor(t.title, names[i], t.release, t.allTags, t.wikiSummary));
      var f := NumericFeatureRows(rows, NewPopularities(rows));
      var e := BatchDocs(rows, names, f, encode, sqrt, timestamp)[i].embeddings;
      |e| == TextDim + NumericDim
      && (SqNorm(text) != 0.0 ==> SqNorm(e) == 1.0)
      && exists c :: c > 0.0 && e == Scale(L2Normalize(text, sqrt) + f[i], c)
  {
    var t := rows[i];
    var text := encode(Descriptor(t.title, names[i], t.release, t.allTags, t.wikiSummary));
    var f := NumericFeatureRows(rows, NewPopularities(rows));
    if SqNorm(text) != 0.0 {
      EmbeddingUnit(text, f[i], sqrt);
    }
    EmbeddingDirection(text, f[i], sqrt);
  }

  /** The embeddings collection after the ordered bulk of upserts. */
  function StoreAll(coll: seq<EmbeddingDoc>, docs: seq<EmbeddingDoc>): seq<EmbeddingDoc>
    decreases |docs|
  {
    if docs == [] then coll
    else UpsertEmbedding(StoreAll(coll, docs[..|docs| - 1]), docs[|docs| - 1])
  }

  /** After storing, a document whose song is not stored again later is the one found for its song. */
  lemma {:induction false} StoreAllFinds(coll: seq<EmbeddingDoc>, docs: seq<EmbeddingDoc>, i: nat)
    requires i < |docs|
    requires forall j :: i < j < |docs| ==> docs[j].songId != docs[i].songId
    ensures var r := StoreAll(coll, docs);
      FindFirst(r, EmbeddingKey, docs[i].songId).Some? && r[FindFirst(r, EmbeddingKey, docs[i].songId).value] == docs[i]
    decreases |docs|
  {
    var last := docs[|docs| - 1];
    var front := docs[..|docs| - 1];
    if i == |docs| - 1 {
      UpsertEmbeddingFinds(StoreAll(coll, front), last);
    } else {
      StoreAllFinds(coll, front, i);
      assert front[i] == docs[i];
      UpsertOtherKey(StoreAll(coll, front), EmbeddingKey, docs[i].songId, last.songId, _ => last, last);
    }
  }

  /** The tracks collection after the ordered bulk of status upserts. */
  function MarkAll(tracks: seq<TrackDoc>, ids: seq<string>, pops: seq<Option<real>>): seq<TrackDoc>
    requires |pops| == |ids|
    decreases |ids|
  {
    if ids == [] then tracks
    else
      var n := |ids| - 1;
      UpsertStatus(MarkAll(tracks, ids[..n], pops[..n]), ids[n], pops[n])
  }

  /** After marking, a song not marked again later is found "done" with its popularity. */
  lemma {:induction false} MarkAllFinds(tracks: seq<TrackDoc>, ids: seq<string>, pops: seq<Option<real>>, i: nat)
    requires |pops| == |ids| && i < |ids|
    requires forall j :: i < j < |ids| ==> ids[j] != ids[i]
    ensures var r := MarkAll(tracks, ids, pops);
      var f := FindFirst(r, TrackKey, ids[i]);
      f.Some? && r[f.value].embeddingsStatus == "done" && r[f.value].popularity == pops[i]
    decreases |ids|
  {
    var n := |ids| - 1;
    var front := MarkAll(tracks, ids[..n], pops[..n]);
    if i == n {
      UpsertStatusFinds(front, ids[n], pops[n]);
    } else {
      MarkAllFinds(tracks, ids[..n], pops[..n], i);
      assert ids[..n][i] == ids[i] && pops[..n][i] == pops[i];
      var p := pops[n];
      UpsertOtherKey(front, TrackKey, ids[i], ids[n], u => MarkDone(u, p), StatusOnlyDoc(ids[n], p));
    }
  }

  /** The song ids of a batch, in row order. */
  function Ids(rows: seq<TrackDoc>): (ids: seq<string>)
    ensures |ids| == |rows| && forall i :: 0 <= i < |rows| ==> ids[i] == rows[i].songId
  {
    seq(|rows|, i requires 0 <= i < |rows| => rows[i].songId)
  }

  /** The job: the two collections and the `forceUpdate` flag. */
  class EmbeddingsOps {
    var embeddings: seq<EmbeddingDoc>
    var tracks: seq<TrackDoc>
    const forceUpdate: string

    constructor(embeddings: seq<EmbeddingDoc>, tracks: seq<TrackDoc>, forceUpdate: string)
      ensures this.embeddings == embeddings && this.tracks == tracks && this.forceUpdate == forceUpdate
    {
      this.embeddings := embeddings;
      this.tracks := tracks;
      this.forceUpdate := forceUpdate;
    }

    /** `storeEmbeddingsInDatabase`: one upsert per document, in order. */
    method StoreEmbeddingsInDatabase(docs: seq<EmbeddingDoc>)
      modifies this
      ensures embeddings == StoreAll(old(embeddings), docs)
      ensures tracks == old(tracks)
    {
      for i := 0 to |docs|
        invariant embeddings == StoreAll(old(embeddings), docs[..i])
        invariant tracks == old(tracks)
      {
        assert docs[..i + 1][..i] == docs[..i];
        embeddings := UpsertEmbedding(embeddings, docs[i]);
      }
      assert docs[..|docs|] == docs;
    }

    /** `updateTracksWithEmbeddingStatus`: one status upsert per row, in order. */
    method UpdateTracksWithEmbeddingStatus(ids: seq<string>, pops: seq<Option<real>>)
      requires |pops| == |ids|
      modifies this
      ensures tracks == MarkAll(old(tracks), ids, pops)
      ensures embeddings == old(embeddings)
    {
      for i := 0 to |ids|
        invariant tracks == MarkAll(old(tracks), ids[..i], pops[..i])
        invariant embeddings == old(embeddings)
      {
        assert ids[..i + 1][..i] == ids[..i] && pops[..i + 1][..i] == pops[..i];
        tracks := UpsertStatus(tracks, ids[i], pops[i]);
      }
      assert ids[..|ids|] == ids && pops[..|pops|] == pops;
    }

    /**
     * `start`: select, build and store. An empty selection or a failed CSV
     * export ends the run before the database is written; otherwise every
     * document is upserted, then every selected track is marked "done".
     */
    method Start(encode: string -> Vec, sqrt: real -> real, fileWriteOk: bool, timestamp: string)
      returns (r: Result<seq<EmbeddingDoc>, Error>)
      requires IsSqrt(sqrt)
      modifies this
      ensures var rows := SelectTracks(old(tracks), forceUpdate);
        (rows == [] ==> r == Err(EmptyBatch))
        && (rows != [] && !fileWriteOk ==> r == Err(FileWriteFailed))
        && (rows != [] && fileWriteOk ==>
              r == Ok(BatchDocs(rows, ArtistColumn(rows), NumericFeatureRows(rows, NewPopularities(rows)), encode, sqrt, timestamp))
              && embeddings == StoreAll(old(embeddings), r.value)
              && tracks == MarkAll(old(tracks), Ids(rows), NewPopularities(rows)))
      ensures r.Err? ==> embeddings == old(embeddings) && tracks == old(tracks)
    {
      var rows := SelectTracks(tracks, forceUpdate);
      if rows == [] {
        return Err(EmptyBatch);
      }
      var names := SanitizeArtists(rows);
      var pops := NewPopularities(rows);
      var docs := BatchDocs(rows, names, NumericFeatureRows(rows, pops), encode, sqrt, timestamp);
      if !fileWriteOk {
        return Err(FileWriteFailed);
      }
      StoreEmbeddingsInDatabase(docs);
      UpdateTracksWithEmbeddingStatus(Ids(rows), pops);
      r := Ok(docs);
    }
  }

  /**
   * After a successful run on a batch whose song ids are distinct (the
   * documents carry their rows' ids, as `BatchDocs` ensures), every selected
   * song has its document in the embeddings collection and is marked "done"
   * with its new popularity.
   */
  lemma BatchStoresEverySong(coll: seq<EmbeddingDoc>, tracks: seq<TrackDoc>, rows: seq<TrackDoc>, docs: seq<EmbeddingDoc>, pops: seq<Option<real>>, i: nat)
    requires |docs| == |rows| == |pops| && i < |rows|
    requires forall j :: 0 <= j < |rows| ==> docs[j].songId == rows[j].songId
    requires forall j, k :: 0 <= j < k < |rows| ==> rows[j].songId != rows[k].songId
    ensures var e := StoreAll(coll, docs);
      var fe := FindFirst(e, EmbeddingKey, rows[i].songId);
      fe.Some? && e[fe.value] == docs[i]
    ensures var m := MarkAll(tracks, Ids(rows), pops);
      var fm := FindFirst(m, TrackKey, rows[i].songId);
      fm.Some? && m[fm.value].embeddingsStatus == "done" && m[fm.value].popularity == pops[i]
  {
    var ids := Ids(rows);
    assert forall j :: i < j < |docs| ==> docs[j].songId != docs[i].songId by {
      forall j | i < j < |docs|
        ensures docs[j].songId != docs[i].songId
      {
        assert docs[j].songId == rows[j].songId && docs[i].songId == rows[i].songId;
      }
    }
    StoreAllFinds(coll, docs, i);
    assert forall j :: i < j < |ids| ==> ids[j] != ids[i];
    MarkAllFinds(tracks, ids, pops, i);
  }
}

=== FILE: common.dfy ===
/**
 * Shared vocabulary of the model: optional values, the string operations the
 * JavaScript and Python code relies on (ASCII case mapping, whitespace
 * trimming, splitting and joining on a separator), sequence helpers and a
 * stable descending sort used wherever the source sorts by a score.
 */
module Common {

  datatype Option<T> = None | Some(value: T)

  /** The outcome of an operation that can fail with an error of type E. */
  datatype Result<T, E> = Ok(value: T) | Err(error: E)

  // ---------------------------------------------------------------------------
  // Characters and case mapping (ASCII only; see README, "Left out")
  // ---------------------------------------------------------------------------

  function LowerChar(c: char): char
  {
    if 'A' <= c <= 'Z' then (c as int + 32) as char else c
  }

  function UpperChar(c: char): char
  {
    if 'a' <= c <= 'z' then (c as int - 32) as char else c
  }

  /** `toLowerCase()` / `str.lower()` on the ASCII range. */
  function Lower(s: string): (r: string)
    ensures |r| == |s|
    ensures forall i :: 0 <= i < |s| ==> r[i] == LowerChar(s[i])
  {
    seq(|s|, i requires 0 <= i < |s| => LowerChar(s[i]))
  }

  /** `toUpperCase()` on the ASCII range. */
  function Upper(s: string): (r: string)
    ensures |r| == |s|
    ensures forall i :: 0 <= i < |s| ==> r[i] == UpperChar(s[i])
  {
    seq(|s|, i requires 0 <= i < |s| => UpperChar(s[i]))
  }

  lemma LowerIdempotent(s: string)
    ensures Lower(Lower(s)) == Lower(s)
  {
  }

  lemma LowerConcat(a: string, b: string)
    ensures Lower(a + b) == Lower(a) + Lower(b)
  {
  }

  /** White space as `String.prototype.trim` and the JavaScript regex class `\s` see it. */
  predicate JsSpace(c: char)
  {
    var n := c as int;
    n == 0x20 || 0x09 <= n <= 0x0D || n == 0xA0 || n == 0x1680
    || 0x2000 <= n <= 0x200A || n == 0x2028 || n == 0x2029
    || n == 0x202F || n == 0x205F || n == 0x3000 || n == 0xFEFF
  }

  /** White space as Python's `str.strip()` and the `re` class `\s` see it on `str`. */
  predicate PySpace(c: char)
  {
    var n := c as int;
    n == 0x20 || 0x09 <= n <= 0x0D || 0x1C <= n <= 0x1F || n == 0x85
    || n == 0xA0 || n == 0x1680 || 0x2000 <= n <= 0x200A
    || n == 0x2028 || n == 0x2029 || n == 0x202F || n == 0x205F || n == 0x3000
  }

  lemma LowerCharKeepsSpace(c: char, sp: char -> bool)
    requires sp == JsSpace || sp == PySpace
    ensures sp(LowerChar(c)) <==> sp(c)
  {
  }

  // ---------------------------------------------------------------------------
  // Trimming
  // ---------------------------------------------------------------------------

  function TrimStart(s: string, sp: char -> bool): (r: string)
    ensures |r| <= |s| && r == s[|s| - |r|..]
    ensures r == [] || !sp(r[0])
    ensures forall i :: 0 <= i < |s| - |r| ==> sp(s[i])
  {
    if s != [] && sp(s[0]) then TrimStart(s[1..], sp) else s
  }

  function TrimEnd(s: string, sp: char -> bool): (r: string)
    ensures |r| <= |s| && r == s[..|r|]
    ensures r == [] || !sp(r[|r| - 1])
    ensures forall i :: |r| <= i < |s| ==> sp(s[i])
  {
    if s != [] && sp(s[|s| - 1]) then TrimEnd(s[..|s| - 1], sp) else s
  }

  /** Removes leading and trailing white space of the given kind. */
  function Trim(s: string, sp: char -> bool): (r: string)
    ensures |r| <= |s|
    ensures r == [] || (!sp(r[0]) && !sp(r[|r| - 1]))
  {
    TrimEnd(TrimStart(s, sp), sp)
  }

  /** A string with no white space at either end is its own trim. */
  lemma TrimPlain(s: string, sp: char -> bool)
    requires s != [] && !sp(s[0]) && !sp(s[|s| - 1])
    ensures Trim(s, sp) == s
  {
    assert TrimStart(s, sp) == s;
  }

  /** One trailing white-space character is trimmed off a string that is otherwise plain. */
  lemma TrimTrailing(s: string, c: char, sp: char -> bool)
    requires s != [] && !sp(s[0]) && !sp(s[|s| - 1]) && sp(c)
    ensures Trim(s + [c], sp) == s
  {
    var t := s + [c];
    assert TrimStart(t, sp) == t;
    assert t[..|t| - 1] == s;
    assert TrimEnd(t, sp) == TrimEnd(s, sp);
    assert TrimEnd(s, sp) == s;
  }

  /** `s.trim()` in JavaScript. */
  function JsTrim(s: string): string
  {
    Trim(s, JsSpace)
  }

  /** Trimming keeps only characters of the original. */
  lemma TrimChars(s: string)
    ensures forall x :: x in JsTrim(s) ==> x in s
  {
    var a := TrimSlice(s);
    forall x | x in JsTrim(s)
      ensures x in s
    {
      var k :| 0 <= k < |JsTrim(s)| && JsTrim(s)[k] == x;
      assert s[a + k] == x;
    }
  }

  /** The trimmed string is a slice of the original, starting at `a`. */
  lemma TrimSlice(s: string) returns (a: nat)
    ensures a + |JsTrim(s)| <= |s| && JsTrim(s) == s[a..a + |JsTrim(s)|]
  {
    var t := TrimStart(s, JsSpace);
    var u := TrimEnd(t, JsSpace);
    a := |s| - |t|;
    assert u == s[a..a + |u|];
  }

  /** `s.strip()` in Python. */
  function PyStrip(s: string): string
  {
    Trim(s, PySpace)
  }

  lemma TrimStartLower(s: string, sp: char -> bool)
    requires sp == JsSpace || sp == PySpace
    ensures Lower(TrimStart(s, sp)) == TrimStart(Lower(s), sp)
  {
    if s != [] {
      var t := Lower(s);
      LowerCharKeepsSpace(s[0], sp);
      assert t[0] == LowerChar(s[0]);
      if sp(s[0]) {
        assert t[1..] == Lower(s[1..]);
        TrimStartLower(s[1..], sp);
        assert TrimStart(t, sp) == TrimStart(t[1..], sp);
      } else {
        assert TrimStart(t, sp) == t;
      }
    }
  }

  lemma TrimEndLower(s: string, sp: char -> bool)
    requires sp == JsSpace || sp == PySpace
    ensures Lower(TrimEnd(s, sp)) == TrimEnd(Lower(s), sp)
  {
    if s != [] {
      var t := Lower(s);
      LowerCharKeepsSpace(s[|s| - 1], sp);
      assert t[|t| - 1] == LowerChar(s[|s| - 1]);
      if sp(s[|s| - 1]) {
        assert t[..|t| - 1] == Lower(s[..|s| - 1]);
        TrimEndLower(s[..|s| - 1], sp);
        assert TrimEnd(t, sp) == TrimEnd(t[..|t| - 1], sp);
      } else {
        assert TrimEnd(t, sp) == t;
      }
    }
  }

  /** Trimming and lower-casing commute, so `trim().toLowerCase()` and `toLowerCase().trim()` agree. */
  lemma TrimLowerCommute(s: string, sp: char -> bool)
    requires sp == JsSpace || sp == PySpace
    ensures Lower(Trim(s, sp)) == Trim(Lower(s), sp)
  {
    TrimStartLower(s, sp);
    TrimEndLower(TrimStart(s, sp), sp);
  }

  // ---------------------------------------------------------------------------
  // Substrings, splitting and joining
  // ---------------------------------------------------------------------------

  predicate IsPrefix(p: string, s: string)
  {
    |p| <= |s| && s[..|p|] == p
  }

  /** `s.includes(t)` / `t in s`. */
  predicate Contains(s: string, t: string)
  {
    exists i :: 0 <= i <= |s| - |t| && OccursAt(s, t, i)
  }

  predicate OccursAt(s: string, t: string, i: int)
  {
    0 <= i <= |s| - |t| && s[i..i + |t|] == t
  }

  /** The text before the first occurrence of `d`, that is `s.split(d)[0]`. */
  function BeforeFirst(s: string, d: char): (r: string)
    ensures IsPrefix(r, s)
    ensures d !in r
    ensures |r| < |s| ==> s[|r|] == d
  {
    if s == [] then []
    else if s[0] == d then []
    else [s[0]] + BeforeFirst(s[1..], d)
  }

  /** `parts.join(sep)` / `sep.join(parts)`. */
  function Join(parts: seq<string>, sep: string): string
  {
    if |parts| == 0 then ""
    else if |parts| == 1 then parts[0]
    else parts[0] + sep + Join(parts[1..], sep)
  }

  /** `s.split(d)` for a one-character separator (JavaScript and Python agree on it). */
  function Split(s: string, d: char): (r: seq<string>)
    ensures |r| >= 1
    ensures forall i :: 0 <= i < |r| ==> d !in r[i]
  {
    if s == [] then [""]
    else
      var rest := Split(s[1..], d);
      if s[0] == d then [""] + rest
      else [[s[0]] + rest[0]] + rest[1..]
  }

  /** Splitting then joining with the same separator gives the string back. */
  lemma {:induction false} JoinSplit(s: string, d: char)
    ensures Join(Split(s, d), [d]) == s
  {
    if s != [] {
      var rest := Split(s[1..], d);
      JoinSplit(s[1..], d);
      if s[0] == d {
        assert Split(s, d) == [""] + rest;
        calc {
          Join([""] + rest, [d]);
          "" + [d] + Join(rest, [d]);
          [d] + s[1..];
        }
      } else {
        var r := [[s[0]] + rest[0]] + rest[1..];
        assert Split(s, d) == r;
        if |rest| == 1 {
          assert Join(rest, [d]) == rest[0];
        } else {
          assert rest == [rest[0]] + rest[1..];
          assert Join(rest, [d]) == rest[0] + [d] + Join(rest[1..], [d]);
          assert r[1..] == rest[1..];
        }
        assert Join(r, [d]) == [s[0]] + Join(rest, [d]);
      }
    }
  }

  /** Splitting a joined list of separator-free parts gives the parts back. */
  lemma {:induction false} SplitJoin(parts: seq<string>, d: char)
    requires |parts| >= 1
    requires forall i :: 0 <= i < |parts| ==> d !in parts[i]
    ensures Split(Join(parts, [d]), d) == parts
  {
    if |parts| == 1 {
      SplitNoSep(parts[0], d);
    } else {
      SplitJoin(parts[1..], d);
      SplitAppend(parts[0], Join(parts[1..], [d]), d);
      assert Join(parts, [d]) == parts[0] + ([d] + Join(parts[1..], [d]));
    }
  }

  lemma {:induction false} SplitNoSep(s: string, d: char)
    requires d !in s
    ensures Split(s, d) == [s]
  {
    if s != [] {
      SplitNoSep(s[1..], d);
      assert [s[0]] + s[1..] == s;
    }
  }

  lemma {:induction false} SplitAppend(a: string, b: string, d: char)
    requires d !in a
    ensures Split(a + [d] + b, d) == [a] + Split(b, d)
  {
    if a == [] {
      assert a + [d] + b == [d] + b;
      assert ([d] + b)[1..] == b;
    } else {
      assert (a + [d] + b)[1..] == a[1..] + [d] + b;
      SplitAppend(a[1..], b, d);
      assert [a[0]] + a[1..] == a;
    }
  }

  // ---------------------------------------------------------------------------
  // Sequence helpers
  // ---------------------------------------------------------------------------

  /** `s.filter(y => y !== x)`. */
  function RemoveAll<T(==,!new)>(s: seq<T>, x: T): (r: seq<T>)
    ensures x !in r
    ensures forall y :: y in r <==> y in s && y != x
    ensures |r| <= |s|
  {
    if s == [] then []
    else if s[0] == x then RemoveAll(s[1..], x)
    else [s[0]] + RemoveAll(s[1..], x)
  }

  lemma {:induction false} RemoveAllAbsent<T(!new)>(s: seq<T>, x: T)
    requires x !in s
    ensures RemoveAll(s, x) == s
  {
    if s != [] {
      RemoveAllAbsent(s[1..], x);
      assert [s[0]] + s[1..] == s;
    }
  }

  predicate NoDuplicates<T(==)>(s: seq<T>)
  {
    forall i, j :: 0 <= i < j < |s| ==> s[i] != s[j]
  }

  /** `[...new Set(s)]`: the distinct elements in order of first occurrence. */
  function Dedup<T(==,!new)>(s: seq<T>): (r: seq<T>)
  {
    DedupAfter(s, [])
  }

  /** The elements of `s` not in `seen`, each kept at its first occurrence. */
  function DedupAfter<T(==,!new)>(s: seq<T>, seen: seq<T>): (r: seq<T>)
    ensures forall y :: y in r ==> y in s && y !in seen
    ensures forall y :: y in s && y !in seen ==> y in r
    ensures NoDuplicates(r)
  {
    if s == [] then []
    else if s[0] in seen then DedupAfter(s[1..], seen)
    else
      var t := DedupAfter(s[1..], seen + [s[0]]);
      assert s[0] !in t;
      [s[0]] + t
  }

  /** The index of the first occurrence of `x` in `s`. */
  function FirstIndex<T(==)>(s: seq<T>, x: T): (i: nat)
    requires x in s
    ensures i < |s| && s[i] == x && x !in s[..i]
  {
    if s[0] == x then 0 else 1 + FirstIndex(s[1..], x)
  }

  /** Past the head, the first occurrence is one further than in the tail. */
  lemma FirstIndexTail<T>(s: seq<T>, x: T)
    requires x in s && x != s[0]
    ensures x in s[1..] && FirstIndex(s, x) == 1 + FirstIndex(s[1..], x)
  {
    assert s == [s[0]] + s[1..];
  }

  /** A seen head is dropped, and no kept element equals it. */
  lemma DedupAfterSeenHead<T(!new)>(s: seq<T>, seen: seq<T>, j: nat)
    requires s != [] && s[0] in seen && j < |DedupAfter(s, seen)|
    ensures DedupAfter(s, seen)[j] == DedupAfter(s[1..], seen)[j] != s[0]
  {
    var t := DedupAfter(s[1..], seen);
    assert DedupAfter(s, seen) == t;
    assert t[j] in t;
  }

  /** An unseen head is kept in front, and no later kept element equals it. */
  lemma DedupAfterKeptHead<T(!new)>(s: seq<T>, seen: seq<T>, j: nat)
    requires s != [] && s[0] !in seen && 0 < j < |DedupAfter(s, seen)|
    ensures DedupAfter(s, seen)[0] == s[0]
    ensures DedupAfter(s, seen)[j] == DedupAfter(s[1..], seen + [s[0]])[j - 1] != s[0]
  {
    var t := DedupAfter(s[1..], seen + [s[0]]);
    assert DedupAfter(s, seen) == [s[0]] + t;
    assert t[j - 1] in t;
  }

  /** The kept elements appear in the order of their first occurrences. */
  lemma {:induction false} DedupAfterOrder<T(!new)>(s: seq<T>, seen: seq<T>, i: nat, j: nat)
    requires i < j < |DedupAfter(s, seen)|
    ensures FirstIndex(s, DedupAfter(s, seen)[i]) < FirstIndex(s, DedupAfter(s, seen)[j])
  {
    var r := DedupAfter(s, seen);
    if s[0] in seen {
      DedupAfterSeenHead(s, seen, i);
      DedupAfterSeenHead(s, seen, j);
      FirstIndexTail(s, r[i]);
      FirstIndexTail(s, r[j]);
      DedupAfterOrder(s[1..], seen, i, j);
    } else {
      DedupAfterKeptHead(s, seen, j);
      FirstIndexTail(s, r[j]);
      if i > 0 {
        DedupAfterKeptHead(s, seen, i);
        FirstIndexTail(s, r[i]);
        DedupAfterOrder(s[1..], seen + [s[0]], i - 1, j - 1);
      }
    }
  }

  lemma DedupProperties<T(!new)>(s: seq<T>)
    ensures NoDuplicates(Dedup(s))
    ensures forall y :: y in Dedup(s) <==> y in s
  {
  }

  // ---------------------------------------------------------------------------
  // Stable descending sort by a real-valued key
  // ---------------------------------------------------------------------------

  predicate SortedDesc<T>(s: seq<T>, key: T -> real)
  {
    forall i, j :: 0 <= i < j < |s| ==> key(s[i]) >= key(s[j])
  }

  /** Inserts `x` after every element whose key is at least `key(x)`. */
  function InsertDesc<T(==,!new)>(x: T, s: seq<T>, key: T -> real): (r: seq<T>)
    ensures multiset(r) == multiset(s) + multiset{x}
    ensures |r| == |s| + 1
    ensures forall y :: y in r ==> y == x || y in s
  {
    if s == [] then [x]
    else if key(s[0]) >= key(x) then
      assert s == [s[0]] + s[1..];
      [s[0]] + InsertDesc(x, s[1..], key)
    else [x] + s
  }

  lemma {:induction false} InsertDescSorted<T(!new)>(x: T, s: seq<T>, key: T -> real)
    requires SortedDesc(s, key)
    ensures SortedDesc(InsertDesc(x, s, key), key)
  {
    if s != [] && key(s[0]) >= key(x) {
      var t := InsertDesc(x, s[1..], key);
      assert SortedDesc(s[1..], key) by {
        forall i, j | 0 <= i < j < |s[1..]|
          ensures key(s[1..][i]) >= key(s[1..][j])
        {
          assert s[1..][i] == s[i + 1] && s[1..][j] == s[j + 1];
        }
      }
      InsertDescSorted(x, s[1..], key);
      HeadBoundsInsert(x, s, key);
      SortedCons(s[0], t, key);
    } else if s != [] {
      HeadBounds(s, key);
      SortedCons(x, s, key);
    }
  }

  lemma HeadBounds<T>(s: seq<T>, key: T -> real)
    requires s != [] && SortedDesc(s, key)
    ensures forall y :: y in s ==> key(s[0]) >= key(y)
  {
    forall y | y in s
      ensures key(s[0]) >= key(y)
    {
      var k :| 0 <= k < |s| && s[k] == y;
    }
  }

  lemma HeadBoundsInsert<T(!new)>(x: T, s: seq<T>, key: T -> real)
    requires s != [] && SortedDesc(s, key) && key(s[0]) >= key(x)
    ensures forall y :: y in InsertDesc(x, s[1..], key) ==> key(s[0]) >= key(y)
  {
    HeadBounds(s, key);
    forall y | y in InsertDesc(x, s[1..], key)
      ensures key(s[0]) >= key(y)
    {
      if y != x {
        assert y in s[1..];
        var k :| 0 <= k < |s[1..]| && s[1..][k] == y;
        assert s[k + 1] == y;
      }
    }
  }

  lemma SortedCons<T>(h: T, t: seq<T>, key: T -> real)
    requires SortedDesc(t, key)
    requires forall y :: y in t ==> key(h) >= key(y)
    ensures SortedDesc([h] + t, key)
  {
    var r := [h] + t;
    forall i, j | 0 <= i < j < |r|
      ensures key(r[i]) >= key(r[j])
    {
      if i == 0 {
        assert r[j] == t[j - 1];
        assert r[j] in t;
      } else {
        assert r[i] == t[i - 1] && r[j] == t[j - 1];
      }
    }
  }

  /**
   * Sorts by descending key; equal keys keep their input order (the order
   * of `Array.prototype.sort`, which is stable).
   */
  function SortDesc<T(==,!new)>(s: seq<T>, key: T -> real): (r: seq<T>)
    ensures multiset(r) == multiset(s)
    ensures |r| == |s|
  {
    if s == [] then []
    else
      assert s == s[..|s| - 1] + [s[|s| - 1]];
      InsertDesc(s[|s| - 1], SortDesc(s[..|s| - 1], key), key)
  }

  lemma {:induction false} SortDescSorted<T(!new)>(s: seq<T>, key: T -> real)
    ensures SortedDesc(SortDesc(s, key), key)
  {
    if s != [] {
      SortDescSorted(s[..|s| - 1], key);
      InsertDescSorted(s[|s| - 1], SortDesc(s[..|s| - 1], key), key);
    }
  }

  /** The elements of `xs` that `keep` accepts, in order (`filter`). */
  function Where<T(==,!new)>(xs: seq<T>, keep: T -> bool): (r: seq<T>)
    ensures |r| <= |xs|
    ensures forall x :: x in r <==> x in xs && keep(x)
  {
    if xs == [] then []
    else
      assert forall x :: x in xs <==> x == xs[0] || x in xs[1..];
      (if keep(xs[0]) then [xs[0]] else []) + Where(xs[1..], keep)
  }

  /** Filtering keeps a descending order. */
  lemma {:induction false} WhereSorted<T(!new)>(xs: seq<T>, keep: T -> bool, key: T -> real)
    requires SortedDesc(xs, key)
    ensures SortedDesc(Where(xs, keep), key)
  {
    if xs != [] {
      assert SortedDesc(xs[1..], key) by {
        forall i, j | 0 <= i < j < |xs[1..]|
          ensures key(xs[1..][i]) >= key(xs[1..][j])
        {
          assert xs[1..][i] == xs[i + 1] && xs[1..][j] == xs[j + 1];
        }
      }
      WhereSorted(xs[1..], keep, key);
      if keep(xs[0]) {
        HeadBounds(xs, key);
        SortedCons(xs[0], Where(xs[1..], keep), key);
      }
    }
  }

  /** The first `n` elements, or all of them when there are fewer (`head(n)`, `slice(0, n)`). */
  function Take<T(==)>(s: seq<T>, n: nat): (r: seq<T>)
    ensures |r| == if |s| < n then |s| else n
    ensures IsPrefixOf(r, s)
  {
    if |s| <= n then s else s[..n]
  }

  predicate IsPrefixOf<T(==)>(p: seq<T>, s: seq<T>)
  {
    |p| <= |s| && s[..|p|] == p
  }

  /** The concatenation of a sequence of sequences (`flat()`). */
  function Flatten<T>(ss: seq<seq<T>>): seq<T>
  {
    if ss == [] then [] else ss[0] + Flatten(ss[1..])
  }

  /** The first position from `i` on where `hit` holds, or `n` when none before `n` does. */
  function FirstFrom(hit: nat -> bool, i: nat, n: nat): (r: nat)
    requires i <= n
    ensures i <= r <= n && (r < n ==> hit(r))
    decreases n - i
  {
    if hit(i) then i else if i == n then n else FirstFrom(hit, i + 1, n)
  }

  /** No position before the first one holds. */
  lemma {:induction false} FirstFromLeast(hit: nat -> bool, i: nat, n: nat, p: nat)
    requires i <= n && i <= p < FirstFrom(hit, i, n)
    ensures !hit(p)
    decreases p - i
  {
    if p > i {
      assert FirstFrom(hit, i, n) == FirstFrom(hit, i + 1, n);
      FirstFromLeast(hit, i + 1, n, p);
    }
  }

  lemma ConcatAssoc<T>(a: seq<T>, b: seq<T>, c: seq<T>)
    ensures a + (b + c) == (a + b) + c
  {
  }

  /** Splitting off the head of a non-empty prefix. */
  lemma ConsConcat<T>(x: seq<T>, y: seq<T>)
    requires x != []
    ensures (x + y)[0] == x[0] && (x + y)[1..] == x[1..] + y
    ensures x + y == [x[0]] + (x[1..] + y)
  {
    assert x == [x[0]] + x[1..];
  }

  lemma {:induction false} FlattenAppend<T>(ss: seq<seq<T>>, last: seq<T>)
    ensures Flatten(ss + [last]) == Flatten(ss) + last
  {
    if ss == [] {
      assert [] + [last] == [last];
    } else {
      assert (ss + [last])[1..] == ss[1..] + [last];
      FlattenAppend(ss[1..], last);
    }
  }

  // ---------------------------------------------------------------------------
  // JavaScript string properties
  // ---------------------------------------------------------------------------

  /** A string property is truthy when present and non-empty. */
  predicate Truthy(v: Option<string>)
  {
    v.Some? && v.value != ""
  }

  /** `a || b` on string properties. */
  function OrElse(a: Option<string>, b: Option<string>): Option<string>
  {
    if Truthy(a) then a else b
  }

  /** How a template literal renders a string property. */
  function TemplateText(v: Option<string>): string
  {
    if v.Some? then v.value else "undefined"
  }

  /** Decimal digits of a natural number, as template literals render it. */
  function NatToString(n: nat): (r: string)
    ensures |r| >= 1
    ensures forall i :: 0 <= i < |r| ==> '0' <= r[i] <= '9'
  {
    if n < 10 then [DigitChar(n)] else NatToString(n / 10) + [DigitChar(n % 10)]
  }

  function DigitChar(d: nat): (c: char)
    requires d < 10
    ensures '0' <= c <= '9'
  {
    ('0' as int + d) as char
  }

  /** `String(i)` of an integer. */
  function IntToString(i: int): (r: string)
    ensures |r| >= 1
  {
    if i < 0 then "-" + NatToString(-i) else NatToString(i)
  }
}

=== FILE: db_utils.dfy ===
/**
 * The MongoDB helpers of the Express back end: the match filters built from
 * a record's ids, the update documents of the bulk upserts (which fields go
 * to `$set` and which only to `$setOnInsert`), the cache and recommendation
 * upserts, and the batch lookup of stored tracks. The database itself, the
 * clock and UUID generation are parameters.
 */
module DbUtils {
  import opened Common

  // ---------------------------------------------------------------------------
  // JavaScript values
  // ---------------------------------------------------------------------------

  /**
   * A JavaScript property value. `Obj` stands for an object or array,
   * carrying the string it converts to (`""` for an empty array).
   */
  datatype JsValue = Undefined | Null | Bool(b: bool) | Num(n: real) | Str(s: string) | Obj(text: string)

  /** `v == null`. */
  predicate IsNullish(v: JsValue)
  {
    v == Undefined || v == Null
  }

  /** `v == ""` with loose equality: the string is converted to the number 0 against numbers and booleans. */
  predicate LooselyEmpty(v: JsValue)
  {
    match v
    case Str(s) => s == ""
    case Num(n) => n == 0.0
    case Bool(b) => !b
    case Obj(text) => text == ""
    case _ => false
  }

  predicate JsTruthy(v: JsValue)
  {
    match v
    case Undefined => false
    case Null => false
    case Bool(b) => b
    case Num(n) => n != 0.0
    case Str(s) => s != ""
    case Obj(_) => true
  }

  /** A property that `bulkUpdateTrackDetails` writes to `$set`: neither `== null` nor `== ""`. */
  predicate Kept(v: JsValue)
  {
    !IsNullish(v) && !LooselyEmpty(v)
  }

  /** The values kept are the truthy ones, except an empty array, which is truthy but `== ""`. */
  lemma KeptIsTruthyButEmptyArray(v: JsValue)
    ensures Kept(v) <==> JsTruthy(v) && v != Obj("")
  {
  }

  /** `obj[key]`: a missing property reads as `undefined`. */
  function Get(obj: map<string, JsValue>, key: string): JsValue
  {
    if key in obj then obj[key] else Undefined
  }

  // ---------------------------------------------------------------------------
  // buildSafeMatchFilter and buildSafeMatchFilterArtist
  // ---------------------------------------------------------------------------

  datatype Condition = Condition(field: string, value: string)

  /** A match filter: a fresh `_id` no document has, one condition, or `$or` of several. */
  datatype Filter = FreshId(objectId: string) | Single(condition: Condition) | AnyOf(conditions: seq<Condition>)

  /** `id && id.trim() !== ""`. */
  predicate Usable(id: Option<string>)
  {
    id.Some? && id.value != "" && JsTrim(id.value) != ""
  }

  /** The condition pushed for one `(field, id)` pair: one when the id is usable, none otherwise. */
  function Pushed(id: (string, Option<string>)): (cs: seq<Condition>)
  {
    if Usable(id.1) then [Condition(id.0, id.1.value)] else []
  }

  /** The conditions pushed for the usable ids, in the order the ids are listed. */
  function UsableConditions(ids: seq<(string, Option<string>)>): (cs: seq<Condition>)
    ensures |cs| <= |ids|
  {
    if ids == [] then [] else UsableConditions(ids[..|ids| - 1]) + Pushed(ids[|ids| - 1])
  }

  lemma UsableConditionsSnoc(ids: seq<(string, Option<string>)>, id: (string, Option<string>))
    ensures UsableConditions(ids + [id]) == UsableConditions(ids) + Pushed(id)
  {
    assert (ids + [id])[..|ids|] == ids;
  }

  /** The filter returned for the conditions collected. */
  function FilterOf(conditions: seq<Condition>, freshId: string): Filter
  {
    if |conditions| == 0 then FreshId(freshId)
    else if |conditions| == 1 then Single(conditions[0])
    else AnyOf(conditions)
  }

  /** The track filter: `spotify_id`, then `last_fm_id`, then `song_id`. `freshId` is the new ObjectId. */
  method BuildSafeMatchFilter(spotifyId: Option<string>, lastFmId: Option<string>, songId: Option<string>, freshId: string)
    returns (filter: Filter)
    ensures filter == FilterOf(UsableConditions([("spotify_id", spotifyId), ("last_fm_id", lastFmId), ("song_id", songId)]), freshId)
  {
    var conditions: seq<Condition> := [];
    ghost var ids: seq<(string, Option<string>)> := [];
    conditions := PushIfUsable(conditions, "spotify_id", spotifyId);
    UsableConditionsSnoc(ids, ("spotify_id", spotifyId));
    ids := ids + [("spotify_id", spotifyId)];
    conditions := PushIfUsable(conditions, "last_fm_id", lastFmId);
    UsableConditionsSnoc(ids, ("last_fm_id", lastFmId));
    ids := ids + [("last_fm_id", lastFmId)];
    conditions := PushIfUsable(conditions, "song_id", songId);
    UsableConditionsSnoc(ids, ("song_id", songId));
    ids := ids + [("song_id", songId)];
    assert ids == [("spotify_id", spotifyId), ("last_fm_id", lastFmId), ("song_id", songId)];
    filter := FilterFor(conditions, freshId);
  }

  /** The artist filter: `artist_spotify_id`, then `artist_last_fm_id`. */
  method BuildSafeMatchFilterArtist(spotifyId: Option<string>, lastFmId: Option<string>, freshId: string)
    returns (filter: Filter)
    ensures filter == FilterOf(UsableConditions([("artist_spotify_id", spotifyId), ("artist_last_fm_id", lastFmId)]), freshId)
  {
    var conditions: seq<Condition> := [];
    ghost var ids: seq<(string, Option<string>)> := [];
    conditions := PushIfUsable(conditions, "artist_spotify_id", spotifyId);
    UsableConditionsSnoc(ids, ("artist_spotify_id", spotifyId));
    ids := ids + [("artist_spotify_id", spotifyId)];
    conditions := PushIfUsable(conditions, "artist_last_fm_id", lastFmId);
    UsableConditionsSnoc(ids, ("artist_last_fm_id", lastFmId));
    ids := ids + [("artist_last_fm_id", lastFmId)];
    assert ids == [("artist_spotify_id", spotifyId), ("artist_last_fm_id", lastFmId)];
    filter := FilterFor(conditions, freshId);
  }

  /** `if (id && id.trim() !== "") conditions.push({field: id})`. */
  method PushIfUsable(conditions: seq<Condition>, field: string, id: Option<string>) returns (r: seq<Condition>)
    ensures r == conditions + Pushed((field, id))
  {
    r := conditions;
    if id.Some? && id.value != "" && JsTrim(id.value) != "" {
      r := r + [Condition(field, id.value)];
    }
  }

  /** The tail both builders share: no condition, one, or `$or` of all. */
  method FilterFor(conditions: seq<Condition>, freshId: string) returns (filter: Filter)
    ensures filter == FilterOf(conditions, freshId)
  {
    if |conditions| == 0 {
      filter := FreshId(freshId);
    } else if |conditions| == 1 {
      filter := Single(conditions[0]);
    } else {
      filter := AnyOf(conditions);
    }
  }

  /** A condition is collected for exactly the usable ids, carrying the id as given (untrimmed). */
  lemma UsableConditionsSpec(ids: seq<(string, Option<string>)>)
    ensures forall c :: c in UsableConditions(ids) <==>
      exists i :: 0 <= i < |ids| && Usable(ids[i].1) && c == Condition(ids[i].0, ids[i].1.value)
  {
    forall c
      ensures c in UsableConditions(ids) <==>
        exists i :: 0 <= i < |ids| && Usable(ids[i].1) && c == Condition(ids[i].0, ids[i].1.value)
    {
      if c in UsableConditions(ids) {
        UsableConditionsFrom(ids, c);
      }
      if exists i :: 0 <= i < |ids| && Usable(ids[i].1) && c == Condition(ids[i].0, ids[i].1.value) {
        var i :| 0 <= i < |ids| && Usable(ids[i].1) && c == Condition(ids[i].0, ids[i].1.value);
        UsableConditionsHas(ids, i);
      }
    }
  }

  lemma {:induction false} UsableConditionsHas(ids: seq<(string, Option<string>)>, i: nat)
    requires i < |ids| && Usable(ids[i].1)
    ensures Condition(ids[i].0, ids[i].1.value) in UsableConditions(ids)
  {
    var init := ids[..|ids| - 1];
    if i < |ids| - 1 {
      assert init[i] == ids[i];
      UsableConditionsHas(init, i);
    }
  }

  lemma {:induction false} UsableConditionsFrom(ids: seq<(string, Option<string>)>, c: Condition)
    requires c in UsableConditions(ids)
    ensures exists i :: 0 <= i < |ids| && Usable(ids[i].1) && c == Condition(ids[i].0, ids[i].1.value)
  {
    assert ids != [];
    var init, last := ids[..|ids| - 1], |ids| - 1;
    assert UsableConditions(ids) == UsableConditions(init) + Pushed(ids[last]);
    if c in UsableConditions(init) {
      UsableConditionsFrom(init, c);
      var i :| 0 <= i < |init| && Usable(init[i].1) && c == Condition(init[i].0, init[i].1.value);
      assert ids[i] == init[i];
    } else {
      assert c in Pushed(ids[last]);
      assert Usable(ids[last].1) && c == Condition(ids[last].0, ids[last].1.value);
    }
  }

  /** No condition is collected exactly when no id is usable. */
  lemma {:induction false} NoUsableConditions(ids: seq<(string, Option<string>)>)
    ensures UsableConditions(ids) == [] <==> forall i :: 0 <= i < |ids| ==> !Usable(ids[i].1)
  {
    if ids != [] {
      var init := ids[..|ids| - 1];
      NoUsableConditions(init);
      assert forall i :: 0 <= i < |init| ==> init[i] == ids[i];
    }
  }

  /**
   * The filter is a fresh `_id` (so the upsert inserts) exactly when no id
   * is usable, the one condition when one is, and `$or` of all of them
   * otherwise.
   */
  lemma FilterOfSpec(conditions: seq<Condition>, freshId: string)
    ensures FilterOf(conditions, freshId).FreshId? <==> conditions == []
    ensures FilterOf(conditions, freshId).Single? <==> |conditions| == 1
    ensures FilterOf(conditions, freshId).Single? ==> FilterOf(conditions, freshId).condition == conditions[0]
    ensures FilterOf(conditions, freshId).AnyOf? ==> FilterOf(conditions, freshId).conditions == conditions && |conditions| >= 2
  {
  }

  /** A blank id (white space only) is not usable: with only blank ids the filter falls back to the fresh `_id`. */
  lemma BlankIdUnusable(s: string)
    requires forall k :: 0 <= k < |s| ==> JsSpace(s[k])
    ensures !Usable(Some(s))
  {
  }

  // ---------------------------------------------------------------------------
  // bulkUpdateTrackDetails
  // ---------------------------------------------------------------------------

  /** An update document: `$set` and `$setOnInsert`. */
  datatype UpdateOps = UpdateOps(toSet: map<string, JsValue>, setOnInsert: map<string, JsValue>)

  /** The properties other than `id` whose value is kept: these move to `$set`. */
  function KeptPart(track: map<string, JsValue>): map<string, JsValue>
  {
    map f | f in track && f != "id" && Kept(track[f]) :: track[f]
  }

  /** The properties that stay only in `$setOnInsert`: `id` and the values `== null` or `== ""`. */
  function InsertOnlyPart(track: map<string, JsValue>): map<string, JsValue>
  {
    map f | f in track && (f == "id" || !Kept(track[f])) :: track[f]
  }

  /** The update document for one track, both timestamps read as `now`. */
  function TrackUpdate(track: map<string, JsValue>, now: real): UpdateOps
  {
    UpdateOps(KeptPart(track)["updatedAt" := Num(now)], InsertOnlyPart(track)["createdAt" := Num(now)])
  }

  /**
   * Builds the update document of one track: `$setOnInsert` starts as a
   * copy of the track, and each property other than `id` whose value is
   * kept moves to `$set`. The properties are visited in any order.
   */
  method TrackUpdateOps(track: map<string, JsValue>, now: real) returns (ops: UpdateOps)
    ensures ops == TrackUpdate(track, now)
  {
    var toSet: map<string, JsValue> := map[];
    var setOnInsert := track;
    var remaining := track.Keys;
    while remaining != {}
      invariant remaining <= track.Keys
      invariant toSet == map f | f in track && f !in remaining && f != "id" && Kept(track[f]) :: track[f]
      invariant setOnInsert == map f | f in track && (f in remaining || f == "id" || !Kept(track[f])) :: track[f]
      decreases remaining
    {
      var field :| field in remaining;
      if field == "id" {
      } else if IsNullish(track[field]) || LooselyEmpty(track[field]) {
      } else {
        toSet := toSet[field := track[field]];
        setOnInsert := map f | f in setOnInsert && f != field :: setOnInsert[f];
      }
      remaining := remaining - {field};
    }
    assert toSet == KeptPart(track);
    assert setOnInsert == InsertOnlyPart(track);
    setOnInsert := setOnInsert["createdAt" := Num(now)];
    toSet := toSet["updatedAt" := Num(now)];
    ops := UpdateOps(toSet, setOnInsert);
  }

  /**
   * Every property other than the two timestamps ends up in exactly one of
   * the two documents with its value: in `$set` when it is not `id` and its
   * value is kept, in `$setOnInsert` otherwise.
   */
  lemma TrackUpdatePartitions(track: map<string, JsValue>, now: real)
    ensures var ops := TrackUpdate(track, now);
      forall f :: f in track && f != "createdAt" && f != "updatedAt" ==>
        && (f in ops.toSet <==> f != "id" && Kept(track[f]))
        && (f in ops.setOnInsert <==> !(f != "id" && Kept(track[f])))
        && (f in ops.toSet ==> ops.toSet[f] == track[f])
        && (f in ops.setOnInsert ==> ops.setOnInsert[f] == track[f])
    ensures var ops := TrackUpdate(track, now);
      ops.toSet["updatedAt"] == Num(now) && ops.setOnInsert["createdAt"] == Num(now)
    ensures var ops := TrackUpdate(track, now);
      ops.toSet.Keys + ops.setOnInsert.Keys == track.Keys + {"createdAt", "updatedAt"}
  {
  }

  /**
   * The two documents share a key only where the track carries a timestamp
   * itself: a kept `createdAt` (also written on insert) or an `updatedAt`
   * that is `== null` or `== ""` (also written to `$set`). Without those the
   * key sets are disjoint.
   */
  lemma TrackUpdateOverlap(track: map<string, JsValue>, now: real)
    ensures var ops := TrackUpdate(track, now);
      ops.toSet.Keys * ops.setOnInsert.Keys
        == (if "createdAt" in track && Kept(track["createdAt"]) then {"createdAt"} else {})
         + (if "updatedAt" in track && !Kept(track["updatedAt"]) then {"updatedAt"} else {})
  {
    var ops := TrackUpdate(track, now);
    var both := ops.toSet.Keys * ops.setOnInsert.Keys;
    var expected := (if "createdAt" in track && Kept(track["createdAt"]) then {"createdAt"} else {})
      + (if "updatedAt" in track && !Kept(track["updatedAt"]) then {"updatedAt"} else {});
    forall f | f in both
      ensures f in expected
    {
      assert f in KeptPart(track) || f == "updatedAt";
    }
    assert both == expected;
  }

  /** A popularity of 0 is `== ""`: it never overwrites a stored popularity and is written only on insert. */
  lemma ZeroPopularityOnlyOnInsert(track: map<string, JsValue>, now: real)
    requires "popularity" in track && track["popularity"] == Num(0.0)
    ensures "popularity" !in TrackUpdate(track, now).toSet
    ensures TrackUpdate(track, now).setOnInsert["popularity"] == Num(0.0)
  {
  }

  predicate TitleOk(track: map<string, JsValue>)
  {
    JsTruthy(Get(track, "title"))
  }

  /** One `findOneAndUpdate` call: filter `{song_id}` and the update document. */
  datatype TrackUpsert = TrackUpsert(songId: JsValue, ops: UpdateOps)

  /**
   * How a bulk update ends: the loop finishes, a track without a title makes
   * the function return `undefined`, or an awaited `findOneAndUpdate` throws
   * and the catch returns the documents gathered so far.
   */
  datatype BulkEnd = Finished | MissingTitle | Threw

  /**
   * `bulkUpdateTrackDetails(trackData)`: returns the upserts that succeeded,
   * in order, and how the loop ended. `fails(i)` says whether the call for
   * the i-th track throws (a lost connection, or the server rejecting an
   * update whose `$set` and `$setOnInsert` share a path, as
   * `TrackUpdateOverlap` shows they can); a throwing call writes nothing and
   * skips the rest of the batch.
   */
  method BulkUpdateTrackDetails(trackData: seq<map<string, JsValue>>, now: real, fails: nat -> bool)
    returns (upserts: seq<TrackUpsert>, end: BulkEnd)
    ensures |upserts| <= |trackData|
    ensures forall i :: 0 <= i < |upserts| ==>
      TitleOk(trackData[i]) && !fails(i) && upserts[i] == TrackUpsert(Get(trackData[i], "song_id"), TrackUpdate(trackData[i], now))
    ensures end.Finished? <==> |upserts| == |trackData|
    ensures end.Finished? <==> forall i :: 0 <= i < |trackData| ==> TitleOk(trackData[i]) && !fails(i)
    ensures end.MissingTitle? ==> |upserts| < |trackData| && !TitleOk(trackData[|upserts|])
    ensures end.Threw? ==> |upserts| < |trackData| && TitleOk(trackData[|upserts|]) && fails(|upserts|)
  {
    upserts := [];
    var i := 0;
    while i < |trackData|
      invariant 0 <= i <= |trackData| && |upserts| == i
      invariant forall k :: 0 <= k < i ==>
        TitleOk(trackData[k]) && !fails(k) && upserts[k] == TrackUpsert(Get(trackData[k], "song_id"), TrackUpdate(trackData[k], now))
    {
      var track := trackData[i];
      if !JsTruthy(Get(track, "title")) {
        end := MissingTitle;
        return;
      }
      var ops := TrackUpdateOps(track, now);
      if fails(i) {
        end := Threw;
        return;
      }
      upserts := upserts + [TrackUpsert(Get(track, "song_id"), ops)];
      i := i + 1;
    }
    end := Finished;
  }

  // ---------------------------------------------------------------------------
  // bulkUpdateArtistDetails and storeFavArtists
  // ---------------------------------------------------------------------------

  /**
   * The update document both artist upserts build: `$setOnInsert` is a copy
   * of the record with a fresh `id`; a truthy `artist_spotify_id` moves to
   * `$set`, so it also updates a stored artist.
   */
  function SpotifyIdUpdate(detail: map<string, JsValue>, uuid: string): (u: UpdateOps)
    ensures "id" in u.setOnInsert && u.setOnInsert["id"] == Str(uuid)
    ensures "artist_spotify_id" in u.toSet <==> JsTruthy(Get(detail, "artist_spotify_id"))
    ensures "artist_spotify_id" in u.toSet ==> u.toSet["artist_spotify_id"] == detail["artist_spotify_id"]
    ensures u.toSet.Keys <= {"artist_spotify_id"}
    ensures u.toSet.Keys * u.setOnInsert.Keys == {}
    ensures forall f :: f in detail && f != "id" && f != "artist_spotify_id" ==> f in u.setOnInsert && u.setOnInsert[f] == detail[f]
    ensures forall f :: f in u.setOnInsert ==> f in detail || f == "id"
  {
    var insert := detail["id" := Str(uuid)];
    var sid := Get(detail, "artist_spotify_id");
    if JsTruthy(sid) then UpdateOps(map["artist_spotify_id" := sid], insert - {"artist_spotify_id"})
    else UpdateOps(map[], insert)
  }

  /** The filter of `bulkUpdateArtistDetails`: `$or` of the Spotify id (`spotify_id || artist_spotify_id`) and the name. */
  datatype ArtistUpsert = ArtistUpsert(spotifyId: JsValue, name: JsValue, ops: UpdateOps)

  function ArtistFilterId(detail: map<string, JsValue>): (sid: JsValue)
    ensures JsTruthy(Get(detail, "spotify_id")) ==> sid == detail["spotify_id"]
    ensures !JsTruthy(Get(detail, "spotify_id")) ==> sid == Get(detail, "artist_spotify_id")
  {
    var s := Get(detail, "spotify_id");
    if JsTruthy(s) then s else Get(detail, "artist_spotify_id")
  }

  /**
   * `bulkUpdateArtistDetails(artistDetail)`: the upserts that succeeded, one
   * per artist in order, and how the loop ended; `uuid(i)` is the UUID drawn
   * for the i-th artist and `fails(i)` whether its call throws, in which case
   * the catch returns the upserts so far.
   */
  method BulkUpdateArtistDetails(artistDetail: seq<map<string, JsValue>>, uuid: nat -> string, fails: nat -> bool)
    returns (upserts: seq<ArtistUpsert>, end: BulkEnd)
    ensures !end.MissingTitle?
    ensures |upserts| <= |artistDetail|
    ensures forall i :: 0 <= i < |upserts| ==>
      !fails(i) && upserts[i] == ArtistUpsert(ArtistFilterId(artistDetail[i]), Get(artistDetail[i], "name"), SpotifyIdUpdate(artistDetail[i], uuid(i)))
    ensures end.Finished? <==> |upserts| == |artistDetail|
    ensures end.Finished? <==> forall i :: 0 <= i < |artistDetail| ==> !fails(i)
    ensures end.Threw? ==> |upserts| < |artistDetail| && fails(|upserts|)
  {
    upserts := [];
    var i := 0;
    while i < |artistDetail|
      invariant 0 <= i <= |artistDetail| && |upserts| == i
      invariant forall k :: 0 <= k < i ==>
        !fails(k) && upserts[k] == ArtistUpsert(ArtistFilterId(artistDetail[k]), Get(artistDetail[k], "name"), SpotifyIdUpdate(artistDetail[k], uuid(k)))
    {
      var artist := artistDetail[i];
      var ops := SpotifyIdUpdate(artist, uuid(i));
      if fails(i) {
        end := Threw;
        return;
      }
      upserts := upserts + [ArtistUpsert(ArtistFilterId(artist), Get(artist, "name"), ops)];
      i := i + 1;
    }
    end := Finished;
  }

  /**
   * The filter of `storeFavArtists`: the user and device, the favourite
   * artist matched case-insensitively by the regular expression
   * `^<trimmed name>$`, and no Spotify id stored yet.
   */
  datatype FavUpsert = FavUpsert(userId: JsValue, deviceId: JsValue, pattern: string, ops: UpdateOps)

  /** A favourite-artist record and its `fav_artist`, when that is a string. */
  datatype FavRecord = FavRecord(doc: map<string, JsValue>, favArtist: Option<string>)

  /** The upsert for one record, `uuid` being the UUID drawn for it. */
  function FavCallOf(r: FavRecord, uuid: string): FavUpsert
    requires r.favArtist.Some?
  {
    FavUpsert(Get(r.doc, "user_id"), Get(r.doc, "device_id"), "^" + JsTrim(r.favArtist.value) + "$", SpotifyIdUpdate(r.doc, uuid))
  }

  /** The duplicate-key error code of MongoDB. */
  const DuplicateKey := 11000

  /**
   * The records `storeFavArtists` issues an upsert for, from the `i`-th on.
   * A record whose `fav_artist` is not a string throws in `trim` before any
   * call and is skipped; a call failing with a duplicate key ends the whole
   * loop. `error(i)` is the error code the call for the i-th record throws,
   * if it throws.
   */
  function FavCalled(details: seq<FavRecord>, error: nat -> Option<int>, i: nat): (called: seq<nat>)
    requires i <= |details|
    ensures forall k :: 0 <= k < |called| ==> i <= called[k] < |details| && details[called[k]].favArtist.Some?
    decreases |details| - i
  {
    if i == |details| then []
    else if details[i].favArtist.None? then FavCalled(details, error, i + 1)
    else if error(i) == Some(DuplicateKey) then [i]
    else [i] + FavCalled(details, error, i + 1)
  }

  /** The upserts for the listed records, in the order listed. */
  function CallsFor(details: seq<FavRecord>, uuid: nat -> string, called: seq<nat>): (calls: seq<FavUpsert>)
    requires forall k :: 0 <= k < |called| ==> called[k] < |details| && details[called[k]].favArtist.Some?
    ensures |calls| == |called|
  {
    if called == [] then []
    else [FavCallOf(details[called[0]], uuid(called[0]))] + CallsFor(details, uuid, called[1..])
  }

  /** The k-th upsert is the call for the k-th listed record, with that record's fresh id. */
  lemma {:induction false} CallsForSpec(details: seq<FavRecord>, uuid: nat -> string, called: seq<nat>, k: nat)
    requires forall k :: 0 <= k < |called| ==> called[k] < |details| && details[called[k]].favArtist.Some?
    requires k < |called|
    ensures CallsFor(details, uuid, called)[k] == FavCallOf(details[called[k]], uuid(called[k]))
  {
    if k > 0 {
      assert called[1..][k - 1] == called[k];
      CallsForSpec(details, uuid, called[1..], k - 1);
    }
  }

  /** The upserts issued from record `i` on, record by record. */
  function FavCalls(details: seq<FavRecord>, uuid: nat -> string, error: nat -> Option<int>, i: nat): seq<FavUpsert>
    requires i <= |details|
    decreases |details| - i
  {
    if i == |details| then []
    else if details[i].favArtist.None? then FavCalls(details, uuid, error, i + 1)
    else if error(i) == Some(DuplicateKey) then [FavCallOf(details[i], uuid(i))]
    else [FavCallOf(details[i], uuid(i))] + FavCalls(details, uuid, error, i + 1)
  }

  /** They are the upserts for the records `FavCalled` lists. */
  lemma {:induction false} FavCallsListed(details: seq<FavRecord>, uuid: nat -> string, error: nat -> Option<int>, i: nat)
    requires i <= |details|
    ensures FavCalls(details, uuid, error, i) == CallsFor(details, uuid, FavCalled(details, error, i))
    decreases |details| - i
  {
    if i < |details| && details[i].favArtist.Some? {
      var rest := FavCalled(details, error, i + 1);
      if error(i) == Some(DuplicateKey) {
        assert FavCalled(details, error, i) == [i];
      } else {
        FavCallsListed(details, uuid, error, i + 1);
        assert FavCalled(details, error, i) == [i] + rest;
        assert ([i] + rest)[1..] == rest;
      }
    } else if i < |details| {
      FavCallsListed(details, uuid, error, i + 1);
    }
  }

  /**
   * `storeFavArtists(details)`: returns the upserts issued, one for each
   * record `FavCalled` lists, in that order.
   */
  method StoreFavArtists(details: seq<FavRecord>, uuid: nat -> string, error: nat -> Option<int>)
    returns (calls: seq<FavUpsert>)
    ensures calls == FavCalls(details, uuid, error, 0)
  {
    calls := [];
    var i := 0;
    while i < |details|
      invariant 0 <= i <= |details|
      invariant calls + FavCalls(details, uuid, error, i) == FavCalls(details, uuid, error, 0)
    {
      var record := details[i];
      if record.favArtist.Some? {
        var call := FavCallOf(record, uuid(i));
        if error(i) == Some(DuplicateKey) {
          calls := calls + [call];
          return;
        }
        ConcatAssoc(calls, [call], FavCalls(details, uuid, error, i + 1));
        calls := calls + [call];
      }
      i := i + 1;
    }
    assert calls + [] == calls;
  }

  /** The upserts issued: one per record `FavCalled` lists, carrying that record's query and fresh id. */
  lemma StoreFavArtistsCalls(details: seq<FavRecord>, uuid: nat -> string, error: nat -> Option<int>, k: nat)
    requires k < |FavCalled(details, error, 0)|
    ensures var called := FavCalled(details, error, 0);
      |FavCalls(details, uuid, error, 0)| == |called| &&
      FavCalls(details, uuid, error, 0)[k] == FavCallOf(details[called[k]], uuid(called[k]))
  {
    FavCallsListed(details, uuid, error, 0);
    CallsForSpec(details, uuid, FavCalled(details, error, 0), k);
  }

  predicate Increasing(s: seq<nat>)
  {
    forall k, l :: 0 <= k < l < |s| ==> s[k] < s[l]
  }

  /** Calls are issued in record order, one per record at most. */
  lemma {:induction false} FavCalledIncreasing(details: seq<FavRecord>, error: nat -> Option<int>, i: nat)
    requires i <= |details|
    ensures Increasing(FavCalled(details, error, i))
    decreases |details| - i
  {
    if i < |details| {
      FavCalledIncreasing(details, error, i + 1);
      var called := FavCalled(details, error, i);
      var rest := FavCalled(details, error, i + 1);
      if details[i].favArtist.None? {
        assert called == rest;
      } else if error(i) != Some(DuplicateKey) {
        assert called == [i] + rest;
        forall k, l | 0 <= k < l < |called|
          ensures called[k] < called[l]
        {
          assert called[l] == rest[l - 1];
          assert i + 1 <= rest[l - 1];
          if k > 0 {
            assert called[k] == rest[k - 1] < rest[l - 1];
          }
        }
      }
    }
  }

  /** A duplicate-key failure on record `j` ends the batch: no call is issued for a later record. */
  lemma {:induction false} FavCalledStopsAtDuplicate(details: seq<FavRecord>, error: nat -> Option<int>, i: nat, j: nat)
    requires i <= j < |details|
    requires details[j].favArtist.Some? && error(j) == Some(DuplicateKey)
    ensures forall x :: x in FavCalled(details, error, i) ==> x <= j
    decreases j - i
  {
    if i < j {
      FavCalledStopsAtDuplicate(details, error, i + 1, j);
    }
  }

  /** Without duplicate-key failures every record with a `fav_artist` gets its upsert. */
  lemma {:induction false} FavCalledComplete(details: seq<FavRecord>, error: nat -> Option<int>, i: nat)
    requires i <= |details|
    requires forall k :: i <= k < |details| ==> error(k) != Some(DuplicateKey)
    ensures forall k :: i <= k < |details| && details[k].favArtist.Some? ==> k in FavCalled(details, error, i)
    decreases |details| - i
  {
    if i < |details| {
      FavCalledComplete(details, error, i + 1);
    }
  }

  // ---------------------------------------------------------------------------
  // storeUserRecommendations
  // ---------------------------------------------------------------------------

  const OneHourMs: real := 3600000.0

  predicate HexDigit(c: char)
  {
    '0' <= c <= '9' || 'a' <= c <= 'f' || 'A' <= c <= 'F'
  }

  /** What `ObjectId.createFromHexString` accepts: 24 hexadecimal digits. */
  predicate ObjectIdHex(s: string)
  {
    |s| == 24 && forall k :: 0 <= k < |s| ==> HexDigit(s[k])
  }

  /** One upsert keyed by (`user_id`, `trackRef`) whose fields are written only on insert. */
  datatype RecUpsert = RecUpsert(userId: JsValue, trackRef: string, expiresAt: real)

  /**
   * The operations `storeUserRecommendations` hands to `bulkWrite`, or
   * `None` when none are written: a missing `rec_songs` or an `_id` that is
   * not an ObjectId throws before the write.
   */
  function RecommendationOps(userId: JsValue, recIds: Option<seq<Option<string>>>, now: real): Option<seq<RecUpsert>>
  {
    if recIds.None? then None
    else if exists k :: 0 <= k < |recIds.value| && !(recIds.value[k].Some? && ObjectIdHex(recIds.value[k].value)) then None
    else Some(seq(|recIds.value|, k requires 0 <= k < |recIds.value| && recIds.value[k].Some? =>
                  RecUpsert(userId, recIds.value[k].value, now + OneHourMs)))
  }

  /** Either every recommendation is written, each expiring an hour from now, or none is. */
  lemma RecommendationOpsSpec(userId: JsValue, recIds: Option<seq<Option<string>>>, now: real)
    ensures var ops := RecommendationOps(userId, recIds, now);
      ops.Some? <==> recIds.Some? && forall k :: 0 <= k < |recIds.value| ==> recIds.value[k].Some? && ObjectIdHex(recIds.value[k].value)
    ensures var ops := RecommendationOps(userId, recIds, now);
      ops.Some? ==> |ops.value| == |recIds.value|
    ensures var ops := RecommendationOps(userId, recIds, now);
      ops.Some? ==> forall k :: 0 <= k < |ops.value| ==>
        ops.value[k].userId == userId && Some(ops.value[k].trackRef) == recIds.value[k] && ops.value[k].expiresAt == now + OneHourMs
  {
  }

  // ---------------------------------------------------------------------------
  // findTracksWithArtistAndSongName
  // ---------------------------------------------------------------------------

  const SevenDaysMs: real := 604800000.0

  /** The lookup `findOne` runs: the artist text before ":" trimmed, the title, and `updatedAt` after the cutoff. */
  datatype TrackQuery = TrackQuery(artistName: Option<string>, title: Option<string>, updatedAfter: real)

  datatype ChartSong = ChartSong(song: Option<string>, artist: Option<string>, rank: JsValue)

  datatype SongLookup<D> = SongLookup(song: Option<string>, artist: Option<string>, rank: JsValue, songData: Option<D>)

  /** The artist name looked up: `artist.split(":")[0].trim()`. */
  function QueryArtist(artist: Option<string>): Option<string>
  {
    if artist.Some? then Some(JsTrim(BeforeFirst(artist.value, ':'))) else None
  }

  /** The query for one chart song, `oldest` being the cutoff. */
  function QueryFor(a: ChartSong, oldest: real): TrackQuery
  {
    TrackQuery(QueryArtist(a.artist), a.song, oldest)
  }

  /**
   * The name looked up is the artist text before the first ":" (a featured
   * artist list is cut off), trimmed; a text without ":" is only trimmed.
   */
  lemma QueryArtistSpec(artist: string)
    ensures var name := QueryArtist(Some(artist)).value;
      ':' !in name && forall x :: x in name ==> x in artist
    ensures ':' !in artist ==> QueryArtist(Some(artist)) == Some(JsTrim(artist))
  {
    var head := BeforeFirst(artist, ':');
    TrimChars(head);
    forall x | x in head
      ensures x in artist
    {
      var k :| 0 <= k < |head| && head[k] == x;
      assert artist[k] == x;
    }
    if ':' !in artist {
      NoDelimiterBeforeFirst(artist, ':');
    }
  }

  lemma {:induction false} NoDelimiterBeforeFirst(s: string, d: char)
    requires d !in s
    ensures BeforeFirst(s, d) == s
  {
    if s != [] {
      assert d !in s[1..] by {
        forall x | x in s[1..]
          ensures x != d
        {
          var k :| 0 <= k < |s[1..]| && s[1..][k] == x;
          assert s[k + 1] == x;
        }
      }
      NoDelimiterBeforeFirst(s[1..], d);
      assert s == [s[0]] + s[1..];
    }
  }

  /** The entry pushed for one chart song: its own fields and what `findOne` returned (`None` for `null`). */
  function LookupOf<D>(a: ChartSong, oldest: real, findOne: TrackQuery -> Option<D>): SongLookup<D>
  {
    SongLookup(a.song, a.artist, a.rank, findOne(QueryFor(a, oldest)))
  }

  /**
   * `findTracksWithArtistAndSongName(list)`: one entry per chart song, in
   * order; the query asks for tracks updated in the last seven days.
   */
  method FindTracksWithArtistAndSongName<D>(list: seq<ChartSong>, now: real, findOne: TrackQuery -> Option<D>)
    returns (songs: seq<SongLookup<D>>)
    ensures |songs| == |list|
    ensures forall i :: 0 <= i < |list| ==> songs[i] == LookupOf(list[i], now - SevenDaysMs, findOne)
  {
    songs := [];
    var oldest := now - SevenDaysMs;
    var i := 0;
    while i < |list|
      invariant 0 <= i <= |list| && |songs| == i
      invariant forall k :: 0 <= k < i ==> songs[k] == LookupOf(list[k], oldest, findOne)
    {
      var a := list[i];
      var res := findOne(TrackQuery(QueryArtist(a.artist), a.song, oldest));
      songs := songs + [SongLookup(a.song, a.artist, a.rank, res)];
      i := i + 1;
    }
  }

  // ---------------------------------------------------------------------------
  // bulkUpdateTracksCacheRef
  // ---------------------------------------------------------------------------

  const TwoDaysMs: real := 172800000.0

  datatype CacheEntry = CacheEntry(rank: JsValue, category: Option<string>, track: JsValue)

  /** One `updateOne` keyed by (`rank`, `category`), setting the entry and its expiry. */
  datatype CacheUpsert = CacheUpsert(rank: JsValue, category: Option<string>, track: JsValue, expiresAt: real)

  predicate IsHot100(category: Option<string>)
  {
    category.Some? && Lower(JsTrim(category.value)) == "hot-100"
  }

  function CacheUpsertOf(entry: CacheEntry, now: real): (u: CacheUpsert)
    ensures u.rank == entry.rank && u.category == entry.category && u.track == entry.track
  {
    var expiresAt := if !IsHot100(entry.category) then now + SevenDaysMs else now + TwoDaysMs;
    CacheUpsert(entry.rank, entry.category, entry.track, expiresAt)
  }

  /** `bulkUpdateTracksCacheRef(trackDetails)`: the operations handed to `bulkWrite`, one per entry. */
  function CacheRefOps(entries: seq<CacheEntry>, now: real): (ops: seq<CacheUpsert>)
    ensures |ops| == |entries|
  {
    seq(|entries|, k requires 0 <= k < |entries| => CacheUpsertOf(entries[k], now))
  }

  /**
   * Each entry keeps its rank, category and track and expires two days
   * from now when its trimmed, lower-cased category is "hot-100", seven
   * days otherwise (also when the category is missing).
   */
  lemma CacheRefOpsSpec(entries: seq<CacheEntry>, now: real)
    ensures forall k :: 0 <= k < |entries| ==>
      var u := CacheRefOps(entries, now)[k];
      && u.rank == entries[k].rank && u.category == entries[k].category && u.track == entries[k].track
      && (u.expiresAt == now + TwoDaysMs <==> IsHot100(entries[k].category))
      && (u.expiresAt == now + SevenDaysMs <==> !IsHot100(entries[k].category))
  {
  }

  lemma UpperHot100Lower()
    ensures Lower("HOT-100") == "hot-100"
  {
  }

  lemma UpperHot100Trim()
    ensures JsTrim("HOT-100") == "HOT-100"
  {
    var s := "HOT-100";
    assert !JsSpace(s[0]) && !JsSpace(s[|s| - 1]);
    TrimPlain(s, JsSpace);
  }

  /** The category comparison ignores case: "HOT-100" gets the two-day expiry. */
  lemma UpperHot100IsHot()
    ensures IsHot100(Some("HOT-100"))
  {
    UpperHot100Trim();
    UpperHot100Lower();
  }
}

=== FILE: features.dfy ===
/**
 * Numeric feature engineering shared by the three Python ingestion scripts:
 * scikit-learn's `MinMaxScaler` on one column, numpy's `around` (round half
 * to even), and the popularity imputation that re-scores the rows selected by
 * a mask from play counts, listener counts and Spotify popularity.
 *
 * Also the track document the scripts read from the tracks collection, and
 * MongoDB's single-document upsert on a collection held as a sequence.
 */
module Features {
  import opened Common
  import opened Vectors

  // ---------------------------------------------------------------------------
  // Track documents and collections
  // ---------------------------------------------------------------------------

  /** One entry of a track's `artists` array; `name` is None when absent or null. */
  datatype ArtistEntry = ArtistEntry(name: Option<string>)

  /**
   * A document of the tracks collection as the embedding scripts read it.
   * Each numeric field is None where pandas sees NaN (a missing or null
   * value, such as the `year: null` of a track without a release date).
   */
  datatype TrackDoc = TrackDoc(
    songId: string,
    spotifyId: string,
    lastfmId: string,
    title: string,
    artists: seq<ArtistEntry>,
    release: string,
    allTags: string,
    wikiSummary: string,
    year: Option<real>,
    duration: Option<real>,
    playCount: Option<real>,
    listeners: Option<real>,
    spotifyPopularity: Option<real>,
    popularity: Option<real>,
    embeddingsStatus: string)

  /** The first index whose key is `k`, if any (what `find_one` / `UpdateOne` match). */
  function FindFirst<D>(coll: seq<D>, key: D -> string, k: string): (r: Option<nat>)
    ensures r.Some? ==> r.value < |coll| && key(coll[r.value]) == k
    ensures r.Some? ==> forall j :: 0 <= j < r.value ==> key(coll[j]) != k
    ensures r.None? ==> forall j :: 0 <= j < |coll| ==> key(coll[j]) != k
  {
    if coll == [] then None
    else if key(coll[0]) == k then Some(0)
    else
      match FindFirst(coll[1..], key, k)
      case None => None
      case Some(j) => Some(j + 1)
  }

  /**
   * `UpdateOne({key: k}, {"$set": ...}, upsert=True)`: the first document
   * with key `k` is replaced by `update` of it; when there is none, `insert`
   * is appended.
   */
  function Upsert<D>(coll: seq<D>, key: D -> string, k: string, update: D -> D, insert: D): (r: seq<D>)
    requires key(insert) == k
    ensures FindFirst(coll, key, k).Some? ==>
      var j := FindFirst(coll, key, k).value;
      |r| == |coll| && r[j] == update(coll[j])
      && forall i :: 0 <= i < |coll| && i != j ==> r[i] == coll[i]
    ensures FindFirst(coll, key, k).None? ==> r == coll + [insert]
  {
    match FindFirst(coll, key, k)
    case Some(j) => coll[j := update(coll[j])]
    case None => coll + [insert]
  }

  // ---------------------------------------------------------------------------
  // MinMaxScaler on one column
  // ---------------------------------------------------------------------------

  function SeqMin(s: seq<real>): (m: real)
    requires |s| > 0
    ensures m in s
    ensures forall i :: 0 <= i < |s| ==> m <= s[i]
  {
    if |s| == 1 then s[0]
    else
      var m := SeqMin(s[1..]);
      assert forall i :: 1 <= i < |s| ==> s[i] == s[1..][i - 1];
      if s[0] <= m then s[0] else m
  }

  function SeqMax(s: seq<real>): (m: real)
    requires |s| > 0
    ensures m in s
    ensures forall i :: 0 <= i < |s| ==> s[i] <= m
  {
    if |s| == 1 then s[0]
    else
      var m := SeqMax(s[1..]);
      assert forall i :: 1 <= i < |s| ==> s[i] == s[1..][i - 1];
      if s[0] >= m then s[0] else m
  }

  /**
   * The transform of a fitted `MinMaxScaler` with feature range (0, 1):
   * a zero data range is replaced by 1, so a constant column maps to 0.
   */
  function ScaleTo01(v: real, lo: real, hi: real): real
  {
    if hi == lo then 0.0 else (v - lo) / (hi - lo)
  }

  lemma DivUnit(a: real, b: real)
    requires 0.0 <= a <= b && b > 0.0
    ensures 0.0 <= a / b <= 1.0
  {
    assert (a / b) * b == a;
  }

  lemma DivNonNegative(a: real, b: real)
    requires a >= 0.0 && b > 0.0
    ensures a / b >= 0.0
  {
    assert (a / b) * b == a;
  }

  lemma DivMonotone(a: real, c: real, b: real)
    requires a <= c && b > 0.0
    ensures a / b <= c / b
  {
    assert c / b - a / b == (c - a) / b;
    DivNonNegative(c - a, b);
  }

  lemma ScaleTo01Range(v: real, lo: real, hi: real)
    requires lo <= v <= hi
    ensures 0.0 <= ScaleTo01(v, lo, hi) <= 1.0
  {
    if hi != lo {
      DivUnit(v - lo, hi - lo);
    }
  }

  lemma ScaleTo01Monotone(v: real, w: real, lo: real, hi: real)
    requires lo <= hi && v <= w
    ensures ScaleTo01(v, lo, hi) <= ScaleTo01(w, lo, hi)
  {
    if hi != lo {
      DivMonotone(v - lo, w - lo, hi - lo);
    }
  }

  lemma ScaleTo01Ends(lo: real, hi: real)
    ensures ScaleTo01(lo, lo, hi) == 0.0
    ensures lo != hi ==> ScaleTo01(hi, lo, hi) == 1.0
  {
    var d := hi - lo;
    if d != 0.0 {
      assert d / d == 1.0;
    }
  }

  /** Off a constant column, scaling is undone by multiplying back and adding the minimum. */
  lemma ScaleTo01Inverse(v: real, lo: real, hi: real)
    requires lo != hi
    ensures ScaleTo01(v, lo, hi) * (hi - lo) + lo == v
  {
  }

  /** The present values of a column in row order: what the scaler is fitted on (NaN is ignored). */
  function Values(s: seq<Option<real>>): (r: seq<real>)
    ensures |r| <= |s|
    ensures forall i :: 0 <= i < |s| && s[i].Some? ==> s[i].value in r
    ensures forall v :: v in r ==> exists i :: 0 <= i < |s| && s[i] == Some(v)
  {
    if s == [] then []
    else
      var rest := Values(s[1..]);
      assert forall i :: 1 <= i < |s| ==> s[i] == s[1..][i - 1];
      if s[0].Some? then [s[0].value] + rest else rest
  }

  /**
   * `MinMaxScaler().fit_transform(column)`: fitted on the present values,
   * each present value is scaled over their range and NaN stays NaN (a
   * column with no present value stays all NaN).
   */
  function MinMaxNaN(s: seq<Option<real>>): (r: seq<Option<real>>)
    ensures |r| == |s|
    ensures forall i :: 0 <= i < |s| ==> (r[i].Some? <==> s[i].Some?)
    ensures forall i :: 0 <= i < |s| && r[i].Some? ==> 0.0 <= r[i].value <= 1.0
  {
    var v := Values(s);
    if v == [] then s
    else
      var lo, hi := SeqMin(v), SeqMax(v);
      forall i | 0 <= i < |s| && s[i].Some?
        ensures 0.0 <= ScaleTo01(s[i].value, lo, hi) <= 1.0
      {
        ScaleTo01Range(s[i].value, lo, hi);
      }
      seq(|s|, i requires 0 <= i < |s| => if s[i].Some? then Some(ScaleTo01(s[i].value, lo, hi)) else None)
  }

  /** A present value is scaled over the range of the present values. */
  lemma MinMaxNaNAt(s: seq<Option<real>>, i: nat)
    requires i < |s| && s[i].Some?
    ensures |Values(s)| > 0
    ensures MinMaxNaN(s)[i] == Some(ScaleTo01(s[i].value, SeqMin(Values(s)), SeqMax(Values(s))))
  {
  }

  /** The smallest present value maps to 0 and, unless all present values are equal, the largest to 1. */
  lemma MinMaxNaNExtremes(s: seq<Option<real>>, i: nat)
    requires i < |s| && s[i].Some?
    ensures s[i].value == SeqMin(Values(s)) ==> MinMaxNaN(s)[i] == Some(0.0)
    ensures s[i].value == SeqMax(Values(s)) && SeqMin(Values(s)) != SeqMax(Values(s)) ==> MinMaxNaN(s)[i] == Some(1.0)
  {
    MinMaxNaNAt(s, i);
    ScaleTo01Ends(SeqMin(Values(s)), SeqMax(Values(s)));
  }

  /** Scaling keeps the order of the present values. */
  lemma MinMaxNaNMonotone(s: seq<Option<real>>, i: nat, j: nat)
    requires i < |s| && j < |s| && s[i].Some? && s[j].Some? && s[i].value <= s[j].value
    ensures MinMaxNaN(s)[i].value <= MinMaxNaN(s)[j].value
  {
    MinMaxNaNAt(s, i);
    MinMaxNaNAt(s, j);
    ScaleTo01Monotone(s[i].value, s[j].value, SeqMin(Values(s)), SeqMax(Values(s)));
  }

  /** A column whose present values are all equal (in particular a single row) maps them to 0. */
  lemma MinMaxNaNConstant(s: seq<Option<real>>, x: real)
    requires forall i :: 0 <= i < |s| && s[i].Some? ==> s[i].value == x
    ensures forall i :: 0 <= i < |s| ==> MinMaxNaN(s)[i] == (if s[i].Some? then Some(0.0) else None)
  {
    var v := Values(s);
    if v != [] {
      assert SeqMin(v) == x && SeqMax(v) == x;
    }
  }

  /** `fillna(0)`: NaN becomes 0. */
  function FillZero(s: seq<Option<real>>): (r: seq<real>)
    ensures |r| == |s|
    ensures forall i :: 0 <= i < |s| ==> r[i] == (if s[i].Some? then s[i].value else 0.0)
  {
    seq(|s|, i requires 0 <= i < |s| => if s[i].Some? then s[i].value else 0.0)
  }

  /** A scaled column after `fillna(0)` lies in [0, 1], with 0 wherever the value was missing. */
  lemma ScaledFilled(s: seq<Option<real>>, i: nat)
    requires i < |s|
    ensures 0.0 <= FillZero(MinMaxNaN(s))[i] <= 1.0
    ensures s[i].None? ==> FillZero(MinMaxNaN(s))[i] == 0.0
  {
  }

  // ---------------------------------------------------------------------------
  // numpy.around
  // ---------------------------------------------------------------------------

  /** `np.around(x)`: the nearest integer, ties going to the even one. */
  function RoundHalfEven(x: real): (r: int)
    ensures r as real - 0.5 <= x <= r as real + 0.5
    ensures x - x.Floor as real == 0.5 ==> r % 2 == 0
  {
    var f := x.Floor;
    var d := x - f as real;
    if d < 0.5 then f
    else if d > 0.5 then f + 1
    else if f % 2 == 0 then f
    else f + 1
  }

  lemma RoundHalfEvenMonotone(x: real, y: real)
    requires x <= y
    ensures RoundHalfEven(x) <= RoundHalfEven(y)
  {

  }

  lemma RoundHalfEvenOfInt(n: int)
    ensures RoundHalfEven(n as real) == n
  {
  }

  /** `1 + np.around(99 * x)` for a scaled score. */
  function PopularityFromScaled(x: real): (r: int)
    requires 0.0 <= x <= 1.0
    ensures 1 <= r <= 100
  {
    RoundHalfEvenMonotone(0.0, 99.0 * x);
    RoundHalfEvenMonotone(99.0 * x, 99.0);
    RoundHalfEvenOfInt(0);
    RoundHalfEvenOfInt(99);
    1 + RoundHalfEven(99.0 * x)
  }

  // ---------------------------------------------------------------------------
  // Popularity imputation
  // ---------------------------------------------------------------------------

  /** Weights of the combined popularity signal. */
  const WPlay: real := 0.55
  const WListeners: real := 0.30
  const WListenersNoSpotify: real := 0.35
  const WSpotify: real := 0.15

  /** The columns the imputation reads, one row per track; None is NaN. */
  datatype PopRow = PopRow(popularity: Option<real>, playCount: Option<real>, listeners: Option<real>, spotify: Option<real>)

  function PopRowOf(t: TrackDoc): PopRow
  {
    PopRow(t.popularity, t.playCount, t.listeners, t.spotifyPopularity)
  }

  function Plays(rows: seq<PopRow>): (r: seq<Option<real>>)
    ensures |r| == |rows| && forall i :: 0 <= i < |rows| ==> r[i] == rows[i].playCount
  {
    seq(|rows|, i requires 0 <= i < |rows| => rows[i].playCount)
  }

  function Listeners(rows: seq<PopRow>): (r: seq<Option<real>>)
    ensures |r| == |rows| && forall i :: 0 <= i < |rows| ==> r[i] == rows[i].listeners
  {
    seq(|rows|, i requires 0 <= i < |rows| => rows[i].listeners)
  }

  /** Some masked row has a positive Spotify popularity (NaN is not positive). */
  predicate UseSpotify(rows: seq<PopRow>, mask: seq<bool>)
    requires |mask| == |rows|
  {
    exists i :: 0 <= i < |rows| && mask[i] && rows[i].spotify.Some? && rows[i].spotify.value > 0.0
  }

  /**
   * The combined signal of every row (only the masked ones are used): scaled
   * play and listener counts over the whole frame, plus Spotify popularity
   * divided by 100 when some masked row has one. A NaN in any term makes
   * the sum NaN.
   */
  function Combined(rows: seq<PopRow>, mask: seq<bool>): (c: seq<Option<real>>)
    requires |mask| == |rows|
    ensures |c| == |rows|
  {
    var p, l := MinMaxNaN(Plays(rows)), MinMaxNaN(Listeners(rows));
    var sp := UseSpotify(rows, mask);
    seq(|rows|, i requires 0 <= i < |rows| =>
      if p[i].None? || l[i].None? then None
      else if !sp then Some(WPlay * p[i].value + WListenersNoSpotify * l[i].value)
      else if rows[i].spotify.None? then None
      else Some(WPlay * p[i].value + WListeners * l[i].value + WSpotify * (rows[i].spotify.value / 100.0)))
  }

  /**
   * A row's signal is NaN exactly when its play count or listener count is,
   * or when Spotify is used and its Spotify popularity is.
   */
  lemma CombinedPresent(rows: seq<PopRow>, mask: seq<bool>, i: nat)
    requires |mask| == |rows| && i < |rows|
    ensures Combined(rows, mask)[i].Some? <==>
      rows[i].playCount.Some? && rows[i].listeners.Some? && (UseSpotify(rows, mask) ==> rows[i].spotify.Some?)
  {
  }

  /**
   * The mask of the two embedding scripts: popularity missing or not
   * positive, or Spotify popularity not positive (NaN compares false).
   */
  predicate NeedsRescore(r: PopRow)
  {
    r.popularity.None? || r.popularity.value <= 0.0 || (r.spotify.Some? && r.spotify.value <= 0.0)
  }

  /** The mask of the track-ingestion script: popularity missing or not positive. */
  predicate NeedsScore(r: PopRow)
  {
    r.popularity.None? || r.popularity.value <= 0.0
  }

  /** `column[mask]` as a column: the unmasked rows read as NaN, so the scaler ignores them. */
  function MaskedCells(c: seq<Option<real>>, mask: seq<bool>): (r: seq<Option<real>>)
    requires |mask| == |c|
    ensures |r| == |c| && forall i :: 0 <= i < |c| ==> r[i] == (if mask[i] then c[i] else None)
  {
    seq(|c|, i requires 0 <= i < |c| => if mask[i] then c[i] else None)
  }

  /** The present signals of the masked rows: what the second scaler is fitted on. */
  function MaskedSignals(rows: seq<PopRow>, mask: seq<bool>): (m: seq<real>)
    requires |mask| == |rows|
    ensures forall i :: 0 <= i < |rows| && mask[i] && Combined(rows, mask)[i].Some? ==>
      Combined(rows, mask)[i].value in m
  {
    var c := Combined(rows, mask);
    var cells := MaskedCells(c, mask);
    assert forall i :: 0 <= i < |rows| && mask[i] && c[i].Some? ==> cells[i] == c[i];
    Values(cells)
  }

  /** The new popularity of a masked row whose combined signal is `c`, scaled over `[lo, hi]`. */
  function Rescored(c: real, lo: real, hi: real): (v: real)
    requires lo <= c <= hi
    ensures v.Floor as real == v && 1.0 <= v <= 100.0
  {
    ScaleTo01Range(c, lo, hi);
    PopularityFromScaled(ScaleTo01(c, lo, hi)) as real
  }

  /**
   * The popularity column after imputation: every masked row gets
   * `1 + around(99 * s)` where `s` is its combined signal min-max scaled over
   * the masked rows, and NaN when its signal is NaN; unmasked rows keep their
   * value. pandas assigns the flattened new values to the masked rows in row
   * order, which is the same; with no masked row nothing changes.
   */
  function Impute(rows: seq<PopRow>, mask: seq<bool>): (r: seq<Option<real>>)
    requires |rows| > 0 && |mask| == |rows|
    ensures |r| == |rows|
  {
    var c := Combined(rows, mask);
    var m := MaskedSignals(rows, mask);
    seq(|rows|, i requires 0 <= i < |rows| =>
      if !mask[i] then rows[i].popularity
      else if c[i].None? then None
      else
        assert c[i].value in m;
        Some(Rescored(c[i].value, SeqMin(m), SeqMax(m))))
  }

  /** One row of the imputed column. */
  lemma ImputeAt(rows: seq<PopRow>, mask: seq<bool>, i: nat)
    requires |rows| > 0 && |mask| == |rows| && i < |rows|
    ensures !mask[i] ==> Impute(rows, mask)[i] == rows[i].popularity
    ensures mask[i] && Combined(rows, mask)[i].None? ==> Impute(rows, mask)[i] == None
    ensures mask[i] && Combined(rows, mask)[i].Some? ==>
      var c := Combined(rows, mask)[i].value; var m := MaskedSignals(rows, mask);
      |m| > 0 && SeqMin(m) <= c <= SeqMax(m) &&
      Impute(rows, mask)[i] == Some(Rescored(c, SeqMin(m), SeqMax(m)))
  {
  }

  /** Rows outside the mask keep their popularity. */
  lemma ImputeKeepsUnmasked(rows: seq<PopRow>, mask: seq<bool>, i: nat)
    requires |rows| > 0 && |mask| == |rows| && i < |rows| && !mask[i]
    ensures Impute(rows, mask)[i] == rows[i].popularity
  {
    ImputeAt(rows, mask, i);
  }

  /**
   * A masked row gets a popularity exactly when its signal is not NaN, and
   * then an integer between 1 and 100.
   */
  lemma ImputeMaskedRange(rows: seq<PopRow>, mask: seq<bool>, i: nat)
    requires |rows| > 0 && |mask| == |rows| && i < |rows| && mask[i]
    ensures Impute(rows, mask)[i].Some? <==> Combined(rows, mask)[i].Some?
    ensures Impute(rows, mask)[i].Some? ==>
      var v := Impute(rows, mask)[i].value; v.Floor as real == v && 1.0 <= v <= 100.0
  {
    ImputeAt(rows, mask, i);
  }

  /**
   * The masked row with the largest combined signal gets 100 and the one
   * with the smallest gets 1, unless all present signals tie, when all get 1.
   */
  lemma ImputeExtremes(rows: seq<PopRow>, mask: seq<bool>, i: nat)
    requires |rows| > 0 && |mask| == |rows| && i < |rows| && mask[i] && Combined(rows, mask)[i].Some?
    ensures var c := Combined(rows, mask)[i].value; var m := MaskedSignals(rows, mask);
      |m| > 0 &&
      (c == SeqMin(m) ==> Impute(rows, mask)[i] == Some(1.0)) &&
      (c == SeqMax(m) && SeqMin(m) != SeqMax(m) ==> Impute(rows, mask)[i] == Some(100.0))
  {
    ImputeAt(rows, mask, i);
    var c := Combined(rows, mask)[i].value;
    var m := MaskedSignals(rows, mask);
    if c == SeqMin(m) || c == SeqMax(m) {
      RescoredEnds(SeqMin(m), SeqMax(m));
    }
  }

  lemma RescoredEnds(lo: real, hi: real)
    requires lo <= hi
    ensures Rescored(lo, lo, hi) == 1.0
    ensures lo != hi ==> Rescored(hi, lo, hi) == 100.0
  {
    ScaleTo01Ends(lo, hi);
    RoundHalfEvenOfInt(0);
    RoundHalfEvenOfInt(99);
  }

  /** Among masked rows, a larger combined signal never gets a smaller popularity. */
  lemma ImputeMonotone(rows: seq<PopRow>, mask: seq<bool>, i: nat, j: nat)
    requires |rows| > 0 && |mask| == |rows| && i < |rows| && j < |rows| && mask[i] && mask[j]
    requires Combined(rows, mask)[i].Some? && Combined(rows, mask)[j].Some?
    requires Combined(rows, mask)[i].value <= Combined(rows, mask)[j].value
    ensures Impute(rows, mask)[i].value <= Impute(rows, mask)[j].value
  {
    ImputeAt(rows, mask, i);
    ImputeAt(rows, mask, j);
    var c := Combined(rows, mask);
    var m := MaskedSignals(rows, mask);
    RescoredMonotone(c[i].value, c[j].value, SeqMin(m), SeqMax(m));
  }

  lemma RescoredMonotone(v: real, w: real, lo: real, hi: real)
    requires lo <= v <= w <= hi
    ensures Rescored(v, lo, hi) <= Rescored(w, lo, hi)
  {
    ScaleTo01Monotone(v, w, lo, hi);
    ScaleTo01Range(v, lo, hi);
    ScaleTo01Range(w, lo, hi);
    RoundHalfEvenMonotone(99.0 * ScaleTo01(v, lo, hi), 99.0 * ScaleTo01(w, lo, hi));
  }

  /**
   * A single masked row gets popularity 1 whatever its signals, unless its
   * play or listener count is NaN, when it gets NaN.
   */
  lemma ImputeSingleRow(row: PopRow)
    ensures Impute([row], [true]) == [if row.playCount.Some? && row.listeners.Some? then Some(1.0) else None]
  {
    ImputeAt([row], [true], 0);
    CombinedPresent([row], [true], 0);
    var c := Combined([row], [true]);
    if c[0].Some? {
      var m := MaskedSignals([row], [true]);
      assert MaskedCells(c, [true]) == [c[0]];
      assert m == [c[0].value];
      RoundHalfEvenOfInt(0);
    }
  }

  /**
   * When every row with a missing or non-positive popularity is masked, a
   * popularity is missing afterwards exactly on the masked rows whose signal
   * is NaN, and every present one is positive.
   */
  lemma ImputePresence(rows: seq<PopRow>, mask: seq<bool>, i: nat)
    requires |rows| > 0 && |mask| == |rows| && i < |rows|
    requires rows[i].popularity.None? || rows[i].popularity.value <= 0.0 ==> mask[i]
    ensures Impute(rows, mask)[i].None? <==> mask[i] && Combined(rows, mask)[i].None?
    ensures Impute(rows, mask)[i].Some? ==> Impute(rows, mask)[i].value > 0.0
  {
    ImputeAt(rows, mask, i);
  }

  // ---------------------------------------------------------------------------
  // Embeddings
  // ---------------------------------------------------------------------------

  /** The numeric fields both embedding scripts scale. */
  datatype NumericField = Year | Duration | TotalPlayCounts | TotalListenersCounts

  /** The fields in feature order. */
  const NumericFields: seq<NumericField> := [Year, Duration, TotalPlayCounts, TotalListenersCounts]

  /** The value of a numeric field of a track. */
  function Field(t: TrackDoc, f: NumericField): Option<real>
  {
    match f
    case Year => t.year
    case Duration => t.duration
    case TotalPlayCounts => t.playCount
    case TotalListenersCounts => t.listeners
  }

  /** A numeric field over the whole collection. */
  function Column(tracks: seq<TrackDoc>, f: NumericField): (c: seq<Option<real>>)
    ensures |c| == |tracks|
    ensures forall i :: 0 <= i < |tracks| ==> c[i] == Field(tracks[i], f)
  {
    seq(|tracks|, i requires 0 <= i < |tracks| => Field(tracks[i], f))
  }

  /** Width of the text encoder's output (all-MiniLM-L6-v2). */
  const TextDim: nat := 384

  /** Number of numeric features appended to the text vector. */
  const NumericDim: nat := 5

  /** An encoder returns vectors of the text width for every input. */
  ghost predicate IsEncoder(encode: string -> Vec)
  {
    forall s :: |encode(s)| == TextDim
  }

  /** `Series.replace("_", ",")`: only a cell that is exactly "_" changes. */
  function ReplaceWholeCell(cell: string): (r: string)
    ensures cell != "_" ==> r == cell
  {
    if cell == "_" then "," else cell
  }

  /** The text the encoder sees for one track. */
  function Descriptor(title: string, artists: string, album: string, tags: string, wiki: string): string
  {
    "Title: " + title + " | Artists: " + artists + " | Album: " + album
    + " | Tags: " + ReplaceWholeCell(tags) + " | Wiki_Summary: " + wiki
  }

  /** The descriptor starts with the title and ends with the wiki summary, each under its label. */
  lemma DescriptorLayout(title: string, artists: string, album: string, tags: string, wiki: string)
    ensures var d := Descriptor(title, artists, album, tags, wiki);
      IsPrefix("Title: " + title + " | Artists: " + artists, d)
      && d[|d| - |" | Wiki_Summary: " + wiki|..] == " | Wiki_Summary: " + wiki
  {
    var d := Descriptor(title, artists, album, tags, wiki);
    var head := "Title: " + title + " | Artists: " + artists;
    var tail := " | Wiki_Summary: " + wiki;
    var mid := " | Album: " + album + " | Tags: " + ReplaceWholeCell(tags);
    assert d == head + mid + tail;
    assert d[..|head|] == head;
    assert d[|d| - |tail|..] == tail;
  }

  /** The stored vector: the L2-normalised text vector followed by the numeric features, normalised again. */
  function Embedding(text: Vec, numerics: seq<real>, sqrt: real -> real): (e: Vec)
    requires IsSqrt(sqrt)
    ensures |e| == |text| + |numerics|
  {
    L2Normalize(L2Normalize(text, sqrt) + numerics, sqrt)
  }

  /** Whenever the text vector is not zero, the stored vector has unit length. */
  lemma EmbeddingUnit(text: Vec, numerics: seq<real>, sqrt: real -> real)
    requires IsSqrt(sqrt)
    requires SqNorm(text) != 0.0
    ensures SqNorm(Embedding(text, numerics, sqrt)) == 1.0
  {
    var t := L2Normalize(text, sqrt);
    DotConcat(t, numerics, t, numerics);
    SqNormNonNegative(numerics);
    assert SqNorm(t + numerics) == 1.0 + SqNorm(numerics);
  }

  /** The embedding is the concatenation scaled by one positive factor, so text and numbers keep their relative weight. */
  lemma EmbeddingDirection(text: Vec, numerics: seq<real>, sqrt: real -> real)
    requires IsSqrt(sqrt)
    ensures exists c :: c > 0.0 && Embedding(text, numerics, sqrt) == Scale(L2Normalize(text, sqrt) + numerics, c)
  {
    L2NormalizeDirection(L2Normalize(text, sqrt) + numerics, sqrt);
  }

  /** A document of the embeddings collection. */
  datatype EmbeddingDoc = EmbeddingDoc(songId: string, spotifyId: string, lastfmId: string, embeddings: Vec, updatedAt: string)

  function EmbeddingKey(d: EmbeddingDoc): string
  {
    d.songId
  }

  function TrackKey(t: TrackDoc): string
  {
    t.songId
  }

  /** A tracks-collection document created by an upsert that carried only the status fields. */
  function StatusOnlyDoc(songId: string, popularity: Option<real>): (t: TrackDoc)
    ensures TrackKey(t) == songId
  {
    TrackDoc(songId, "", "", "", [], "", "", "", None, None, None, None, None, popularity, "done")
  }

  /** `{"$set": {"embeddingsStatus": "done", "popularity_score": p}}` applied to one track. */
  function MarkDone(t: TrackDoc, popularity: Option<real>): TrackDoc
  {
    t.(embeddingsStatus := "done", popularity := popularity)
  }

  /** The embeddings upsert of one document: `UpdateOne({song_id}, {"$set": d}, upsert=True)`. */
  function UpsertEmbedding(coll: seq<EmbeddingDoc>, d: EmbeddingDoc): seq<EmbeddingDoc>
  {
    Upsert(coll, EmbeddingKey, d.songId, _ => d, d)
  }

  /** The status upsert: `{"$set": {"embeddingsStatus": "done", "popularity_score": p}}` with upsert. */
  function UpsertStatus(coll: seq<TrackDoc>, songId: string, popularity: Option<real>): seq<TrackDoc>
  {
    Upsert(coll, TrackKey, songId, u => MarkDone(u, popularity), StatusOnlyDoc(songId, popularity))
  }

  /**
   * After an upsert whose update keeps the key, a lookup by the key finds the updated
   * document where the old one was, or the inserted one at the end.
   */
  lemma UpsertFinds<D>(coll: seq<D>, key: D -> string, k: string, update: D -> D, insert: D)
    requires key(insert) == k
    requires forall d :: key(d) == k ==> key(update(d)) == k
    ensures var r := Upsert(coll, key, k, update, insert);
      FindFirst(r, key, k) == (if FindFirst(coll, key, k).Some? then FindFirst(coll, key, k) else Some(|coll|))
  {
    var r := Upsert(coll, key, k, update, insert);
    var f := FindFirst(r, key, k);
    match FindFirst(coll, key, k)
    case Some(j) =>
      assert key(r[j]) == k;
    case None =>
      assert r[|coll|] == insert;
  }

  /** After the embeddings upsert, a lookup of the song returns the new document. */
  lemma UpsertEmbeddingFinds(coll: seq<EmbeddingDoc>, d: EmbeddingDoc)
    ensures var r := UpsertEmbedding(coll, d);
      FindFirst(r, EmbeddingKey, d.songId).Some? && r[FindFirst(r, EmbeddingKey, d.songId).value] == d
  {
    UpsertFinds(coll, EmbeddingKey, d.songId, _ => d, d);
  }

  /** Storing the same document twice leaves the collection as storing it once: no duplicate is created. */
  lemma UpsertEmbeddingIdempotent(coll: seq<EmbeddingDoc>, d: EmbeddingDoc)
    ensures UpsertEmbedding(UpsertEmbedding(coll, d), d) == UpsertEmbedding(coll, d)
  {
    var r := UpsertEmbedding(coll, d);
    UpsertFinds(coll, EmbeddingKey, d.songId, _ => d, d);
    var j := FindFirst(r, EmbeddingKey, d.songId).value;
    assert r[j] == d;
    assert r[j := d] == r;
  }

  /**
   * After the status upsert the song is found marked "done" with the new
   * popularity; an existing document keeps every other field.
   */
  lemma UpsertStatusFinds(coll: seq<TrackDoc>, songId: string, popularity: Option<real>)
    ensures var r := UpsertStatus(coll, songId, popularity);
      var f := FindFirst(r, TrackKey, songId);
      f.Some? && r[f.value].embeddingsStatus == "done" && r[f.value].popularity == popularity
      && (FindFirst(coll, TrackKey, songId).Some? ==>
            r[f.value] == coll[f.value].(embeddingsStatus := "done", popularity := popularity))
  {
    UpsertFinds(coll, TrackKey, songId, u => MarkDone(u, popularity), StatusOnlyDoc(songId, popularity));
  }

  lemma {:induction false} FindFirstSameKeys<D>(a: seq<D>, b: seq<D>, key: D -> string, k: string)
    requires |a| == |b|
    requires forall i :: 0 <= i < |a| ==> (key(a[i]) == k <==> key(b[i]) == k)
    ensures FindFirst(a, key, k) == FindFirst(b, key, k)
  {
    if a != [] {
      assert forall i :: 0 <= i < |a| - 1 ==> a[1..][i] == a[i + 1] && b[1..][i] == b[i + 1];
      FindFirstSameKeys(a[1..], b[1..], key, k);
    }
  }

  lemma {:induction false} FindFirstAppendOther<D>(a: seq<D>, x: D, key: D -> string, k: string)
    requires key(x) != k
    ensures FindFirst(a + [x], key, k) == FindFirst(a, key, k)
  {
    if a != [] {
      assert (a + [x])[1..] == a[1..] + [x];
      FindFirstAppendOther(a[1..], x, key, k);
    }
  }

  /** An upsert under another key leaves a lookup of `k` where it was, on the same document. */
  lemma UpsertOtherKey<D>(coll: seq<D>, key: D -> string, k: string, k2: string, update: D -> D, insert: D)
    requires key(insert) == k2 && k != k2
    requires forall d :: key(d) == k2 ==> key(update(d)) == k2
    ensures var r := Upsert(coll, key, k2, update, insert);
      FindFirst(r, key, k) == FindFirst(coll, key, k)
      && (FindFirst(coll, key, k).Some? ==> r[FindFirst(coll, key, k).value] == coll[FindFirst(coll, key, k).value])
  {
    var r := Upsert(coll, key, k2, update, insert);
    match FindFirst(coll, key, k2)
    case Some(j) =>
      assert key(r[j]) == k2;
      FindFirstSameKeys(r, coll, key, k);
    case None =>
      FindFirstAppendOther(coll, insert, key, k);
  }
}

=== FILE: frames.dfy ===
/**
 * The parts of pandas and MongoDB that the track-ingestion scripts use:
 * - a data frame as named columns over rows of cells;
 * - the column operations drop, assign and `drop_duplicates`;
 * - the write `bulk_write([UpdateMany({"song_id": t["song_id"]}, {"$set": t}, upsert=True) for t in records])`
 *   on a collection of documents.
 */
module Frames {
  import opened Common

  /** One `{"name": ..., "spotify_id": ...}` entry of a track's `artists` list. */
  datatype ArtistRecord = ArtistRecord(name: string, spotifyId: string)

  /**
   * A cell of a frame or a field of a stored document:
   * - `Null` is pandas' missing value (NaN);
   * - `Num` and `Str` are numbers and strings;
   * - `Artists` is a list of artist entries;
   * - `Image` is an image dict;
   * - `List` is a list of cells.
   */
  datatype Cell =
    | Null
    | Num(n: real)
    | Str(s: string)
    | Artists(entries: seq<ArtistRecord>)
    | Image(url: string, height: int, width: int)
    | List(items: seq<Cell>)

  /** A row of a frame (one record of `to_dict(orient="records")`), or a stored document. */
  type Row = map<string, Cell>

  datatype Frame = Frame(columns: seq<string>, rows: seq<Row>)

  function ColumnSet(columns: seq<string>): set<string>
  {
    set c | c in columns
  }

  /** Column names are distinct, and every row has exactly the frame's columns. */
  predicate WellFormed(f: Frame)
  {
    NoDuplicates(f.columns) &&
    forall i :: 0 <= i < |f.rows| ==> f.rows[i].Keys == ColumnSet(f.columns)
  }

  /** The cells of column `c`, top to bottom (`df[c]`). */
  function ColumnValues(f: Frame, c: string): (r: seq<Cell>)
    requires WellFormed(f) && c in f.columns
    ensures |r| == |f.rows|
    ensures forall i :: 0 <= i < |f.rows| ==> r[i] == f.rows[i][c]
  {
    seq(|f.rows|, i requires 0 <= i < |f.rows| => f.rows[i][c])
  }

  /** A column holding the same value in every row (`df[c] = v` for a scalar `v`). */
  function Fill(n: nat, v: Cell): (r: seq<Cell>)
    ensures |r| == n && forall i :: 0 <= i < n ==> r[i] == v
  {
    seq(n, _ => v)
  }

  lemma {:induction false} RemoveAllKeepsDistinct<T(!new)>(s: seq<T>, x: T)
    requires NoDuplicates(s)
    ensures NoDuplicates(RemoveAll(s, x))
  {
    if s != [] {
      RemoveAllKeepsDistinct(s[1..], x);
      if s[0] != x {
        assert s[0] !in s[1..];
        assert s[0] !in RemoveAll(s[1..], x);
      }
    }
  }

  /** `df.drop(columns=[c])` for a column the frame has (pandas raises otherwise). */
  function DropColumn(f: Frame, c: string): (r: Frame)
    requires WellFormed(f) && c in f.columns
    ensures WellFormed(r)
    ensures r.columns == RemoveAll(f.columns, c)
    ensures ColumnSet(r.columns) == ColumnSet(f.columns) - {c}
    ensures |r.rows| == |f.rows|
    ensures forall i :: 0 <= i < |f.rows| ==> r.rows[i] == f.rows[i] - {c}
  {
    RemoveAllKeepsDistinct(f.columns, c);
    Frame(RemoveAll(f.columns, c), seq(|f.rows|, i requires 0 <= i < |f.rows| => f.rows[i] - {c}))
  }

  /**
   * `df[c] = values`: an existing column is overwritten where it stands, a
   * new one is appended after the others.
   */
  function SetColumn(f: Frame, c: string, values: seq<Cell>): (r: Frame)
    requires WellFormed(f) && |values| == |f.rows|
    ensures WellFormed(r)
    ensures r.columns == if c in f.columns then f.columns else f.columns + [c]
    ensures |r.rows| == |f.rows|
    ensures forall i :: 0 <= i < |f.rows| ==> r.rows[i] == f.rows[i][c := values[i]]
  {
    var cols := if c in f.columns then f.columns else f.columns + [c];
    assert ColumnSet(cols) == ColumnSet(f.columns) + {c};
    Frame(cols, seq(|f.rows|, i requires 0 <= i < |f.rows| => f.rows[i][c := values[i]]))
  }

  /** Writing a column's own cells back leaves the frame as it is. */
  lemma SetColumnSame(f: Frame, c: string, values: seq<Cell>)
    requires WellFormed(f) && c in f.columns && |values| == |f.rows|
    requires forall i :: 0 <= i < |f.rows| ==> values[i] == f.rows[i][c]
    ensures SetColumn(f, c, values) == f
  {
    var r := SetColumn(f, c, values);
    forall i | 0 <= i < |f.rows|
      ensures r.rows[i] == f.rows[i]
    {
      assert c in ColumnSet(f.columns);
      assert r.rows[i] == f.rows[i][c := f.rows[i][c]];
    }
    assert r.rows == f.rows;
  }

  /** `df.drop_duplicates(keep="first")`: equal rows are kept once, at their first occurrence. */
  function DropDuplicates(f: Frame): (r: Frame)
    requires WellFormed(f)
    ensures WellFormed(r) && r.columns == f.columns
    ensures NoDuplicates(r.rows)
    ensures forall row :: row in r.rows <==> row in f.rows
    ensures forall i, j :: 0 <= i < j < |r.rows| ==> FirstIndex(f.rows, r.rows[i]) < FirstIndex(f.rows, r.rows[j])
  {
    DedupKeepsColumns(f);
    forall i, j | 0 <= i < j < |Dedup(f.rows)|
      ensures FirstIndex(f.rows, Dedup(f.rows)[i]) < FirstIndex(f.rows, Dedup(f.rows)[j])
    {
      DedupAfterOrder(f.rows, [], i, j);
    }
    Frame(f.columns, Dedup(f.rows))
  }

  lemma DedupKeepsColumns(f: Frame)
    requires WellFormed(f)
    ensures forall i :: 0 <= i < |Dedup(f.rows)| ==> Dedup(f.rows)[i].Keys == ColumnSet(f.columns)
  {
    var rows := Dedup(f.rows);
    forall i | 0 <= i < |rows|
      ensures rows[i].Keys == ColumnSet(f.columns)
    {
      assert rows[i] in rows;
      assert rows[i] in f.rows;
      var j :| 0 <= j < |f.rows| && f.rows[j] == rows[i];
    }
  }

  // ---------------------------------------------------------------------------
  // The collection write
  // ---------------------------------------------------------------------------

  type Collection = seq<Row>

  /** A document matches the filter `{"song_id": v}` when it has that field with that value. */
  predicate HasKey(d: Row, v: Cell)
  {
    "song_id" in d && d["song_id"] == v
  }

  predicate AnyHasKey(coll: Collection, v: Cell)
  {
    exists j :: 0 <= j < |coll| && HasKey(coll[j], v)
  }

  /**
   * `UpdateMany({"song_id": t["song_id"]}, {"$set": t}, upsert=True)`:
   * - every matching document gets the fields of `t` and keeps its other fields;
   * - when no document matches, `t` itself is inserted.
   */
  function SetMany(coll: Collection, t: Row): (r: Collection)
    requires "song_id" in t
    ensures |r| >= |coll|
    ensures AnyHasKey(r, t["song_id"])
    ensures forall j :: 0 <= j < |r| && HasKey(r[j], t["song_id"]) ==> t.Items <= r[j].Items
    ensures forall j :: 0 <= j < |coll| && !HasKey(coll[j], t["song_id"]) ==> r[j] == coll[j]
    ensures forall j :: 0 <= j < |coll| && HasKey(coll[j], t["song_id"]) ==> r[j] == coll[j] + t
    ensures AnyHasKey(coll, t["song_id"]) ==> |r| == |coll|
    ensures !AnyHasKey(coll, t["song_id"]) ==> r == coll + [t]
  {
    var k := t["song_id"];
    if AnyHasKey(coll, k) then
      var j :| 0 <= j < |coll| && HasKey(coll[j], k);
      var r := seq(|coll|, i requires 0 <= i < |coll| => if HasKey(coll[i], k) then coll[i] + t else coll[i]);
      assert HasKey(r[j], k);
      r
    else
      assert HasKey((coll + [t])[|coll|], k);
      coll + [t]
  }

  predicate AllKeyed(records: seq<Row>)
  {
    forall i :: 0 <= i < |records| ==> "song_id" in records[i]
  }

  /** The requests applied in order, as an ordered `bulk_write` does. */
  function BulkSet(coll: Collection, records: seq<Row>): Collection
    requires AllKeyed(records)
    decreases |records|
  {
    if records == [] then coll else BulkSet(SetMany(coll, records[0]), records[1..])
  }

  /** No record's `song_id` matches document `d`. */
  predicate Untargeted(records: seq<Row>, d: Row)
    requires AllKeyed(records)
  {
    forall i :: 0 <= i < |records| ==> !HasKey(d, records[i]["song_id"])
  }

  /**
   * A write never removes documents, leaves every document no record
   * targets as it was, and appends only documents some record targets.
   */
  lemma {:induction false} BulkSetLeavesOthers(coll: Collection, records: seq<Row>)
    requires AllKeyed(records)
    decreases |records|
    ensures |BulkSet(coll, records)| >= |coll|
    ensures forall j :: 0 <= j < |coll| && Untargeted(records, coll[j]) ==> BulkSet(coll, records)[j] == coll[j]
    ensures forall j :: |coll| <= j < |BulkSet(coll, records)| ==>
      exists i :: 0 <= i < |records| && HasKey(BulkSet(coll, records)[j], records[i]["song_id"])
  {
    if records != [] {
      var t := records[0];
      var c1 := SetMany(coll, t);
      var rest := records[1..];
      BulkSetLeavesOthers(c1, rest);
      var r := BulkSet(c1, rest);
      assert r == BulkSet(coll, records);
      forall j | 0 <= j < |coll| && Untargeted(records, coll[j])
        ensures r[j] == coll[j]
      {
        assert !HasKey(coll[j], t["song_id"]);
        assert c1[j] == coll[j];
        assert Untargeted(rest, c1[j]) by {
          forall i | 0 <= i < |rest|
            ensures !HasKey(c1[j], rest[i]["song_id"])
          {
            assert rest[i] == records[i + 1];
          }
        }
      }
      forall j | |coll| <= j < |r|
        ensures exists i :: 0 <= i < |records| && HasKey(r[j], records[i]["song_id"])
      {
        if j < |c1| {
          assert c1 == coll + [t] && c1[j] == t;
          BulkSetKeepsKey(c1, rest, j);
          assert HasKey(r[j], records[0]["song_id"]);
        } else {
          var i :| 0 <= i < |rest| && HasKey(r[j], rest[i]["song_id"]);
          assert rest[i] == records[i + 1];
        }
      }
    }
  }

  /** A document keeps its `song_id` through any write: `$set` of a record only writes the key it matched on. */
  lemma {:induction false} BulkSetKeepsKey(coll: Collection, records: seq<Row>, j: nat)
    requires AllKeyed(records)
    requires j < |coll| && "song_id" in coll[j]
    decreases |records|
    ensures |BulkSet(coll, records)| >= |coll|
    ensures HasKey(BulkSet(coll, records)[j], coll[j]["song_id"])
  {
    if records != [] {
      var c1 := SetMany(coll, records[0]);
      assert HasKey(c1[j], coll[j]["song_id"]);
      BulkSetKeepsKey(c1, records[1..], j);
    }
  }

  /**
   * For each key, the last record carrying it wins: afterwards some document
   * has that key, and every document with it holds all that record's fields.
   */
  lemma {:induction false} BulkSetLastWins(coll: Collection, records: seq<Row>, i: nat)
    requires AllKeyed(records) && i < |records|
    requires forall i' :: i < i' < |records| ==> records[i']["song_id"] != records[i]["song_id"]
    ensures AnyHasKey(BulkSet(coll, records), records[i]["song_id"])
    ensures forall j :: 0 <= j < |BulkSet(coll, records)| && HasKey(BulkSet(coll, records)[j], records[i]["song_id"]) ==>
      records[i].Items <= BulkSet(coll, records)[j].Items
    decreases |records|
  {
    var t := records[0];
    var c1 := SetMany(coll, t);
    var rest := records[1..];
    var r := BulkSet(c1, rest);
    assert r == BulkSet(coll, records);
    if i == 0 {
      var k := t["song_id"];
      BulkSetLeavesOthers(c1, rest);
      forall j | 0 <= j < |c1| && (HasKey(c1[j], k) || "song_id" !in c1[j])
        ensures r[j] == c1[j]
      {
        assert Untargeted(rest, c1[j]) by {
          forall i' | 0 <= i' < |rest|
            ensures !HasKey(c1[j], rest[i']["song_id"])
          {
            assert rest[i'] == records[i' + 1];
          }
        }
      }
      forall j | 0 <= j < |r| && HasKey(r[j], k)
        ensures t.Items <= r[j].Items
      {
        if j >= |c1| {
          assert false;
        } else if "song_id" in c1[j] && !HasKey(c1[j], k) {
          BulkSetKeepsKey(c1, rest, j);
          assert false;
        }
      }
      var j0 :| 0 <= j0 < |c1| && HasKey(c1[j0], k);
      assert HasKey(r[j0], k);
    } else {
      forall i' | i - 1 < i' < |rest|
        ensures rest[i']["song_id"] != rest[i - 1]["song_id"]
      {
        assert rest[i'] == records[i' + 1];
      }
      BulkSetLastWins(c1, rest, i - 1);
    }
  }

  /**
   * Writing records with distinct keys, none of which the collection holds
   * yet, appends exactly those records in order.
   */
  lemma {:induction false} BulkSetFresh(coll: Collection, records: seq<Row>)
    requires AllKeyed(records)
    requires forall i, i' :: 0 <= i < i' < |records| ==> records[i]["song_id"] != records[i']["song_id"]
    requires forall i :: 0 <= i < |records| ==> !AnyHasKey(coll, records[i]["song_id"])
    ensures BulkSet(coll, records) == coll + records
    decreases |records|
  {
    if records != [] {
      var t := records[0];
      var c1 := SetMany(coll, t);
      assert c1 == coll + [t];
      var rest := records[1..];
      forall i | 0 <= i < |rest|
        ensures !AnyHasKey(c1, rest[i]["song_id"])
      {
        assert rest[i] == records[i + 1];
        assert !AnyHasKey(coll, rest[i]["song_id"]);
        forall j | 0 <= j < |c1|
          ensures !HasKey(c1[j], rest[i]["song_id"])
        {
          if j == |coll| {
            assert c1[j] == records[0];
          } else {
            assert c1[j] == coll[j];
          }
        }
      }
      BulkSetFresh(c1, rest);
      assert coll + [t] + rest == coll + records;
    }
  }

  /**
   * The request loop and the write: one request per record, in order. A
   * record without `song_id` raises `KeyError` before anything is written
   * (the callers catch it), so the collection is then unchanged.
   */
  method BulkUpsert(coll: Collection, records: seq<Row>) returns (r: Collection)
    ensures AllKeyed(records) ==> r == BulkSet(coll, records)
    ensures !AllKeyed(records) ==> r == coll
  {
    var requests: seq<Row> := [];
    for i := 0 to |records|
      invariant requests == records[..i]
      invariant AllKeyed(requests)
    {
      if "song_id" !in records[i] {
        return coll;
      }
      requests := requests + [records[i]];
    }
    assert requests == records;
    r := BulkSet(coll, requests);
  }
}

=== FILE: genre_selection.dfy ===
/**
 * The genre step of the mobile app's onboarding: the fixed catalogue of ten
 * genres, the toggle of one genre, the initial selection and the move to
 * the artist step once the choice is stored.
 */
module GenreSelection {
  import opened Common
  import UserPreferences
  import opened ArtistSelection

  /** `GENRES`: the ten selectable genres. */
  const Genres: seq<string> := ["Rock", "Pop", "Classical", "Hip-Hop", "Metal", "Jazz", "K-pop", "R&B", "EDM", "Country"]

  /** The catalogue lists ten distinct genres. */
  lemma GenresCatalogue()
    ensures |Genres| == 10 && NoDuplicates(Genres)
  {
  }

  /** A selection built by toggling catalogue genres, starting from nothing. */
  predicate InCatalogue(selected: seq<string>)
  {
    NoDuplicates(selected) && forall k :: 0 <= k < |selected| ==> selected[k] in Genres
  }

  /**
   * `toggleGenre(genre)` on a selection of catalogue genres keeps it a
   * duplicate-free subset of the catalogue, so at most ten genres are ever
   * selected.
   */
  lemma ToggleGenreKeepsCatalogue(selected: seq<string>, genre: string)
    requires InCatalogue(selected) && genre in Genres
    ensures InCatalogue(Toggle(selected, genre))
    ensures |Toggle(selected, genre)| <= |Genres|
  {
    ToggleNoDuplicates(selected, genre);
    var r := Toggle(selected, genre);
    assert forall k :: 0 <= k < |r| ==> r[k] in Genres by {
      forall k | 0 <= k < |r| ensures r[k] in Genres {
        assert r[k] in r;
        if r[k] != genre {
          assert r[k] in selected;
        }
      }
    }
    DistinctSubsetBound(r, Genres);
  }

  /** A duplicate-free list drawn from `pool` is no longer than the set of `pool`'s entries. */
  lemma {:induction false} DistinctSubsetBound(s: seq<string>, pool: seq<string>)
    requires NoDuplicates(s) && forall k :: 0 <= k < |s| ==> s[k] in pool
    ensures |s| <= |pool|
  {
    DistinctCard(s);
    assert (set x | x in s) <= (set x | x in pool);
    SetOfSeqCard(pool);
    CardSubset(set x | x in s, set x | x in pool);
  }

  lemma {:induction false} DistinctCard(s: seq<string>)
    requires NoDuplicates(s)
    ensures |set x | x in s| == |s|
  {
    if s != [] {
      var t := s[1..];
      assert NoDuplicates(t) by {
        forall i, j | 0 <= i < j < |t| ensures t[i] != t[j] {
          assert t[i] == s[i + 1] && t[j] == s[j + 1];
        }
      }
      DistinctCard(t);
      assert s[0] !in t by {
        forall k | 0 <= k < |t| ensures t[k] != s[0] {
          assert t[k] == s[k + 1];
        }
      }
      assert (set x | x in s) == (set x | x in t) + {s[0]} by {
        assert s == [s[0]] + t;
      }
    }
  }

  lemma {:induction false} SetOfSeqCard(s: seq<string>)
    ensures |set x | x in s| <= |s|
  {
    if s != [] {
      var t := s[1..];
      SetOfSeqCard(t);
      assert (set x | x in s) == (set x | x in t) + {s[0]} by {
        assert s == [s[0]] + t;
      }
    }
  }

  lemma CardSubset(a: set<string>, b: set<string>)
    requires a <= b
    ensures |a| <= |b|
  {
    assert b == a + (b - a);
  }

  /** The effect that starts from the stored genres when there are any. */
  function InitialGenres(prefs: UserPreferences.PrefState, current: seq<string>): (r: seq<string>)
    ensures NonEmpty(prefs.genres) ==> r == prefs.genres.value
    ensures !NonEmpty(prefs.genres) ==> r == current
  {
    if NonEmpty(prefs.genres) then prefs.genres.value else current
  }

  /**
   * `moveToNextPage`: sends the ids and the selected genres with an empty
   * artist list; a reply with an error raises an alert and goes nowhere;
   * otherwise the genres are stored and the artist step is pushed with the
   * artists of the selected genres under the parameter `artistsToShow`.
   */
  method MoveToNextPage(prefs: UserPreferences.PreferencesProvider, userId: string, deviceId: string,
                        selected: seq<string>, genreMap: map<string, seq<string>>, reply: StoreReply)
    returns (payload: UserPrefPayload, alert: bool, params: Option<map<string, seq<string>>>)
    modifies prefs
    ensures payload == UserPrefPayload(userId, deviceId, selected, [])
    ensures alert <==> !Proceeds(reply)
    ensures Proceeds(reply) ==>
      && params == Some(map["artistsToShow" := ArtistsOfGenres(selected, genreMap)])
      && prefs.state == UserPreferences.Reduce(old(prefs.state), UserPreferences.SetGenresAction(selected))
      && prefs.storage == old(prefs.storage).(genresSelected := Some(selected))
    ensures !Proceeds(reply) ==> params.None? && prefs.state == old(prefs.state) && prefs.storage == old(prefs.storage)
  {
    var artistsToShow := ArtistsOfGenres(selected, genreMap);
    payload := UserPrefPayload(userId, deviceId, selected, []);
    alert := !Proceeds(reply);
    params := None;
    if Proceeds(reply) {
      prefs.SetGenres(selected);
      params := Some(map["artistsToShow" := artistsToShow]);
    }
  }

  /**
   * The parameter is named `artistsToShow` but the artist step reads
   * `artistsToShowFromReq`, so that step always derives its list from the
   * genres just stored. Because both sides use the same lookup, the offered
   * artists are still exactly those of the selected genres, each once.
   */
  method GenreStepThenArtistStep(prefs: UserPreferences.PreferencesProvider, userId: string, deviceId: string,
                                 selected: seq<string>, genreMap: map<string, seq<string>>)
    returns (params: map<string, seq<string>>, offered: seq<string>)
    modifies prefs
    ensures "artistsToShowFromReq" !in params
    ensures offered == Dedup(ArtistsOfGenres(selected, genreMap))
    ensures "artistsToShow" in params && forall a :: a in offered <==> a in params["artistsToShow"]
  {
    var payload, alert, sent := MoveToNextPage(prefs, userId, deviceId, selected, genreMap, Reply(false));
    params := sent.value;
    // the artist step's `artistsToShowFromReq` finds nothing under that key
    assert "artistsToShowFromReq" !in params;
    offered := ArtistsToShow(None, prefs.state.genres, genreMap);
    DedupProperties(ArtistsOfGenres(selected, genreMap));
  }
}

=== FILE: get_recommendations.dfy ===
/**
 * The recommendation entry point of the Express back end: the shortcut for
 * users who already hold 40 stored recommendations, the gate that decides
 * between the recommender service and the chart fallback, the artists whose
 * top tracks are refetched, and `fallbackRecs`.
 *
 * Store reads, the recommender call and the chart scrape are parameters
 * holding their settled results; the fire-and-forget calls appear in the
 * outcome as the data they are handed.
 */
module GetRecommendations {
  import opened Common
  import opened Helper

  /**
   * One document of `fetchUserFavoriteArtistsWithTracks`: the favourite
   * artist's name and Spotify id, the number of matched tracks (None when
   * `matchedTracks` is missing) and the name inside `artistDetails`.
   */
  datatype FavArtist = FavArtist(
    favArtist: Option<string>,
    artistSpotifyId: Option<string>,
    matched: Option<nat>,
    detailsName: Option<string>)

  /** `{ name: a?.fav_artist, spotify_id: a?.artist_spotify_id }`. */
  datatype ArtistRef = ArtistRef(name: Option<string>, spotifyId: Option<string>)

  /** What a JavaScript caller receives: an array, or null/undefined. */
  datatype Response<T> = List(items: seq<T>) | Nothing

  /**
   * The returned value together with what the call hands to its
   * fire-and-forget side calls: the recommendations given to
   * `storeUserRecommendations`, the artists given to
   * `handleUserFavArtistsWithNoSongs`, and the chunks of names whose top
   * tracks are fetched.
   */
  datatype Outcome<T> = Outcome(
    response: Response<T>,
    stored: Option<seq<T>>,
    noSongArtists: seq<ArtistRef>,
    refetch: seq<seq<Option<string>>>)

  /** `a?.matchedTracks?.length > 0`. */
  predicate HasTracks(a: FavArtist)
  {
    a.matched.Some? && a.matched.value > 0
  }

  /** The matched tracks an artist adds to `count_1`. */
  function Contribution(a: FavArtist): nat
  {
    if HasTracks(a) then a.matched.value else 0
  }

  /** `count_1`: the matched tracks of the artists that have any. */
  function MatchedTotal(details: seq<FavArtist>): nat
  {
    if details == [] then 0
    else MatchedTotal(details[..|details| - 1]) + Contribution(details[|details| - 1])
  }

  /** `numArtistsWithTracks`. */
  function ArtistsWithTracks(details: seq<FavArtist>): (r: nat)
    ensures r <= |details|
  {
    if details == [] then 0
    else ArtistsWithTracks(details[..|details| - 1]) + (if HasTracks(details[|details| - 1]) then 1 else 0)
  }

  /**
   * The counting loop over `artistAndTrackDetails`: each artist with a
   * matched track adds one to `numArtistsWithTracks` and its track count to
   * `count_1`.
   */
  method CountMatched(details: seq<FavArtist>) returns (count1: nat, numArtistsWithTracks: nat)
    ensures count1 == MatchedTotal(details)
    ensures numArtistsWithTracks == ArtistsWithTracks(details)
  {
    count1, numArtistsWithTracks := 0, 0;
    var i := 0;
    while i < |details|
      invariant 0 <= i <= |details|
      invariant count1 == MatchedTotal(details[..i])
      invariant numArtistsWithTracks == ArtistsWithTracks(details[..i])
    {
      assert details[..i + 1][..i] == details[..i];
      if HasTracks(details[i]) {
        numArtistsWithTracks := numArtistsWithTracks + 1;
        count1 := count1 + details[i].matched.value;
      }
      i := i + 1;
    }
    assert details[..i] == details;
  }

  /**
   * The gate: at least half (rounded down) of the favourite artists have a
   * matched track and the matched tracks number at least 20 per artist.
   */
  predicate Gate(details: seq<FavArtist>)
  {
    ArtistsWithTracks(details) >= |details| / 2 && MatchedTotal(details) >= 20 * |details|
  }

  /** Every artist holding at least `m` matched tracks (m > 0) adds `m` or more per artist to both counters. */
  lemma {:induction false} StockedCounts(details: seq<FavArtist>, m: nat)
    requires m > 0
    requires forall k :: 0 <= k < |details| ==> details[k].matched.Some? && details[k].matched.value >= m
    ensures ArtistsWithTracks(details) == |details|
    ensures MatchedTotal(details) >= m * |details|
  {
    if details != [] {
      var init := details[..|details| - 1];
      assert forall k :: 0 <= k < |init| ==> init[k] == details[k];
      StockedCounts(init, m);
    }
  }

  /**
   * With no favourite artists both thresholds are 0 and the gate passes;
   * when every favourite artist already has 20 matched tracks the gate
   * passes too; and a gate that fails leaves an artist with fewer than 20.
   */
  lemma GatePasses(details: seq<FavArtist>)
    ensures details == [] ==> Gate(details)
    ensures (forall k :: 0 <= k < |details| ==> details[k].matched.Some? && details[k].matched.value >= 20)
            ==> Gate(details)
    ensures !Gate(details) ==> exists k :: 0 <= k < |details| && !(details[k].matched.Some? && details[k].matched.value >= 20)
  {
    if forall k :: 0 <= k < |details| ==> details[k].matched.Some? && details[k].matched.value >= 20 {
      StockedCounts(details, 20);
    }
  }

  /** The gate can fail although every artist has tracks: one track each is not enough. */
  lemma GateNeedsTwentyEach()
    ensures !Gate([FavArtist(None, None, Some(1), None)])
  {
    var d := [FavArtist(None, None, Some(1), None)];
    assert d[..0] == [];
    assert MatchedTotal(d) == 1;
  }

  /** `artistsWithNoSong`: artists whose `matchedTracks` is present and empty, as `{name, spotify_id}`. */
  function NoSongArtists(details: seq<FavArtist>): (r: seq<ArtistRef>)
    ensures |r| <= |details|
    ensures forall a :: a in r ==> exists k :: 0 <= k < |details| && details[k].matched == Some(0)
                                              && a == ArtistRef(details[k].favArtist, details[k].artistSpotifyId)
  {
    if details == [] then []
    else
      var rest := NoSongArtists(details[1..]);
      assert forall a :: a in rest ==> exists k :: 1 <= k < |details| && details[k].matched == Some(0)
                                                 && a == ArtistRef(details[k].favArtist, details[k].artistSpotifyId);
      if details[0].matched == Some(0) then [ArtistRef(details[0].favArtist, details[0].artistSpotifyId)] + rest
      else rest
  }

  /**
   * `artistsWithFewSongs` mapped to `a?.artistDetails?.name || a?.fav_artist`:
   * the artists with fewer than 30 matched tracks. None when some artist has
   * no `matchedTracks`, where reading `.length` throws.
   */
  function RefetchNames(details: seq<FavArtist>): (r: Option<seq<Option<string>>>)
    ensures r.Some? <==> forall k :: 0 <= k < |details| ==> details[k].matched.Some?
    ensures r.Some? ==> |r.value| <= |details|
  {
    if details == [] then Some([])
    else if details[0].matched.None? then None
    else
      var rest := RefetchNames(details[1..]);
      if rest.None? then None
      else if details[0].matched.value < 30 then Some([OrElse(details[0].detailsName, details[0].favArtist)] + rest.value)
      else rest
  }

  /** `a?.artistDetails?.name || a?.fav_artist` for each artist, in order. */
  function DisplayNames(ds: seq<FavArtist>): (r: seq<Option<string>>)
    ensures |r| == |ds|
  {
    seq(|ds|, k requires 0 <= k < |ds| => OrElse(ds[k].detailsName, ds[k].favArtist))
  }

  lemma DisplayNamesAppend(a: seq<FavArtist>, b: seq<FavArtist>)
    ensures DisplayNames(a + b) == DisplayNames(a) + DisplayNames(b)
  {
    assert forall k :: 0 <= k < |a + b| ==> DisplayNames(a + b)[k] == (DisplayNames(a) + DisplayNames(b))[k];
  }

  /** `a?.matchedTracks.length < 30`. */
  predicate FewSongs(a: FavArtist)
  {
    a.matched.Some? && a.matched.value < 30
  }

  lemma {:induction false} RefetchNamesWhere(details: seq<FavArtist>)
    requires RefetchNames(details).Some?
    ensures RefetchNames(details).value == DisplayNames(Where(details, FewSongs))
  {
    if details != [] {
      RefetchNamesWhere(details[1..]);
      DisplayNamesAppend(if FewSongs(details[0]) then [details[0]] else [], Where(details[1..], FewSongs));
    }
  }

  /**
   * The names to refetch are those of the artists with fewer than 30 matched
   * tracks and of no others, in the order of the artist documents; the list
   * is empty exactly when no artist has fewer than 30.
   */
  lemma RefetchNamesSelect(details: seq<FavArtist>)
    requires RefetchNames(details).Some?
    ensures RefetchNames(details).value == DisplayNames(Where(details, FewSongs))
    ensures (exists k :: 0 <= k < |details| && details[k].matched.value < 30) <==> RefetchNames(details).value != []
  {
    RefetchNamesWhere(details);
    var w := Where(details, FewSongs);
    if exists k :: 0 <= k < |details| && details[k].matched.value < 30 {
      var k :| 0 <= k < |details| && details[k].matched.value < 30;
      assert details[k] in details && FewSongs(details[k]);
      assert details[k] in w;
    } else if w != [] {
      assert false;
    }
  }

  /**
   * What `getBillBoardChartsSong` resolves to: `{ status: 200, tracks }` with
   * the tracks of the scraped chart, or a value without `tracks` — the `[]`
   * of a reply whose status is not 200, or the error object its catch
   * returns. Both of the latter are truthy.
   */
  datatype Scrape<T> = Chart(tracks: seq<T>) | NoTracks

  /** What `fallbackRecs` settles to: its list (None when the cache read gave nothing), or a TypeError. */
  datatype Fallback<T> = Returned(list: Option<seq<T>>) | Threw

  /** `status == "fulfilled" && value`: the scrape result whose tracks are spread into the list. */
  predicate Spread<T>(r: Settled<Option<Scrape<T>>>)
  {
    r.Fulfilled? && r.value.Some?
  }

  /** Spreading `value?.tracks?.flat()` throws when the value has no `tracks`. */
  predicate SpreadThrows<T>(r: Settled<Option<Scrape<T>>>)
  {
    Spread(r) && r.value.value.NoTracks?
  }

  /** The tracks a scrape result adds to the list. */
  function TracksOf<T>(r: Settled<Option<Scrape<T>>>): seq<T>
  {
    if Spread(r) && r.value.value.Chart? then r.value.value.tracks else []
  }

  /**
   * `fallbackRecs`: the cached "greatest-hot-100-singles" tracks; when fewer
   * than 40 are cached, the tracks of the greatest-of-all-time chart and then
   * those of the hot-100 chart are appended, each only when its scrape
   * fulfilled with a truthy value. A scrape that fulfilled without `tracks`
   * makes the spread throw a TypeError.
   */
  method FallbackRecs<T>(cached: Option<seq<T>>, goat: Settled<Option<Scrape<T>>>, hot: Settled<Option<Scrape<T>>>)
    returns (res: Fallback<T>)
    ensures cached.None? ==> res == Returned(None)
    ensures cached.Some? && |cached.value| >= 40 ==> res == Returned(cached)
    ensures cached.Some? && |cached.value| < 40 ==> (res.Threw? <==> SpreadThrows(goat) || SpreadThrows(hot))
    ensures cached.Some? && |cached.value| < 40 && res.Returned? ==>
      res.list == Some(cached.value + TracksOf(goat) + TracksOf(hot))
  {
    res := Returned(cached);
    if cached.Some? && |cached.value| < 40 {
      var list := cached.value;
      if goat.Fulfilled? && goat.value.Some? {
        match goat.value.value
        case NoTracks =>
          return Threw;
        case Chart(tracks) =>
          list := list + tracks;
      } else {
        assert list + [] == list;
      }
      ghost var afterGoat := list;
      if hot.Fulfilled? && hot.value.Some? {
        match hot.value.value
        case NoTracks =>
          return Threw;
        case Chart(tracks) =>
          list := list + tracks;
      } else {
        assert afterGoat + [] == afterGoat;
      }
      res := Returned(Some(list));
    }
  }

  /** A settled lookup counts as data when it fulfilled with a non-empty array. */
  predicate HasData<T>(r: Settled<Option<seq<T>>>)
  {
    r.Fulfilled? && r.value.Some? && |r.value.value| > 0
  }

  /** What `return fallbackRes` yields; a throwing `fallbackRecs` lands in the catch, which returns `[]`. */
  function FallbackResponse<T>(f: Fallback<T>): Response<T>
  {
    if f.Threw? then List([]) else if f.list.Some? then List(f.list.value) else Nothing
  }

  /**
   * `getRecommendations(user_id)` given the stored recommendations, the two
   * settled store lookups (favourite artists with their matched tracks, and
   * the user's track preferences), the recommender's answer and what
   * `fallbackRecs` settles to. A TypeError inside the try block (reading
   * `.filter` of a missing artist list, `.length` of a missing
   * `matchedTracks`, or the spread inside `fallbackRecs`) lands in the catch
   * and yields the empty array. When the gate fails, `fallbackRecs` is
   * awaited before the names to refetch are computed.
   */
  function Recommendations<T>(stored: Option<seq<T>>, favs: Settled<Option<seq<FavArtist>>>,
                              prefs: Settled<Option<seq<T>>>, recSongs: Option<seq<T>>,
                              fallback: Fallback<T>): (o: Outcome<T>)
    ensures stored.Some? && |stored.value| >= 40 ==> o.response == List(stored.value) && o.stored.None?
    ensures o.stored.Some? ==> o.response == List(o.stored.value) && recSongs == o.stored
  {
    if stored.Some? && |stored.value| >= 40 then Outcome(List(stored.value), None, [], [])
    else if !HasData(favs) && !HasData(prefs) then Outcome(FallbackResponse(fallback), None, [], [])
    else if DataOf(favs).None? then Outcome(List([]), None, [], [])
    else
      var details := DataOf(favs).value;
      if Gate(details) then
        var noSong := NoSongArtists(details);
        if recSongs.Some? then Outcome(List(recSongs.value), recSongs, noSong, [])
        else Outcome(FallbackResponse(fallback), None, noSong, [])
      else if fallback.Threw? then Outcome(List([]), None, [], [])
      else
        var names := RefetchNames(details);
        if names.None? then Outcome(List([]), None, [], [])
        else if names.value == [] then Outcome(Nothing, None, [], [])
        else Outcome(FallbackResponse(fallback), None, [], Chunks(names.value, 2))
  }

  /**
   * The branches of the decision. Stored recommendations below 40 never
   * reach the caller unless the fallback contains them. Without any data the
   * fallback is returned. With favourite artists, the recommender's answer
   * is returned and stored exactly when the gate passes and the answer is
   * truthy; in every other non-throwing case the fallback is returned. A
   * throwing `fallbackRecs` turns every response other than the
   * recommender's answer into the empty array and refetches nothing.
   */
  lemma RecommendationsBranches<T>(stored: Option<seq<T>>, favs: Settled<Option<seq<FavArtist>>>,
                                   prefs: Settled<Option<seq<T>>>, recSongs: Option<seq<T>>,
                                   fallback: Fallback<T>)
    requires !(stored.Some? && |stored.value| >= 40)
    ensures var o := Recommendations(stored, favs, prefs, recSongs, fallback);
      && (!HasData(favs) && !HasData(prefs) ==> o.response == FallbackResponse(fallback))
      && (HasData(prefs) && DataOf(favs).None? ==> o.response == List([]))
      && (DataOf(favs).Some? && (HasData(favs) || HasData(prefs)) ==>
            (o.stored.Some? <==> Gate(DataOf(favs).value) && recSongs.Some?))
      && (HasData(prefs) && DataOf(favs) == Some([]) ==>
            o.response == (if recSongs.Some? then List(recSongs.value) else FallbackResponse(fallback)))
      && (fallback.Threw? ==>
            o.response == (if o.stored.Some? then List(o.stored.value) else List([])) && o.refetch == [])
  {
    GatePasses([]);
  }

  /**
   * When the gate fails and every artist document has `matchedTracks`, some
   * artist has fewer than 20 and so fewer than 30 matched tracks: the list of
   * names to refetch is never empty, the early `return;` is unreachable and
   * the fallback is returned; the names are refetched exactly when
   * `fallbackRecs` did not throw first.
   */
  lemma GateFailsRefetches<T>(stored: Option<seq<T>>, favs: Settled<Option<seq<FavArtist>>>,
                              prefs: Settled<Option<seq<T>>>, recSongs: Option<seq<T>>,
                              fallback: Fallback<T>)
    requires !(stored.Some? && |stored.value| >= 40)
    requires HasData(favs) && !Gate(favs.value.value)
    requires forall k :: 0 <= k < |favs.value.value| ==> favs.value.value[k].matched.Some?
    ensures var o := Recommendations(stored, favs, prefs, recSongs, fallback);
      && o.response == FallbackResponse(fallback)
      && (o.refetch != [] <==> fallback.Returned?)
      && (fallback.Returned? ==> Flatten(o.refetch) == RefetchNames(favs.value.value).value)
  {
    var details := favs.value.value;
    GatePasses(details);
    RefetchNamesSelect(details);
    var names := RefetchNames(details).value;
    ChunksSpec(names, 2);
  }
}

=== FILE: handle_error.dfy ===
/**
 * `parseError`, the Express back end's error classifier: a chain of guarded
 * returns that turns an error object into a message string (or, for a
 * TypeError, a small object). Axios errors are examined first, then MongoDB
 * errors, validation errors, Node system errors with a string code, the
 * runtime error classes and finally the catch-all.
 */
module HandleError {
  import opened Common

  /** The `code` property: absent, a string or a number. */
  datatype Code = NoCode | StrCode(s: string) | NumCode(n: int)

  /** The runtime class an error is an instance of. */
  datatype ErrorClass = TypeErrorClass | ReferenceErrorClass | SyntaxErrorClass | RangeErrorClass | OtherClass

  /**
   * The properties `parseError` reads from a (truthy) error object. `status`
   * is `response.status`, `dataError`/`dataMessage` are `response.data.error`
   * and `response.data.message`, and `validationMessages` the `message` of
   * each value of `errors`, in order.
   */
  datatype JsError = JsError(
    isAxiosError: bool,
    httpMethod: Option<string>,
    url: Option<string>,
    status: Option<int>,
    statusText: Option<string>,
    dataError: Option<string>,
    dataMessage: Option<string>,
    name: Option<string>,
    code: Code,
    message: Option<string>,
    validationMessages: seq<Option<string>>,
    errorClass: ErrorClass)

  /** A message string, or `{ type: "Type Error", message }`. */
  datatype Parsed = Text(text: string) | TypeErrorObject(kind: string, message: Option<string>)

  /** The network codes the Axios branch maps to fixed messages. */
  predicate NetworkCode(c: Code)
  {
    c == StrCode("ENOTFOUND") || c == StrCode("ECONNREFUSED") || c == StrCode("ECONNABORTED")
    || c == StrCode("ETIMEDOUT") || c == StrCode("EAI_AGAIN")
  }

  /** `err.code && typeof err.code === "string"`. */
  predicate StringCode(c: Code)
  {
    c.StrCode? && c.s != ""
  }

  predicate IsMongo(e: JsError)
  {
    e.name == Some("MongoError") || e.name == Some("MongoServerError")
  }

  /** `status` is truthy: present and non-zero. */
  predicate HasStatus(e: JsError)
  {
    e.status.Some? && e.status.value != 0
  }

  /** `err.config?.method?.toUpperCase() || "REQUEST"`. */
  function MethodText(e: JsError): (r: string)
    ensures r != ""
  {
    if e.httpMethod.Some? && e.httpMethod.value != "" then Upper(e.httpMethod.value) else "REQUEST"
  }

  /** `err.config?.url || ""`. */
  function UrlText(e: JsError): (r: string)
    ensures e.url.Some? ==> r == e.url.value
  {
    if e.url.Some? then e.url.value else ""
  }

  /** `data?.error || data?.message || statusText || "Unknown server error"`. */
  function ServerMessage(e: JsError): (r: string)
    ensures r != ""
  {
    if Truthy(e.dataError) then e.dataError.value
    else if Truthy(e.dataMessage) then e.dataMessage.value
    else if Truthy(e.statusText) then e.statusText.value
    else "Unknown server error"
  }

  function AxiosMessage(e: JsError): string
  {
    var url := UrlText(e);
    if e.code == StrCode("ENOTFOUND") then "DNS Error: Unable to resolve host (" + url + ")."
    else if e.code == StrCode("ECONNREFUSED") then "Connection refused: " + url
    else if e.code == StrCode("ECONNABORTED") then "Timeout: " + MethodText(e) + " " + url
    else if e.code == StrCode("ETIMEDOUT") then "Network timeout while accessing " + url
    else if e.code == StrCode("EAI_AGAIN") then "Temporary DNS failure for " + url
    else if HasStatus(e) then
      "HTTP " + IntToString(e.status.value) + ": " + ServerMessage(e) + " [" + MethodText(e) + " " + url + "]"
    else "AxiosError: " + TemplateText(e.message)
  }

  function SystemMessage(code: string, message: Option<string>): string
  {
    if code == "ECONNRESET" then "Connection reset by peer."
    else if code == "EPIPE" then "Broken pipe — likely due to abrupt connection close."
    else if code == "EADDRINUSE" then "Port already in use."
    else "System Error [" + code + "]: " + TemplateText(message)
  }

  /** `Array.prototype.join` renders a missing element as the empty string. */
  function JoinedText(v: Option<string>): string
  {
    if v.Some? then v.value else ""
  }

  /** `messages.join(", ")`. */
  function ValidationText(messages: seq<Option<string>>): string
  {
    Join(seq(|messages|, i requires 0 <= i < |messages| => JoinedText(messages[i])), ", ")
  }

  /**
   * `parseError(err)`, with None for a falsy `err`. Only a TypeError that
   * passes every earlier guard yields an object; every other path yields a
   * string, and a falsy error the fixed "Unknown error occurred.".
   */
  function ParseError(err: Option<JsError>): (r: Parsed)
    ensures err.None? ==> r == Text("Unknown error occurred.")
    ensures r.TypeErrorObject? <==>
      && err.Some?
      && !err.value.isAxiosError && !IsMongo(err.value) && err.value.name != Some("ValidationError")
      && !StringCode(err.value.code) && err.value.errorClass == TypeErrorClass
    ensures r.TypeErrorObject? ==> r == TypeErrorObject("Type Error", err.value.message)
  {
    if err.None? then Text("Unknown error occurred.")
    else
      var e := err.value;
      if e.isAxiosError then Text(AxiosMessage(e))
      else if IsMongo(e) then
        if e.code == NumCode(11000) then Text("Duplicate key error: record already exists.")
        else Text("MongoDB Error: " + TemplateText(e.message))
      else if e.name == Some("ValidationError") then Text("Validation Error: " + ValidationText(e.validationMessages))
      else if StringCode(e.code) then Text(SystemMessage(e.code.s, e.message))
      else if e.errorClass == TypeErrorClass then TypeErrorObject("Type Error", e.message)
      else if e.errorClass == ReferenceErrorClass then Text("Reference Error: " + TemplateText(e.message))
      else if e.errorClass == SyntaxErrorClass then Text("Syntax Error: " + TemplateText(e.message))
      else if e.errorClass == RangeErrorClass then Text("Range Error: " + TemplateText(e.message))
      else if Truthy(e.message) then Text(e.message.value)
      else Text("Unexpected error occurred.")
  }

  /**
   * The Axios branch is checked first: for an Axios error the name, the
   * runtime class and the validation messages play no part, and the result
   * is always a string.
   */
  lemma AxiosFirst(e: JsError, name: Option<string>, cls: ErrorClass, messages: seq<Option<string>>)
    requires e.isAxiosError
    ensures ParseError(Some(e)) == ParseError(Some(e.(name := name, errorClass := cls, validationMessages := messages)))
    ensures ParseError(Some(e)).Text?
  {
  }

  /**
   * A network code is reported before the HTTP status: the status and the
   * response body do not change the message, and the URL is part of it.
   */
  lemma NetworkBeforeStatus(e: JsError, status: Option<int>, dataError: Option<string>, dataMessage: Option<string>)
    requires e.isAxiosError && NetworkCode(e.code)
    ensures ParseError(Some(e)) ==
            ParseError(Some(e.(status := status, dataError := dataError, dataMessage := dataMessage)))
    ensures Contains(ParseError(Some(e)).text, UrlText(e))
  {
    var url := UrlText(e);
    var t := ParseError(Some(e)).text;
    if e.code == StrCode("ENOTFOUND") {
      assert t == "DNS Error: Unable to resolve host (" + url + ").";
      ContainsAt("DNS Error: Unable to resolve host (", url, ").");
    } else if e.code == StrCode("ECONNREFUSED") {
      ContainsAt("Connection refused: ", url, "");
    } else if e.code == StrCode("ECONNABORTED") {
      ContainsAt("Timeout: " + MethodText(e) + " ", url, "");
    } else if e.code == StrCode("ETIMEDOUT") {
      ContainsAt("Network timeout while accessing ", url, "");
    } else {
      ContainsAt("Temporary DNS failure for ", url, "");
    }
  }

  lemma ContainsAt(a: string, b: string, c: string)
    ensures Contains(a + b + c, b)
    ensures Contains(a + b, b)
  {
    assert (a + b + c)[|a|..|a| + |b|] == b;
    assert OccursAt(a + b + c, b, |a|);
    assert (a + b)[|a|..|a| + |b|] == b;
    assert OccursAt(a + b, b, |a|);
  }

  /**
   * With a truthy status and no network code, the message is the first
   * truthy one of `data.error`, `data.message` and `statusText`, and
   * "Unknown server error" when none is.
   */
  lemma StatusMessagePrecedence(e: JsError)
    requires e.isAxiosError && !NetworkCode(e.code) && HasStatus(e)
    ensures Truthy(e.dataError) ==> Contains(ParseError(Some(e)).text, e.dataError.value)
    ensures var m := ServerMessage(e);
      && ParseError(Some(e)).text == "HTTP " + IntToString(e.status.value) + ": " + m + " [" + MethodText(e) + " " + UrlText(e) + "]"
      && (Truthy(e.dataError) ==> m == e.dataError.value)
      && (!Truthy(e.dataError) && Truthy(e.dataMessage) ==> m == e.dataMessage.value)
      && (!Truthy(e.dataError) && !Truthy(e.dataMessage) && Truthy(e.statusText) ==> m == e.statusText.value)
      && (!Truthy(e.dataError) && !Truthy(e.dataMessage) && !Truthy(e.statusText) ==> m == "Unknown server error")
  {
    var m := ServerMessage(e);
    var pre := "HTTP " + IntToString(e.status.value) + ": ";
    var post := " [" + MethodText(e) + " " + UrlText(e) + "]";
    assert ParseError(Some(e)).text == pre + m + post;
    ContainsAt(pre, m, post);
  }

  /** A MongoDB error with code 11000 yields the duplicate-key message whatever its text. */
  lemma DuplicateKey(e: JsError)
    requires !e.isAxiosError && IsMongo(e) && e.code == NumCode(11000)
    ensures ParseError(Some(e)) == Text("Duplicate key error: record already exists.")
  {
  }

  /**
   * A non-Axios, non-Mongo, non-validation error with a non-empty string
   * code gets a system-error string, whatever its runtime class: fixed texts
   * for ECONNRESET, EPIPE and EADDRINUSE, the code in brackets otherwise.
   */
  lemma SystemCodes(e: JsError)
    requires !e.isAxiosError && !IsMongo(e) && e.name != Some("ValidationError") && StringCode(e.code)
    ensures ParseError(Some(e)).Text?
    ensures e.code.s == "ECONNRESET" ==> ParseError(Some(e)).text == "Connection reset by peer."
    ensures e.code.s == "EPIPE" ==> ParseError(Some(e)).text == "Broken pipe — likely due to abrupt connection close."
    ensures e.code.s == "EADDRINUSE" ==> ParseError(Some(e)).text == "Port already in use."
    ensures e.code.s !in {"ECONNRESET", "EPIPE", "EADDRINUSE"} ==>
      IsPrefix("System Error [" + e.code.s + "]: ", ParseError(Some(e)).text)
  {
    if e.code.s !in {"ECONNRESET", "EPIPE", "EADDRINUSE"} {
      var p := "System Error [" + e.code.s + "]: ";
      assert ParseError(Some(e)).text == p + TemplateText(e.message);
      assert (p + TemplateText(e.message))[..|p|] == p;
    }
  }

  /** What occurs in a string still occurs after a prefix is put in front of it. */
  lemma ContainsAfterPrefix(pre: string, s: string, t: string)
    requires Contains(s, t)
    ensures Contains(pre + s, t)
  {
    var j :| 0 <= j <= |s| - |t| && OccursAt(s, t, j);
    assert (pre + s)[|pre| + j..|pre| + j + |t|] == s[j..j + |t|];
    assert OccursAt(pre + s, t, |pre| + j);
  }

  /** Every part of a joined string occurs in it. */
  lemma {:induction false} JoinContainsPart(parts: seq<string>, sep: string, i: int)
    requires 0 <= i < |parts|
    ensures Contains(Join(parts, sep), parts[i])
  {
    if |parts| == 1 {
      assert OccursAt(Join(parts, sep), parts[0], 0);
    } else if i == 0 {
      ContainsAt("", parts[0], sep + Join(parts[1..], sep));
      assert "" + parts[0] + (sep + Join(parts[1..], sep)) == Join(parts, sep);
    } else {
      JoinContainsPart(parts[1..], sep, i - 1);
      assert parts[1..][i - 1] == parts[i];
      ContainsAfterPrefix(parts[0] + sep, Join(parts[1..], sep), parts[i]);
      assert Join(parts, sep) == parts[0] + sep + Join(parts[1..], sep);
    }
  }

  /**
   * A validation error (that is neither an Axios nor a MongoDB error) yields
   * "Validation Error: " followed by the messages of its `errors` joined
   * with ", ": every present message occurs in the text, a missing message
   * contributes nothing, and without errors the text is the bare prefix.
   */
  lemma ValidationMessages(e: JsError)
    requires !e.isAxiosError && !IsMongo(e) && e.name == Some("ValidationError")
    ensures ParseError(Some(e)) == Text("Validation Error: " + ValidationText(e.validationMessages))
    ensures forall i :: 0 <= i < |e.validationMessages| && e.validationMessages[i].Some? ==>
      Contains(ParseError(Some(e)).text, e.validationMessages[i].value)
    ensures e.validationMessages == [] ==> ParseError(Some(e)).text == "Validation Error: "
    ensures e.validationMessages == [None] ==> ParseError(Some(e)).text == "Validation Error: "
  {
    var ms := e.validationMessages;
    var parts := seq(|ms|, i requires 0 <= i < |ms| => JoinedText(ms[i]));
    var pre := "Validation Error: ";
    forall i | 0 <= i < |ms| && ms[i].Some?
      ensures Contains(ParseError(Some(e)).text, ms[i].value)
    {
      JoinContainsPart(parts, ", ", i);
      ContainsAfterPrefix(pre, Join(parts, ", "), ms[i].value);
    }
  }

  /**
   * The catch-all returns the error's own message when it is truthy and
   * "Unexpected error occurred." otherwise.
   */
  lemma CatchAll(e: JsError)
    requires !e.isAxiosError && !IsMongo(e) && e.name != Some("ValidationError") && !StringCode(e.code)
    requires e.errorClass == OtherClass
    ensures Truthy(e.message) ==> ParseError(Some(e)) == Text(e.message.value)
    ensures !Truthy(e.message) ==> ParseError(Some(e)) == Text("Unexpected error occurred.")
  {
  }
}

=== FILE: helper.dfy ===
/**
 * The helpers of the Express back end's track pipeline: batching, title
 * normalisation, the merge of a Last.fm and a Spotify payload into one track
 * record, the de-duplication of artists before they are stored and the
 * duplicate-title filter applied to an artist's Last.fm top tracks.
 */
module Helper {
  import opened Common

  // ---------------------------------------------------------------------------
  // chunkArray
  // ---------------------------------------------------------------------------

  /** The slices `a.slice(i, i + size)` for i = 0, size, 2 * size, ... below |a|. */
  function Chunks<T>(a: seq<T>, size: nat): seq<seq<T>>
    requires size > 0
    decreases |a|
  {
    if |a| == 0 then []
    else if |a| <= size then [a]
    else [a[..size]] + Chunks(a[size..], size)
  }

  /**
   * The chunks concatenate back to the input, there are ceil(|a| / size) of
   * them (stated without division), each holds between 1 and `size` elements
   * and all but the last hold exactly `size`.
   */
  lemma ChunksSpec<T>(a: seq<T>, size: nat)
    requires size > 0
    ensures Flatten(Chunks(a, size)) == a
    ensures |a| <= |Chunks(a, size)| * size < |a| + size
    ensures forall k :: 0 <= k < |Chunks(a, size)| ==> 1 <= |Chunks(a, size)[k]| <= size
    ensures forall k :: 0 <= k < |Chunks(a, size)| - 1 ==> |Chunks(a, size)[k]| == size
  {
    ChunksFlatten(a, size);
    ChunksCount(a, size);
    ChunksSizes(a, size);
  }

  lemma {:induction false} ChunksFlatten<T>(a: seq<T>, size: nat)
    requires size > 0
    ensures Flatten(Chunks(a, size)) == a
    decreases |a|
  {
    var c := Chunks(a, size);
    if |a| == 0 {
    } else if |a| <= size {
      assert c == [a];
      assert Flatten(c) == a + Flatten(c[1..]);
    } else {
      var rest := Chunks(a[size..], size);
      ChunksFlatten(a[size..], size);
      assert c == [a[..size]] + rest;
      assert c[1..] == rest;
      assert Flatten(c) == a[..size] + Flatten(rest);
      assert a[..size] + a[size..] == a;
    }
  }

  lemma {:induction false} ChunksCount<T>(a: seq<T>, size: nat)
    requires size > 0
    ensures |a| <= |Chunks(a, size)| * size < |a| + size
    decreases |a|
  {
    if |a| > size {
      var rest := Chunks(a[size..], size);
      ChunksCount(a[size..], size);
      assert |Chunks(a, size)| == |rest| + 1;
      assert |Chunks(a, size)| * size == |rest| * size + size;
    }
  }

  lemma {:induction false} ChunksSizes<T>(a: seq<T>, size: nat)
    requires size > 0
    ensures forall k :: 0 <= k < |Chunks(a, size)| ==> 1 <= |Chunks(a, size)[k]| <= size
    ensures forall k :: 0 <= k < |Chunks(a, size)| - 1 ==> |Chunks(a, size)[k]| == size
    decreases |a|
  {
    var c := Chunks(a, size);
    if |a| > size {
      var rest := Chunks(a[size..], size);
      ChunksSizes(a[size..], size);
      assert c == [a[..size]] + rest;
      forall k | 1 <= k < |c|
        ensures c[k] == rest[k - 1]
      {
      }
    }
  }

  /** `chunkArray(array, size)`: pushes one slice per step of `size`. */
  method ChunkArray<T>(a: seq<T>, size: nat) returns (result: seq<seq<T>>)
    requires size > 0
    ensures result == Chunks(a, size)
  {
    result := [];
    var i := 0;
    assert a[0..] == a;
    while i < |a|
      invariant i < |a| ==> Chunks(a, size) == result + Chunks(a[i..], size)
      invariant i >= |a| ==> Chunks(a, size) == result
      decreases |a| - i
    {
      if i + size < |a| {
        assert a[i..][..size] == a[i..i + size];
        assert a[i..][size..] == a[i + size..];
        assert Chunks(a[i..], size) == [a[i..i + size]] + Chunks(a[i + size..], size);
        result := result + [a[i..i + size]];
      } else {
        assert Chunks(a[i..], size) == [a[i..]];
        result := result + [a[i..]];
      }
      i := i + size;
    }
  }

  // ---------------------------------------------------------------------------
  // normalizeTitle
  // ---------------------------------------------------------------------------

  /** The characters `.` does not match in a JavaScript regular expression. */
  predicate LineTerminator(c: char)
  {
    var n := c as int;
    n == 0x0A || n == 0x0D || n == 0x2028 || n == 0x2029
  }

  /** The class `[-–—]`: hyphen-minus, en dash (U+2013) and em dash (U+2014). */
  predicate Dash(c: char)
  {
    var n := c as int;
    n == 0x2D || n == 0x2013 || n == 0x2014
  }

  /** The end of the run of JavaScript white space starting at `i`. */
  function JsSpaceRun(s: string, i: nat): (e: nat)
    requires i <= |s|
    ensures i <= e <= |s|
    ensures forall k :: i <= k < e ==> JsSpace(s[k])
    ensures e == |s| || !JsSpace(s[e])
    decreases |s| - i
  {
    if i < |s| && JsSpace(s[i]) then JsSpaceRun(s, i + 1) else i
  }

  /** "from" in any letter case starts at `k`. */
  predicate FromWordAt(s: string, k: nat)
  {
    k + 4 <= |s|
    && LowerChar(s[k]) == 'f' && LowerChar(s[k + 1]) == 'r'
    && LowerChar(s[k + 2]) == 'o' && LowerChar(s[k + 3]) == 'm'
  }

  /**
   * The pattern `\s*[-–—]?\s*from\s+".*?"$` (case-insensitive) matches the
   * suffix of `s` that starts at `i`. Each white-space run is taken whole: a
   * shorter run leaves a white-space character where a dash, "f" or the
   * quote is needed. The lazy `.*?"` followed by `$` must reach the last
   * character, which is the closing quote, without crossing a line break.
   */
  predicate FromSuffixAt(s: string, i: nat)
    requires i <= |s|
  {
    var j := JsSpaceRun(s, i);
    var j2 := if j < |s| && Dash(s[j]) then j + 1 else j;
    var k := JsSpaceRun(s, j2);
    FromWordAt(s, k)
    && var m := JsSpaceRun(s, k + 4);
    m > k + 4 && m + 1 < |s| && s[m] == '"' && s[|s| - 1] == '"'
    && forall p :: m < p < |s| - 1 ==> !LineTerminator(s[p])
  }

  /** The positions where the suffix pattern matches. */
  function SuffixHits(s: string): nat -> bool
  {
    (p: nat) => p <= |s| && FromSuffixAt(s, p)
  }

  /** The first replacement: cut `s` at the leftmost position from `i` on where the suffix pattern matches. */
  function StripFromSuffix(s: string, i: nat): (r: string)
    requires i <= |s|
    ensures IsPrefix(r, s)
    ensures |r| < |s| ==> i <= |r| && FromSuffixAt(s, |r|)
  {
    s[..FirstFrom(SuffixHits(s), i, |s|)]
  }

  /** The suffix pattern needs at least the four letters of "from" after its start. */
  lemma FromSuffixInside(s: string, i: nat)
    requires i <= |s|
    ensures FromSuffixAt(s, i) ==> i + 4 <= |s|
  {
  }

  /** A match at 1 but not at 0 keeps only the first character. */
  lemma StripAtOne(s: string)
    requires 1 <= |s| && !FromSuffixAt(s, 0) && FromSuffixAt(s, 1)
    ensures StripFromSuffix(s, 0) == s[..1]
  {
    var hit := SuffixHits(s);
    assert !hit(0) && hit(1);
    assert FirstFrom(hit, 0, |s|) == FirstFrom(hit, 1, |s|) == 1;
  }

  /** The cut is at the leftmost match: no position before it matches. */
  lemma StripFromSuffixLeftmost(s: string, i: nat)
    requires i <= |s|
    ensures var r := StripFromSuffix(s, i);
      |r| < |s| ==> forall p :: i <= p < |r| ==> !FromSuffixAt(s, p)
  {
    forall p | i <= p < |StripFromSuffix(s, i)| < |s|
      ensures !FromSuffixAt(s, p)
    {
      FirstFromLeast(SuffixHits(s), i, |s|, p);
    }
  }

  /** When nothing is cut, the suffix pattern matches nowhere. */
  lemma StripFromSuffixNone(s: string, i: nat)
    requires i <= |s|
    ensures |StripFromSuffix(s, i)| == |s| ==> forall p :: i <= p <= |s| ==> !FromSuffixAt(s, p)
  {
    forall p | i <= p <= |s| && |StripFromSuffix(s, i)| == |s|
      ensures !FromSuffixAt(s, p)
    {
      if p < |s| {
        FirstFromLeast(SuffixHits(s), i, |s|, p);
      } else {
        FromSuffixInside(s, p);
      }
    }
  }

  /** Where the group opened before `k` closes: the first ")" at or after `k`, unless a line break comes first. */
  function CloseParen(s: string, k: nat): (r: Option<nat>)
    requires k <= |s|
    ensures r.Some? ==> k <= r.value < |s| && s[r.value] == ')'
    ensures r.Some? ==> forall p :: k <= p < r.value ==> s[p] != ')' && !LineTerminator(s[p])
    ensures r.None? ==> forall p :: k <= p < |s| && s[p] == ')' ==> exists q :: k <= q < p && LineTerminator(s[q])
    decreases |s| - k
  {
    if k == |s| then None
    else if s[k] == ')' then Some(k)
    else if LineTerminator(s[k]) then None
    else CloseParen(s, k + 1)
  }

  /** The second replacement, `replace(/\(.*?\)/g, "")`: every group from "(" to the next ")" is removed, scanning left to right. */
  function RemoveParens(s: string): (r: string)
    ensures |r| <= |s|
    ensures '(' !in s ==> r == s
    decreases |s|
  {
    if |s| == 0 then s
    else if s[0] == '(' && CloseParen(s, 1).Some? then RemoveParens(s[CloseParen(s, 1).value + 1..])
    else [s[0]] + RemoveParens(s[1..])
  }

  /** Lower-casing keeps a trimmed string trimmed and leaves no ASCII capital. */
  lemma LowerTrimmed(t: string)
    requires t == [] || (!JsSpace(t[0]) && !JsSpace(t[|t| - 1]))
    ensures Lower(t) == [] || (!JsSpace(Lower(t)[0]) && !JsSpace(Lower(t)[|t| - 1]))
    ensures forall i :: 0 <= i < |t| ==> !('A' <= Lower(t)[i] <= 'Z')
  {
    if t != [] {
      LowerCharKeepsSpace(t[0], JsSpace);
      LowerCharKeepsSpace(t[|t| - 1], JsSpace);
    }
  }

  /** `normalizeTitle(title)`. */
  function NormalizeTitle(title: string): (r: string)
    ensures r == [] || (!JsSpace(r[0]) && !JsSpace(r[|r| - 1]))
    ensures forall i :: 0 <= i < |r| ==> !('A' <= r[i] <= 'Z')
    ensures |r| <= |title|
  {
    var t := JsTrim(RemoveParens(StripFromSuffix(title, 0)));
    LowerTrimmed(t);
    Lower(t)
  }

  lemma NoQuoteNoStrip(s: string)
    requires '"' !in s
    ensures StripFromSuffix(s, 0) == s
  {
  }

  lemma TrimmedFixed(s: string)
    requires s == [] || (!JsSpace(s[0]) && !JsSpace(s[|s| - 1]))
    ensures JsTrim(s) == s
  {
    if s != [] {
      assert TrimStart(s, JsSpace) == s;
    }
  }

  /**
   * A title that is already trimmed, lower-case and free of quotes and
   * parentheses is its own normal form.
   */
  lemma NormalizePlain(title: string)
    requires title == [] || (!JsSpace(title[0]) && !JsSpace(title[|title| - 1]))
    requires forall i :: 0 <= i < |title| ==> !('A' <= title[i] <= 'Z')
    requires '"' !in title && '(' !in title
    ensures NormalizeTitle(title) == title
  {
    NoQuoteNoStrip(title);
    TrimmedFixed(title);
    assert Lower(title) == title;
  }

  /** The suffix pattern ends with a quote, so a title that does not end with one is left as it is. */
  lemma NoClosingQuoteNoStrip(s: string)
    requires s == [] || s[|s| - 1] != '"'
    ensures StripFromSuffix(s, 0) == s
  {
  }

  /** The value of `normalizeTitle` read off its three replacements and the final lower-casing. */
  lemma NormalizeVia(title: string, stripped: string, removed: string, trimmed: string, r: string)
    requires StripFromSuffix(title, 0) == stripped && RemoveParens(stripped) == removed
    requires JsTrim(removed) == trimmed && Lower(trimmed) == r
    ensures NormalizeTitle(title) == r
  {
  }

  lemma SuffixExampleNoMatchAt0()
    ensures !FromSuffixAt("A - From \"B\"", 0)
  {
    var s := "A - From \"B\"";
    assert s[0..4] == "A - ";
  }

  lemma SuffixExampleMatchAt1()
    ensures FromSuffixAt("A - From \"B\"", 1)
  {
    var s := "A - From \"B\"";
    assert JsSpaceRun(s, 1) == 2;
    assert Dash(s[2]);
    assert JsSpaceRun(s, 3) == 4;
    assert FromWordAt(s, 4);
    assert JsSpaceRun(s, 8) == 9;
  }

  lemma SuffixExampleStrip()
    ensures StripFromSuffix("A - From \"B\"", 0) == "A"
  {
    var s := "A - From \"B\"";
    SuffixExampleNoMatchAt0();
    SuffixExampleMatchAt1();
    StripAtOne(s);
    assert s[..1] == "A";
  }

  lemma SingleLetterParens()
    ensures RemoveParens("A") == "A"
  {
  }

  lemma SingleLetterTrim()
    ensures JsTrim("A") == "A"
  {
  }

  lemma SingleLetterTrimSpace()
    ensures JsTrim("A ") == "A"
  {
  }

  lemma SingleLetterLower()
    ensures Lower("A") == "a"
  {
  }

  lemma LowerLetterNormal()
    ensures RemoveParens("a") == "a" && JsTrim("a") == "a" && Lower("a") == "a"
  {
  }

  /** A soundtrack suffix is removed: `A - From "B"` becomes `a`. */
  lemma NormalizeSuffixExample()
    ensures NormalizeTitle("A - From \"B\"") == "a"
  {
    SuffixExampleStrip();
    SingleLetterParens();
    SingleLetterTrim();
    SingleLetterLower();
    NormalizeVia("A - From \"B\"", "A", "A", "A", "a");
  }

  lemma ParensExampleRemove()
    ensures RemoveParens("A (Live)") == "A "
  {
    assert CloseParen("(Live)", 1) == Some(5);
    assert RemoveParens("(Live)") == "";
    assert "A (Live)"[1..] == " (Live)";
    assert " (Live)"[1..] == "(Live)";
  }

  /** A parenthesised tag is removed: `A (Live)` becomes `a`. */
  lemma NormalizeParensExample()
    ensures NormalizeTitle("A (Live)") == "a"
  {
    NoClosingQuoteNoStrip("A (Live)");
    ParensExampleRemove();
    SingleLetterTrimSpace();
    SingleLetterLower();
    NormalizeVia("A (Live)", "A (Live)", "A ", "A", "a");
  }

  lemma RemoveParensCons(s: string)
    requires s != [] && s[0] != '('
    ensures RemoveParens(s) == [s[0]] + RemoveParens(s[1..])
  {
  }

  /** Text without an opening parenthesis passes through the group removal unchanged. */
  lemma {:induction false} RemoveParensPlainPrefix(x: string, y: string)
    requires '(' !in x
    ensures RemoveParens(x + y) == x + RemoveParens(y)
    decreases |x|
  {
    if x == [] {
      assert x + y == y;
    } else {
      ConsConcat(x, y);
      ConsConcat(x, RemoveParens(y));
      assert x[0] != '(' by {
        assert x[0] in x;
      }
      assert '(' !in x[1..] by {
        assert forall k :: 0 <= k < |x[1..]| ==> x[1..][k] == x[k + 1];
      }
      RemoveParensCons(x + y);
      RemoveParensPlainPrefix(x[1..], y);
    }
  }

  lemma GroupExampleRemove()
    ensures RemoveParens("(c)") == ""
  {
    assert CloseParen("(c)", 1) == Some(2);
  }

  lemma IdempotentExampleRemove()
    ensures RemoveParens("a from \"b\" (c)") == "a from \"b\" "
  {
    GroupExampleRemove();
    RemoveParensPlainPrefix("a from \"b\" ", "(c)");
    assert "a from \"b\" " + "(c)" == "a from \"b\" (c)";
  }

  lemma IdempotentExampleTrim()
    ensures JsTrim("a from \"b\" ") == "a from \"b\""
  {
    var t := "a from \"b\"";
    assert !JsSpace(t[0]) && !JsSpace(t[|t| - 1]) && JsSpace(' ');
    TrimTrailing(t, ' ', JsSpace);
    assert t + [' '] == "a from \"b\" ";
  }

  lemma IdempotentExampleNoMatchAt0()
    ensures !FromSuffixAt("a from \"b\"", 0)
  {
    var t := "a from \"b\"";
    assert t[0..4] == "a fr";
  }

  lemma IdempotentExampleMatchAt1()
    ensures FromSuffixAt("a from \"b\"", 1)
  {
    var t := "a from \"b\"";
    assert JsSpaceRun(t, 1) == 2;
    assert !Dash(t[2]);
    assert JsSpaceRun(t, 2) == 2;
    assert FromWordAt(t, 2);
    assert JsSpaceRun(t, 6) == 7;
  }

  lemma IdempotentExampleStrip()
    ensures StripFromSuffix("a from \"b\"", 0) == "a"
  {
    var t := "a from \"b\"";
    IdempotentExampleNoMatchAt0();
    IdempotentExampleMatchAt1();
    StripAtOne(t);
    assert t[..1] == "a";
  }

  lemma IdempotentExampleLower()
    ensures Lower("a from \"b\"") == "a from \"b\""
  {
  }

  lemma IdempotentExampleFirstPass()
    ensures NormalizeTitle("a from \"b\" (c)") == "a from \"b\""
  {
    NoClosingQuoteNoStrip("a from \"b\" (c)");
    IdempotentExampleRemove();
    IdempotentExampleTrim();
    IdempotentExampleLower();
    NormalizeVia("a from \"b\" (c)", "a from \"b\" (c)", "a from \"b\" ", "a from \"b\"", "a from \"b\"");
  }

  lemma IdempotentExampleSecondPass()
    ensures NormalizeTitle("a from \"b\"") == "a"
  {
    IdempotentExampleStrip();
    LowerLetterNormal();
    NormalizeVia("a from \"b\"", "a", "a", "a", "a");
  }

  /**
   * Normalising is not idempotent: removing a trailing group can expose a
   * soundtrack suffix that the first replacement, which runs before it,
   * could not see.
   */
  lemma NormalizeNotIdempotent()
    ensures NormalizeTitle(NormalizeTitle("a from \"b\" (c)")) != NormalizeTitle("a from \"b\" (c)")
  {
    IdempotentExampleFirstPass();
    IdempotentExampleSecondPass();
  }

  // ---------------------------------------------------------------------------
  // mergeResults and mergeResults_withIds
  // ---------------------------------------------------------------------------

  /** The outcome of one promise of `Promise.allSettled`. */
  datatype Settled<T> = Fulfilled(value: T) | Rejected

  datatype SpotifyArtist = SpotifyArtist(name: Option<string>, id: Option<string>)

  /** One entry of an album's `images` list. */
  datatype SpotifyImage = SpotifyImage(url: Option<string>, height: Option<real>, width: Option<real>)

  /** An album: `images` is `None` when the property is missing. */
  datatype SpotifyAlbum = SpotifyAlbum(name: Option<string>, releaseDate: Option<string>, images: Option<seq<SpotifyImage>>)

  /** The properties of a Spotify track object that the merge reads; `None` is a missing property. */
  datatype SpotifyTrack = SpotifyTrack(
    id: Option<string>,
    name: Option<string>,
    artists: Option<seq<SpotifyArtist>>,
    durationMs: Option<real>,
    album: Option<SpotifyAlbum>,
    popularity: Option<real>)

  /**
   * A Last.fm album: its name and the `#text` of each entry of its `image`
   * list (`None` for an entry without one); `image` is `None` when missing.
   */
  datatype LastfmAlbum = LastfmAlbum(name: Option<string>, image: Option<seq<Option<string>>>)

  /**
   * The properties of a Last.fm track object that the merge reads: `image`
   * holds the `#text` of each image entry, `tags` the `name` of each entry of
   * `toptags.tags`, `wikiSummary` is `wiki.summary`.
   */
  datatype LastfmTrack = LastfmTrack(
    name: Option<string>,
    artistName: Option<string>,
    duration: Option<real>,
    mbid: Option<string>,
    listeners: Option<string>,
    playcount: Option<string>,
    image: Option<seq<Option<string>>>,
    album: Option<LastfmAlbum>,
    wikiSummary: Option<string>,
    tags: Option<seq<Option<string>>>)

  /**
   * The `baseSong` argument. The merge reads its `title` property; the
   * callers build it as `{song, artist, rank}`, so `title` is missing there.
   */
  datatype BaseSong = BaseSong(title: Option<string>, song: Option<string>, artist: Option<string>, rank: Option<int>)

  /** The `{song, artist, rank}` literal the callers pass. */
  function SongRecord(song: string, artist: Option<string>, rank: Option<int>): BaseSong
  {
    BaseSong(None, Some(song), artist, rank)
  }

  datatype ArtistEntry = ArtistEntry(name: Option<string>, spotifyId: Option<string>)

  /** The `image` object of a merged track. */
  datatype TrackImage = TrackImage(url: string, height: real, width: real)

  /**
   * The merged track record. `None` stands for `undefined` in `title`, for
   * `null` in `lastfmId`, `spotifyId` and `year`, and for the number 0 in
   * the two count fields, which otherwise hold Last.fm's count strings.
   */
  datatype MergedTrack = MergedTrack(
    title: Option<string>,
    artistsName: seq<Option<string>>,
    songId: string,
    image: TrackImage,
    release: string,
    wikiSummary: string,
    allTags: string,
    duration: real,
    lastfmId: Option<string>,
    spotifyId: Option<string>,
    popularityScore: int,
    spotifyPopularity: real,
    listeners: Option<string>,
    playCount: Option<string>,
    year: Option<string>,
    source: string,
    embeddingsStatus: string,
    artists: seq<ArtistEntry>,
    rank: Option<int>,
    previousMongoId: Option<string>)

  /** A number is truthy unless it is 0 or NaN (a missing property divided by 1000). */
  predicate TruthyNumber(v: Option<real>)
  {
    v.Some? && v.value != 0.0
  }

  /** `result.status === "fulfilled" ? result.value : null`. */
  function DataOf<T>(r: Settled<Option<T>>): Option<T>
  {
    if r.Fulfilled? then r.value else None
  }

  /** `${title}-${artist}`.toLowerCase(). */
  function FallbackId(title: Option<string>, artist: Option<string>): string
  {
    Lower(TemplateText(title) + "-" + TemplateText(artist))
  }

  /** `duration_ms / 1000 || lastfm duration / 1000 || 0`. */
  function Duration(sp: Option<SpotifyTrack>, lf: Option<LastfmTrack>): real
  {
    if sp.Some? && TruthyNumber(sp.value.durationMs) then sp.value.durationMs.value / 1000.0
    else if lf.Some? && TruthyNumber(lf.value.duration) then lf.value.duration.value / 1000.0
    else 0.0
  }

  /** `album?.release_date?.split("-")[0] || null`. */
  function Year(sp: Option<SpotifyTrack>): Option<string>
  {
    if sp.Some? && sp.value.album.Some? && sp.value.album.value.releaseDate.Some? then
      var y := BeforeFirst(sp.value.album.value.releaseDate.value, '-');
      if y != "" then Some(y) else None
    else None
  }

  /** `images[0]` of Spotify's album, when the album lists an image. */
  function FirstSpotifyImage(sp: Option<SpotifyTrack>): Option<SpotifyImage>
  {
    if sp.Some? && sp.value.album.Some? && sp.value.album.value.images.Some? && |sp.value.album.value.images.value| > 0 then
      Some(sp.value.album.value.images.value[0])
    else None
  }

  /**
   * `spotifyData?.album?.images[0]` throws a TypeError when an album is
   * present without `images`; the merge's `catch` then returns undefined.
   */
  predicate SpotifyImagesThrow(sp: Option<SpotifyTrack>)
  {
    sp.Some? && sp.value.album.Some? && sp.value.album.value.images.None?
  }

  /** `lastfmData?.image ? lastfmData?.image[0]?.["#text"] : null`. */
  function LastfmImageUrl(lf: Option<LastfmTrack>): Option<string>
  {
    if lf.Some? && lf.value.image.Some? && |lf.value.image.value| > 0 then lf.value.image.value[0] else None
  }

  /** `x || 300` on an image dimension. */
  function DimensionOr300(v: Option<real>): real
  {
    if TruthyNumber(v) then v.value else 300.0
  }

  /** The merged `image`: Spotify's first album image, with Last.fm's URL, "" and 300 as fallbacks. */
  function MergedImage(sp: Option<SpotifyTrack>, lfUrl: Option<string>): TrackImage
  {
    var img := FirstSpotifyImage(sp);
    TrackImage(
      TemplateEmpty(OrElse(if img.Some? then img.value.url else None, lfUrl)),
      DimensionOr300(if img.Some? then img.value.height else None),
      DimensionOr300(if img.Some? then img.value.width else None))
  }

  /** `v || ""` on a string property. */
  function TemplateEmpty(v: Option<string>): string
  {
    if Truthy(v) then v.value else ""
  }

  /** `tags.map(tag => tag.name).toString()`: the names joined by ",", a missing name rendering as "". */
  function TagsText(tags: seq<Option<string>>): string
  {
    Join(seq(|tags|, i requires 0 <= i < |tags| => if tags[i].Some? then tags[i].value else ""), ",")
  }

  /** `lastfmData?.toptags?.tags?.map(...).toString() || ""`. */
  function AllTags(lf: Option<LastfmTrack>): string
  {
    if lf.Some? && lf.value.tags.Some? then TagsText(lf.value.tags.value) else ""
  }

  /** `spotifyData?.album?.name || lastfmData?.album?.name || ""`. */
  function Release(sp: Option<SpotifyTrack>, lf: Option<LastfmTrack>): string
  {
    TemplateEmpty(OrElse(if sp.Some? && sp.value.album.Some? then sp.value.album.value.name else None,
                         if lf.Some? && lf.value.album.Some? then lf.value.album.value.name else None))
  }

  /** `artist_name_spotify || [lastfmData?.artist?.name] || baseSong.artist`: an array is always truthy. */
  function ArtistsName(sp: Option<SpotifyTrack>, lf: Option<LastfmTrack>): seq<Option<string>>
  {
    if sp.Some? && sp.value.artists.Some? then
      seq(|sp.value.artists.value|, i requires 0 <= i < |sp.value.artists.value| => sp.value.artists.value[i].name)
    else [if lf.Some? then lf.value.artistName else None]
  }

  function SpotifyArtists(sp: Option<SpotifyTrack>): Option<seq<ArtistEntry>>
  {
    if sp.Some? && sp.value.artists.Some? then
      Some(seq(|sp.value.artists.value|, i requires 0 <= i < |sp.value.artists.value| =>
        ArtistEntry(sp.value.artists.value[i].name, sp.value.artists.value[i].id)))
    else None
  }

  /**
   * The record `mergeResults` builds when nothing throws, with `titleProp`
   * for the value of `baseSong.title`. "spotify" is listed whenever
   * `spotifyResult`, the settled-promise object, is truthy, which it always is.
   */
  function Merge(lastfmResult: Settled<Option<LastfmTrack>>, spotifyResult: Settled<Option<SpotifyTrack>>,
                 base: BaseSong, titleProp: Option<string>): MergedTrack
  {
    var lf := DataOf(lastfmResult);
    var sp := DataOf(spotifyResult);
    var lfArtist := if lf.Some? then lf.value.artistName else None;
    MergedTrack(
      title := OrElse(OrElse(if sp.Some? then sp.value.name else None, if lf.Some? then lf.value.name else None), titleProp),
      artistsName := ArtistsName(sp, lf),
      songId := if sp.Some? && Truthy(sp.value.id) then sp.value.id.value else FallbackId(titleProp, base.artist),
      image := MergedImage(sp, LastfmImageUrl(lf)),
      release := Release(sp, lf),
      wikiSummary := if lf.Some? then TemplateEmpty(lf.value.wikiSummary) else "",
      allTags := AllTags(lf),
      duration := Duration(sp, lf),
      lastfmId := if lf.Some? && Truthy(lf.value.mbid) then lf.value.mbid else None,
      spotifyId := if sp.Some? && Truthy(sp.value.id) then sp.value.id else None,
      popularityScore := 0,
      spotifyPopularity := if sp.Some? && TruthyNumber(sp.value.popularity) then sp.value.popularity.value else 0.0,
      listeners := if lf.Some? && Truthy(lf.value.listeners) then lf.value.listeners else None,
      playCount := if lf.Some? && Truthy(lf.value.playcount) then lf.value.playcount else None,
      year := Year(sp),
      source := Join((if lf.Some? then ["lastfm"] else []) + ["spotify"], ", "),
      embeddingsStatus := "pending",
      artists := if SpotifyArtists(sp).Some? then SpotifyArtists(sp).value else [ArtistEntry(lfArtist, Some(""))],
      rank := base.rank,
      previousMongoId := None)
  }

  /**
   * `mergeResults` as written: the title fallback and the fallback id read
   * `baseSong.title`; `None` is the undefined its `catch` returns.
   */
  function MergeResultsAsWritten(lastfmResult: Settled<Option<LastfmTrack>>, spotifyResult: Settled<Option<SpotifyTrack>>,
                                 base: BaseSong): Option<MergedTrack>
  {
    if SpotifyImagesThrow(DataOf(spotifyResult)) then None else Some(Merge(lastfmResult, spotifyResult, base, base.title))
  }

  /**
   * `mergeResults` reading the property its callers set, `baseSong.song`,
   * where the source reads `baseSong.title`; the rest of the model uses this
   * intended version.
   */
  function MergeResults(lastfmResult: Settled<Option<LastfmTrack>>, spotifyResult: Settled<Option<SpotifyTrack>>,
                        base: BaseSong): Option<MergedTrack>
  {
    if SpotifyImagesThrow(DataOf(spotifyResult)) then None else Some(Merge(lastfmResult, spotifyResult, base, base.song))
  }

  /**
   * The merge returns undefined exactly when Spotify's album lacks `images`;
   * otherwise the record carries the optional fields with their fallbacks:
   * the image from Spotify's first album image (URL, else Last.fm's first
   * image text, else ""; height and width else 300), the release from the
   * Spotify then the Last.fm album name, the wiki summary and the tag names
   * joined by "," (else ""), and the artist names from Spotify, else the one
   * Last.fm artist name, never the base song's artist. A wiki summary or an
   * album name that is missing or empty gives "".
   */
  lemma MergeFields(lastfmResult: Settled<Option<LastfmTrack>>, spotifyResult: Settled<Option<SpotifyTrack>>, base: BaseSong)
    ensures var sp := DataOf(spotifyResult);
      MergeResults(lastfmResult, spotifyResult, base).None? <==>
        sp.Some? && sp.value.album.Some? && sp.value.album.value.images.None?
    ensures MergeResults(lastfmResult, spotifyResult, base).Some? ==>
      var r := MergeResults(lastfmResult, spotifyResult, base).value;
      var lf := DataOf(lastfmResult);
      var sp := DataOf(spotifyResult);
      var img := FirstSpotifyImage(sp);
      var spAlbum := if sp.Some? && sp.value.album.Some? then sp.value.album.value.name else None;
      var lfAlbum := if lf.Some? && lf.value.album.Some? then lf.value.album.value.name else None;
      && (img.Some? && Truthy(img.value.url) ==> r.image.url == img.value.url.value)
      && (!(img.Some? && Truthy(img.value.url)) && Truthy(LastfmImageUrl(lf)) ==> r.image.url == LastfmImageUrl(lf).value)
      && (!(img.Some? && Truthy(img.value.url)) && !Truthy(LastfmImageUrl(lf)) ==> r.image.url == "")
      && (img.Some? && TruthyNumber(img.value.height) ==> r.image.height == img.value.height.value)
      && (!(img.Some? && TruthyNumber(img.value.height)) ==> r.image.height == 300.0)
      && (img.Some? && TruthyNumber(img.value.width) ==> r.image.width == img.value.width.value)
      && (!(img.Some? && TruthyNumber(img.value.width)) ==> r.image.width == 300.0)
      && (Truthy(spAlbum) ==> r.release == spAlbum.value)
      && (!Truthy(spAlbum) && Truthy(lfAlbum) ==> r.release == lfAlbum.value)
      && (!Truthy(spAlbum) && !Truthy(lfAlbum) ==> r.release == "")
      && (lf.Some? && Truthy(lf.value.wikiSummary) ==> r.wikiSummary == lf.value.wikiSummary.value)
      && (!(lf.Some? && Truthy(lf.value.wikiSummary)) ==> r.wikiSummary == "")
      && (lf.None? ==> r.allTags == "" && r.image.url == TemplateEmpty(if img.Some? then img.value.url else None))
      && (lf.Some? && lf.value.tags.Some? ==> r.allTags == TagsText(lf.value.tags.value))
      && (lf.Some? && lf.value.tags.None? ==> r.allTags == "")
      && (sp.Some? && sp.value.artists.Some? ==>
            |r.artistsName| == |sp.value.artists.value| &&
            forall i :: 0 <= i < |r.artistsName| ==> r.artistsName[i] == sp.value.artists.value[i].name)
      && (!(sp.Some? && sp.value.artists.Some?) ==> r.artistsName == [if lf.Some? then lf.value.artistName else None])
  {
  }

  /** The tag text lists the names in order: a single name is itself, and two are joined by a comma. */
  lemma TagsTextJoins(a: string, b: string)
    ensures TagsText([Some(a)]) == a
    ensures TagsText([Some(a), None]) == a + ","
    ensures TagsText([Some(a), Some(b)]) == a + "," + b
  {
    assert seq(1, i requires 0 <= i < 1 => if [Some(a)][i].Some? then [Some(a)][i].value else "") == [a];
    var two := seq(2, i requires 0 <= i < 2 => if [Some(a), None][i].Some? then [Some(a), None][i].value else "");
    assert two == [a, ""] && two[1..] == [""];
    assert Join(two, ",") == a + "," + Join([""], ",");
    var both := seq(2, i requires 0 <= i < 2 => if [Some(a), Some(b)][i].Some? then [Some(a), Some(b)][i].value else "");
    assert both == [a, b] && both[1..] == [b];
    assert Join(both, ",") == a + "," + Join([b], ",");
  }

  /**
   * `mergeResults_withIds`: as `mergeResults`, except that "spotify" is
   * listed only when Spotify data arrived, the Spotify id defaults to "",
   * the song id falls back to `trackId`, the rank to 0, and the previous
   * store id is kept.
   */
  function MergeResultsWithIds(lastfmResult: Settled<Option<LastfmTrack>>, spotifyResult: Settled<Option<SpotifyTrack>>,
                               base: BaseSong, trackId: string): Option<MergedTrack>
  {
    var lf := DataOf(lastfmResult);
    var sp := DataOf(spotifyResult);
    var m := Merge(lastfmResult, spotifyResult, base, base.title);
    if WithIdsThrows(sp, lf) then None
    else Some(m.(image := MergedImage(sp, LastfmAlbumImageUrl(lf)),
       source := Join((if lf.Some? then ["lastfm"] else []) + (if sp.Some? then ["spotify"] else []), ", "),
       spotifyId := if sp.Some? && Truthy(sp.value.id) then sp.value.id else Some(""),
       songId := if sp.Some? && Truthy(sp.value.id) then sp.value.id.value else trackId,
       rank := if base.rank.Some? && base.rank.value != 0 then base.rank else Some(0),
       previousMongoId := Some(trackId)))
  }

  /** `lastfmData?.album?.image[0]?.["#text"]`, when it does not throw. */
  function LastfmAlbumImageUrl(lf: Option<LastfmTrack>): Option<string>
  {
    if lf.Some? && lf.value.album.Some? && lf.value.album.value.image.Some? && |lf.value.album.value.image.value| > 0 then
      lf.value.album.value.image.value[0]
    else None
  }

  /**
   * `mergeResults_withIds` reads the Last.fm album's `image[0]` instead of
   * the track's image, and only when Spotify gave no URL; an album without
   * `image` then throws as well.
   */
  predicate WithIdsThrows(sp: Option<SpotifyTrack>, lf: Option<LastfmTrack>)
  {
    var img := FirstSpotifyImage(sp);
    SpotifyImagesThrow(sp)
    || (!(img.Some? && Truthy(img.value.url)) && lf.Some? && lf.value.album.Some? && lf.value.album.value.image.None?)
  }

  /**
   * The title is the first truthy of Spotify's name, Last.fm's name and the
   * fallback; the song id is Spotify's id when truthy, else the lower-cased
   * `title-artist`; the popularity score is 0 and embeddings are pending;
   * Spotify's popularity, Last.fm's listener and play counts and its mbid
   * are taken when truthy, else 0 (the counts) or null (the mbid).
   */
  lemma MergePrecedence(lastfmResult: Settled<Option<LastfmTrack>>, spotifyResult: Settled<Option<SpotifyTrack>>, base: BaseSong)
    ensures MergeResults(lastfmResult, spotifyResult, base).Some? ==>
      var r := MergeResults(lastfmResult, spotifyResult, base).value;
      var lf := DataOf(lastfmResult);
      var sp := DataOf(spotifyResult);
      && (sp.Some? && Truthy(sp.value.name) ==> r.title == sp.value.name)
      && (!(sp.Some? && Truthy(sp.value.name)) && lf.Some? && Truthy(lf.value.name) ==> r.title == lf.value.name)
      && (!(sp.Some? && Truthy(sp.value.name)) && !(lf.Some? && Truthy(lf.value.name)) ==> r.title == base.song)
      && (sp.Some? && Truthy(sp.value.id) ==> r.songId == sp.value.id.value && r.spotifyId == sp.value.id)
      && (!(sp.Some? && Truthy(sp.value.id)) ==> r.songId == Lower(TemplateText(base.song) + "-" + TemplateText(base.artist)) && r.spotifyId == None)
      && r.popularityScore == 0 && r.embeddingsStatus == "pending"
      && (sp.Some? && TruthyNumber(sp.value.popularity) ==> r.spotifyPopularity == sp.value.popularity.value)
      && (!(sp.Some? && TruthyNumber(sp.value.popularity)) ==> r.spotifyPopularity == 0.0)
      && (lf.Some? && Truthy(lf.value.listeners) ==> r.listeners == lf.value.listeners)
      && (!(lf.Some? && Truthy(lf.value.listeners)) ==> r.listeners == None)
      && (lf.Some? && Truthy(lf.value.playcount) ==> r.playCount == lf.value.playcount)
      && (!(lf.Some? && Truthy(lf.value.playcount)) ==> r.playCount == None)
      && (lf.Some? && Truthy(lf.value.mbid) ==> r.lastfmId == lf.value.mbid)
      && (!(lf.Some? && Truthy(lf.value.mbid)) ==> r.lastfmId == None)
  {
  }

  /** The song id is never empty: Spotify's id is used only when non-empty and the fallback contains "-". */
  lemma MergeSongIdNonEmpty(lastfmResult: Settled<Option<LastfmTrack>>, spotifyResult: Settled<Option<SpotifyTrack>>, base: BaseSong)
    ensures MergeResults(lastfmResult, spotifyResult, base).Some? ==> MergeResults(lastfmResult, spotifyResult, base).value.songId != ""
  {
    var s := TemplateText(base.song) + "-" + TemplateText(base.artist);
    assert |Lower(s)| == |s| > 0;
  }

  /** Whatever the Spotify lookup did, `mergeResults` lists "spotify" as a source. */
  lemma MergeSourceAlwaysSpotify(lastfmResult: Settled<Option<LastfmTrack>>, spotifyResult: Settled<Option<SpotifyTrack>>, base: BaseSong)
    ensures MergeResults(lastfmResult, spotifyResult, base).Some? ==>
      MergeResults(lastfmResult, spotifyResult, base).value.source == (if DataOf(lastfmResult).Some? then "lastfm, spotify" else "spotify")
  {
    JoinSources();
  }

  lemma JoinSources()
    ensures Join(["lastfm", "spotify"], ", ") == "lastfm, spotify"
    ensures Join(["lastfm"], ", ") == "lastfm"
    ensures Join(["spotify"], ", ") == "spotify"
    ensures Join([], ", ") == ""
  {
    assert ["lastfm", "spotify"][1..] == ["spotify"];
  }

  /** `mergeResults_withIds` lists exactly the services that returned data. */
  lemma WithIdsSourceReflectsData(lastfmResult: Settled<Option<LastfmTrack>>, spotifyResult: Settled<Option<SpotifyTrack>>,
                                  base: BaseSong, trackId: string)
    ensures MergeResultsWithIds(lastfmResult, spotifyResult, base, trackId).Some? ==>
      var r := MergeResultsWithIds(lastfmResult, spotifyResult, base, trackId).value;
      var l := DataOf(lastfmResult).Some?;
      var s := DataOf(spotifyResult).Some?;
      r.source == (if l && s then "lastfm, spotify" else if l then "lastfm" else if s then "spotify" else "")
    ensures MergeResultsWithIds(lastfmResult, spotifyResult, base, trackId).Some? ==>
      var r := MergeResultsWithIds(lastfmResult, spotifyResult, base, trackId).value;
      r.previousMongoId == Some(trackId) && r.spotifyId.Some? && r.rank.Some?
  {
    JoinSources();
    var none: seq<string> := [];
    assert none + ["spotify"] == ["spotify"];
    assert ["lastfm"] + none == ["lastfm"];
    assert none + none == none;
  }

  /** The two merges disagree on the source of a track whose Spotify lookup failed. */
  lemma MergeSourcesDiverge(lastfmResult: Settled<Option<LastfmTrack>>, base: BaseSong, trackId: string)
    ensures MergeResults(lastfmResult, Rejected, base).Some?
    ensures MergeResultsWithIds(lastfmResult, Rejected, base, trackId).Some? ==>
      MergeResults(lastfmResult, Rejected, base).value.source != MergeResultsWithIds(lastfmResult, Rejected, base, trackId).value.source
  {
    MergeSourceAlwaysSpotify(lastfmResult, Rejected, base);
    WithIdsSourceReflectsData(lastfmResult, Rejected, base, trackId);
  }

  /** The year is the non-empty text of the release date before its first "-", or null. */
  lemma MergeYear(lastfmResult: Settled<Option<LastfmTrack>>, spotifyResult: Settled<Option<SpotifyTrack>>, base: BaseSong)
    ensures MergeResults(lastfmResult, spotifyResult, base).Some? ==>
      var r := MergeResults(lastfmResult, spotifyResult, base).value;
      var sp := DataOf(spotifyResult);
      r.year.Some? ==>
        && sp.Some? && sp.value.album.Some? && sp.value.album.value.releaseDate.Some?
        && IsPrefix(r.year.value, sp.value.album.value.releaseDate.value)
        && '-' !in r.year.value && r.year.value != ""
  {
  }

  /** The duration is in seconds, from Spotify's milliseconds first, then Last.fm's; it is 0 only when neither gives a non-zero value. */
  lemma MergeDuration(lastfmResult: Settled<Option<LastfmTrack>>, spotifyResult: Settled<Option<SpotifyTrack>>, base: BaseSong)
    ensures MergeResults(lastfmResult, spotifyResult, base).Some? ==>
      var r := MergeResults(lastfmResult, spotifyResult, base).value;
      var lf := DataOf(lastfmResult);
      var sp := DataOf(spotifyResult);
      && (sp.Some? && TruthyNumber(sp.value.durationMs) ==> r.duration * 1000.0 == sp.value.durationMs.value)
      && (r.duration == 0.0 <==> !(sp.Some? && TruthyNumber(sp.value.durationMs)) && !(lf.Some? && TruthyNumber(lf.value.duration)))
  {
  }

  /**
   * As written, every caller's record lacks `title`, so two different songs
   * of one artist that Spotify does not identify get the same song id,
   * "undefined-<artist>", and no title.
   */
  lemma FallbackIdCollidesAsWritten(lastfmResult: Settled<Option<LastfmTrack>>, song1: string, song2: string,
                                    artist: Option<string>, rank1: Option<int>, rank2: Option<int>)
    ensures var r1 := MergeResultsAsWritten(lastfmResult, Rejected, SongRecord(song1, artist, rank1));
      var r2 := MergeResultsAsWritten(lastfmResult, Rejected, SongRecord(song2, artist, rank2));
      r1.Some? && r2.Some? && r1.value.songId == r2.value.songId == Lower("undefined-" + TemplateText(artist))
    ensures DataOf(lastfmResult).None? ==> MergeResultsAsWritten(lastfmResult, Rejected, SongRecord(song1, artist, rank1)).value.title == None
  {
  }

  /**
   * As written, the title is Spotify's name, else Last.fm's name, else
   * `baseSong.title`; for the callers' records that last fallback is
   * undefined, and the fallback id starts with "undefined-".
   */
  lemma MergeAsWrittenTitle(lastfmResult: Settled<Option<LastfmTrack>>, spotifyResult: Settled<Option<SpotifyTrack>>,
                            song: string, artist: Option<string>, rank: Option<int>)
    ensures MergeResultsAsWritten(lastfmResult, spotifyResult, SongRecord(song, artist, rank)).Some? ==>
      var r := MergeResultsAsWritten(lastfmResult, spotifyResult, SongRecord(song, artist, rank)).value;
      var lf := DataOf(lastfmResult);
      var sp := DataOf(spotifyResult);
      && (sp.Some? && Truthy(sp.value.name) ==> r.title == sp.value.name)
      && (!(sp.Some? && Truthy(sp.value.name)) && lf.Some? && Truthy(lf.value.name) ==> r.title == lf.value.name)
      && (!(sp.Some? && Truthy(sp.value.name)) && !(lf.Some? && Truthy(lf.value.name)) ==> r.title == None)
      && (!(sp.Some? && Truthy(sp.value.id)) ==> r.songId == Lower("undefined-" + TemplateText(artist)))
  {
    var base := SongRecord(song, artist, rank);
    if !SpotifyImagesThrow(DataOf(spotifyResult)) {
      var r := Merge(lastfmResult, spotifyResult, base, None);
      assert MergeResultsAsWritten(lastfmResult, spotifyResult, base) == Some(r);
      assert TemplateText(None) + "-" + TemplateText(artist) == "undefined-" + TemplateText(artist);
    }
  }

  /** Reading `song`, songs whose lower-cased titles differ get different fallback ids. */
  lemma FallbackIdDistinct(song1: string, song2: string, artist: Option<string>)
    requires Lower(song1) != Lower(song2)
    ensures FallbackId(Some(song1), artist) != FallbackId(Some(song2), artist)
  {
    var tail := "-" + TemplateText(artist);
    assert song1 + "-" + TemplateText(artist) == song1 + tail;
    assert song2 + "-" + TemplateText(artist) == song2 + tail;
    LowerConcat(song1, tail);
    LowerConcat(song2, tail);
    if |song1| != |song2| {
      assert |FallbackId(Some(song1), artist)| != |FallbackId(Some(song2), artist)|;
    } else {
      var i :| 0 <= i < |song1| && Lower(song1)[i] != Lower(song2)[i];
      assert FallbackId(Some(song1), artist)[i] != FallbackId(Some(song2), artist)[i];
    }
  }

  // ---------------------------------------------------------------------------
  // fetchTrackDataFromAPIs and the flags of handleTracks_v2
  // ---------------------------------------------------------------------------

  /** `flag = flag || true`, on the truthiness of the flag. */
  function CoerceFlag(flag: bool): bool
  {
    flag || true
  }

  /** `searchLastFm && searchSpotify ? 1 : searchSpotify ? 2 : 3`. */
  function ApiToCall(searchLastFm: bool, searchSpotify: bool): (mode: int)
    ensures mode == 1 <==> searchLastFm && searchSpotify
    ensures mode == 2 <==> !searchLastFm && searchSpotify
    ensures mode == 3 <==> !searchSpotify
  {
    if searchLastFm && searchSpotify then 1 else if searchSpotify then 2 else 3
  }

  /**
   * `fetchTrackDataFromAPIs`: mode 1 merges both lookups, mode 2 merges the
   * Spotify lookup with the prefetched Last.fm data, mode 3 the Last.fm
   * lookup with the prefetched Spotify data. The lookups are parameters.
   * It calls the intended `MergeResults`, which reads `baseSong.song`; the
   * source's merge reads `baseSong.title` (`MergeResultsAsWritten`).
   */
  function FetchTrackData(song: BaseSong, searchSpotify: bool, searchLastFm: bool,
                          lastfmLookup: Settled<Option<LastfmTrack>>, spotifyLookup: Settled<Option<SpotifyTrack>>,
                          spotifyData: Option<SpotifyTrack>, lastfmData: Option<LastfmTrack>): Option<MergedTrack>
  {
    var mode := ApiToCall(searchLastFm, searchSpotify);
    if mode == 1 then MergeResults(lastfmLookup, spotifyLookup, song)
    else if mode == 2 then MergeResults(Fulfilled(lastfmData), spotifyLookup, song)
    else MergeResults(lastfmLookup, Fulfilled(spotifyData), song)
  }

  /**
   * Whatever flags `handleTracks_v2` receives, they are coerced to true, so
   * every track is looked up on both services and the prefetched payloads
   * are ignored.
   */
  lemma HandleTracksAlwaysBothApis(searchSpotify: bool, searchLastFm: bool, song: BaseSong,
                                   lastfmLookup: Settled<Option<LastfmTrack>>, spotifyLookup: Settled<Option<SpotifyTrack>>,
                                   spotifyData: Option<SpotifyTrack>, lastfmData: Option<LastfmTrack>)
    ensures ApiToCall(CoerceFlag(searchLastFm), CoerceFlag(searchSpotify)) == 1
    ensures FetchTrackData(song, CoerceFlag(searchSpotify), CoerceFlag(searchLastFm), lastfmLookup, spotifyLookup, spotifyData, lastfmData)
         == MergeResults(lastfmLookup, spotifyLookup, song)
  {
  }

  /** `handleTracks_v2` keeps a merged track only when it is defined and its title is truthy. */
  predicate KeepMerged(m: Option<MergedTrack>)
  {
    m.Some? && Truthy(m.value.title)
  }

  /**
   * As written, a chart song that neither service names is dropped, since
   * the title fallback reads the missing `title`; reading `song`, it is kept
   * whenever the song name is non-empty.
   */
  lemma UnnamedSongKept(song: string, artist: Option<string>, rank: Option<int>)
    ensures !KeepMerged(MergeResultsAsWritten(Fulfilled(None), Fulfilled(None), SongRecord(song, artist, rank)))
    ensures KeepMerged(MergeResults(Fulfilled(None), Fulfilled(None), SongRecord(song, artist, rank))) <==> song != ""
  {
  }

  // ---------------------------------------------------------------------------
  // artistsToStore
  // ---------------------------------------------------------------------------

  /** The `{name, artist_spotify_id}` record pushed for each artist. */
  datatype StoredArtist = StoredArtist(name: Option<string>, artistSpotifyId: Option<string>)

  /** `a?.spotify_id` on a stored record, which only has `artist_spotify_id`: always missing. */
  function SpotifyIdProperty(a: StoredArtist): Option<string>
  {
    None
  }

  /** The `find` predicate: same name and a Spotify id other than "". */
  predicate Blocks(a: StoredArtist, here: StoredArtist)
  {
    a.name == here.name && SpotifyIdProperty(a) != Some("")
  }

  /** Since the property read is missing, an earlier record blocks a new one exactly when the names agree. */
  lemma BlocksIffSameName(a: StoredArtist, here: StoredArtist)
    ensures Blocks(a, here) <==> a.name == here.name
  {
  }

  /** The record built for an artist; the second version maps a falsy name to null. */
  function Here(e: ArtistEntry, dropNameless: bool): StoredArtist
  {
    StoredArtist(if dropNameless then OrElse(e.name, None) else e.name, e.spotifyId)
  }

  /** The second version skips records whose name is null. */
  predicate Kept(e: ArtistEntry, dropNameless: bool)
  {
    !(dropNameless && Here(e, dropNameless).name.None?)
  }

  predicate HasName(r: seq<StoredArtist>, n: Option<string>)
  {
    exists a :: a in r && a.name == n
  }

  /** One step of the inner loop. */
  function AddArtist(acc: seq<StoredArtist>, e: ArtistEntry, dropNameless: bool): seq<StoredArtist>
  {
    var h := Here(e, dropNameless);
    if !Kept(e, dropNameless) then acc
    else if exists a :: a in acc && Blocks(a, h) then acc
    else acc + [h]
  }

  /** The records stored after visiting the artist entries `s` in order. */
  function StoreAll(s: seq<ArtistEntry>, dropNameless: bool): seq<StoredArtist>
    decreases |s|
  {
    if s == [] then [] else AddArtist(StoreAll(s[..|s| - 1], dropNameless), s[|s| - 1], dropNameless)
  }

  /** The artist entries of the merged tracks, skipping missing tracks. */
  function TrackArtists(tracks: seq<Option<MergedTrack>>): seq<ArtistEntry>
    decreases |tracks|
  {
    if tracks == [] then []
    else
      var last := tracks[|tracks| - 1];
      TrackArtists(tracks[..|tracks| - 1]) + (if last.Some? then last.value.artists else [])
  }

  /** Some kept entry of `s` carries the name `n`. */
  predicate NameSeen(s: seq<ArtistEntry>, n: Option<string>, dropNameless: bool)
  {
    exists j :: 0 <= j < |s| && Kept(s[j], dropNameless) && Here(s[j], dropNameless).name == n
  }

  /** Reference definition: the record of each kept entry whose name no earlier kept entry had. */
  function FirstOccurrences(s: seq<ArtistEntry>, dropNameless: bool): seq<StoredArtist>
    decreases |s|
  {
    if s == [] then []
    else
      var p := s[..|s| - 1];
      var e := s[|s| - 1];
      FirstOccurrences(p, dropNameless)
        + (if Kept(e, dropNameless) && !NameSeen(p, Here(e, dropNameless).name, dropNameless) then [Here(e, dropNameless)] else [])
  }

  lemma NameSeenSnoc(p: seq<ArtistEntry>, e: ArtistEntry, n: Option<string>, dropNameless: bool)
    ensures NameSeen(p + [e], n, dropNameless)
        <==> NameSeen(p, n, dropNameless) || (Kept(e, dropNameless) && Here(e, dropNameless).name == n)
  {
    var s := p + [e];
    if NameSeen(s, n, dropNameless) {
      var j :| 0 <= j < |s| && Kept(s[j], dropNameless) && Here(s[j], dropNameless).name == n;
      if j < |p| {
        assert s[j] == p[j];
      }
    }
    if NameSeen(p, n, dropNameless) {
      var j :| 0 <= j < |p| && Kept(p[j], dropNameless) && Here(p[j], dropNameless).name == n;
      assert s[j] == p[j];
    }
    if Kept(e, dropNameless) && Here(e, dropNameless).name == n {
      assert s[|p|] == e;
    }
  }

  /** A name is stored exactly when some kept entry carries it. */
  lemma {:induction false} StoreAllNames(s: seq<ArtistEntry>, dropNameless: bool, n: Option<string>)
    ensures HasName(StoreAll(s, dropNameless), n) <==> NameSeen(s, n, dropNameless)
    decreases |s|
  {
    if s != [] {
      var p := s[..|s| - 1];
      var e := s[|s| - 1];
      assert s == p + [e];
      StoreAllNames(p, dropNameless, n);
      StoreAllNames(p, dropNameless, Here(e, dropNameless).name);
      NameSeenSnoc(p, e, n, dropNameless);
      var acc := StoreAll(p, dropNameless);
      var h := Here(e, dropNameless);
      if Kept(e, dropNameless) && !(exists a :: a in acc && Blocks(a, h)) {
        assert StoreAll(s, dropNameless) == acc + [h];
        if HasName(acc + [h], n) {
          var a :| a in acc + [h] && a.name == n;
          if a != h {
            assert a in acc;
          }
        }
        if HasName(acc, n) {
          var a :| a in acc && a.name == n;
          assert a in acc + [h];
        }
        if h.name == n {
          assert h in acc + [h];
        }
      } else if Kept(e, dropNameless) {
        var a :| a in acc && Blocks(a, h);
        assert HasName(acc, h.name);
      }
    }
  }

  /** The stored records are the first occurrences of each name, in input order. */
  lemma {:induction false} StoreAllIsFirstOccurrences(s: seq<ArtistEntry>, dropNameless: bool)
    ensures StoreAll(s, dropNameless) == FirstOccurrences(s, dropNameless)
    decreases |s|
  {
    if s != [] {
      var p := s[..|s| - 1];
      var e := s[|s| - 1];
      var h := Here(e, dropNameless);
      StoreAllIsFirstOccurrences(p, dropNameless);
      StoreAllNames(p, dropNameless, h.name);
      var acc := StoreAll(p, dropNameless);
      if Kept(e, dropNameless) {
        if exists a :: a in acc && Blocks(a, h) {
          var a :| a in acc && Blocks(a, h);
          assert HasName(acc, h.name);
        } else {
          assert !HasName(acc, h.name);
        }
      }
    }
  }

  predicate UniqueNames(r: seq<StoredArtist>)
  {
    forall i, j :: 0 <= i < j < |r| ==> r[i].name != r[j].name
  }

  /** No two stored records share a name. */
  lemma {:induction false} StoreAllUniqueNames(s: seq<ArtistEntry>, dropNameless: bool)
    ensures UniqueNames(StoreAll(s, dropNameless))
    decreases |s|
  {
    if s != [] {
      var p := s[..|s| - 1];
      var e := s[|s| - 1];
      StoreAllUniqueNames(p, dropNameless);
      var acc := StoreAll(p, dropNameless);
      var h := Here(e, dropNameless);
      if Kept(e, dropNameless) && !(exists a :: a in acc && Blocks(a, h)) {
        var r := acc + [h];
        assert StoreAll(s, dropNameless) == r;
        forall i, j | 0 <= i < j < |r|
          ensures r[i].name != r[j].name
        {
          if j == |acc| {
            assert r[i] in acc;
            assert !Blocks(r[i], h);
          } else {
            assert r[i] == acc[i] && r[j] == acc[j];
          }
        }
      } else {
        assert StoreAll(s, dropNameless) == acc;
      }
    }
  }

  /** The second version never stores a record without a name. */
  lemma {:induction false} StoreAllNamed(s: seq<ArtistEntry>)
    ensures forall a :: a in StoreAll(s, true) ==> Truthy(a.name)
    decreases |s|
  {
    if s != [] {
      StoreAllNamed(s[..|s| - 1]);
    }
  }

  /** `artistsToStore?.find(...)`, as a loop. */
  method FindBlocking(stored: seq<StoredArtist>, here: StoredArtist) returns (found: bool)
    ensures found <==> exists a :: a in stored && Blocks(a, here)
  {
    found := false;
    var k := 0;
    while k < |stored|
      invariant 0 <= k <= |stored|
      invariant found <==> exists a :: a in stored[..k] && Blocks(a, here)
    {
      if Blocks(stored[k], here) {
        found := true;
      }
      assert stored[..k + 1] == stored[..k] + [stored[k]];
      k := k + 1;
    }
    assert stored[..k] == stored;
  }

  /**
   * The `artistsToStore` loops of `handleTrack_v1` (`dropNameless` false)
   * and `handleTracks_v2` (true) over the merged tracks of one chunk.
   */
  method ArtistsToStore(tracks: seq<Option<MergedTrack>>, dropNameless: bool) returns (stored: seq<StoredArtist>)
    ensures stored == StoreAll(TrackArtists(tracks), dropNameless)
  {
    stored := [];
    var i := 0;
    while i < |tracks|
      invariant 0 <= i <= |tracks|
      invariant stored == StoreAll(TrackArtists(tracks[..i]), dropNameless)
    {
      assert tracks[..i + 1][..i] == tracks[..i];
      if tracks[i].Some? {
        stored := StoreTrackArtists(stored, TrackArtists(tracks[..i]), tracks[i].value.artists, dropNameless);
      } else {
        assert TrackArtists(tracks[..i]) + [] == TrackArtists(tracks[..i]);
      }
      i := i + 1;
    }
    assert tracks[..i] == tracks;
  }

  /** The inner loop over one track's artists, `before` being the entries already visited. */
  method StoreTrackArtists(stored: seq<StoredArtist>, ghost before: seq<ArtistEntry>, artists: seq<ArtistEntry>, dropNameless: bool)
    returns (r: seq<StoredArtist>)
    requires stored == StoreAll(before, dropNameless)
    ensures r == StoreAll(before + artists, dropNameless)
  {
    r := stored;
    var j := 0;
    assert before + artists[..0] == before;
    while j < |artists|
      invariant 0 <= j <= |artists|
      invariant r == StoreAll(before + artists[..j], dropNameless)
    {
      var here := Here(artists[j], dropNameless);
      ghost var seen := before + artists[..j + 1];
      assert seen[..|seen| - 1] == before + artists[..j];
      assert seen[|seen| - 1] == artists[j];
      assert StoreAll(seen, dropNameless) == AddArtist(r, artists[j], dropNameless);
      if Kept(artists[j], dropNameless) {
        var found := FindBlocking(r, here);
        if !found {
          r := r + [here];
        }
      }
      j := j + 1;
    }
    assert artists[..j] == artists;
  }

  // ---------------------------------------------------------------------------
  // The duplicate-title filter over an artist's Last.fm top tracks
  // ---------------------------------------------------------------------------

  /** `{song, artist, rank}` built from a Last.fm top track. */
  datatype ChartEntry = ChartEntry(song: string, artist: Option<string>, rank: int)

  /** A record pushed to `duplicateEntries` (without its always-true `included` flag). */
  datatype DuplicatePair = DuplicatePair(s1: string, s2: string, score: real, r1: int, r2: int, artist: Option<string>)

  /**
   * `b` makes `a` a duplicate: the similarity of the normalised titles is at
   * least 0.5, one normalised title contains the other and the ranks differ.
   * `sim` stands for `stringSimilarity.compareTwoStrings` and `norm` for
   * `NormalizeTitle`; nothing proved below depends on which functions they are.
   */
  predicate IsDuplicateOf(sim: (string, string) -> real, norm: string -> string, a: ChartEntry, b: ChartEntry)
  {
    var na := norm(a.song);
    var nb := norm(b.song);
    sim(na, nb) >= 0.5 && (Contains(na, nb) || Contains(nb, na)) && a.rank != b.rank
  }

  /** No entry is a duplicate of itself, since its rank equals its own. */
  lemma NotDuplicateOfItself(sim: (string, string) -> real, norm: string -> string, a: ChartEntry)
    ensures !IsDuplicateOf(sim, norm, a, a)
  {
  }

  predicate HasDuplicate(sim: (string, string) -> real, norm: string -> string, a: ChartEntry, all: seq<ChartEntry>)
  {
    exists b :: b in all && IsDuplicateOf(sim, norm, a, b)
  }

  /** The pairs the inner loop pushes for `a`, in order. */
  function PairsFor(sim: (string, string) -> real, norm: string -> string, a: ChartEntry, bs: seq<ChartEntry>): seq<DuplicatePair>
    decreases |bs|
  {
    if bs == [] then []
    else
      var b := bs[|bs| - 1];
      PairsFor(sim, norm, a, bs[..|bs| - 1])
        + (if IsDuplicateOf(sim, norm, a, b)
           then [DuplicatePair(a.song, b.song, sim(norm(a.song), norm(b.song)), a.rank, b.rank, a.artist)]
           else [])
  }

  /** The entries of `xs` with no duplicate in `all`, in order. */
  function NonDuplicates(sim: (string, string) -> real, norm: string -> string, xs: seq<ChartEntry>, all: seq<ChartEntry>): seq<ChartEntry>
    decreases |xs|
  {
    if xs == [] then []
    else
      var a := xs[|xs| - 1];
      NonDuplicates(sim, norm, xs[..|xs| - 1], all) + (if HasDuplicate(sim, norm, a, all) then [] else [a])
  }

  /** All pushed pairs, outer entry by outer entry. */
  function AllPairs(sim: (string, string) -> real, norm: string -> string, xs: seq<ChartEntry>, all: seq<ChartEntry>): seq<DuplicatePair>
    decreases |xs|
  {
    if xs == [] then []
    else AllPairs(sim, norm, xs[..|xs| - 1], all) + PairsFor(sim, norm, xs[|xs| - 1], all)
  }

  /** An entry is kept exactly when it is in the list and nothing in the list makes it a duplicate. */
  lemma {:induction false} NonDuplicatesMembership(sim: (string, string) -> real, norm: string -> string, xs: seq<ChartEntry>, all: seq<ChartEntry>, x: ChartEntry)
    ensures x in NonDuplicates(sim, norm, xs, all) <==> x in xs && !HasDuplicate(sim, norm, x, all)
    decreases |xs|
  {
    if xs != [] {
      var p := xs[..|xs| - 1];
      NonDuplicatesMembership(sim, norm, p, all, x);
      assert xs == p + [xs[|xs| - 1]];
    }
  }

  /** Every pushed pair is `(a, b)` with `b` making `a` a duplicate, and `b` is in the list. */
  lemma {:induction false} PairsForSound(sim: (string, string) -> real, norm: string -> string, a: ChartEntry, bs: seq<ChartEntry>, d: DuplicatePair)
    requires d in PairsFor(sim, norm, a, bs)
    ensures d.s1 == a.song && d.r1 == a.rank && d.artist == a.artist
    ensures exists b :: b in bs && IsDuplicateOf(sim, norm, a, b) && d.s2 == b.song && d.r2 == b.rank
    decreases |bs|
  {
    var p := bs[..|bs| - 1];
    var b := bs[|bs| - 1];
    if d in PairsFor(sim, norm, a, p) {
      PairsForSound(sim, norm, a, p, d);
      var c :| c in p && IsDuplicateOf(sim, norm, a, c) && d.s2 == c.song && d.r2 == c.rank;
      assert c in bs;
    } else {
      assert b in bs;
    }
  }

  /** An entry pushes at least one pair exactly when it has a duplicate. */
  lemma {:induction false} PairsForEmpty(sim: (string, string) -> real, norm: string -> string, a: ChartEntry, bs: seq<ChartEntry>)
    ensures PairsFor(sim, norm, a, bs) == [] <==> !HasDuplicate(sim, norm, a, bs)
    decreases |bs|
  {
    if bs != [] {
      var p := bs[..|bs| - 1];
      var b := bs[|bs| - 1];
      PairsForEmpty(sim, norm, a, p);
      assert bs == p + [b];
      if HasDuplicate(sim, norm, a, p) {
        var c :| c in p && IsDuplicateOf(sim, norm, a, c);
        assert c in bs;
      }
      if HasDuplicate(sim, norm, a, bs) && !IsDuplicateOf(sim, norm, a, b) {
        var c :| c in bs && IsDuplicateOf(sim, norm, a, c);
        assert c in p;
      }
    }
  }

  /**
   * The nested loops of the filter: every entry `a` is compared with every
   * entry `b` of the same list; each duplicate pair is recorded and `a` is
   * kept only when no pair was found for it.
   */
  method SplitDuplicates(sim: (string, string) -> real, norm: string -> string, tracks: seq<ChartEntry>)
    returns (nonDuplicates: seq<ChartEntry>, duplicateEntries: seq<DuplicatePair>)
    ensures nonDuplicates == NonDuplicates(sim, norm, tracks, tracks)
    ensures duplicateEntries == AllPairs(sim, norm, tracks, tracks)
  {
    nonDuplicates := [];
    duplicateEntries := [];
    var i := 0;
    while i < |tracks|
      invariant 0 <= i <= |tracks|
      invariant nonDuplicates == NonDuplicates(sim, norm, tracks[..i], tracks)
      invariant duplicateEntries == AllPairs(sim, norm, tracks[..i], tracks)
    {
      var a := tracks[i];
      var duplicateFound, pairs := CompareWithAll(sim, norm, a, tracks);
      duplicateEntries := duplicateEntries + pairs;
      if !duplicateFound {
        nonDuplicates := nonDuplicates + [a];
      }
      assert tracks[..i + 1][..i] == tracks[..i];
      i := i + 1;
    }
    assert tracks[..i] == tracks;
  }

  /** The inner loop for one entry `a`: the pairs it pushes, and whether there was one. */
  method CompareWithAll(sim: (string, string) -> real, norm: string -> string, a: ChartEntry, tracks: seq<ChartEntry>)
    returns (duplicateFound: bool, pairs: seq<DuplicatePair>)
    ensures pairs == PairsFor(sim, norm, a, tracks)
    ensures duplicateFound <==> HasDuplicate(sim, norm, a, tracks)
  {
    duplicateFound := false;
    pairs := [];
    var j := 0;
    while j < |tracks|
      invariant 0 <= j <= |tracks|
      invariant pairs == PairsFor(sim, norm, a, tracks[..j])
      invariant duplicateFound <==> PairsFor(sim, norm, a, tracks[..j]) != []
    {
      var b := tracks[j];
      assert tracks[..j + 1][..j] == tracks[..j];
      if IsDuplicateOf(sim, norm, a, b) {
        duplicateFound := true;
        var score := sim(norm(a.song), norm(b.song));
        pairs := pairs + [DuplicatePair(a.song, b.song, score, a.rank, b.rank, a.artist)];
      }
      j := j + 1;
    }
    assert tracks[..j] == tracks;
    PairsForEmpty(sim, norm, a, tracks);
  }

  /** `b` already stands for pair `d`: its song is either title and its rank either rank. */
  predicate Covers(b: ChartEntry, d: DuplicatePair)
  {
    (b.song == d.s1 || b.song == d.s2) && (b.rank == d.r1 || b.rank == d.r2)
  }

  /** Some entry of `acc` already stands for pair `d`. */
  predicate Covered(acc: seq<ChartEntry>, d: DuplicatePair)
  {
    exists b :: b in acc && Covers(b, d)
  }

  /**
   * The pairs taken in order, each appending its first title and rank under
   * `artist` exactly when no entry so far covers it.
   */
  function AddUncovered(acc: seq<ChartEntry>, pairs: seq<DuplicatePair>, artist: Option<string>): seq<ChartEntry>
    decreases |pairs|
  {
    if pairs == [] then acc
    else
      var d := pairs[0];
      AddUncovered(if Covered(acc, d) then acc else acc + [ChartEntry(d.s1, artist, d.r1)], pairs[1..], artist)
  }

  /**
   * The second phase as a value: nothing is added without pairs; otherwise the
   * first pair's first title under the favourite artist, then the uncovered
   * pairs under `fav_artist || name`.
   */
  function AddBack(nonDuplicates: seq<ChartEntry>, duplicateEntries: seq<DuplicatePair>,
                   favArtist: Option<string>, name: Option<string>): seq<ChartEntry>
  {
    if duplicateEntries == [] then nonDuplicates
    else
      var first := duplicateEntries[0];
      AddUncovered(nonDuplicates + [ChartEntry(first.s1, favArtist, first.r1)], duplicateEntries, OrElse(favArtist, name))
  }

  /** `e` carries the first title and rank of one of the pairs. */
  predicate AddedFrom(e: ChartEntry, pairs: seq<DuplicatePair>)
  {
    exists d :: d in pairs && e.song == d.s1 && e.rank == d.r1
  }

  /** Adding uncovered pairs only appends. */
  lemma {:induction false} AddUncoveredKeeps(acc: seq<ChartEntry>, pairs: seq<DuplicatePair>, artist: Option<string>)
    ensures IsPrefixOf(acc, AddUncovered(acc, pairs, artist))
    decreases |pairs|
  {
    if pairs != [] {
      var d := pairs[0];
      var next := if Covered(acc, d) then acc else acc + [ChartEntry(d.s1, artist, d.r1)];
      AddUncoveredKeeps(next, pairs[1..], artist);
      assert next[..|acc|] == acc;
    }
  }

  /** Afterwards every pair is covered, and so is everything covered before. */
  lemma {:induction false} AddUncoveredCovers(acc: seq<ChartEntry>, pairs: seq<DuplicatePair>, artist: Option<string>, d: DuplicatePair)
    requires d in pairs || Covered(acc, d)
    ensures Covered(AddUncovered(acc, pairs, artist), d)
    decreases |pairs|
  {
    if pairs != [] {
      var p := pairs[0];
      var added := ChartEntry(p.s1, artist, p.r1);
      var next := if Covered(acc, p) then acc else acc + [added];
      if Covered(acc, d) {
        var b :| b in acc && Covers(b, d);
        assert b in next;
      } else if d == p && !Covered(acc, p) {
        assert added in next && Covers(added, d);
      }
      if d !in pairs[1..] {
        assert Covered(next, d);
      }
      AddUncoveredCovers(next, pairs[1..], artist, d);
    }
  }

  /** Every appended entry is the first title and rank of one of the pairs. */
  lemma {:induction false} AddUncoveredAdded(acc: seq<ChartEntry>, pairs: seq<DuplicatePair>, artist: Option<string>, k: nat)
    requires |acc| <= k < |AddUncovered(acc, pairs, artist)|
    ensures AddedFrom(AddUncovered(acc, pairs, artist)[k], pairs)
    decreases |pairs|
  {
    var p := pairs[0];
    var next := if Covered(acc, p) then acc else acc + [ChartEntry(p.s1, artist, p.r1)];
    var r := AddUncovered(acc, pairs, artist);
    assert r == AddUncovered(next, pairs[1..], artist);
    AddUncoveredKeeps(next, pairs[1..], artist);
    if k < |next| {
      assert r[k] == next[k] == ChartEntry(p.s1, artist, p.r1);
      assert p in pairs;
    } else {
      AddUncoveredAdded(next, pairs[1..], artist, k);
      var d :| d in pairs[1..] && r[k].song == d.s1 && r[k].rank == d.r1;
      assert d in pairs;
    }
  }

  /**
   * The second phase: when duplicates were found, the first pair's first
   * title is added under the favourite artist, then every pair that no entry
   * covers yet adds its first title. The kept entries stay in front, every
   * pair ends up covered, and each added entry is the first title and rank
   * of some pair.
   */
  method AddBackDuplicates(nonDuplicates: seq<ChartEntry>, duplicateEntries: seq<DuplicatePair>,
                           favArtist: Option<string>, name: Option<string>)
    returns (result: seq<ChartEntry>)
    ensures IsPrefixOf(nonDuplicates, result)
    ensures forall d :: d in duplicateEntries ==> Covered(result, d)
    ensures forall k :: |nonDuplicates| <= k < |result| ==> AddedFrom(result[k], duplicateEntries)
    ensures duplicateEntries == [] ==> result == nonDuplicates
    ensures result == AddBack(nonDuplicates, duplicateEntries, favArtist, name)
  {
    result := nonDuplicates;
    if |duplicateEntries| > 0 {
      var first := duplicateEntries[0];
      var start := result + [ChartEntry(first.s1, favArtist, first.r1)];
      result := start;
      ghost var artist := OrElse(favArtist, name);
      var k := 0;
      while k < |duplicateEntries|
        invariant 0 <= k <= |duplicateEntries|
        invariant AddUncovered(result, duplicateEntries[k..], artist) == AddUncovered(start, duplicateEntries, artist)
      {
        var d := duplicateEntries[k];
        var found := FindCovering(result, d);
        assert duplicateEntries[k..][0] == d && duplicateEntries[k..][1..] == duplicateEntries[k + 1..];
        if !found {
          result := result + [ChartEntry(d.s1, OrElse(favArtist, name), d.r1)];
        }
        k := k + 1;
      }
      assert duplicateEntries[k..] == [];
      AddUncoveredKeeps(start, duplicateEntries, artist);
      assert start[..|nonDuplicates|] == nonDuplicates;
      forall d | d in duplicateEntries
        ensures Covered(result, d)
      {
        AddUncoveredCovers(start, duplicateEntries, artist, d);
      }
      forall k | |nonDuplicates| <= k < |result|
        ensures AddedFrom(result[k], duplicateEntries)
      {
        if k < |start| {
          assert result[k] == start[k];
        } else {
          AddUncoveredAdded(start, duplicateEntries, artist, k);
        }
      }
    }
  }

  /** `nonDuplicates.find(...)` for pair `d`: whether some entry already covers it. */
  method FindCovering(entries: seq<ChartEntry>, d: DuplicatePair) returns (found: bool)
    ensures found <==> Covered(entries, d)
  {
    found := false;
    var m := 0;
    while m < |entries|
      invariant 0 <= m <= |entries|
      invariant found <==> exists b :: b in entries[..m] && Covers(b, d)
    {
      if Covers(entries[m], d) {
        found := true;
      }
      assert entries[..m + 1] == entries[..m] + [entries[m]];
      m := m + 1;
    }
    assert entries[..m] == entries;
  }

  /**
   * Both phases of the filter over one artist's Last.fm top tracks, with
   * titles normalised by `NormalizeTitle`: every entry no other entry
   * duplicates is kept, in order, at the front; every duplicate pair found is
   * covered by some entry of the result.
   */
  method FilterTopTracks(sim: (string, string) -> real, tracks: seq<ChartEntry>, favArtist: Option<string>, name: Option<string>)
    returns (result: seq<ChartEntry>)
    ensures IsPrefixOf(NonDuplicates(sim, NormalizeTitle, tracks, tracks), result)
    ensures forall d :: d in AllPairs(sim, NormalizeTitle, tracks, tracks) ==> Covered(result, d)
    ensures result == AddBack(NonDuplicates(sim, NormalizeTitle, tracks, tracks), AllPairs(sim, NormalizeTitle, tracks, tracks), favArtist, name)
  {
    var nonDuplicates, duplicateEntries := SplitDuplicates(sim, NormalizeTitle, tracks);
    result := AddBackDuplicates(nonDuplicates, duplicateEntries, favArtist, name);
  }
}

=== FILE: ingest_utils.dfy ===
/**
 * The database helpers of the ingestion scripts:
 * - `prepareDataFrame` reshapes the tracks CSV the same way the track
 *   loader does and hands it to `handleTracks`;
 * - `handleTracks` stamps the frame and upserts one document per row into
 *   the tracks collection;
 * - `updateEmbeddings` turns every row of the embeddings CSV into one
 *   vector and upserts it into the embeddings collection.
 * The `artist_name` split (`modifyArtist`) is `TrackIngest.ModifyArtist`.
 */
module IngestUtils {
  import opened Common
  import opened Frames
  import opened TrackIngest

  /** The two collections of the `EchoFinder` database the helpers write. */
  class Database {
    var tracks: Collection
    var songsEmbeddings: Collection

    constructor (tracks: Collection, songsEmbeddings: Collection)
      ensures this.tracks == tracks && this.songsEmbeddings == songsEmbeddings
    {
      this.tracks := tracks;
      this.songsEmbeddings := songsEmbeddings;
    }
  }

  /** What an upsert-per-row write leaves in `coll`: a record without `song_id` aborts it. */
  function Written(coll: Collection, records: seq<Row>): (r: Collection)
    ensures AllKeyed(records) ==> |r| >= |coll|
    ensures !AllKeyed(records) ==> r == coll
  {
    if AllKeyed(records) then
      BulkSetLeavesOthers(coll, records);
      BulkSet(coll, records)
    else coll
  }

  // ---------------------------------------------------------------------------
  // The timestamp column (`handleTracks`)
  // ---------------------------------------------------------------------------

  /** Lines 68-69: `updatedAt` is added, with the same value in every row, only when missing. */
  function Timestamped(df: Frame, timestamp: string): (r: Frame)
    requires WellFormed(df)
    ensures WellFormed(r) && |r.rows| == |df.rows|
    ensures "updatedAt" in r.columns
  {
    if "updatedAt" in df.columns then df else SetColumn(df, "updatedAt", Fill(|df.rows|, Str(timestamp)))
  }

  /**
   * A row keeps a timestamp it had; a frame without the column gets
   * `timestamp` in every row; no other field changes.
   */
  lemma TimestampedRows(df: Frame, timestamp: string, i: nat)
    requires WellFormed(df) && i < |df.rows|
    ensures Timestamped(df, timestamp).rows[i].Keys == df.rows[i].Keys + {"updatedAt"}
    ensures "updatedAt" in df.columns ==> Timestamped(df, timestamp).rows[i]["updatedAt"] == df.rows[i]["updatedAt"]
    ensures "updatedAt" !in df.columns ==> Timestamped(df, timestamp).rows[i]["updatedAt"] == Str(timestamp)
    ensures forall c :: c in df.rows[i] && c != "updatedAt" ==> Timestamped(df, timestamp).rows[i][c] == df.rows[i][c]
  {
  }

  /** Stamping twice is stamping once: the second call finds the column. */
  lemma TimestampedIdempotent(df: Frame, t1: string, t2: string)
    requires WellFormed(df)
    ensures Timestamped(Timestamped(df, t1), t2) == Timestamped(df, t1)
  {
  }

  /**
   * `handleTracks(df)`: stamp, then `updateTracks`, whose request loop and
   * `bulk_write` are `BulkUpsert`. Any exception is caught and printed.
   */
  method HandleTracks(db: Database, df: Frame, timestamp: string)
    requires WellFormed(df)
    modifies db
    ensures db.songsEmbeddings == old(db.songsEmbeddings)
    ensures db.tracks == Written(old(db.tracks), Timestamped(df, timestamp).rows)
  {
    var stamped := df;
    if "updatedAt" !in stamped.columns {
      stamped := SetColumn(stamped, "updatedAt", Fill(|stamped.rows|, Str(timestamp)));
    }
    db.tracks := BulkUpsert(db.tracks, stamped.rows);
  }

  // ---------------------------------------------------------------------------
  // Preparing the tracks CSV (`prepareDataFrame`)
  // ---------------------------------------------------------------------------

  /** Line 202 drops both listening columns without a check: it needs both. */
  predicate HasListeningColumns(csv: Frame)
  {
    "user_id" in csv.columns && "play_count" in csv.columns
  }

  /** Lines 202-203: the listening columns dropped, then duplicate rows. */
  function Deduplicated(csv: Frame): (r: Frame)
    requires WellFormed(csv) && HasListeningColumns(csv)
    ensures WellFormed(r)
  {
    var f1 := DropColumn(csv, "user_id");
    DropDuplicates(DropColumn(f1, "play_count"))
  }

  /** Everything up to the write succeeds. */
  predicate PrepareOk(csv: Frame)
    requires WellFormed(csv)
  {
    HasListeningColumns(csv) && ShapeInputsOk(Deduplicated(csv))
  }

  /** The frame `prepareDataFrame` hands over: reshaped with the column names read after the drop. */
  function Prepared(csv: Frame): (r: Frame)
    requires WellFormed(csv) && PrepareOk(csv)
    ensures WellFormed(r)
  {
    var df := Deduplicated(csv);
    ShapedFrame(df, df.columns)
  }

  /**
   * Lines 199-241. The missing-column `KeyError` of the drop, or one of the
   * reshaping's exceptions, is caught at line 240 and nothing is written.
   */
  method PrepareDataFrame(db: Database, csv: Frame, timestamp: string) returns (r: Result<(), LoadError>)
    requires WellFormed(csv)
    modifies db
    ensures db.songsEmbeddings == old(db.songsEmbeddings)
    ensures "user_id" !in csv.columns ==> r == Err(MissingColumn("user_id"))
    ensures "user_id" in csv.columns && "play_count" !in csv.columns ==> r == Err(MissingColumn("play_count"))
    ensures r.Ok? <==> PrepareOk(csv)
    ensures r.Ok? ==> db.tracks == Written(old(db.tracks), Timestamped(Prepared(csv), timestamp).rows)
    ensures r.Err? ==> db.tracks == old(db.tracks)
  {
    if "user_id" !in csv.columns {
      return Err(MissingColumn("user_id"));
    }
    if "play_count" !in csv.columns {
      return Err(MissingColumn("play_count"));
    }
    var df := Deduplicated(csv);
    var colNames := df.columns;
    var shaped := ShapeTrackFrame(df, colNames);
    if shaped.Err? {
      return Err(shaped.error);
    }
    HandleTracks(db, shaped.value, timestamp);
    return Ok(());
  }

  /** The reshaping reads the column list only to decide which default columns to add. */
  lemma ShapedSameDefaults(df: Frame, cl1: seq<string>, cl2: seq<string>)
    requires WellFormed(df) && ShapeInputsOk(df)
    requires forall c :: c in DefaultNames ==> (c in cl1 <==> c in cl2)
    ensures ShapedFrame(df, cl1) == ShapedFrame(df, cl2)
  {
    FillDefaultsSame(ShapedBase(df), cl1, cl2);
  }

  /**
   * On a file that has both listening columns, `prepareDataFrame` produces
   * the frame `Tracks.load_dataframe` does, although it reads the column
   * names after the drop and the loader before it.
   */
  lemma PrepareMatchesLoad(csv: Frame)
    requires WellFormed(csv) && HasListeningColumns(csv)
    ensures Deduplicated(csv) == Cleaned(csv)
    ensures PrepareOk(csv) <==> ShapeInputsOk(Cleaned(csv))
    ensures PrepareOk(csv) ==> Prepared(csv) == ShapedFrame(Cleaned(csv), csv.columns)
  {
    var f2 := DropColumn(DropColumn(csv, "user_id"), "play_count");
    assert Dropped(csv) == f2;
    assert Deduplicated(csv) == DropDuplicates(f2) == Cleaned(csv);
    if PrepareOk(csv) {
      var df := Deduplicated(csv);
      assert ColumnSet(df.columns) == ColumnSet(csv.columns) - {"user_id", "play_count"};
      forall c | c in DefaultNames
        ensures c in df.columns <==> c in csv.columns
      {
        DefaultNamesMembers(c);
        assert c in ColumnSet(df.columns) <==> c in ColumnSet(csv.columns);
      }
      ShapedSameDefaults(df, df.columns, csv.columns);
    }
  }

  /** A file without `user_id` loads through the track loader but is refused here. */
  lemma PrepareStricterThanLoad(csv: Frame)
    requires WellFormed(csv) && "user_id" !in csv.columns && ShapeInputsOk(Cleaned(csv))
    ensures !PrepareOk(csv)
  {
  }

  // ---------------------------------------------------------------------------
  // Embedding documents (`updateEmbeddings`)
  // ---------------------------------------------------------------------------

  /** `row.tolist()` over the given columns: the row's cells in column order. */
  function Vector(row: Row, features: seq<string>): (v: seq<Cell>)
    requires forall k :: 0 <= k < |features| ==> features[k] in row
    ensures |v| == |features|
    ensures forall k :: 0 <= k < |features| ==> v[k] == row[features[k]]
  {
    seq(|features|, k requires 0 <= k < |features| => row[features[k]])
  }

  /** The feature columns: every column but `song_id`, in order (`drop(columns="song_id")`). */
  function FeatureColumns(df: Frame): (fs: seq<string>)
    ensures "song_id" !in fs
    ensures forall c :: c in fs <==> c in df.columns && c != "song_id"
  {
    RemoveAll(df.columns, "song_id")
  }

  /** Line 151 as written: the timestamp goes under the misspelt key `updaatedAt`. */
  function EmbeddingRecordAsWritten(row: Row, features: seq<string>, timestamp: string): (d: Row)
    requires "song_id" in row
    requires forall k :: 0 <= k < |features| ==> features[k] in row
    ensures d.Keys == {"song_id", "embeddings", "updaatedAt"}
  {
    map["song_id" := row["song_id"], "embeddings" := List(Vector(row, features)), "updaatedAt" := Str(timestamp)]
  }

  /** One document of `ndf`, with the timestamp under `updatedAt` as in the tracks collection. */
  function EmbeddingRecord(row: Row, features: seq<string>, timestamp: string): (d: Row)
    requires "song_id" in row
    requires forall k :: 0 <= k < |features| ==> features[k] in row
    ensures d.Keys == {"song_id", "embeddings", "updatedAt"}
    ensures d["song_id"] == row["song_id"] && d["updatedAt"] == Str(timestamp)
    ensures d["embeddings"].List? && |d["embeddings"].items| == |features|
    ensures forall k :: 0 <= k < |features| ==> d["embeddings"].items[k] == row[features[k]]
  {
    map["song_id" := row["song_id"], "embeddings" := List(Vector(row, features)), "updatedAt" := Str(timestamp)]
  }

  /** Lines 145-153: one record per row of the file. */
  function EmbeddingRecords(df: Frame, timestamp: string): (records: seq<Row>)
    requires WellFormed(df) && "song_id" in df.columns
    ensures |records| == |df.rows|
    ensures AllKeyed(records)
    ensures forall i :: 0 <= i < |df.rows| ==> records[i]["song_id"] == df.rows[i]["song_id"]
  {
    var fs := FeatureColumns(df);
    seq(|df.rows|, i requires 0 <= i < |df.rows| => EmbeddingRecord(df.rows[i], fs, timestamp))
  }

  /**
   * `updateEmbeddings`: a file without `song_id` raises `KeyError` at line
   * 147, which line 165 catches; otherwise the records are upserted. This is
   * the intended version, writing the timestamp under `updatedAt`; the
   * source writes it under `updaatedAt` (`EmbeddingRecordAsWritten`).
   */
  method UpdateEmbeddings(db: Database, df: Frame, timestamp: string) returns (r: Result<(), LoadError>)
    requires WellFormed(df)
    modifies db
    ensures db.tracks == old(db.tracks)
    ensures r.Ok? <==> "song_id" in df.columns
    ensures r.Err? ==> r.error == MissingColumn("song_id") && db.songsEmbeddings == old(db.songsEmbeddings)
    ensures r.Ok? ==> db.songsEmbeddings == BulkSet(old(db.songsEmbeddings), EmbeddingRecords(df, timestamp))
  {
    if "song_id" !in df.columns {
      return Err(MissingColumn("song_id"));
    }
    var records := EmbeddingRecords(df, timestamp);
    db.songsEmbeddings := BulkUpsert(db.songsEmbeddings, records);
    return Ok(());
  }

  /**
   * After the write, the song of row `i` (when no later row repeats its id)
   * is stored with that row's vector and the new timestamp.
   */
  lemma EmbeddingStored(coll: Collection, df: Frame, timestamp: string, i: nat)
    requires WellFormed(df) && "song_id" in df.columns && i < |df.rows|
    requires forall i' :: i < i' < |df.rows| ==> df.rows[i']["song_id"] != df.rows[i]["song_id"]
    ensures var r := BulkSet(coll, EmbeddingRecords(df, timestamp));
      AnyHasKey(r, df.rows[i]["song_id"]) &&
      forall j :: 0 <= j < |r| && HasKey(r[j], df.rows[i]["song_id"]) ==>
        ("embeddings", List(Vector(df.rows[i], FeatureColumns(df)))) in r[j].Items &&
        ("updatedAt", Str(timestamp)) in r[j].Items
  {
    var records := EmbeddingRecords(df, timestamp);
    var r := BulkSet(coll, records);
    BulkSetLastWins(coll, records, i);
    forall j | 0 <= j < |r| && HasKey(r[j], df.rows[i]["song_id"])
      ensures ("embeddings", List(Vector(df.rows[i], FeatureColumns(df)))) in r[j].Items
      ensures ("updatedAt", Str(timestamp)) in r[j].Items
    {
      assert ("embeddings", records[i]["embeddings"]) in records[i].Items;
      assert ("updatedAt", records[i]["updatedAt"]) in records[i].Items;
    }
  }

  /**
   * With the key as written, re-embedding a stored song never refreshes its
   * `updatedAt`: the `$set` writes `updaatedAt` instead.
   */
  lemma StaleTimestampAsWritten(coll: Collection, row: Row, features: seq<string>, timestamp: string, j: nat)
    requires "song_id" in row
    requires forall k :: 0 <= k < |features| ==> features[k] in row
    requires j < |coll| && HasKey(coll[j], row["song_id"]) && "updatedAt" in coll[j]
    ensures var r := SetMany(coll, EmbeddingRecordAsWritten(row, features, timestamp));
      "updatedAt" in r[j] && r[j]["updatedAt"] == coll[j]["updatedAt"]
  {
  }
}

=== FILE: insert_tracks.dfy ===
/**
 * The track-ingestion script: it reads the tracks CSV into a frame, reshapes
 * it into track documents, gives tracks without a usable popularity a
 * computed one, and upserts one document per row into the tracks collection.
 * The file read and the collection are the `Tracks` object's state.
 */
module TrackIngest {
  import opened Common
  import opened Features
  import opened Frames

  // ---------------------------------------------------------------------------
  // Splitting an artist string on "feat."
  // ---------------------------------------------------------------------------

  /** Where the run of white space starting at `i` ends. */
  function SpaceRun(s: string, i: nat): (e: nat)
    requires i <= |s|
    ensures i <= e <= |s|
    ensures forall k :: i <= k < e ==> PySpace(s[k])
    ensures e == |s| || !PySpace(s[e])
    decreases |s| - i
  {
    if i < |s| && PySpace(s[i]) then SpaceRun(s, i + 1) else i
  }

  /** "feat" in any letter case starts at `j`. */
  predicate FeatAt(s: string, j: nat)
  {
    j + 4 <= |s|
    && LowerChar(s[j]) == 'f' && LowerChar(s[j + 1]) == 'e'
    && LowerChar(s[j + 2]) == 'a' && LowerChar(s[j + 3]) == 't'
  }

  /**
   * Where a match of the pattern `\s+feat\.?\s+` (case-insensitive) that
   * starts at `i` ends, if one starts there. The leading `\s+` can only stop
   * at the end of the white-space run, since "f" is not white space. After
   * "feat" a "." is taken when it is there; without it the following `\s+`
   * could not start at the ".". The trailing `\s+` is greedy.
   */
  function MatchEnd(s: string, i: nat): (e: Option<nat>)
    requires i <= |s|
    ensures e.Some? ==> i + 6 <= e.value <= |s|
  {
    if i < |s| && PySpace(s[i]) then
      var j := SpaceRun(s, i);
      if FeatAt(s, j) then
        var k := if j + 4 < |s| && s[j + 4] == '.' then j + 5 else j + 4;
        if k < |s| && PySpace(s[k]) then Some(SpaceRun(s, k)) else None
      else None
    else None
  }

  /** The leftmost match starting at or after `i`, as (start, end). */
  function NextMatch(s: string, i: nat): (m: Option<(nat, nat)>)
    requires i <= |s|
    ensures m.Some? ==> i <= m.value.0 <= |s| && MatchEnd(s, m.value.0) == Some(m.value.1)
    decreases |s| - i
  {
    match MatchEnd(s, i)
    case Some(e) => Some((i, e))
    case None => if i == |s| then None else NextMatch(s, i + 1)
  }

  /** No match starts before the one found, nor anywhere when none is found. */
  lemma {:induction false} NextMatchLeftmost(s: string, i: nat, p: nat)
    requires i <= p <= |s|
    requires NextMatch(s, i).None? || p < NextMatch(s, i).value.0
    ensures MatchEnd(s, p).None?
    decreases p - i
  {
    if p > i {
      assert MatchEnd(s, i).None?;
      assert NextMatch(s, i) == NextMatch(s, i + 1);
      NextMatchLeftmost(s, i + 1, p);
    }
  }

  /** No match of the separator starts anywhere in `s`. */
  predicate NoSeparator(s: string)
  {
    forall p :: 0 <= p <= |s| ==> MatchEnd(s, p).None?
  }

  /**
   * `re.split(r"\s+feat\.?\s+", s, flags=re.IGNORECASE)`: the text between
   * successive leftmost, non-overlapping matches.
   */
  function FeatSplit(s: string): (parts: seq<string>)
    ensures |parts| >= 1
    decreases |s|
  {
    match NextMatch(s, 0)
    case None => [s]
    case Some((b, e)) => [s[..b]] + FeatSplit(s[e..])
  }

  /** The separators `FeatSplit` cut out, in order. */
  function FeatSeparators(s: string): (seps: seq<string>)
    ensures |seps| == |FeatSplit(s)| - 1
    decreases |s|
  {
    match NextMatch(s, 0)
    case None => []
    case Some((b, e)) => [s[b..e]] + FeatSeparators(s[e..])
  }

  /** The parts with the separators put back between them. */
  function Interleave(parts: seq<string>, seps: seq<string>): string
    requires |parts| == |seps| + 1
  {
    if seps == [] then parts[0] else parts[0] + seps[0] + Interleave(parts[1..], seps[1..])
  }

  /** Splitting loses nothing: putting the separators back gives the string. */
  lemma {:induction false} FeatSplitRebuild(s: string)
    ensures Interleave(FeatSplit(s), FeatSeparators(s)) == s
    decreases |s|
  {
    match NextMatch(s, 0)
    case None =>
    case Some((b, e)) =>
      assert MatchEnd(s, b) == Some(e);
      assert b <= e <= |s|;
      var rest := s[e..];
      FeatSplitRebuild(rest);
      var parts, seps := FeatSplit(s), FeatSeparators(s);
      assert parts == [s[..b]] + FeatSplit(rest);
      assert seps == [s[b..e]] + FeatSeparators(rest);
      assert parts[1..] == FeatSplit(rest) && seps[1..] == FeatSeparators(rest);
      calc {
        Interleave(parts, seps);
        s[..b] + s[b..e] + Interleave(FeatSplit(rest), FeatSeparators(rest));
        s[..b] + s[b..e] + rest;
        { ThreeSlices(s, b, e); }
        s;
      }
  }

  lemma ThreeSlices(s: string, b: nat, e: nat)
    requires b <= e <= |s|
    ensures s[..b] + s[b..e] + s[e..] == s
  {
  }

  /** A string without a separator is one part. */
  lemma FeatSplitNoSeparator(s: string)
    requires NoSeparator(s)
    ensures FeatSplit(s) == [s]
  {
  }

  lemma {:induction false} SpaceRunPrefix(s: string, b: nat, i: nat)
    requires i <= b <= |s|
    requires SpaceRun(s[..b], i) < b
    ensures SpaceRun(s, i) == SpaceRun(s[..b], i)
    decreases b - i
  {
    if i < b && PySpace(s[..b][i]) {
      SpaceRunPrefix(s, b, i + 1);
    }
  }

  /** A match inside a prefix is a match in the whole string too. */
  lemma PrefixMatch(s: string, b: nat, p: nat)
    requires p <= b <= |s|
    requires MatchEnd(s[..b], p).Some?
    ensures MatchEnd(s, p).Some?
  {
    var t := s[..b];
    var j := SpaceRun(t, p);
    assert FeatAt(t, j);
    SpaceRunPrefix(s, b, p);
  }

  /** No part still contains a separator. */
  lemma {:induction false} FeatPartsClean(s: string)
    ensures forall i :: 0 <= i < |FeatSplit(s)| ==> NoSeparator(FeatSplit(s)[i])
    decreases |s|
  {
    match NextMatch(s, 0)
    case None =>
      forall p | 0 <= p <= |s|
        ensures MatchEnd(s, p).None?
      {
        NextMatchLeftmost(s, 0, p);
      }
    case Some((b, e)) =>
      FeatPartsClean(s[e..]);
      forall p | 0 <= p <= b
        ensures MatchEnd(s[..b], p).None?
      {
        if p < b {
          NextMatchLeftmost(s, 0, p);
        }
        if MatchEnd(s[..b], p).Some? {
          PrefixMatch(s, b, p);
        }
      }
      assert FeatSplit(s)[1..] == FeatSplit(s[e..]);
  }

  /** A worked case: the "." after "feat" is taken into the separator. */
  lemma FeatSplitDotted()
    ensures FeatSplit("A feat. B") == ["A", "B"]
  {
    var s := "A feat. B";
    assert SpaceRun(s, 2) == 2;
    assert SpaceRun(s, 8) == 8;
    assert FeatAt(s, 2);
    assert MatchEnd(s, 1) == Some(8);
    assert NextMatch(s, 0) == Some((1, 8));
    assert s[..1] == "A" && s[8..] == "B";
    OneLetterPart('B');
  }

  /** A worked case: "feat" is matched in any letter case, and the "." is optional. */
  lemma FeatSplitUpperCase()
    ensures FeatSplit("A FEAT B") == ["A", "B"]
  {
    var u := "A FEAT B";
    assert SpaceRun(u, 2) == 2;
    assert SpaceRun(u, 7) == 7;
    assert FeatAt(u, 2) by {
      assert LowerChar('F') == 'f' && LowerChar('E') == 'e' && LowerChar('A') == 'a' && LowerChar('T') == 't';
    }
    assert MatchEnd(u, 1) == Some(7);
    assert NextMatch(u, 0) == Some((1, 7));
    assert u[..1] == "A" && u[7..] == "B";
    OneLetterPart('B');
  }

  lemma OneLetterPart(c: char)
    requires !PySpace(c)
    ensures FeatSplit([c]) == [[c]]
  {
    assert MatchEnd([c], 0).None?;
    assert MatchEnd([c], 1).None?;
  }

  /** The `artists` entries made from one artist string. */
  function ArtistEntries(artist: string): (r: seq<ArtistRecord>)
    ensures |r| == |FeatSplit(artist)|
    ensures forall i :: 0 <= i < |r| ==> r[i] == ArtistRecord(FeatSplit(artist)[i], "")
  {
    var parts := FeatSplit(artist);
    seq(|parts|, i requires 0 <= i < |parts| => ArtistRecord(parts[i], ""))
  }

  /**
   * k separators give k + 1 entries, and the entry names with the separators
   * put back between them give the artist string.
   */
  lemma ArtistEntriesRebuild(artist: string)
    ensures |ArtistEntries(artist)| == |FeatSeparators(artist)| + 1
    ensures var names := seq(|ArtistEntries(artist)|, i requires 0 <= i < |ArtistEntries(artist)| => ArtistEntries(artist)[i].name);
      Interleave(names, FeatSeparators(artist)) == artist
  {
    var names := seq(|ArtistEntries(artist)|, i requires 0 <= i < |ArtistEntries(artist)| => ArtistEntries(artist)[i].name);
    assert names == FeatSplit(artist);
    FeatSplitRebuild(artist);
  }

  /**
   * `modifyArtist`: one `{"name": part, "spotify_id": ""}` per part, so k
   * separators give k + 1 entries.
   */
  method ModifyArtist(artist: string) returns (r: seq<ArtistRecord>)
    ensures r == ArtistEntries(artist)
  {
    var artistList := FeatSplit(artist);
    r := [];
    for i := 0 to |artistList|
      invariant |r| == i
      invariant forall k :: 0 <= k < i ==> r[k] == ArtistRecord(artistList[k], "")
    {
      r := r + [ArtistRecord(artistList[i], "")];
    }
  }

  // ---------------------------------------------------------------------------
  // Reshaping the frame
  // ---------------------------------------------------------------------------

  /** The exceptions that stop loading (the script does not catch them). */
  datatype LoadError =
    | MissingColumn(name: string)   // KeyError
    | NotText(column: string)       // re.split on a non-string, or `.str` on a non-text column
    | EmptyFrame                    // MinMaxScaler refuses zero rows
    | NotNumeric(column: string)    // a cell the popularity arithmetic cannot use

  /** Every occurrence of `a` replaced by `b` (`str.replace` with one-character arguments). */
  function ReplaceChar(s: string, a: char, b: char): (r: string)
    ensures |r| == |s|
    ensures forall i :: 0 <= i < |s| ==> r[i] == if s[i] == a then b else s[i]
  {
    seq(|s|, i requires 0 <= i < |s| => if s[i] == a then b else s[i])
  }

  /** After the replacement no `a` is left, and where there was no `b` it can be undone. */
  lemma ReplaceCharProperties(s: string, a: char, b: char)
    requires a != b
    ensures a !in ReplaceChar(s, a, b)
    ensures b !in s ==> ReplaceChar(ReplaceChar(s, a, b), b, a) == s
  {
  }

  /** `Series.str.replace("_", ",")` on one cell: a string is rewritten, anything else is NaN. */
  function TagCell(c: Cell): Cell
  {
    if c.Str? then Str(ReplaceChar(c.s, '_', ',')) else Null
  }

  /**
   * pandas allows `.str` on a column holding text; a column with no string
   * at all (all numbers or all NaN) has a numeric type and raises.
   */
  predicate TextColumn(col: seq<Cell>)
  {
    |col| == 0 || exists i :: 0 <= i < |col| && col[i].Str?
  }

  /** The columns filled in when the file lacks them. */
  const DefaultNames: seq<string> := ["spotify_id", "lastfm_id", "wiki_summary", "source", "embeddingsStatus"]

  /** The value a missing column is filled with. */
  function DefaultFor(c: string): Option<Cell>
  {
    if c == "spotify_id" || c == "lastfm_id" || c == "wiki_summary" then Some(Str(""))
    else if c == "source" then Some(Str("msd"))
    else if c == "embeddingsStatus" then Some(Str("pending"))
    else None
  }

  /** `{"url": "", "height": 0, "width": 0}`, a fresh copy per row. */
  const DefaultImage: Cell := Image("", 0, 0)

  /** The columns the reshaping rewrites outright. */
  predicate Rewritten(c: string)
  {
    c == "artist_name" || c == "artists" || c == "all_tags" || c == "image"
  }

  /** Column `c` is filled with its default: it is a default column the file did not have. */
  predicate Defaulted(c: string, columnsList: seq<string>)
  {
    c in DefaultNames && c !in columnsList
  }

  /** What the reshaping needs: a text `artist_name` column and an `all_tags` column `.str` accepts. */
  predicate ShapeInputsOk(df: Frame)
    requires WellFormed(df)
  {
    "artist_name" in df.columns &&
    (forall i :: 0 <= i < |df.rows| ==> df.rows[i]["artist_name"].Str?) &&
    "all_tags" in df.columns && TextColumn(ColumnValues(df, "all_tags"))
  }

  /** The `artists` column: each artist string split into entries. */
  function ArtistColumn(names: seq<Cell>): (r: seq<Cell>)
    requires forall i :: 0 <= i < |names| ==> names[i].Str?
    ensures |r| == |names|
    ensures forall i :: 0 <= i < |names| ==> r[i] == Artists(ArtistEntries(names[i].s))
  {
    seq(|names|, i requires 0 <= i < |names| => Artists(ArtistEntries(names[i].s)))
  }

  function TagColumn(tags: seq<Cell>): (r: seq<Cell>)
    ensures |r| == |tags|
    ensures forall i :: 0 <= i < |tags| ==> r[i] == TagCell(tags[i])
  {
    seq(|tags|, i requires 0 <= i < |tags| => TagCell(tags[i]))
  }

  /** `if c not in columns_list: row[c] = default` on one row. */
  function RowDefault(row: Row, columnsList: seq<string>, c: string): Row
    requires DefaultFor(c).Some?
  {
    if c in columnsList then row else row[c := DefaultFor(c).value]
  }

  /** The five default columns on one row, in the order the script fills them. */
  function DefaultsRow(row: Row, columnsList: seq<string>): Row
  {
    var r1 := RowDefault(row, columnsList, "spotify_id");
    var r2 := RowDefault(r1, columnsList, "lastfm_id");
    var r3 := RowDefault(r2, columnsList, "wiki_summary");
    var r4 := RowDefault(r3, columnsList, "source");
    RowDefault(r4, columnsList, "embeddingsStatus")
  }

  /**
   * One row after the reshaping: the artist string becomes the `artists`
   * list and `artist_name` goes, the tags get commas for underscores, the
   * missing default columns are filled, and the row gets its own image.
   */
  function ShapeRow(row: Row, columnsList: seq<string>): Row
    requires "artist_name" in row && row["artist_name"].Str? && "all_tags" in row
  {
    DefaultsRow(BaseRow(row), columnsList)["image" := DefaultImage]
  }

  /** The artist and tag rewrites of one row, before the defaults. */
  function BaseRow(row: Row): Row
    requires "artist_name" in row && row["artist_name"].Str? && "all_tags" in row
  {
    var r1 := row["artists" := Artists(ArtistEntries(row["artist_name"].s))] - {"artist_name"};
    r1["all_tags" := TagCell(row["all_tags"])]
  }

  lemma RowDefaultSpec(row: Row, columnsList: seq<string>, c: string)
    requires DefaultFor(c).Some?
    ensures RowDefault(row, columnsList, c).Keys == row.Keys + (if c in columnsList then {} else {c})
    ensures c !in columnsList ==> RowDefault(row, columnsList, c)[c] == DefaultFor(c).value
    ensures forall d :: d in row && (d != c || c in columnsList) ==> RowDefault(row, columnsList, c)[d] == row[d]
  {
  }

  lemma DefaultNamesMembers(c: string)
    ensures c in DefaultNames <==>
      c == "spotify_id" || c == "lastfm_id" || c == "wiki_summary" || c == "source" || c == "embeddingsStatus"
    ensures c in DefaultNames ==> DefaultFor(c).Some?
  {
  }

  /** The defaults fill exactly the default columns the file lacked and change nothing else. */
  lemma DefaultsRowSpec(row: Row, columnsList: seq<string>)
    ensures forall c :: c in DefaultsRow(row, columnsList) <==> c in row || Defaulted(c, columnsList)
    ensures forall c :: Defaulted(c, columnsList) ==> DefaultsRow(row, columnsList)[c] == DefaultFor(c).value
    ensures forall c :: c in row && !Defaulted(c, columnsList) ==> DefaultsRow(row, columnsList)[c] == row[c]
  {
    var cl := columnsList;
    var r1 := RowDefault(row, cl, "spotify_id");
    var r2 := RowDefault(r1, cl, "lastfm_id");
    var r3 := RowDefault(r2, cl, "wiki_summary");
    var r4 := RowDefault(r3, cl, "source");
    var r5 := RowDefault(r4, cl, "embeddingsStatus");
    assert r5 == DefaultsRow(row, cl);
    forall c
      ensures c in r5 <==> c in row || Defaulted(c, cl)
      ensures Defaulted(c, cl) ==> r5[c] == DefaultFor(c).value
      ensures c in row && !Defaulted(c, cl) ==> r5[c] == row[c]
    {
      DefaultNamesMembers(c);
      RowDefaultSpec(row, cl, "spotify_id");
      RowDefaultSpec(r1, cl, "lastfm_id");
      RowDefaultSpec(r2, cl, "wiki_summary");
      RowDefaultSpec(r3, cl, "source");
      RowDefaultSpec(r4, cl, "embeddingsStatus");
    }
  }

  /** The keys, rewritten fields, defaults and kept fields of a reshaped row. */
  lemma ShapeRowSpec(row: Row, columnsList: seq<string>)
    requires "artist_name" in row && row["artist_name"].Str? && "all_tags" in row
    ensures var r := ShapeRow(row, columnsList);
      (forall c :: c in r <==> (c in row && c != "artist_name") || c == "artists" || c == "all_tags" || c == "image" || Defaulted(c, columnsList)) &&
      r["artists"] == Artists(ArtistEntries(row["artist_name"].s)) &&
      r["all_tags"] == TagCell(row["all_tags"]) &&
      r["image"] == DefaultImage &&
      (forall c :: Defaulted(c, columnsList) ==> r[c] == DefaultFor(c).value) &&
      (forall c :: c in row && !Rewritten(c) && !Defaulted(c, columnsList) ==> r[c] == row[c])
  {
    var r2 := BaseRow(row);
    BaseRowSpec(row);
    DefaultsRowSpec(r2, columnsList);
    DefaultNamesMembers("artists");
    DefaultNamesMembers("all_tags");
    DefaultNamesMembers("image");
    var r := DefaultsRow(r2, columnsList)["image" := DefaultImage];
    assert r == ShapeRow(row, columnsList);
    forall c
      ensures c in r <==> (c in row && c != "artist_name") || c == "artists" || c == "all_tags" || c == "image" || Defaulted(c, columnsList)
    {
    }
  }

  lemma BaseRowSpec(row: Row)
    requires "artist_name" in row && row["artist_name"].Str? && "all_tags" in row
    ensures BaseRow(row).Keys == row.Keys - {"artist_name"} + {"artists", "all_tags"}
    ensures BaseRow(row)["artists"] == Artists(ArtistEntries(row["artist_name"].s))
    ensures BaseRow(row)["all_tags"] == TagCell(row["all_tags"])
    ensures forall c :: c in row && !Rewritten(c) ==> BaseRow(row)[c] == row[c]
  {
  }

  /** Adding a default column to the column list, when the file lacked it. */
  function ColumnDefault(columns: seq<string>, columnsList: seq<string>, c: string): seq<string>
  {
    if c in columnsList || c in columns then columns else columns + [c]
  }

  /** Lines 46-53 on the frame: the `artists` column in, `artist_name` out, the tags rewritten. */
  function ShapedBase(df: Frame): (r: Frame)
    requires WellFormed(df) && ShapeInputsOk(df)
    ensures WellFormed(r) && |r.rows| == |df.rows|
  {
    var f1 := SetColumn(df, "artists", ArtistColumn(ColumnValues(df, "artist_name")));
    var f2 := DropColumn(f1, "artist_name");
    SetColumn(f2, "all_tags", TagColumn(ColumnValues(f2, "all_tags")))
  }

  /** Row by row, `ShapedBase` is `BaseRow`. */
  lemma ShapedBaseRows(df: Frame)
    requires WellFormed(df) && ShapeInputsOk(df)
    ensures forall i :: 0 <= i < |df.rows| ==> ShapedBase(df).rows[i] == BaseRow(df.rows[i])
  {
    var f1 := SetColumn(df, "artists", ArtistColumn(ColumnValues(df, "artist_name")));
    var f2 := DropColumn(f1, "artist_name");
    var f3 := SetColumn(f2, "all_tags", TagColumn(ColumnValues(f2, "all_tags")));
    assert ShapedBase(df) == f3;
    forall i | 0 <= i < |df.rows|
      ensures f3.rows[i] == BaseRow(df.rows[i])
    {
      var row := df.rows[i];
      assert f1.rows[i] == row["artists" := Artists(ArtistEntries(row["artist_name"].s))];
      assert f2.rows[i] == f1.rows[i] - {"artist_name"};
      assert f2.rows[i]["all_tags"] == row["all_tags"];
      assert f3.rows[i] == f2.rows[i]["all_tags" := TagCell(row["all_tags"])];
    }
  }

  /** Lines 55-69 on the frame: each default column the file lacked, filled. */
  function FillDefaults(f: Frame, columnsList: seq<string>): (r: Frame)
    requires WellFormed(f)
    ensures WellFormed(r) && |r.rows| == |f.rows|
    ensures forall i :: 0 <= i < |f.rows| ==> r.rows[i] == DefaultsRow(f.rows[i], columnsList)
  {
    var f4 := FillIfAbsent(f, columnsList, "spotify_id");
    var f5 := FillIfAbsent(f4, columnsList, "lastfm_id");
    var f6 := FillIfAbsent(f5, columnsList, "wiki_summary");
    var f7 := FillIfAbsent(f6, columnsList, "source");
    FillIfAbsent(f7, columnsList, "embeddingsStatus")
  }

  /** Only whether each default column was listed matters to the fills. */
  lemma FillDefaultsSame(f: Frame, cl1: seq<string>, cl2: seq<string>)
    requires WellFormed(f)
    requires forall c :: c in DefaultNames ==> (c in cl1 <==> c in cl2)
    ensures FillDefaults(f, cl1) == FillDefaults(f, cl2)
  {
    DefaultNamesMembers("spotify_id");
    DefaultNamesMembers("lastfm_id");
    DefaultNamesMembers("wiki_summary");
    DefaultNamesMembers("source");
    DefaultNamesMembers("embeddingsStatus");
  }

  /**
   * The frame after lines 46-73; `columnsList` is the column list the file
   * had. Row by row it is `ShapeRow`.
   */
  function ShapedFrame(df: Frame, columnsList: seq<string>): (r: Frame)
    requires WellFormed(df) && ShapeInputsOk(df)
    ensures WellFormed(r) && |r.rows| == |df.rows|
  {
    var f8 := FillDefaults(ShapedBase(df), columnsList);
    SetColumn(f8, "image", Fill(|f8.rows|, DefaultImage))
  }

  /** Row by row, the reshaped frame is `ShapeRow`. */
  lemma ShapedFrameRows(df: Frame, columnsList: seq<string>)
    requires WellFormed(df) && ShapeInputsOk(df)
    ensures forall i :: 0 <= i < |df.rows| ==> ShapedFrame(df, columnsList).rows[i] == ShapeRow(df.rows[i], columnsList)
  {
    ShapedBaseRows(df);
  }

  /**
   * Lines 46-73 step by step: `.apply(modifyArtist)` over the artist
   * column, the drop, the tag replacement, the defaults and the images.
   * The exceptions are raised in that order.
   */
  method ShapeTrackFrame(df: Frame, columnsList: seq<string>) returns (r: Result<Frame, LoadError>)
    requires WellFormed(df)
    ensures "artist_name" !in df.columns ==> r == Err(MissingColumn("artist_name"))
    ensures "artist_name" in df.columns && (exists i :: 0 <= i < |df.rows| && !df.rows[i]["artist_name"].Str?) ==>
      r == Err(NotText("artist_name"))
    ensures r.Ok? <==> ShapeInputsOk(df)
    ensures r.Ok? ==> WellFormed(r.value) && r.value == ShapedFrame(df, columnsList)
  {
    if "artist_name" !in df.columns {
      return Err(MissingColumn("artist_name"));
    }
    var names := ColumnValues(df, "artist_name");
    var applied := ApplyModifyArtist(names);
    if applied.Err? {
      return Err(applied.error);
    }
    var artists := applied.value;
    var f1 := SetColumn(df, "artists", artists);
    var f2 := DropColumn(f1, "artist_name");
    if "all_tags" !in f2.columns {
      return Err(MissingColumn("all_tags"));
    }
    var tags := ColumnValues(f2, "all_tags");
    if !TextColumn(tags) {
      assert ColumnValues(df, "all_tags") == tags;
      return Err(NotText("all_tags"));
    }
    var f3 := SetColumn(f2, "all_tags", TagColumn(tags));
    assert ColumnValues(df, "all_tags") == tags;
    assert f3 == ShapedBase(df);
    var f8 := FillDefaults(f3, columnsList);
    var f9 := SetColumn(f8, "image", Fill(|f8.rows|, DefaultImage));
    return Ok(f9);
  }

  /** `df["artist_name"].apply(modifyArtist)`: re.split raises on the first non-string. */
  method ApplyModifyArtist(names: seq<Cell>) returns (r: Result<seq<Cell>, LoadError>)
    ensures r.Ok? <==> forall i :: 0 <= i < |names| ==> names[i].Str?
    ensures r.Err? ==> r.error == NotText("artist_name")
    ensures r.Ok? ==> r.value == ArtistColumn(names)
  {
    var artists: seq<Cell> := [];
    for i := 0 to |names|
      invariant |artists| == i
      invariant forall k :: 0 <= k < i ==> names[k].Str? && artists[k] == Artists(ArtistEntries(names[k].s))
    {
      if !names[i].Str? {
        return Err(NotText("artist_name"));
      }
      var entries := ModifyArtist(names[i].s);
      artists := artists + [Artists(entries)];
    }
    return Ok(artists);
  }

  /** `df[c] = default` when the file lacked column `c`. */
  function FillIfAbsent(f: Frame, columnsList: seq<string>, c: string): (r: Frame)
    requires WellFormed(f) && DefaultFor(c).Some?
    ensures WellFormed(r) && |r.rows| == |f.rows|
    ensures r.columns == ColumnDefault(f.columns, columnsList, c)
    ensures forall i :: 0 <= i < |f.rows| ==> r.rows[i] == RowDefault(f.rows[i], columnsList, c)
  {
    if c in columnsList then f else SetColumn(f, c, Fill(|f.rows|, DefaultFor(c).value))
  }

  // ---------------------------------------------------------------------------
  // Dropping the listening columns and duplicate rows
  // ---------------------------------------------------------------------------

  /** Lines 34-44: `user_id` and `play_count` dropped when the file has them, then duplicate rows. */
  function Cleaned(csv: Frame): (r: Frame)
    requires WellFormed(csv)
    ensures WellFormed(r)
  {
    DropDuplicates(Dropped(csv))
  }

  /** Lines 34-41: the two listening columns dropped, each only when the file has it. */
  function Dropped(csv: Frame): (r: Frame)
    requires WellFormed(csv)
    ensures WellFormed(r) && |r.rows| == |csv.rows|
    ensures ColumnSet(r.columns) == ColumnSet(csv.columns) - {"user_id", "play_count"}
  {
    var f1 := if "user_id" in csv.columns then DropColumn(csv, "user_id") else csv;
    if "play_count" in csv.columns then DropColumn(f1, "play_count") else f1
  }

  lemma DropAbsent(row: Row, c: string)
    requires c !in row
    ensures row - {c} == row
  {
  }

  lemma DroppedRow(csv: Frame, i: nat)
    requires WellFormed(csv) && i < |csv.rows|
    ensures Dropped(csv).rows[i] == csv.rows[i] - {"user_id", "play_count"}
  {
    var row := csv.rows[i];
    var f1 := if "user_id" in csv.columns then DropColumn(csv, "user_id") else csv;
    var f2 := if "play_count" in csv.columns then DropColumn(f1, "play_count") else f1;
    assert Dropped(csv) == f2;
    assert f1.rows[i] == row - {"user_id"} by {
      if "user_id" !in csv.columns {
        assert "user_id" !in ColumnSet(csv.columns);
        DropAbsent(row, "user_id");
      }
    }
    assert f2.rows[i] == f1.rows[i] - {"play_count"} by {
      if "play_count" !in csv.columns {
        assert "play_count" !in ColumnSet(csv.columns);
        DropAbsent(f1.rows[i], "play_count");
      }
    }
    assert row - {"user_id"} - {"play_count"} == row - {"user_id", "play_count"};
  }

  /** Every row loses exactly the listening columns. */
  lemma DroppedRows(csv: Frame)
    requires WellFormed(csv)
    ensures forall i :: 0 <= i < |csv.rows| ==> Dropped(csv).rows[i] == csv.rows[i] - {"user_id", "play_count"}
  {
    forall i | 0 <= i < |csv.rows|
      ensures Dropped(csv).rows[i] == csv.rows[i] - {"user_id", "play_count"}
    {
      DroppedRow(csv, i);
    }
  }

  /** The file's columns less the listening ones, and each row once, from a row of the file. */
  lemma CleanedRows(csv: Frame)
    requires WellFormed(csv)
    ensures "user_id" !in Cleaned(csv).columns && "play_count" !in Cleaned(csv).columns
    ensures ColumnSet(Cleaned(csv).columns) == ColumnSet(csv.columns) - {"user_id", "play_count"}
    ensures NoDuplicates(Cleaned(csv).rows)
    ensures forall row :: row in Cleaned(csv).rows <==>
      exists i :: 0 <= i < |csv.rows| && row == csv.rows[i] - {"user_id", "play_count"}
  {
    var f2 := Dropped(csv);
    DroppedRows(csv);
    forall row
      ensures row in Cleaned(csv).rows <==> exists i :: 0 <= i < |csv.rows| && row == csv.rows[i] - {"user_id", "play_count"}
    {
      if row in f2.rows {
        var i :| 0 <= i < |f2.rows| && f2.rows[i] == row;
        assert row == csv.rows[i] - {"user_id", "play_count"};
      }
      if exists i :: 0 <= i < |csv.rows| && row == csv.rows[i] - {"user_id", "play_count"} {
        var i :| 0 <= i < |csv.rows| && row == csv.rows[i] - {"user_id", "play_count"};
        assert f2.rows[i] == row;
      }
    }
  }

  // ---------------------------------------------------------------------------
  // Popularity imputation (`updatePopularity`)
  // ---------------------------------------------------------------------------

  predicate NumOrNull(c: Cell)
  {
    c.Num? || c.Null?
  }

  /**
   * What `updatePopularity` can work on: at least one row (MinMaxScaler
   * refuses an empty column), the six columns it reads, and numbers or NaN
   * in each of them (NaN passes through the scalers).
   */
  predicate PopularityInputsOk(df: Frame)
    requires WellFormed(df)
  {
    |df.rows| > 0 &&
    "year" in df.columns && "duration" in df.columns && "total_play_counts" in df.columns &&
    "total_listeners_counts" in df.columns && "spotify_popularity" in df.columns &&
    "popularity_score" in df.columns &&
    forall i :: 0 <= i < |df.rows| ==>
      NumOrNull(df.rows[i]["year"]) && NumOrNull(df.rows[i]["duration"]) &&
      NumOrNull(df.rows[i]["total_play_counts"]) && NumOrNull(df.rows[i]["total_listeners_counts"]) &&
      NumOrNull(df.rows[i]["spotify_popularity"]) && NumOrNull(df.rows[i]["popularity_score"])
  }

  /** The exception `updatePopularity` raises, in the order the lines reach them. */
  function PopularityError(df: Frame): LoadError
    requires WellFormed(df)
  {
    if "year" !in df.columns then MissingColumn("year")
    else if |df.rows| == 0 then EmptyFrame
    else if "duration" !in df.columns then MissingColumn("duration")
    else if "total_play_counts" !in df.columns then MissingColumn("total_play_counts")
    else if "total_listeners_counts" !in df.columns then MissingColumn("total_listeners_counts")
    else if "spotify_popularity" !in df.columns then MissingColumn("spotify_popularity")
    else if "popularity_score" !in df.columns then MissingColumn("popularity_score")
    else NotNumeric("popularity_score")
  }

  /** The imputation's view of one row. */
  function PopRowAt(df: Frame, i: nat): PopRow
    requires WellFormed(df) && PopularityInputsOk(df) && i < |df.rows|
  {
    var row := df.rows[i];
    PopRow(CellOption(row["popularity_score"]), CellOption(row["total_play_counts"]),
           CellOption(row["total_listeners_counts"]), CellOption(row["spotify_popularity"]))
  }

  function PopRows(df: Frame): (rows: seq<PopRow>)
    requires WellFormed(df) && PopularityInputsOk(df)
    ensures |rows| == |df.rows| && forall i :: 0 <= i < |df.rows| ==> rows[i] == PopRowAt(df, i)
  {
    seq(|df.rows|, i requires 0 <= i < |df.rows| => PopRowAt(df, i))
  }

  /** The mask of lines 112-114: popularity missing or not positive; Spotify popularity plays no part. */
  function ScoreMask(rows: seq<PopRow>): (m: seq<bool>)
    ensures |m| == |rows| && forall i :: 0 <= i < |rows| ==> m[i] == NeedsScore(rows[i])
  {
    seq(|rows|, i requires 0 <= i < |rows| => NeedsScore(rows[i]))
  }

  /** A numeric cell as pandas reads it: a number, or NaN (None) for anything else. */
  function CellOption(c: Cell): Option<real>
  {
    if c.Num? then Some(c.n) else None
  }

  function OptionCell(o: Option<real>): Cell
  {
    if o.Some? then Num(o.value) else Null
  }

  /** The `popularity_score` column after line 139: masked rows get the imputed value. */
  function ImputedColumn(df: Frame): (col: seq<Cell>)
    requires WellFormed(df) && PopularityInputsOk(df)
    ensures |col| == |df.rows|
  {
    var rows := PopRows(df);
    var mask := ScoreMask(rows);
    var imputed := Impute(rows, mask);
    seq(|rows|, i requires 0 <= i < |rows| => if mask[i] then OptionCell(imputed[i]) else df.rows[i]["popularity_score"])
  }

  /** The assignment to the masked rows, which leaves the frame as it is when no row is masked. */
  method ImputePopularity(df: Frame) returns (r: Frame)
    requires WellFormed(df) && PopularityInputsOk(df)
    ensures r == WithImputed(df)
  {
    var rows := PopRows(df);
    var mask := ScoreMask(rows);
    if exists i :: 0 <= i < |rows| && mask[i] {
      r := SetColumn(df, "popularity_score", ImputedColumn(df));
    } else {
      ImputedNoMask(df);
      r := df;
    }
  }

  /** The frame after `updatePopularity`. */
  function WithImputed(df: Frame): (r: Frame)
    requires WellFormed(df) && PopularityInputsOk(df)
    ensures WellFormed(r)
  {
    SetColumn(df, "popularity_score", ImputedColumn(df))
  }

  /**
   * A positive popularity is kept. A missing or non-positive one becomes an
   * integer between 1 and 100, or NaN when the row's play or listener count
   * (or, when Spotify is used, its Spotify popularity) is NaN; the row is
   * written either way. Every popularity left is a positive number or NaN.
   */
  lemma ImputedColumnSpec(df: Frame, i: nat)
    requires WellFormed(df) && PopularityInputsOk(df) && i < |df.rows|
    ensures var c := df.rows[i]["popularity_score"];
      c.Num? && c.n > 0.0 ==> ImputedColumn(df)[i] == c
    ensures var c := df.rows[i]["popularity_score"];
      c.Null? || c.n <= 0.0 ==>
        var rows := PopRows(df);
        (ImputedColumn(df)[i].Null? <==> Combined(rows, ScoreMask(rows))[i].None?)
        && (ImputedColumn(df)[i].Num? ==>
              ImputedColumn(df)[i].n.Floor as real == ImputedColumn(df)[i].n && 1.0 <= ImputedColumn(df)[i].n <= 100.0)
    ensures var c := df.rows[i]["popularity_score"];
      (c.Null? || c.n <= 0.0) && df.rows[i]["total_play_counts"].Null? ==> ImputedColumn(df)[i].Null?
    ensures ImputedColumn(df)[i].Null? || (ImputedColumn(df)[i].Num? && ImputedColumn(df)[i].n > 0.0)
  {
    var rows := PopRows(df);
    var mask := ScoreMask(rows);
    CombinedPresent(rows, mask, i);
    if mask[i] {
      ImputeMaskedRange(rows, mask, i);
    }
  }

  /** Without a row to re-score the frame is left as it is (the `if mask.any()` guard). */
  lemma ImputedNoMask(df: Frame)
    requires WellFormed(df) && PopularityInputsOk(df)
    requires forall i :: 0 <= i < |df.rows| ==> !NeedsScore(PopRows(df)[i])
    ensures WithImputed(df) == df
  {
    var col := ImputedColumn(df);
    forall i | 0 <= i < |df.rows|
      ensures col[i] == df.rows[i]["popularity_score"]
    {
      assert !ScoreMask(PopRows(df))[i];
    }
    SetColumnSame(df, "popularity_score", col);
  }

  /** Every row the ingestion mask selects is selected by the embedding scripts' mask too. */
  lemma ScoreMaskWithinRescoreMask(row: PopRow)
    ensures NeedsScore(row) ==> NeedsRescore(row)
  {
  }

  /**
   * The masks differ: a track with popularity 50 and Spotify popularity 0
   * keeps its 50 here, while the embedding scripts re-score it (alone in its
   * batch it gets 1).
   */
  lemma MasksDiverge()
    ensures var row := PopRow(Some(50.0), Some(10.0), Some(10.0), Some(0.0));
      Impute([row], [NeedsScore(row)]) == [Some(50.0)] &&
      Impute([row], [NeedsRescore(row)]) == [Some(1.0)]
  {
    var row := PopRow(Some(50.0), Some(10.0), Some(10.0), Some(0.0));
    ImputeSingleRow(row);
    ImputeKeepsUnmasked([row], [false], 0);
  }

  /** With a `song_id` column every record carries the key the write filters on. */
  lemma KeyedWhenColumn(df: Frame)
    requires WellFormed(df) && "song_id" in df.columns
    ensures AllKeyed(df.rows)
  {
  }

  // ---------------------------------------------------------------------------
  // The `Tracks` object
  // ---------------------------------------------------------------------------

  class Tracks {
    /** The tracks CSV at `path`, as `pd.read_csv` parses it. */
    const csv: Frame
    var tracksDf: Frame
    var tracksCollection: Collection

    predicate Valid()
      reads this
    {
      WellFormed(csv) && WellFormed(tracksDf)
    }

    constructor (csv: Frame, tracksCollection: Collection)
      requires WellFormed(csv)
      ensures Valid()
      ensures this.csv == csv && this.tracksCollection == tracksCollection
      ensures tracksDf == Frame([], [])
    {
      this.csv := csv;
      this.tracksCollection := tracksCollection;
      this.tracksDf := Frame([], []);
    }

    /** `load_dataframe`: the drops, the de-duplication and the reshaping. */
    method LoadDataframe() returns (r: Result<(), LoadError>)
      requires Valid()
      modifies this
      ensures Valid()
      ensures tracksCollection == old(tracksCollection)
      ensures r.Ok? <==> ShapeInputsOk(Cleaned(csv))
      ensures r.Ok? ==> tracksDf == ShapedFrame(Cleaned(csv), csv.columns)
      ensures r.Err? ==> tracksDf == old(tracksDf)
    {
      var df := csv;
      var columnsList := df.columns;
      if "user_id" in columnsList {
        df := DropColumn(df, "user_id");
      }
      if "play_count" in columnsList {
        df := DropColumn(df, "play_count");
      }
      assert df == Dropped(csv);
      df := DropDuplicates(df);
      var shaped := ShapeTrackFrame(df, columnsList);
      if shaped.Err? {
        return Err(shaped.error);
      }
      tracksDf := shaped.value;
      return Ok(());
    }

    /** `updatePopularity`: masked rows get the imputed popularity. */
    method UpdatePopularity() returns (r: Result<(), LoadError>)
      requires Valid()
      modifies this
      ensures Valid()
      ensures tracksCollection == old(tracksCollection)
      ensures r.Ok? <==> PopularityInputsOk(old(tracksDf))
      ensures r.Ok? ==> tracksDf == WithImputed(old(tracksDf))
      ensures r.Err? ==> tracksDf == old(tracksDf)
    {
      var df := tracksDf;
      if !PopularityInputsOk(df) {
        return Err(PopularityError(df));
      }
      tracksDf := ImputePopularity(df);
      return Ok(());
    }

    /** `insertInDatabase`: one upsert per record; a failure is caught and nothing is written. */
    method InsertInDatabase()
      modifies this
      ensures tracksDf == old(tracksDf)
      ensures AllKeyed(tracksDf.rows) ==> tracksCollection == BulkSet(old(tracksCollection), tracksDf.rows)
      ensures !AllKeyed(tracksDf.rows) ==> tracksCollection == old(tracksCollection)
    {
      tracksCollection := BulkUpsert(tracksCollection, tracksDf.rows);
    }

    /** `start`: load, impute, write; an exception from the first two ends the run. */
    method Start() returns (r: Result<(), LoadError>)
      requires Valid()
      modifies this
      ensures Valid()
      ensures r.Ok? <==> ShapeInputsOk(Cleaned(csv)) && PopularityInputsOk(ShapedFrame(Cleaned(csv), csv.columns))
      ensures r.Ok? ==> tracksDf == WithImputed(ShapedFrame(Cleaned(csv), csv.columns))
      ensures r.Ok? && AllKeyed(tracksDf.rows) ==> tracksCollection == BulkSet(old(tracksCollection), tracksDf.rows)
      ensures r.Ok? && !AllKeyed(tracksDf.rows) ==> tracksCollection == old(tracksCollection)
      ensures r.Err? ==> tracksCollection == old(tracksCollection)
    {
      r := LoadDataframe();
      if r.Err? {
        return;
      }
      r := UpdatePopularity();
      if r.Err? {
        return;
      }
      InsertInDatabase();
    }
  }
}

=== FILE: layout.dfy ===
/**
 * The mobile app's root layout: nothing but the loading view until the app
 * is ready, then a navigation stack whose initial route is chosen from the
 * preferences state.
 */
module Layout {
  import opened Common
  import UserPreferences

  /** What the root layout renders. */
  datatype Screen = LoadingView | Stack(initialRouteName: string)

  /** `list?.length` is truthy: present and non-empty. */
  predicate NonEmpty(l: Option<seq<string>>)
  {
    l.Some? && |l.value| > 0
  }

  /**
   * `initialRouteName`: home once onboarding is completed and genres are
   * chosen, else the artist step when artists are stored, else the genre
   * step when genres are, else the start screen.
   */
  function InitialRouteName(onboardingCompleted: bool, genres: Option<seq<string>>, artists: Option<seq<string>>): (r: string)
    ensures r in {"home/index", "onboarding/artist-selection", "onboarding/genre-selection", "index"}
  {
    if onboardingCompleted && NonEmpty(genres) then "home/index"
    else if NonEmpty(artists) then "onboarding/artist-selection"
    else if NonEmpty(genres) then "onboarding/genre-selection"
    else "index"
  }

  /** `RootLayout`: the loading view until ready, then the stack with the chosen route. */
  function RootLayout(isAppReady: bool, prefs: UserPreferences.PrefState): (s: Screen)
    ensures !isAppReady <==> s == LoadingView
  {
    if !isAppReady then LoadingView
    else Stack(InitialRouteName(prefs.onboardingCompleted, prefs.genres, prefs.artists))
  }

  /**
   * Which route is chosen, as conditions on the state: home exactly when
   * onboarding is complete with genres; the start screen exactly when
   * neither list holds anything; artists win over genres otherwise.
   */
  lemma RouteCases(onboarded: bool, genres: Option<seq<string>>, artists: Option<seq<string>>)
    ensures InitialRouteName(onboarded, genres, artists) == "home/index" <==> onboarded && NonEmpty(genres)
    ensures InitialRouteName(onboarded, genres, artists) == "index" <==> !NonEmpty(genres) && !NonEmpty(artists)
    ensures InitialRouteName(onboarded, genres, artists) == "onboarding/artist-selection" <==>
      NonEmpty(artists) && !(onboarded && NonEmpty(genres))
    ensures InitialRouteName(onboarded, genres, artists) == "onboarding/genre-selection" <==>
      NonEmpty(genres) && !onboarded && !NonEmpty(artists)
  {
  }

  /**
   * As written, deleting the preferences, restarting, choosing genres
   * again and restarting once more lands on the home screen although no
   * artists were chosen: the stored "false" counts as onboarding completed.
   */
  lemma ReonboardingSkipsArtistsAsWritten(st: UserPreferences.PrefStorage, genres: seq<string>)
    requires |genres| > 0
    ensures var afterDelete := UserPreferences.AfterDelete(st);
      var afterGenres := afterDelete.(genresSelected := Some(genres));
      var prefs := UserPreferences.AfterInit(UserPreferences.InitialState, afterGenres);
      && prefs.artists.None?
      && RootLayout(true, prefs) == Stack("home/index")
  {
  }

  /**
   * With the intended status test the same sequence resumes at the genre
   * step, and a user who has finished onboarding starts at home.
   */
  lemma ReonboardingIntended(st: UserPreferences.PrefStorage, genres: seq<string>, artists: seq<string>)
    requires |genres| > 0
    ensures var afterDelete := UserPreferences.AfterDelete(st);
      var afterGenres := afterDelete.(genresSelected := Some(genres));
      RootLayout(true, UserPreferences.AfterInitIntended(UserPreferences.InitialState, afterGenres))
        == Stack("onboarding/genre-selection")
    ensures var done := UserPreferences.PrefStorage(Some("true"), Some(genres), Some(artists));
      RootLayout(true, UserPreferences.AfterInitIntended(UserPreferences.InitialState, done)) == Stack("home/index")
  {
  }

  /** A fresh install, with nothing stored, starts on the start screen once ready. */
  lemma FreshInstallStartsAtIndex()
    ensures RootLayout(true, UserPreferences.AfterInit(UserPreferences.InitialState,
                                                       UserPreferences.PrefStorage(None, None, None))) == Stack("index")
  {
  }
}

=== FILE: recommender.dfy ===
/**
 * The content-based recommender (`Recommender`):
 * - it reads a user's favourite genres and artists and the stored song
 *   interactions;
 * - it collects three labelled candidate sets of tracks;
 * - it averages the candidates' embeddings into a weighted preference vector;
 * - it scores every stored embedding by cosine similarity plus a bonus per
 *   label;
 * - it keeps the 40 best.
 * The database collections are constant fields; the intermediate results
 * are the fields the source assigns step by step.
 */
module Recommend {
  import opened Common
  import opened Vectors

  /** The embedding width: 384 text dimensions and 5 numeric features (`safe_mean`'s default). */
  const Dim: nat := 389

  /** The value of the `type` column of a candidate. */
  datatype Label = FavArtists | FavGenres | LikedSongs

  /** A document of the tracks collection, as far as the queries look at it. */
  datatype Track = Track(songId: string, artistNames: seq<string>, allTags: Option<string>)

  /** One row of `top_tracks`: a track and the candidate set it came from. */
  datatype Candidate = Candidate(track: Track, tag: Label)

  datatype GenreDoc = GenreDoc(userId: string, favGenres: seq<string>)
  datatype ArtistDoc = ArtistDoc(userId: string, favArtist: string)
  datatype Interaction = Interaction(userId: string, songId: string, score: int)

  /** A stored vector; `None` is a NaN component. */
  type NanVec = seq<Option<real>>

  datatype EmbeddingDoc = EmbeddingDoc(songId: string, embedding: NanVec)

  /** One row of `sim_df`. */
  datatype SimRow = SimRow(songId: string, simScore: real, bonusScore: real)

  /** The `final_score` column (line 424). */
  function FinalScore(r: SimRow): real
  {
    r.simScore + r.bonusScore
  }

  /** The exceptions that end `start`. */
  datatype RecError =
    | UserDetailsLost   // `fetchUserDetails` failed, so its fields were never set
    | EmptyCandidates   // `MyCustomError("Empty dataframe")`
    | NoEmbeddings      // an empty embeddings collection has no `song_id` column

  // ---------------------------------------------------------------------------
  // User details (`fetchUserDetails`)
  // ---------------------------------------------------------------------------

  /**
   * Lines 44-55: the first genre document of the user; its first entry
   * split on ",". A user without one has no genres; a document whose list
   * is empty raises `IndexError` (`None`).
   */
  function UserGenres(docs: seq<GenreDoc>, userId: string): (r: Option<seq<string>>)
    ensures r.Some? ==> forall k :: 0 <= k < |r.value| ==> ',' !in r.value[k]
    ensures r == Some([]) <==> forall i :: 0 <= i < |docs| ==> docs[i].userId != userId
  {
    if docs == [] then Some([])
    else if docs[0].userId == userId then
      if docs[0].favGenres == [] then None else Some(Split(docs[0].favGenres[0], ','))
    else
      var r := UserGenres(docs[1..], userId);
      assert forall i :: 1 <= i < |docs| ==> docs[i] == docs[1..][i - 1];
      r
  }

  /** Lines 58-72: the `fav_artist` of every document of the user, in order. */
  function FavArtistsOf(docs: seq<ArtistDoc>, userId: string): (r: seq<string>)
    ensures forall a :: a in r <==> exists i :: 0 <= i < |docs| && docs[i].userId == userId && docs[i].favArtist == a
  {
    if docs == [] then []
    else
      var init := docs[..|docs| - 1];
      assert forall i :: 0 <= i < |init| ==> init[i] == docs[i];
      FavArtistsOf(init, userId) + (if docs[|docs| - 1].userId == userId then [docs[|docs| - 1].favArtist] else [])
  }

  /**
   * Lines 75-88: the `song_id` of every interaction in the store. The
   * query has no `user_id` filter and no score filter.
   */
  function LikedOf(interactions: seq<Interaction>): (r: seq<string>)
    ensures |r| == |interactions|
    ensures forall i :: 0 <= i < |interactions| ==> r[i] == interactions[i].songId
  {
    seq(|interactions|, i requires 0 <= i < |interactions| => interactions[i].songId)
  }

  /** Every user's interactions feed the liked list, whatever their score. */
  lemma LikedIgnoresUserAndScore(interactions: seq<Interaction>, i: nat)
    requires i < |interactions|
    ensures interactions[i].songId in LikedOf(interactions)
  {
    assert LikedOf(interactions)[i] == interactions[i].songId;
  }

  // ---------------------------------------------------------------------------
  // Candidates (`fetchTracksBasedOnUserPref`)
  // ---------------------------------------------------------------------------

  /** `{"artists.name": {"$in": artists}}`. */
  predicate ArtistMatch(t: Track, artists: seq<string>)
  {
    exists k :: 0 <= k < |t.artistNames| && t.artistNames[k] in artists
  }

  /** `{"$or": [{"all_tags": {"$regex": g}} for g in genres]}`, each genre read as literal text. */
  predicate GenreMatch(t: Track, genres: seq<string>)
  {
    t.allTags.Some? && exists g :: g in genres && Contains(t.allTags.value, g)
  }

  function Labelled(ts: seq<Track>, l: Label): (r: seq<Candidate>)
    ensures |r| == |ts|
    ensures forall i :: 0 <= i < |ts| ==> r[i] == Candidate(ts[i], l)
  {
    seq(|ts|, i requires 0 <= i < |ts| => Candidate(ts[i], l))
  }

  /** The artist matches. */
  function ByArtist(tracks: seq<Track>, artists: seq<string>): seq<Track>
  {
    Where(tracks, t => ArtistMatch(t, artists))
  }

  /** The genre matches; with no genres the query is skipped (line 132). */
  function ByGenre(tracks: seq<Track>, genres: seq<string>): seq<Track>
  {
    if genres == [] then [] else Where(tracks, t => GenreMatch(t, genres))
  }

  /** The liked tracks. */
  function ByLiked(tracks: seq<Track>, liked: seq<string>): seq<Track>
  {
    Where(tracks, (t: Track) => t.songId in liked)
  }

  /** Lines 148-156: the three labelled sets concatenated, without de-duplication. */
  function CandidatesFor(tracks: seq<Track>, artists: seq<string>, genres: seq<string>, liked: seq<string>): (r: seq<Candidate>)
    ensures |r| == |ByArtist(tracks, artists)| + |ByGenre(tracks, genres)| + |ByLiked(tracks, liked)|
  {
    Labelled(ByArtist(tracks, artists), FavArtists) +
    Labelled(ByGenre(tracks, genres), FavGenres) +
    Labelled(ByLiked(tracks, liked), LikedSongs)
  }

  /**
   * A candidate row is a stored track with the label of a query it
   * satisfies, and every such pair is a row.
   */
  lemma CandidatesSpec(tracks: seq<Track>, artists: seq<string>, genres: seq<string>, liked: seq<string>, c: Candidate)
    ensures c in CandidatesFor(tracks, artists, genres, liked) <==>
      c.track in tracks &&
      match c.tag
      case FavArtists => ArtistMatch(c.track, artists)
      case FavGenres => genres != [] && GenreMatch(c.track, genres)
      case LikedSongs => c.track.songId in liked
  {
    var a := Labelled(ByArtist(tracks, artists), FavArtists);
    var g := Labelled(ByGenre(tracks, genres), FavGenres);
    var l := Labelled(ByLiked(tracks, liked), LikedSongs);
    assert c in a + g + l <==> c in a || c in g || c in l;
    LabelledMember(ByArtist(tracks, artists), FavArtists, c);
    LabelledMember(ByGenre(tracks, genres), FavGenres, c);
    LabelledMember(ByLiked(tracks, liked), LikedSongs, c);
  }

  lemma LabelledMember(ts: seq<Track>, l: Label, c: Candidate)
    ensures c in Labelled(ts, l) <==> c.tag == l && c.track in ts
  {
    if c.tag == l && c.track in ts {
      var i :| 0 <= i < |ts| && ts[i] == c.track;
      assert Labelled(ts, l)[i] == c;
    }
  }

  /** A liked track by a favourite artist is a candidate twice, once per label. */
  lemma NoDeduplication(tracks: seq<Track>, artists: seq<string>, genres: seq<string>, liked: seq<string>, t: Track)
    requires t in tracks && ArtistMatch(t, artists) && t.songId in liked
    ensures Candidate(t, FavArtists) in CandidatesFor(tracks, artists, genres, liked)
    ensures Candidate(t, LikedSongs) in CandidatesFor(tracks, artists, genres, liked)
  {
    CandidatesSpec(tracks, artists, genres, liked, Candidate(t, FavArtists));
    CandidatesSpec(tracks, artists, genres, liked, Candidate(t, LikedSongs));
  }

  /**
   * A stored genre list whose first entry is "" splits into [""], and the
   * empty pattern matches every track with text tags.
   */
  lemma EmptyGenreMatchesAll(t: Track)
    requires t.allTags.Some?
    ensures Split("", ',') == [""]
    ensures GenreMatch(t, [""])
  {
    SplitNoSep("", ',');
    assert OccursAt(t.allTags.value, "", 0);
    assert "" in [""] && Contains(t.allTags.value, "");
  }

  // ---------------------------------------------------------------------------
  // The sample-data checks (`checkArtistName`, `checkGenres`)
  // ---------------------------------------------------------------------------

  /** Lines 178-186: the track's artist names and the favourites intersect. */
  predicate CheckArtistName(names: seq<string>, favourites: seq<string>)
  {
    exists a :: a in names && a in favourites
  }

  /** The sample check and the database query select the same tracks. */
  lemma ArtistPathsAgree(t: Track, favourites: seq<string>)
    ensures CheckArtistName(t.artistNames, favourites) <==> ArtistMatch(t, favourites)
  {
    if CheckArtistName(t.artistNames, favourites) {
      var a :| a in t.artistNames && a in favourites;
      var k :| 0 <= k < |t.artistNames| && t.artistNames[k] == a;
    }
  }

  /** A genre as the sample check compares it: stripped and lower-cased. */
  function NormGenre(g: string): string
  {
    Lower(PyStrip(g))
  }

  /** Lines 188-200: some comma-separated tag and some favourite genre agree after normalising. */
  predicate CheckGenres(tags: string, favourites: seq<string>)
  {
    exists p, g :: p in Split(tags, ',') && g in favourites && NormGenre(p) == NormGenre(g)
  }

  lemma LowerUpper(s: string)
    ensures Lower(Upper(s)) == Lower(s)
  {
  }

  lemma NormGenreUpper(g: string)
    ensures NormGenre(Upper(g)) == NormGenre(g)
  {
    TrimLowerCommute(Upper(g), PySpace);
    TrimLowerCommute(g, PySpace);
    LowerUpper(g);
  }

  function UpperAll(gs: seq<string>): (r: seq<string>)
    ensures |r| == |gs|
    ensures forall i :: 0 <= i < |gs| ==> r[i] == Upper(gs[i])
  {
    seq(|gs|, i requires 0 <= i < |gs| => Upper(gs[i]))
  }

  /** The sample check ignores the case of the favourite genres. */
  lemma CheckGenresIgnoresCase(tags: string, favourites: seq<string>)
    ensures CheckGenres(tags, favourites) <==> CheckGenres(tags, UpperAll(favourites))
  {
    var up := UpperAll(favourites);
    if CheckGenres(tags, favourites) {
      var p, g :| p in Split(tags, ',') && g in favourites && NormGenre(p) == NormGenre(g);
      var i :| 0 <= i < |favourites| && favourites[i] == g;
      NormGenreUpper(g);
      assert up[i] in up && NormGenre(p) == NormGenre(up[i]);
    }
    if CheckGenres(tags, up) {
      var p, g :| p in Split(tags, ',') && g in up && NormGenre(p) == NormGenre(g);
      var i :| 0 <= i < |up| && up[i] == g;
      NormGenreUpper(favourites[i]);
      assert favourites[i] in favourites && NormGenre(p) == NormGenre(favourites[i]);
    }
  }

  lemma CheckGenresWitness(tags: string, favourites: seq<string>, p: string, g: string)
    requires p in Split(tags, ',') && g in favourites && NormGenre(p) == NormGenre(g)
    ensures CheckGenres(tags, favourites)
  {
  }

  /** Lower-casing first does not change how the sample check normalises a genre. */
  lemma NormGenreLower(g: string)
    ensures NormGenre(Lower(g)) == NormGenre(g)
  {
    TrimLowerCommute(g, PySpace);
    LowerIdempotent(PyStrip(g));
  }

  /** A tag without white space at either end normalises to its lower-case form, of the same length. */
  lemma NormGenrePlain(g: string)
    requires g != [] && !PySpace(g[0]) && !PySpace(g[|g| - 1])
    ensures NormGenre(g) == Lower(g) && |NormGenre(g)| == |g|
  {
    TrimPlain(g, PySpace);
  }

  /**
   * The two genre paths disagree on case: the sample check matches a tag
   * (without commas) to its lower-case spelling...
   */
  lemma GenreCaseSampleMatches(tag: string)
    requires ',' !in tag
    ensures CheckGenres(tag, [Lower(tag)])
  {
    SplitNoSep(tag, ',');
    NormGenreLower(tag);
    CheckGenresWitness(tag, [Lower(tag)], tag, Lower(tag));
  }

  /** ...while the database query, being case-sensitive, misses it whenever the tag has an upper-case letter. */
  lemma GenreCaseQueryMisses(t: Track, tag: string)
    requires t.allTags == Some(tag) && Lower(tag) != tag
    ensures !GenreMatch(t, [Lower(tag)])
  {
    forall i | 0 <= i <= |tag| - |Lower(tag)|
      ensures !OccursAt(tag, Lower(tag), i)
    {
      assert i == 0 && tag[i..i + |Lower(tag)|] == tag;
    }
    assert !Contains(tag, Lower(tag));
  }

  /** On substrings it is the other way round: the query's pattern matches inside a longer tag... */
  lemma GenreSubstringQueryMatches(t: Track, prefix: string, genre: string)
    requires t.allTags == Some(prefix + genre)
    ensures GenreMatch(t, [genre])
  {
    assert (prefix + genre)[|prefix|..|prefix| + |genre|] == genre;
    assert OccursAt(prefix + genre, genre, |prefix|);
    assert genre in [genre];
  }

  /** ...while the sample check compares whole tags, so it misses it. */
  lemma GenreSubstringSampleMisses(prefix: string, genre: string)
    requires prefix != [] && genre != [] && ',' !in prefix + genre
    requires !PySpace(prefix[0]) && !PySpace(genre[0]) && !PySpace(genre[|genre| - 1])
    ensures !CheckGenres(prefix + genre, [genre])
  {
    var tag := prefix + genre;
    SplitNoSep(tag, ',');
    assert tag[0] == prefix[0] && tag[|tag| - 1] == genre[|genre| - 1];
    NormGenrePlain(tag);
    NormGenrePlain(genre);
    forall p, g | p in Split(tag, ',') && g in [genre]
      ensures NormGenre(p) != NormGenre(g)
    {
      assert p == tag && g == genre;
    }
  }

  // ---------------------------------------------------------------------------
  // The preference vector (`safe_mean`, `calculateSimilarity`)
  // ---------------------------------------------------------------------------

  /** `np.nan_to_num(v, nan=0.0)`. */
  function NanToNum(v: NanVec): (r: Vec)
    ensures |r| == |v|
    ensures forall k :: 0 <= k < |v| ==> r[k] == if v[k].Some? then v[k].value else 0.0
  {
    seq(|v|, k requires 0 <= k < |v| => if v[k].Some? then v[k].value else 0.0)
  }

  /** Every vector has `width` components. */
  predicate Uniform(vs: seq<NanVec>, width: nat)
  {
    forall i :: 0 <= i < |vs| ==> |vs[i]| == width
  }

  predicate HasNaN(vs: seq<NanVec>, k: nat)
    requires forall i :: 0 <= i < |vs| ==> k < |vs[i]|
  {
    exists i :: 0 <= i < |vs| && vs[i][k].None?
  }

  /** The sum of component `k`, which no vector has as NaN. */
  function ColumnSum(vs: seq<NanVec>, k: nat): real
    requires forall i :: 0 <= i < |vs| ==> k < |vs[i]| && vs[i][k].Some?
  {
    if vs == [] then 0.0 else vs[0][k].value + ColumnSum(vs[1..], k)
  }

  /**
   * Lines 253-257: no vectors give the zero vector of width 389; otherwise
   * the component-wise mean, where a NaN anywhere in a component makes it 0.
   */
  function SafeMean(vs: seq<NanVec>, width: nat): (r: Vec)
    requires Uniform(vs, width)
    ensures |vs| == 0 ==> r == Zeros(Dim)
    ensures |r| == if |vs| == 0 then Dim else width
    ensures |vs| > 0 ==> forall k :: 0 <= k < width && HasNaN(vs, k) ==> r[k] == 0.0
    ensures |vs| > 0 ==> forall k :: 0 <= k < width && !HasNaN(vs, k) ==> r[k] * |vs| as real == ColumnSum(vs, k)
  {
    if |vs| == 0 then Zeros(Dim)
    else seq(width, k requires 0 <= k < width => if HasNaN(vs, k) then 0.0 else ColumnSum(vs, k) / |vs| as real)
  }

  lemma {:induction false} ColumnSumCopies(vs: seq<NanVec>, v: NanVec, k: nat)
    requires forall i :: 0 <= i < |vs| ==> vs[i] == v
    requires k < |v| && v[k].Some?
    ensures ColumnSum(vs, k) == |vs| as real * v[k].value
  {
    if vs != [] {
      ColumnSumCopies(vs[1..], v, k);
    }
  }

  /** The mean of copies of one NaN-free vector is that vector. */
  lemma SafeMeanOfCopies(vs: seq<NanVec>, v: NanVec)
    requires |vs| > 0 && forall i :: 0 <= i < |vs| ==> vs[i] == v
    requires forall k :: 0 <= k < |v| ==> v[k].Some?
    ensures SafeMean(vs, |v|) == NanToNum(v)
  {
    forall k | 0 <= k < |v|
      ensures SafeMean(vs, |v|)[k] == NanToNum(v)[k]
    {
      ColumnSumCopies(vs, v, k);
      assert !HasNaN(vs, k);
    }
  }

  /** Lines 345-347: `0.5 * liked + 0.3 * artist + 0.2 * genre`. */
  function PrefVector(liked: Vec, artist: Vec, genre: Vec): (r: Vec)
    requires |liked| == |artist| == |genre|
    ensures |r| == |liked|
  {
    Add(Add(Scale(liked, 0.5), Scale(artist, 0.3)), Scale(genre, 0.2))
  }

  /**
   * The weights are positive and sum to 1, so each component of the
   * preference lies between the smallest and the largest of the three
   * means' components, and liked songs weigh most: raising a liked
   * component by d raises the preference by d / 2.
   */
  lemma PrefVectorConvex(liked: Vec, artist: Vec, genre: Vec, k: nat, d: real)
    requires |liked| == |artist| == |genre| && k < |liked|
    ensures Min3(liked[k], artist[k], genre[k]) <= PrefVector(liked, artist, genre)[k] <= Max3(liked[k], artist[k], genre[k])
    ensures PrefVector(liked[k := liked[k] + d], artist, genre)[k] == PrefVector(liked, artist, genre)[k] + 0.5 * d
  {
    var r := PrefVector(liked, artist, genre);
    assert r[k] == 0.5 * liked[k] + 0.3 * artist[k] + 0.2 * genre[k];
    var l2 := liked[k := liked[k] + d];
    assert PrefVector(l2, artist, genre)[k] == 0.5 * l2[k] + 0.3 * artist[k] + 0.2 * genre[k];
  }

  function Min3(a: real, b: real, c: real): real
  {
    if a <= b && a <= c then a else if b <= c then b else c
  }

  function Max3(a: real, b: real, c: real): real
  {
    if a >= b && a >= c then a else if b >= c then b else c
  }

  /** The weights sum to 1: three equal means give that mean back. */
  lemma PrefOfEqualMeans(v: Vec)
    ensures PrefVector(v, v, v) == v
  {
  }

  /** With no candidate embeddings at all the preference is the zero vector. */
  lemma PrefAllEmpty()
    ensures PrefVector(SafeMean([], 0), SafeMean([], 0), SafeMean([], 0)) == Zeros(Dim)
  {
  }

  /** The embeddings of some documents. */
  function VectorsOf(docs: seq<EmbeddingDoc>): (r: seq<NanVec>)
    ensures |r| == |docs|
    ensures forall i :: 0 <= i < |docs| ==> r[i] == docs[i].embedding
  {
    seq(|docs|, i requires 0 <= i < |docs| => docs[i].embedding)
  }

  /** Some candidate with label `l` has this `song_id`. */
  predicate InLabel(top: seq<Candidate>, l: Label, songId: string)
  {
    exists c :: c in top && c.tag == l && c.track.songId == songId
  }

  /** Lines 297-315: the requested embeddings of the candidates labelled `l`. */
  function Group(requested: seq<EmbeddingDoc>, top: seq<Candidate>, l: Label): (r: seq<EmbeddingDoc>)
    ensures forall e :: e in r <==> e in requested && InLabel(top, l, e.songId)
  {
    Where(requested, (e: EmbeddingDoc) => InLabel(top, l, e.songId))
  }

  /** Lines 282-284: the stored embeddings of the requested songs. */
  function Requested(all: seq<EmbeddingDoc>, ids: seq<string>): (r: seq<EmbeddingDoc>)
    ensures forall e :: e in r <==> e in all && e.songId in ids
  {
    Where(all, (e: EmbeddingDoc) => e.songId in ids)
  }

  /** Every document's vector has `width` components. */
  predicate Width(docs: seq<EmbeddingDoc>, width: nat)
  {
    forall e :: e in docs ==> |e.embedding| == width
  }

  lemma WidthUniform(docs: seq<EmbeddingDoc>, width: nat)
    requires Width(docs, width)
    ensures Uniform(VectorsOf(docs), width)
  {
    forall i | 0 <= i < |docs|
      ensures |VectorsOf(docs)[i]| == width
    {
      assert docs[i] in docs;
    }
  }

  /**
   * The three group means have width `width`: the requested vectors share
   * it, and unless it is 389 no group is empty (an empty group's zero
   * vector of width 389 does not broadcast against another width).
   */
  predicate MeansAgree(requested: seq<EmbeddingDoc>, top: seq<Candidate>, width: nat)
  {
    Width(requested, width) &&
    (width == Dim ||
     (|Group(requested, top, LikedSongs)| > 0 && |Group(requested, top, FavArtists)| > 0 && |Group(requested, top, FavGenres)| > 0))
  }

  /** The width of the first stored vector (0 for no vectors). */
  function StoredWidth(all: seq<EmbeddingDoc>): nat
  {
    if |all| > 0 then |all[0].embedding| else 0
  }

  /**
   * The arithmetic of lines 335-363 goes through: every stored vector has
   * the width of the first, and the group means have that width too. A
   * ragged collection fails (the tensor of all embeddings cannot be built)
   * and the `except` at line 429 catches it.
   */
  predicate SimOk(requested: seq<EmbeddingDoc>, all: seq<EmbeddingDoc>, top: seq<Candidate>)
  {
    Width(all, StoredWidth(all)) && MeansAgree(requested, top, StoredWidth(all))
  }

  function GroupMean(requested: seq<EmbeddingDoc>, top: seq<Candidate>, l: Label, width: nat): (r: Vec)
    requires Width(requested, width)
    ensures |r| == if |Group(requested, top, l)| == 0 then Dim else width
  {
    var g := Group(requested, top, l);
    WidthUniform(g, width);
    SafeMean(VectorsOf(g), width)
  }

  /** Two stored vectors of different widths make the similarity step fail. */
  lemma RaggedNotOk(requested: seq<EmbeddingDoc>, all: seq<EmbeddingDoc>, top: seq<Candidate>, i: nat, j: nat)
    requires i < |all| && j < |all| && |all[i].embedding| != |all[j].embedding|
    ensures !SimOk(requested, all, top)
  {
    assert all[i] in all && all[j] in all;
  }

  /** The preference vector of the candidates. */
  function PrefFor(requested: seq<EmbeddingDoc>, top: seq<Candidate>, width: nat): (r: Vec)
    requires MeansAgree(requested, top, width)
    ensures |r| == width
  {
    PrefVector(GroupMean(requested, top, LikedSongs, width),
               GroupMean(requested, top, FavArtists, width),
               GroupMean(requested, top, FavGenres, width))
  }

  /** How many of the three candidate sets contain the song. */
  function LabelCount(top: seq<Candidate>, songId: string): (n: nat)
    ensures n <= 3
  {
    (if InLabel(top, FavGenres, songId) then 1 else 0) +
    (if InLabel(top, FavArtists, songId) then 1 else 0) +
    (if InLabel(top, LikedSongs, songId) then 1 else 0)
  }

  /** Lines 363-382: one row per stored embedding, with its similarity and no bonus yet. */
  function Similarities(all: seq<EmbeddingDoc>, pref: Vec, sqrt: real -> real): (r: seq<SimRow>)
    requires IsSqrt(sqrt) && Width(all, |pref|)
    ensures |r| == |all|
    ensures forall i :: 0 <= i < |all| ==>
      r[i] == SimRow(all[i].songId, CosSim(pref, NanToNum(all[i].embedding), sqrt), 0.0)
  {
    seq(|all|, i requires 0 <= i < |all| =>
      assert all[i] in all;
      SimRow(all[i].songId, CosSim(pref, NanToNum(all[i].embedding), sqrt), 0.0))
  }

  /**
   * Lines 363-424 taken together: every stored embedding is scored, and its
   * bonus is 0.05 per candidate set that contains its song.
   */
  predicate Scored(rows: seq<SimRow>, all: seq<EmbeddingDoc>, pref: Vec, top: seq<Candidate>, sqrt: real -> real)
    requires IsSqrt(sqrt) && Width(all, |pref|)
  {
    |rows| == |all| &&
    forall i :: 0 <= i < |all| ==>
      rows[i] == SimRow(all[i].songId, Similarities(all, pref, sqrt)[i].simScore, 0.05 * LabelCount(top, all[i].songId) as real)
  }

  /** The bonus lies in {0, 0.05, 0.10, 0.15}. */
  lemma BonusValues(top: seq<Candidate>, songId: string)
    ensures var b := 0.05 * LabelCount(top, songId) as real;
      b == 0.0 || b == 0.05 || b == 0.10 || b == 0.15
  {
  }

  /** With no candidate embeddings the similarity is 0, so a song's final score is its bonus. */
  lemma EmptyPrefScoresBonus(rows: seq<SimRow>, all: seq<EmbeddingDoc>, top: seq<Candidate>, sqrt: real -> real, i: nat)
    requires IsSqrt(sqrt) && Width(all, Dim) && i < |all|
    requires Scored(rows, all, Zeros(Dim), top, sqrt)
    ensures FinalScore(rows[i]) == 0.05 * LabelCount(top, all[i].songId) as real
  {
    assert all[i] in all;
    CosSimZero(Zeros(Dim), NanToNum(all[i].embedding), sqrt);
  }

  // ---------------------------------------------------------------------------
  // The 40 best (`fetchSimilarSongs`)
  // ---------------------------------------------------------------------------

  /** Lines 456-458: sorted by final score, best first, and cut to 40. */
  function Top40(rows: seq<SimRow>): seq<SimRow>
  {
    Take(SortDesc(rows, FinalScore), 40)
  }

  /** A prefix of a sorted sequence is sorted, and it scores at least as well as the rest. */
  lemma TakeSorted<T>(s: seq<T>, n: nat, key: T -> real)
    requires SortedDesc(s, key) && n <= |s|
    ensures SortedDesc(s[..n], key)
    ensures forall x, y :: x in s[..n] && y in s[n..] ==> key(x) >= key(y)
  {
    forall x, y | x in s[..n] && y in s[n..]
      ensures key(x) >= key(y)
    {
      var i :| 0 <= i < n && s[..n][i] == x;
      var j :| 0 <= j < |s| - n && s[n..][j] == y;
      assert s[i] == x && s[n + j] == y;
    }
    forall i, j | 0 <= i < j < n
      ensures key(s[..n][i]) >= key(s[..n][j])
    {
      assert s[..n][i] == s[i] && s[..n][j] == s[j];
    }
  }

  /**
   * At most 40 rows, best first, drawn from the scored rows, and no row left
   * out scores above a row kept.
   */
  lemma Top40Spec(rows: seq<SimRow>)
    ensures |Top40(rows)| == if |rows| < 40 then |rows| else 40
    ensures SortedDesc(Top40(rows), FinalScore)
    ensures multiset(Top40(rows)) <= multiset(rows)
    ensures forall x, y :: x in Top40(rows) && y in multiset(rows) - multiset(Top40(rows)) ==> FinalScore(x) >= FinalScore(y)
  {
    var s := SortDesc(rows, FinalScore);
    SortDescSorted(rows, FinalScore);
    var n := |Take(s, 40)|;
    assert Take(s, 40) == s[..n];
    TakeSorted(s, n, FinalScore);
    assert s == s[..n] + s[n..];
    assert multiset(rows) == multiset(s[..n]) + multiset(s[n..]);
    assert multiset(rows) - multiset(s[..n]) == multiset(s[n..]);
  }

  // ---------------------------------------------------------------------------
  // The `Recommender` object
  // ---------------------------------------------------------------------------

  class Recommender {
    const userId: string
    const tracksCollection: seq<Track>
    const embeddingsCollection: seq<EmbeddingDoc>
    const userFavArtistCollection: seq<ArtistDoc>
    const userFavGenreCollection: seq<GenreDoc>
    const userSongInteractionCollection: seq<Interaction>
    /** The square root behind `cos_sim`'s norms. */
    const sqrt: real -> real

    var userPrefGenres: seq<string>
    var userPrefArtists: seq<string>
    var userLikedSongs: seq<string>
    var topTracks: seq<Candidate>
    var requestedSongIds: seq<string>
    var allEmbeddings: seq<EmbeddingDoc>
    var requestedEmbeddings: seq<EmbeddingDoc>
    /** `None` until `calculateSimilarity` succeeds. */
    var simDf: Option<seq<SimRow>>
    /** `None` until `fetchSimilarSongs` succeeds. */
    var recommendations: Option<seq<SimRow>>

    ghost predicate Valid()
      reads this
    {
      IsSqrt(sqrt)
    }

    constructor (userId: string, tracks: seq<Track>, embeddings: seq<EmbeddingDoc>,
                 favArtists: seq<ArtistDoc>, favGenres: seq<GenreDoc>, interactions: seq<Interaction>,
                 sqrt: real -> real)
      requires IsSqrt(sqrt)
      ensures Valid()
      ensures this.userId == userId && tracksCollection == tracks && embeddingsCollection == embeddings
      ensures userFavArtistCollection == favArtists && userFavGenreCollection == favGenres
      ensures userSongInteractionCollection == interactions
      ensures simDf == None && recommendations == None
    {
      this.userId := userId;
      tracksCollection := tracks;
      embeddingsCollection := embeddings;
      userFavArtistCollection := favArtists;
      userFavGenreCollection := favGenres;
      userSongInteractionCollection := interactions;
      this.sqrt := sqrt;
      userPrefGenres := [];
      userPrefArtists := [];
      userLikedSongs := [];
      topTracks := [];
      requestedSongIds := [];
      allEmbeddings := [];
      requestedEmbeddings := [];
      simDf := None;
      recommendations := None;
    }

    /**
     * `fetchUserDetails`: the genres, then the artists, then the liked
     * songs. An exception in the genre step is caught and leaves all three
     * fields unset (`ok` false).
     */
    method FetchUserDetails() returns (ok: bool)
      requires Valid()
      modifies this
      ensures Valid()
      ensures ok <==> UserGenres(userFavGenreCollection, userId).Some?
      ensures ok ==> userPrefGenres == UserGenres(userFavGenreCollection, userId).value
      ensures ok ==> userPrefArtists == FavArtistsOf(userFavArtistCollection, userId)
      ensures ok ==> userLikedSongs == LikedOf(userSongInteractionCollection)
      ensures topTracks == old(topTracks) && requestedSongIds == old(requestedSongIds)
      ensures allEmbeddings == old(allEmbeddings) && requestedEmbeddings == old(requestedEmbeddings)
      ensures simDf == old(simDf) && recommendations == old(recommendations)
    {
      var genres := UserGenres(userFavGenreCollection, userId);
      if genres.None? {
        return false;
      }
      userPrefGenres := genres.value;

      var docs := userFavArtistCollection;
      var artists: seq<string> := [];
      for i := 0 to |docs|
        invariant artists == FavArtistsOf(docs[..i], userId)
      {
        assert docs[..i + 1][..i] == docs[..i];
        if docs[i].userId == userId {
          artists := artists + [docs[i].favArtist];
        }
      }
      assert docs[..|docs|] == docs;
      userPrefArtists := artists;

      var interactions := userSongInteractionCollection;
      var liked: seq<string> := [];
      for i := 0 to |interactions|
        invariant |liked| == i
        invariant forall k :: 0 <= k < i ==> liked[k] == interactions[k].songId
      {
        liked := liked + [interactions[i].songId];
      }
      userLikedSongs := liked;
      return true;
    }

    /**
     * `fetchTracksBasedOnUserPref`: the three queries and their
     * concatenation; no candidates raise `MyCustomError` (`ok` false).
     */
    method FetchTracksBasedOnUserPref() returns (ok: bool)
      requires Valid()
      modifies this
      ensures Valid()
      ensures ok <==> |CandidatesFor(tracksCollection, userPrefArtists, userPrefGenres, userLikedSongs)| > 0
      ensures ok ==> topTracks == CandidatesFor(tracksCollection, userPrefArtists, userPrefGenres, userLikedSongs)
      ensures ok ==> |requestedSongIds| == |topTracks|
      ensures ok ==> forall i :: 0 <= i < |topTracks| ==> requestedSongIds[i] == topTracks[i].track.songId
      ensures !ok ==> topTracks == old(topTracks) && requestedSongIds == old(requestedSongIds)
      ensures userPrefGenres == old(userPrefGenres) && userPrefArtists == old(userPrefArtists)
      ensures userLikedSongs == old(userLikedSongs)
      ensures allEmbeddings == old(allEmbeddings) && requestedEmbeddings == old(requestedEmbeddings)
      ensures simDf == old(simDf) && recommendations == old(recommendations)
    {
      var candidates := CandidatesFor(tracksCollection, userPrefArtists, userPrefGenres, userLikedSongs);
      if |candidates| == 0 {
        return false;
      }
      requestedSongIds := seq(|candidates|, i requires 0 <= i < |candidates| => candidates[i].track.songId);
      topTracks := candidates;
      return true;
    }

    /**
     * `getAllEmbeddings`: every stored embedding, and those of the
     * requested songs. An empty collection has no `song_id` column and
     * raises `KeyError` (`ok` false).
     */
    method GetAllEmbeddings() returns (ok: bool)
      requires Valid()
      modifies this
      ensures Valid()
      ensures ok <==> |embeddingsCollection| > 0
      ensures ok ==> allEmbeddings == embeddingsCollection
      ensures ok ==> requestedEmbeddings == Requested(embeddingsCollection, requestedSongIds)
      ensures !ok ==> allEmbeddings == old(allEmbeddings) && requestedEmbeddings == old(requestedEmbeddings)
      ensures userPrefGenres == old(userPrefGenres) && userPrefArtists == old(userPrefArtists)
      ensures userLikedSongs == old(userLikedSongs)
      ensures topTracks == old(topTracks) && requestedSongIds == old(requestedSongIds)
      ensures simDf == old(simDf) && recommendations == old(recommendations)
    {
      if |embeddingsCollection| == 0 {
        return false;
      }
      allEmbeddings := embeddingsCollection;
      requestedEmbeddings := Requested(embeddingsCollection, requestedSongIds);
      return true;
    }

    /** Lines 393-419, one label: `sim_df.loc[rows of the label, "bonus_score"] += 0.05`. */
    method AddLabelBonus(l: Label)
      requires simDf.Some?
      modifies this
      ensures simDf.Some? && |simDf.value| == |old(simDf).value|
      ensures forall i :: 0 <= i < |simDf.value| ==>
        var row := old(simDf).value[i];
        simDf.value[i] == if InLabel(topTracks, l, row.songId) then row.(bonusScore := row.bonusScore + 0.05) else row
      ensures userPrefGenres == old(userPrefGenres) && userPrefArtists == old(userPrefArtists)
      ensures userLikedSongs == old(userLikedSongs)
      ensures topTracks == old(topTracks) && requestedSongIds == old(requestedSongIds)
      ensures allEmbeddings == old(allEmbeddings) && requestedEmbeddings == old(requestedEmbeddings)
      ensures recommendations == old(recommendations)
    {
      var rows := simDf.value;
      var updated: seq<SimRow> := [];
      for i := 0 to |rows|
        invariant |updated| == i
        invariant forall k :: 0 <= k < i ==>
          updated[k] == if InLabel(topTracks, l, rows[k].songId) then rows[k].(bonusScore := rows[k].bonusScore + 0.05) else rows[k]
      {
        var row := rows[i];
        if InLabel(topTracks, l, row.songId) {
          row := row.(bonusScore := row.bonusScore + 0.05);
        }
        updated := updated + [row];
      }
      simDf := Some(updated);
    }

    /**
     * `calculateSimilarity`: the preference vector, the similarities and
     * the bonuses. When the arithmetic fails the exception is caught and
     * `sim_df` stays unset.
     */
    method CalculateSimilarity() returns (ok: bool)
      requires Valid()
      modifies this
      ensures Valid()
      ensures allEmbeddings == old(allEmbeddings) && requestedEmbeddings == old(requestedEmbeddings)
      ensures topTracks == old(topTracks)
      ensures ok <==> SimOk(requestedEmbeddings, allEmbeddings, topTracks)
      ensures ok ==> simDf.Some?
      ensures ok ==> Scored(simDf.value, allEmbeddings, PrefFor(requestedEmbeddings, topTracks, StoredWidth(allEmbeddings)), topTracks, sqrt)
      ensures !ok ==> simDf == old(simDf)
      ensures userPrefGenres == old(userPrefGenres) && userPrefArtists == old(userPrefArtists)
      ensures userLikedSongs == old(userLikedSongs)
      ensures topTracks == old(topTracks) && requestedSongIds == old(requestedSongIds)
      ensures allEmbeddings == old(allEmbeddings) && requestedEmbeddings == old(requestedEmbeddings)
      ensures recommendations == old(recommendations)
    {
      if !SimOk(requestedEmbeddings, allEmbeddings, topTracks) {
        return false;
      }
      var pref := PrefFor(requestedEmbeddings, topTracks, StoredWidth(allEmbeddings));
      var base := Similarities(allEmbeddings, pref, sqrt);
      simDf := Some(base);
      AddLabelBonus(FavGenres);
      AddLabelBonus(FavArtists);
      AddLabelBonus(LikedSongs);
      forall i | 0 <= i < |allEmbeddings|
        ensures simDf.value[i] == SimRow(allEmbeddings[i].songId, base[i].simScore, 0.05 * LabelCount(topTracks, allEmbeddings[i].songId) as real)
      {
      }
      return true;
    }

    /**
     * `fetchSimilarSongs`: the 40 best rows. Without a `sim_df` the
     * `AttributeError` is caught and nothing changes.
     */
    method FetchSimilarSongs()
      modifies this
      ensures simDf.Some? ==> recommendations == Some(Top40(simDf.value))
      ensures simDf.None? ==> recommendations == old(recommendations)
      ensures userPrefGenres == old(userPrefGenres) && userPrefArtists == old(userPrefArtists)
      ensures userLikedSongs == old(userLikedSongs)
      ensures topTracks == old(topTracks) && requestedSongIds == old(requestedSongIds)
      ensures allEmbeddings == old(allEmbeddings) && requestedEmbeddings == old(requestedEmbeddings)
      ensures simDf == old(simDf)
    {
      if simDf.Some? {
        recommendations := Some(Top40(simDf.value));
      }
    }

    /**
     * `start` on stored data: the first three steps re-raise their
     * exceptions, so the run fails exactly when the genre step failed, no
     * track is a candidate, or the embeddings collection is empty; a failed
     * similarity step leaves the recommendations unset but the run succeeds.
     */
    method Start() returns (r: Result<(), RecError>)
      requires Valid()
      requires simDf == None && recommendations == None
      modifies this
      ensures Valid()
      ensures var genres := UserGenres(userFavGenreCollection, userId);
        r == if genres.None? then Err(UserDetailsLost)
             else if |CandidatesFor(tracksCollection, FavArtistsOf(userFavArtistCollection, userId),
                                    genres.value, LikedOf(userSongInteractionCollection))| == 0 then Err(EmptyCandidates)
             else if |embeddingsCollection| == 0 then Err(NoEmbeddings)
             else Ok(())
      ensures r.Ok? ==> |topTracks| > 0 && |allEmbeddings| > 0 && allEmbeddings == embeddingsCollection
      ensures r.Ok? ==> topTracks == CandidatesFor(tracksCollection, FavArtistsOf(userFavArtistCollection, userId),
                                                   UserGenres(userFavGenreCollection, userId).value,
                                                   LikedOf(userSongInteractionCollection))
      ensures r.Ok? ==> requestedEmbeddings == Requested(embeddingsCollection, requestedSongIds)
      ensures r.Ok? && SimOk(requestedEmbeddings, allEmbeddings, topTracks) ==>
        simDf.Some? && recommendations == Some(Top40(simDf.value)) &&
        Scored(simDf.value, allEmbeddings, PrefFor(requestedEmbeddings, topTracks, StoredWidth(allEmbeddings)), topTracks, sqrt)
      ensures r.Ok? && !SimOk(requestedEmbeddings, allEmbeddings, topTracks) ==> recommendations == None
      ensures r.Err? ==> recommendations == None
    {
      var ok := FetchUserDetails();
      if !ok {
        return Err(UserDetailsLost);
      }
      ok := FetchTracksBasedOnUserPref();
      if !ok {
        return Err(EmptyCandidates);
      }
      ok := GetAllEmbeddings();
      if !ok {
        return Err(NoEmbeddings);
      }
      ok := CalculateSimilarity();
      FetchSimilarSongs();
      return Ok(());
    }
  }
}

=== FILE: single_song.dfy ===
/**
 * The per-song embedding job of the recommendation engine
 * (`SingleSongEmbedding`). For one `song_id` it reads the track, re-scores
 * its popularity when it is missing or Spotify has none, encodes the track's
 * descriptor, scales four numeric fields against bounds aggregated over the
 * whole tracks collection (cached on the object), and upserts the normalised
 * vector into the embeddings collection and "done" into the tracks collection.
 *
 * The two collections are sequences held by the object; the sentence encoder,
 * the square root and the clock are parameters.
 */
module SingleSong {
  import opened Common
  import opened Vectors
  import opened Features

  /**
   * Collection-wide minimum and maximum of one field. `$min` and `$max`
   * skip nulls, so both are None when no track has a value.
   */
  datatype Bounds = Bounds(lo: Option<real>, hi: Option<real>)

  /** Why a run stops before writing anything. */
  datatype Error =
    | SongNotFound        // `find_one` returned nothing, so no frame was built
    | MissingArtistName   // an entry of `artists` has no usable `name`
    | NotNumeric          // `minmax_scale` subtracted a null bound (TypeError)
    | RaggedFeatures      // `np.array` over scalars mixed with one-row Series (ValueError)
    | MissingColumn       // a `*_normalized` column was never created

  /**
   * The `$group` stage with `$min` and `$max` of one field: no result on an
   * empty collection, otherwise the tightest bounds of the field's present
   * values (nulls when there are none).
   */
  function Aggregate(tracks: seq<TrackDoc>, f: NumericField): (r: Option<Bounds>)
    ensures r.None? <==> tracks == []
    ensures r.Some? ==> (r.value.lo.Some? <==> r.value.hi.Some?)
  {
    if tracks == [] then None
    else
      var v := Values(Column(tracks, f));
      if v == [] then Some(Bounds(None, None)) else Some(Bounds(Some(SeqMin(v)), Some(SeqMax(v))))
  }

  /**
   * The aggregated bounds are the tightest ones: present exactly when some
   * track has a value, then holding every present value and both attained.
   */
  lemma AggregateSpec(tracks: seq<TrackDoc>, f: NumericField)
    requires tracks != []
    ensures var bd := Aggregate(tracks, f).value;
      bd.lo.Some? <==> exists i :: 0 <= i < |tracks| && Field(tracks[i], f).Some?
    ensures var bd := Aggregate(tracks, f).value;
      bd.lo.Some? ==>
        && (forall i :: 0 <= i < |tracks| && Field(tracks[i], f).Some? ==> bd.lo.value <= Field(tracks[i], f).value <= bd.hi.value)
        && (exists i :: 0 <= i < |tracks| && Field(tracks[i], f) == bd.lo)
        && (exists i :: 0 <= i < |tracks| && Field(tracks[i], f) == bd.hi)
  {
    var c := Column(tracks, f);
    var v := Values(c);
    if v != [] {
      var lo := SeqMin(v);
      var hi := SeqMax(v);
      var i :| 0 <= i < |c| && c[i] == Some(lo);
      var j :| 0 <= j < |c| && c[j] == Some(hi);
      assert Field(tracks[i], f) == Some(lo);
      assert Field(tracks[j], f) == Some(hi);
      forall k | 0 <= k < |tracks| && Field(tracks[k], f).Some?
        ensures lo <= Field(tracks[k], f).value <= hi
      {
        assert c[k].value in v;
      }
    } else {
      forall k | 0 <= k < |tracks|
        ensures Field(tracks[k], f).None?
      {
        assert Field(tracks[k], f) == c[k];
      }
    }
  }

  /** Every field is among the listed fields. */
  lemma AllFieldsListed(f: NumericField)
    ensures f in NumericFields
  {
    assert f == NumericFields[0] || f == NumericFields[1] || f == NumericFields[2] || f == NumericFields[3];
  }

  /** The bounds the aggregation loop has gathered after its first k fields. */
  function BoundsUpTo(tracks: seq<TrackDoc>, k: nat): map<NumericField, Bounds>
    requires k <= 4
  {
    if k == 0 then map[]
    else
      Gather(BoundsUpTo(tracks, k - 1), NumericFields[k - 1], Aggregate(tracks, NumericFields[k - 1]))
  }

  /** One step of the aggregation loop: the field's bounds are kept when the aggregation returned any. */
  function Gather(gathered: map<NumericField, Bounds>, f: NumericField, result: Option<Bounds>): map<NumericField, Bounds>
  {
    if result.Some? then gathered[f := result.value] else gathered
  }

  /**
   * After k steps the loop holds nothing on an empty collection, and otherwise
   * the aggregated bounds of each of the first k fields.
   */
  lemma {:induction false} BoundsUpToSpec(tracks: seq<TrackDoc>, k: nat)
    requires k <= 4
    ensures tracks == [] ==> BoundsUpTo(tracks, k) == map[]
    ensures tracks != [] ==> forall f :: f in NumericFields[..k] ==>
      f in BoundsUpTo(tracks, k) && BoundsUpTo(tracks, k)[f] == Aggregate(tracks, f).value
  {
    if k > 0 {
      BoundsUpToSpec(tracks, k - 1);
      assert NumericFields[..k] == NumericFields[..k - 1] + [NumericFields[k - 1]];
    }
  }

  lemma BoundsUpToStep(tracks: seq<TrackDoc>, k: nat)
    requires k < 4
    ensures BoundsUpTo(tracks, k + 1) == Gather(BoundsUpTo(tracks, k), NumericFields[k], Aggregate(tracks, NumericFields[k]))
  {
  }

  /** The refresh loop: one aggregation per numeric field, keeping the fields that have bounds. */
  method AggregateBounds(tracks: seq<TrackDoc>) returns (values: map<NumericField, Bounds>)
    ensures values == BoundsUpTo(tracks, 4)
  {
    values := map[];
    var k := 0;
    while k < |NumericFields|
      invariant 0 <= k <= 4
      invariant values == BoundsUpTo(tracks, k)
    {
      var result := Aggregate(tracks, NumericFields[k]);
      BoundsUpToStep(tracks, k);
      values := Gather(values, NumericFields[k], result);
      k := k + 1;
    }
  }

  /** The bounds a refresh of the cache computes. */
  function FreshBounds(tracks: seq<TrackDoc>): map<NumericField, Bounds>
  {
    BoundsUpTo(tracks, 4)
  }

  /**
   * An empty collection yields no bounds at all; otherwise every numeric field
   * has the aggregated bounds of its column.
   */
  lemma FreshBoundsSpec(tracks: seq<TrackDoc>)
    ensures tracks == [] ==> FreshBounds(tracks) == map[]
    ensures tracks != [] ==> forall f :: f in FreshBounds(tracks) && FreshBounds(tracks)[f] == Aggregate(tracks, f).value
  {
    BoundsUpToSpec(tracks, 4);
    assert NumericFields[..4] == NumericFields;
    forall f
      ensures f in NumericFields
    {
      AllFieldsListed(f);
    }
  }

  /** Two collections with the same numeric columns have the same bounds. */
  lemma FreshBoundsSameColumns(t1: seq<TrackDoc>, t2: seq<TrackDoc>)
    requires |t1| == |t2|
    requires forall f, i :: 0 <= i < |t1| ==> Field(t1[i], f) == Field(t2[i], f)
    ensures FreshBounds(t1) == FreshBounds(t2)
  {
    forall f
      ensures Aggregate(t1, f) == Aggregate(t2, f)
    {
      assert Column(t1, f) == Column(t2, f);
    }
    BoundsUpToSame(t1, t2, 4);
  }

  /** Collections whose every field aggregates alike gather the same bounds. */
  lemma {:induction false} BoundsUpToSame(t1: seq<TrackDoc>, t2: seq<TrackDoc>, k: nat)
    requires k <= 4
    requires forall f :: Aggregate(t1, f) == Aggregate(t2, f)
    ensures BoundsUpTo(t1, k) == BoundsUpTo(t2, k)
  {
    if k > 0 {
      BoundsUpToSame(t1, t2, k - 1);
      var f := NumericFields[k - 1];
      var a := Aggregate(t1, f);
      assert a == Aggregate(t2, f);
      assert BoundsUpTo(t1, k) == Gather(BoundsUpTo(t1, k - 1), f, a);
      assert BoundsUpTo(t2, k) == Gather(BoundsUpTo(t2, k - 1), f, a);
    }
  }

  /** Marking songs as embedded does not move the bounds. */
  lemma UpsertStatusKeepsBounds(tracks: seq<TrackDoc>, songId: string, popularity: Option<real>)
    requires FindFirst(tracks, TrackKey, songId).Some?
    ensures FreshBounds(UpsertStatus(tracks, songId, popularity)) == FreshBounds(tracks)
  {
    var r := UpsertStatus(tracks, songId, popularity);
    FreshBoundsSameColumns(r, tracks);
  }

  /** The bounds `get_min_max_from_db` returns: the cache when it is non-empty and no refresh is forced. */
  function CacheOrFresh(cache: map<NumericField, Bounds>, forceRefresh: bool, tracks: seq<TrackDoc>): map<NumericField, Bounds>
  {
    if cache != map[] && !forceRefresh then cache else FreshBounds(tracks)
  }

  /**
   * `minmax_scale` on numbers: the position of `value` between `lo` and
   * `hi`, and 0.5 when the two bounds are equal.
   */
  function MinMaxScale(value: real, lo: real, hi: real): (r: real)
    ensures lo <= value <= hi ==> 0.0 <= r <= 1.0
    ensures lo != hi ==> r == ScaleTo01(value, lo, hi)
  {
    if lo == hi then 0.5
    else
      ScaledRange(value, lo, hi);
      (value - lo) / (hi - lo)
  }

  lemma ScaledRange(value: real, lo: real, hi: real)
    ensures lo <= value <= hi && lo != hi ==> 0.0 <= (value - lo) / (hi - lo) <= 1.0
  {
    if lo <= value <= hi && lo != hi {
      DivUnit(value - lo, hi - lo);
    }
  }

  /** Where the hand-written scaler and scikit-learn's disagree: on a constant column. */
  lemma MinMaxScaleConstant(value: real, x: real)
    ensures MinMaxScale(value, x, x) == 0.5
    ensures ScaleTo01(value, x, x) == 0.0
  {
  }

  /**
   * What `minmax_scale` returns for one field of the one-row frame: the
   * scalar 0.5 when the two bounds are equal, otherwise the one-row Series
   * `(value - min) / (max - min)`. pandas computes that Series with masked
   * arithmetic, so its cell is NaN (None here) when the track has no value.
   */
  datatype Scaled = Scalar(x: real) | Series(cell: Option<real>)

  /**
   * `minmax_scale(value, min, max)` on what the frame and the aggregation
   * hold. Equal bounds (two nulls included) give the scalar 0.5 whatever the
   * value. Different numeric bounds give a Series holding the value's
   * position between them, or NaN for a missing value. A null bound opposite
   * a numeric one raises a TypeError (None); the aggregation never yields
   * one (`FreshBoundsScale`).
   */
  function ScaleField(value: Option<real>, bd: Bounds): (r: Option<Scaled>)
    ensures bd.lo == bd.hi ==> r == Some(Scalar(0.5))
    ensures bd.lo != bd.hi ==> (r.Some? <==> bd.lo.Some? && bd.hi.Some?)
    ensures r.Some? && bd.lo != bd.hi ==> r.value.Series? && (r.value.cell.Some? <==> value.Some?)
    ensures r.Some? && bd.lo != bd.hi && value.Some? ==>
      r.value.cell.value == ScaleTo01(value.value, bd.lo.value, bd.hi.value)
  {
    if bd.lo == bd.hi then Some(Scalar(0.5))
    else if bd.lo.None? || bd.hi.None? then None
    else Some(Series(if value.Some? then Some(MinMaxScale(value.value, bd.lo.value, bd.hi.value)) else None))
  }

  /** What the `<field>_normalized` column holds: the broadcast scalar, or the Series' cell. */
  function CellOf(s: Scaled): Option<real>
  {
    if s.Scalar? then Some(s.x) else s.cell
  }

  /** `fillna(0)` on one cell. */
  function FillCell(c: Option<real>): real
  {
    if c.Some? then c.value else 0.0
  }

  /**
   * `np.array(features, dtype=np.float32)` raises a ValueError when the list
   * mixes scalars with one-row Series, whose shapes differ.
   */
  predicate Ragged(fs: seq<Scaled>)
  {
    exists i, j :: 0 <= i < |fs| && 0 <= j < |fs| && fs[i].Scalar? && fs[j].Series?
  }

  /** The field has bounds and scaling it raises. */
  predicate ScaleFails(t: TrackDoc, b: map<NumericField, Bounds>, f: NumericField)
  {
    f in b && ScaleField(Field(t, f), b[f]).None?
  }

  /** None of the first k fields raises. */
  predicate ScalesUpTo(t: TrackDoc, b: map<NumericField, Bounds>, k: nat)
    requires k <= 4
  {
    forall j :: 0 <= j < k ==> !ScaleFails(t, b, NumericFields[j])
  }

  /** All four fields scale exactly when none of them raises. */
  lemma ScalesAll(t: TrackDoc, b: map<NumericField, Bounds>)
    ensures ScalesUpTo(t, b, 4) <==> forall f :: !ScaleFails(t, b, f)
  {
    if ScalesUpTo(t, b, 4) {
      forall f
        ensures !ScaleFails(t, b, f)
      {
        AllFieldsListed(f);
      }
    }
  }

  /**
   * The aggregation never pairs a null bound with a numeric one, so scaling
   * any track against fresh bounds never raises.
   */
  lemma FreshBoundsScale(tracks: seq<TrackDoc>, t: TrackDoc)
    ensures ScalesUpTo(t, FreshBounds(tracks), 4)
    ensures forall f :: !ScaleFails(t, FreshBounds(tracks), f)
  {
    var b := FreshBounds(tracks);
    FreshBoundsSpec(tracks);
    forall f | f in b
      ensures b[f].lo.Some? <==> b[f].hi.Some?
    {
      assert tracks != [];
      assert b[f] == Aggregate(tracks, f).value;
    }
    ScalesAll(t, b);
  }

  /** The entry `features` gets for one field: the scaler's result when the bounds have the field, else the scalar 0.5. */
  function FeatureAt(t: TrackDoc, b: map<NumericField, Bounds>, f: NumericField): Scaled
    requires !ScaleFails(t, b, f)
  {
    if f in b then ScaleField(Field(t, f), b[f]).value else Scalar(0.5)
  }

  /** The entries of the first k fields. */
  function NumericalsUpTo(t: TrackDoc, b: map<NumericField, Bounds>, k: nat): (r: seq<Scaled>)
    requires k <= 4 && ScalesUpTo(t, b, k)
    ensures |r| == k
  {
    seq(k, j requires 0 <= j < k => FeatureAt(t, b, NumericFields[j]))
  }

  /** The list `features` that `generate_embedding_numericals` hands to `np.array`. */
  function Numericals(t: TrackDoc, b: map<NumericField, Bounds>): (f: seq<Scaled>)
    requires ScalesUpTo(t, b, 4)
    ensures |f| == 4
  {
    NumericalsUpTo(t, b, 4)
  }

  /** The `<field>_normalized` columns created for the first k fields. */
  function NormalizedUpTo(t: TrackDoc, b: map<NumericField, Bounds>, k: nat): map<NumericField, Option<real>>
    requires k <= 4
  {
    map f | f in NumericFields[..k] && f in b && ScaleField(Field(t, f), b[f]).Some? :: CellOf(ScaleField(Field(t, f), b[f]).value)
  }

  /** One more step of the feature loop. */
  lemma NormalizedStep(t: TrackDoc, b: map<NumericField, Bounds>, k: nat)
    requires k < 4 && ScalesUpTo(t, b, k + 1)
    ensures ScalesUpTo(t, b, k)
    ensures NumericalsUpTo(t, b, k + 1) == NumericalsUpTo(t, b, k) + [FeatureAt(t, b, NumericFields[k])]
    ensures NumericFields[k] !in b ==> NormalizedUpTo(t, b, k + 1) == NormalizedUpTo(t, b, k)
    ensures NumericFields[k] in b ==>
      NormalizedUpTo(t, b, k + 1) == NormalizedUpTo(t, b, k)[NumericFields[k] := CellOf(FeatureAt(t, b, NumericFields[k]))]
  {
    assert NumericFields[..k + 1] == NumericFields[..k] + [NumericFields[k]];
    assert forall j :: 0 <= j < 4 ==> NumericFields[j] == [Year, Duration, TotalPlayCounts, TotalListenersCounts][j];
  }

  /**
   * The loop of `generate_embedding_numericals` over the four fields: each
   * field the bounds have is scaled and stored in its `*_normalized` column,
   * any other gets the scalar 0.5; a null bound stops it with a TypeError.
   */
  method ScaleFields(t: TrackDoc, b: map<NumericField, Bounds>)
    returns (r: Result<(seq<Scaled>, map<NumericField, Option<real>>), Error>)
    ensures !ScalesUpTo(t, b, 4) ==> r == Err(NotNumeric)
    ensures ScalesUpTo(t, b, 4) ==> r == Ok((Numericals(t, b), NormalizedUpTo(t, b, 4)))
  {
    var features: seq<Scaled> := [];
    var columns: map<NumericField, Option<real>> := map[];
    var k := 0;
    while k < |NumericFields|
      invariant 0 <= k <= 4
      invariant ScalesUpTo(t, b, k)
      invariant features == NumericalsUpTo(t, b, k)
      invariant columns == NormalizedUpTo(t, b, k)
    {
      var f := NumericFields[k];
      var v: Scaled;
      if f in b {
        var scaled := ScaleField(Field(t, f), b[f]);
        if scaled.None? {
          assert ScaleFails(t, b, NumericFields[k]);
          return Err(NotNumeric);
        }
        v := scaled.value;
        NormalizedStep(t, b, k);
        columns := columns[f := CellOf(v)];
      } else {
        NormalizedStep(t, b, k);
        v := Scalar(0.5);
      }
      features := features + [v];
      k := k + 1;
    }
    r := Ok((features, columns));
  }

  /** A column exists exactly when the bounds have its field, and holds the listed entry's cell. */
  lemma NormalizedColumns(t: TrackDoc, b: map<NumericField, Bounds>)
    requires ScalesUpTo(t, b, 4)
    ensures forall f :: f in NormalizedUpTo(t, b, 4) <==> f in b
    ensures forall k :: 0 <= k < 4 && NumericFields[k] in b ==>
      NormalizedUpTo(t, b, 4)[NumericFields[k]] == CellOf(Numericals(t, b)[k])
  {
    assert NumericFields[..4] == NumericFields;
    ScalesAll(t, b);
    forall f
      ensures f in NumericFields
    {
      AllFieldsListed(f);
    }
  }

  /**
   * With the bounds of a collection that holds the track, every field has
   * bounds and scales without raising. Equal bounds give the scalar 0.5;
   * different ones give a Series whose cell is NaN exactly when the track
   * lacks the field. After `fillna(0)` the feature lies in [0, 1], and a
   * missing value on different bounds gives 0.
   */
  lemma NumericalsInRange(tracks: seq<TrackDoc>, t: TrackDoc, f: NumericField)
    requires t in tracks
    ensures f in FreshBounds(tracks) && !ScaleFails(t, FreshBounds(tracks), f)
    ensures var bd := FreshBounds(tracks)[f];
      bd.lo == bd.hi ==> FeatureAt(t, FreshBounds(tracks), f) == Scalar(0.5)
    ensures var bd := FreshBounds(tracks)[f];
      var s := FeatureAt(t, FreshBounds(tracks), f);
      bd.lo != bd.hi ==> s.Series? && (s.cell.Some? <==> Field(t, f).Some?)
    ensures 0.0 <= FillCell(CellOf(FeatureAt(t, FreshBounds(tracks), f))) <= 1.0
    ensures var bd := FreshBounds(tracks)[f];
      bd.lo != bd.hi && Field(t, f).None? ==> FillCell(CellOf(FeatureAt(t, FreshBounds(tracks), f))) == 0.0
  {
    var b := FreshBounds(tracks);
    FreshBoundsSpec(tracks);
    FreshBoundsScale(tracks, t);
    var i :| 0 <= i < |tracks| && tracks[i] == t;
    AggregateSpec(tracks, f);
    assert b[f] == Aggregate(tracks, f).value;
    if Field(t, f).Some? {
      assert b[f].lo.value <= Field(tracks[i], f).value <= b[f].hi.value;
    }
    FeatureWithinBounds(t, b, f);
  }

  /** The entry for a field whose bounds hold the track's value, if it has one. */
  lemma FeatureWithinBounds(t: TrackDoc, b: map<NumericField, Bounds>, f: NumericField)
    requires f in b && !ScaleFails(t, b, f)
    requires Field(t, f).Some? ==> b[f].lo.Some? && b[f].hi.Some? && b[f].lo.value <= Field(t, f).value <= b[f].hi.value
    ensures b[f].lo == b[f].hi ==> FeatureAt(t, b, f) == Scalar(0.5)
    ensures b[f].lo != b[f].hi ==> FeatureAt(t, b, f).Series? && (FeatureAt(t, b, f).cell.Some? <==> Field(t, f).Some?)
    ensures 0.0 <= FillCell(CellOf(FeatureAt(t, b, f))) <= 1.0
    ensures b[f].lo != b[f].hi && Field(t, f).None? ==> FillCell(CellOf(FeatureAt(t, b, f))) == 0.0
  {
    var bd := b[f];
    if Field(t, f).Some? && bd.lo != bd.hi {
      ScaleTo01Range(Field(t, f).value, bd.lo.value, bd.hi.value);
    }
  }

  /** The field takes two different values across the collection. */
  predicate Varies(tracks: seq<TrackDoc>, f: NumericField)
  {
    exists i, j :: 0 <= i < |tracks| && 0 <= j < |tracks| && Field(tracks[i], f).Some? && Field(tracks[j], f).Some?
                   && Field(tracks[i], f) != Field(tracks[j], f)
  }

  /** A field that varies has different bounds. */
  lemma VariesBounds(tracks: seq<TrackDoc>, f: NumericField)
    requires Varies(tracks, f)
    ensures f in FreshBounds(tracks) && FreshBounds(tracks)[f].lo != FreshBounds(tracks)[f].hi
  {
    var i, j :| 0 <= i < |tracks| && 0 <= j < |tracks| && Field(tracks[i], f).Some? && Field(tracks[j], f).Some?
                && Field(tracks[i], f) != Field(tracks[j], f);
    FreshBoundsSpec(tracks);
    AggregateSpec(tracks, f);
    var bd := Aggregate(tracks, f).value;
    var vi, vj := Field(tracks[i], f).value, Field(tracks[j], f).value;
    assert bd.lo.value <= vi <= bd.hi.value;
    assert bd.lo.value <= vj <= bd.hi.value;
    assert vi != vj;
  }

  /** A field every track holds with the same value has equal bounds. */
  lemma ConstantBounds(tracks: seq<TrackDoc>, f: NumericField, v: real)
    requires tracks != [] && forall i :: 0 <= i < |tracks| ==> Field(tracks[i], f) == Some(v)
    ensures f in FreshBounds(tracks) && FreshBounds(tracks)[f] == Bounds(Some(v), Some(v))
  {
    FreshBoundsSpec(tracks);
    AggregateSpec(tracks, f);
    assert Field(tracks[0], f).Some?;
  }

  /** The artists' names in order, when every entry has one. */
  function ArtistNames(artists: seq<ArtistEntry>): (r: Option<seq<string>>)
    ensures r.Some? <==> forall i :: 0 <= i < |artists| ==> artists[i].name.Some?
    ensures r.Some? ==> |r.value| == |artists| && forall i :: 0 <= i < |artists| ==> Some(r.value[i]) == artists[i].name
  {
    if artists == [] then Some([])
    else
      var rest := ArtistNames(artists[1..]);
      assert forall i :: 1 <= i < |artists| ==> artists[i] == artists[1..][i - 1];
      if artists[0].name.Some? && rest.Some? then Some([artists[0].name.value] + rest.value)
      else None
  }

  /**
   * `concatenateNames`: the names joined with ",". An entry without a name
   * stops the run (a missing key, or `None` handed to `join`).
   */
  method ConcatenateNames(artists: seq<ArtistEntry>) returns (r: Result<string, Error>)
    ensures ArtistNames(artists).None? ==> r == Err(MissingArtistName)
    ensures ArtistNames(artists).Some? ==> r == Ok(Join(ArtistNames(artists).value, ","))
  {
    var names: seq<string> := [];
    var i := 0;
    while i < |artists|
      invariant 0 <= i <= |artists|
      invariant ArtistNames(artists[..i]) == Some(names)
    {
      match artists[i].name
      case None =>
        assert artists[..i + 1][i] == artists[i];
        assert ArtistNames(artists[..i + 1]).None?;
        NoNamePrefix(artists, i + 1);
        return Err(MissingArtistName);
      case Some(n) =>
        assert artists[..i + 1] == artists[..i] + [artists[i]];
        NamesAppend(artists[..i], artists[i]);
        names := names + [n];
      i := i + 1;
    }
    assert artists[..i] == artists;
    r := Ok(Join(names, ","));
  }

  lemma NamesAppend(a: seq<ArtistEntry>, e: ArtistEntry)
    requires ArtistNames(a).Some? && e.name.Some?
    ensures ArtistNames(a + [e]) == Some(ArtistNames(a).value + [e.name.value])
  {
    var r := ArtistNames(a + [e]);
    assert forall i :: 0 <= i < |a| ==> (a + [e])[i] == a[i];
    assert r.Some?;
    assert r.value == ArtistNames(a).value + [e.name.value] by {
      forall i | 0 <= i < |a| + 1
        ensures r.value[i] == (ArtistNames(a).value + [e.name.value])[i]
      {
        assert Some(r.value[i]) == (a + [e])[i].name;
      }
    }
  }

  lemma NoNamePrefix(artists: seq<ArtistEntry>, n: nat)
    requires n <= |artists| && ArtistNames(artists[..n]).None?
    ensures ArtistNames(artists).None?
  {
    var j :| 0 <= j < n && artists[..n][j].name.None?;
    assert artists[j].name.None?;
  }

  /** The joined names split back into the names when none contains a comma. */
  lemma ConcatenatedNamesSplit(artists: seq<ArtistEntry>)
    requires ArtistNames(artists).Some? && |artists| > 0
    requires forall i :: 0 <= i < |artists| ==> ',' !in artists[i].name.value
    ensures Split(Join(ArtistNames(artists).value, ","), ',') == ArtistNames(artists).value
  {
    var names := ArtistNames(artists).value;
    assert forall i :: 0 <= i < |names| ==> ',' !in names[i] by {
      forall i | 0 <= i < |names|
        ensures ',' !in names[i]
      {
        assert Some(names[i]) == artists[i].name;
      }
    }
    assert "," == [','];
    SplitJoin(names, ',');
  }

  /**
   * The song's popularity after `updatePopularity` on its one-row frame:
   * imputed when the row is masked (1, or NaN when a count is missing), the
   * stored value otherwise.
   */
  function NewPopularity(t: TrackDoc): (p: Option<real>)
    ensures NeedsRescore(PopRowOf(t)) ==>
      p == (if t.playCount.Some? && t.listeners.Some? then Some(1.0) else None)
    ensures !NeedsRescore(PopRowOf(t)) ==> p == t.popularity && p.value > 0.0
  {
    var row := PopRowOf(t);
    ImputeAt([row], [NeedsRescore(row)], 0);
    ImputeSingleRow(row);
    Impute([row], [NeedsRescore(row)])[0]
  }

  /** `popularity_normalized` of the one-row frame, after `fillna(0)`. */
  function PopularityNormalized(t: TrackDoc): real
  {
    FillZero(MinMaxNaN([NewPopularity(t)]))[0]
  }

  /** A single row scales to 0 or NaN, filled with 0: the popularity feature carries no information. */
  lemma PopularityNormalizedZero(t: TrackDoc)
    ensures PopularityNormalized(t) == 0.0
  {
    var p := NewPopularity(t);
    if p.Some? {
      MinMaxNaNConstant([p], p.value);
    }
  }

  /** The five numeric features in the order the embedding reads them, after `fillna(0)`. */
  function NumericFeatures(t: TrackDoc, b: map<NumericField, Bounds>): (f: seq<real>)
    requires ScalesUpTo(t, b, 4)
    ensures |f| == NumericDim
  {
    var n := Numericals(t, b);
    [FillCell(CellOf(n[0])), FillCell(CellOf(n[1])), FillCell(CellOf(n[2])), FillCell(CellOf(n[3])), PopularityNormalized(t)]
  }

  /** The descriptor of a track whose artists all have names. */
  function TrackDescriptor(t: TrackDoc): string
    requires ArtistNames(t.artists).Some?
  {
    Descriptor(t.title, Join(ArtistNames(t.artists).value, ","), t.release, t.allTags, t.wikiSummary)
  }

  /**
   * What a run computes for the found track `t` with bounds `b`: the stored
   * document, or the error that stops it, in the order the steps reach them.
   */
  function Planned(t: TrackDoc, b: map<NumericField, Bounds>, encode: string -> Vec, sqrt: real -> real, timestamp: string): Result<EmbeddingDoc, Error>
    requires IsSqrt(sqrt)
  {
    if ArtistNames(t.artists).None? then Err(MissingArtistName)
    else if !ScalesUpTo(t, b, 4) then Err(NotNumeric)
    else if Ragged(Numericals(t, b)) then Err(RaggedFeatures)
    else if exists f :: f !in b then Err(MissingColumn)
    else
      var e := Embedding(encode(TrackDescriptor(t)), NumericFeatures(t, b), sqrt);
      Ok(EmbeddingDoc(t.songId, t.spotifyId, t.lastfmId, e, timestamp))
  }

  /**
   * With fresh bounds from a collection holding the track, a run whose
   * artists are named stores the song exactly when the four fields' bounds
   * are all equal or all different; a mix makes `np.array` raise, and that
   * is the only way such a run fails.
   */
  lemma PlannedFreshOk(tracks: seq<TrackDoc>, t: TrackDoc, encode: string -> Vec, sqrt: real -> real, timestamp: string)
    requires IsSqrt(sqrt)
    requires t in tracks && ArtistNames(t.artists).Some?
    ensures forall f :: f in FreshBounds(tracks)
    ensures var b := FreshBounds(tracks);
      Planned(t, b, encode, sqrt, timestamp).Ok? <==>
        (forall f :: b[f].lo == b[f].hi) || (forall f :: b[f].lo != b[f].hi)
    ensures var r := Planned(t, FreshBounds(tracks), encode, sqrt, timestamp);
      r.Err? ==> r == Err(RaggedFeatures)
  {
    var b := FreshBounds(tracks);
    forall f
      ensures f in b
    {
      NumericalsInRange(tracks, t, f);
    }
    FreshBoundsScale(tracks, t);
    RaggedIffMixed(t, b);
  }

  /**
   * With every field bounded and none raising, the entries are ragged
   * exactly when one field has equal bounds and another different ones.
   */
  lemma RaggedIffMixed(t: TrackDoc, b: map<NumericField, Bounds>)
    requires ScalesUpTo(t, b, 4) && forall f :: f in b
    ensures Ragged(Numericals(t, b)) <==> (exists f :: b[f].lo == b[f].hi) && (exists g :: b[g].lo != b[g].hi)
  {
    ScalesAll(t, b);
    var n := Numericals(t, b);
    assert forall k :: 0 <= k < 4 ==> n[k] == FeatureAt(t, b, NumericFields[k]);
    if Ragged(n) {
      var i, j :| 0 <= i < 4 && 0 <= j < 4 && n[i].Scalar? && n[j].Series?;
      assert b[NumericFields[i]].lo == b[NumericFields[i]].hi;
      assert b[NumericFields[j]].lo != b[NumericFields[j]].hi;
    }
    if (exists f :: b[f].lo == b[f].hi) && (exists g :: b[g].lo != b[g].hi) {
      var f :| b[f].lo == b[f].hi;
      var g :| b[g].lo != b[g].hi;
      AllFieldsListed(f);
      AllFieldsListed(g);
      var i :| 0 <= i < 4 && NumericFields[i] == f;
      var j :| 0 <= j < 4 && NumericFields[j] == g;
      assert n[i].Scalar? && n[j].Series?;
    }
  }

  /**
   * The vector of a successful run with fresh bounds is the text width plus
   * five, has unit length when the text vector is not zero, and its
   * popularity feature is 0.
   */
  lemma PlannedFresh(tracks: seq<TrackDoc>, t: TrackDoc, encode: string -> Vec, sqrt: real -> real, timestamp: string)
    requires IsSqrt(sqrt) && IsEncoder(encode)
    requires t in tracks && ArtistNames(t.artists).Some?
    requires Planned(t, FreshBounds(tracks), encode, sqrt, timestamp).Ok?
    ensures ScalesUpTo(t, FreshBounds(tracks), 4)
    ensures var r := Planned(t, FreshBounds(tracks), encode, sqrt, timestamp).value;
      && |r.embeddings| == TextDim + NumericDim
      && (SqNorm(encode(TrackDescriptor(t))) != 0.0 ==> SqNorm(r.embeddings) == 1.0)
      && r.embeddings[TextDim + 4] == 0.0
  {
    var b := FreshBounds(tracks);
    var text := encode(TrackDescriptor(t));
    var f := NumericFeatures(t, b);
    PopularityNormalizedZero(t);
    assert f[4] == 0.0;
    if SqNorm(text) != 0.0 {
      EmbeddingUnit(text, f, sqrt);
    }
    EmbeddingDirection(text, f, sqrt);
    var c :| c > 0.0 && Embedding(text, f, sqrt) == Scale(L2Normalize(text, sqrt) + f, c);
    assert (L2Normalize(text, sqrt) + f)[TextDim + 4] == f[4];
  }

  /**
   * With fresh bounds from a collection holding the track, scaling never
   * raises and all five features lie in [0, 1].
   */
  lemma FreshFeaturesInUnit(tracks: seq<TrackDoc>, t: TrackDoc)
    requires t in tracks
    ensures ScalesUpTo(t, FreshBounds(tracks), 4)
    ensures forall k :: 0 <= k < NumericDim ==> 0.0 <= NumericFeatures(t, FreshBounds(tracks))[k] <= 1.0
  {
    var b := FreshBounds(tracks);
    FreshBoundsScale(tracks, t);
    forall k | 0 <= k < NumericDim
      ensures 0.0 <= NumericFeatures(t, b)[k] <= 1.0
    {
      NumericFeaturesAt(t, b, k);
      if k < 4 {
        NumericalsInRange(tracks, t, NumericFields[k]);
      } else {
        PopularityNormalizedZero(t);
      }
    }
  }

  /** Feature k: the filled cell of field k, or the popularity feature last. */
  lemma NumericFeaturesAt(t: TrackDoc, b: map<NumericField, Bounds>, k: nat)
    requires ScalesUpTo(t, b, 4) && k < NumericDim
    ensures k < 4 ==>
      !ScaleFails(t, b, NumericFields[k]) && NumericFeatures(t, b)[k] == FillCell(CellOf(FeatureAt(t, b, NumericFields[k])))
    ensures k == 4 ==> NumericFeatures(t, b)[k] == PopularityNormalized(t)
  {
  }

  /** The document of a run that gets past every check. */
  lemma PlannedOk(t: TrackDoc, b: map<NumericField, Bounds>, encode: string -> Vec, sqrt: real -> real, timestamp: string)
    requires IsSqrt(sqrt)
    requires ArtistNames(t.artists).Some? && ScalesUpTo(t, b, 4) && !Ragged(Numericals(t, b))
    requires Year in b && Duration in b && TotalPlayCounts in b && TotalListenersCounts in b
    ensures Planned(t, b, encode, sqrt, timestamp)
      == Ok(EmbeddingDoc(t.songId, t.spotifyId, t.lastfmId, Embedding(encode(TrackDescriptor(t)), NumericFeatures(t, b), sqrt), timestamp))
  {
    forall f
      ensures f in b
    {
      AllFieldsListed(f);
    }
  }

  /** The features read back from the `*_normalized` columns after `fillna(0)`. */
  lemma FeaturesFromColumns(t: TrackDoc, b: map<NumericField, Bounds>)
    requires ScalesUpTo(t, b, 4)
    requires Year in b && Duration in b && TotalPlayCounts in b && TotalListenersCounts in b
    ensures var c := NormalizedUpTo(t, b, 4);
      Year in c && Duration in c && TotalPlayCounts in c && TotalListenersCounts in c
      && NumericFeatures(t, b) == [FillCell(c[Year]), FillCell(c[Duration]), FillCell(c[TotalPlayCounts]),
                                   FillCell(c[TotalListenersCounts]), PopularityNormalized(t)]
  {
    NormalizedColumns(t, b);
    var c := NormalizedUpTo(t, b, 4);
    var n := Numericals(t, b);
    assert c[NumericFields[0]] == CellOf(n[0]);
    assert c[NumericFields[1]] == CellOf(n[1]);
    assert c[NumericFields[2]] == CellOf(n[2]);
    assert c[NumericFields[3]] == CellOf(n[3]);
  }

  /** A run whose scaling succeeds but whose bounds miss a field stops before writing. */
  lemma PlannedMissing(t: TrackDoc, b: map<NumericField, Bounds>, encode: string -> Vec, sqrt: real -> real, timestamp: string)
    requires IsSqrt(sqrt)
    requires ArtistNames(t.artists).Some? && ScalesUpTo(t, b, 4) && !Ragged(Numericals(t, b))
    requires !(Year in b && Duration in b && TotalPlayCounts in b && TotalListenersCounts in b)
    ensures Planned(t, b, encode, sqrt, timestamp) == Err(MissingColumn)
  {
  }

  /** The job for one song: its collections, its bounds cache and when that was filled. */
  class SingleSongEmbedding {
    const songId: string
    var tracks: seq<TrackDoc>
    var embeddings: seq<EmbeddingDoc>
    var cachedMinMax: map<NumericField, Bounds>
    var lastCacheUpdate: Option<int>

    /** The cache is empty or holds the bounds of the current tracks collection. */
    predicate Valid()
      reads this
    {
      cachedMinMax == map[] || cachedMinMax == FreshBounds(tracks)
    }

    constructor(songId: string, tracks: seq<TrackDoc>, embeddings: seq<EmbeddingDoc>)
      ensures Valid()
      ensures this.songId == songId && this.tracks == tracks && this.embeddings == embeddings
      ensures cachedMinMax == map[] && lastCacheUpdate == None
    {
      this.songId := songId;
      this.tracks := tracks;
      this.embeddings := embeddings;
      cachedMinMax := map[];
      lastCacheUpdate := None;
    }

    /**
     * `get_min_max_from_db`: the cached bounds when there are any and no
     * refresh is forced; otherwise one aggregation per field, stored in the
     * cache with the time `now`.
     */
    method GetMinMaxFromDb(forceRefresh: bool, now: int) returns (r: map<NumericField, Bounds>)
      requires Valid()
      modifies this
      ensures Valid()
      ensures r == CacheOrFresh(old(cachedMinMax), forceRefresh, tracks) && r == FreshBounds(tracks)
      ensures cachedMinMax == r
      ensures old(cachedMinMax) != map[] && !forceRefresh ==> lastCacheUpdate == old(lastCacheUpdate)
      ensures old(cachedMinMax) == map[] || forceRefresh ==> lastCacheUpdate == Some(now)
      ensures tracks == old(tracks) && embeddings == old(embeddings)
    {
      if cachedMinMax != map[] && !forceRefresh {
        return cachedMinMax;
      }
      var values := AggregateBounds(tracks);
      cachedMinMax := values;
      lastCacheUpdate := Some(now);
      r := values;
    }

    /**
     * `generate_embedding_numericals` for the song's row: the list of
     * entries and the `*_normalized` columns it adds to the frame, or the
     * error raised by scaling a field or by `np.array` on a ragged list.
     */
    method GenerateEmbeddingNumericals(t: TrackDoc, now: int)
      returns (r: Result<(seq<Scaled>, map<NumericField, Option<real>>), Error>)
      requires Valid()
      modifies this
      ensures Valid()
      ensures cachedMinMax == CacheOrFresh(old(cachedMinMax), false, tracks)
      ensures !ScalesUpTo(t, cachedMinMax, 4) ==> r == Err(NotNumeric)
      ensures ScalesUpTo(t, cachedMinMax, 4) && Ragged(Numericals(t, cachedMinMax)) ==> r == Err(RaggedFeatures)
      ensures ScalesUpTo(t, cachedMinMax, 4) && !Ragged(Numericals(t, cachedMinMax)) ==>
        r == Ok((Numericals(t, cachedMinMax), NormalizedUpTo(t, cachedMinMax, 4)))
      ensures old(cachedMinMax) != map[] ==> lastCacheUpdate == old(lastCacheUpdate)
      ensures old(cachedMinMax) == map[] ==> lastCacheUpdate == Some(now)
      ensures tracks == old(tracks) && embeddings == old(embeddings)
    {
      var b := GetMinMaxFromDb(false, now);
      var scaled := ScaleFields(t, b);
      if scaled.Err? {
        return Err(scaled.error);
      }
      var (features, columns) := scaled.value;
      if Ragged(features) {
        return Err(RaggedFeatures);
      }
      r := Ok((features, columns));
    }

    /**
     * `loadData` through `generateEmbeddings` for the found track `t`: the
     * document to store, or the error that stops the run. Only the bounds
     * cache changes.
     */
    method BuildEmbedding(t: TrackDoc, encode: string -> Vec, sqrt: real -> real, now: int, timestamp: string)
      returns (r: Result<EmbeddingDoc, Error>)
      requires Valid() && IsSqrt(sqrt)
      modifies this
      ensures Valid()
      ensures r == Planned(t, CacheOrFresh(old(cachedMinMax), false, tracks), encode, sqrt, timestamp)
      ensures tracks == old(tracks) && embeddings == old(embeddings)
    {
      ghost var b := CacheOrFresh(cachedMinMax, false, tracks);
      var names := ConcatenateNames(t.artists);
      if names.Err? {
        return Err(names.error);
      }
      var popNormalized := PopularityNormalized(t);
      var text := encode(Descriptor(t.title, names.value, t.release, t.allTags, t.wikiSummary));
      var generated := GenerateEmbeddingNumericals(t, now);
      if generated.Err? {
        return Err(generated.error);
      }
      var columns := generated.value.1;
      NormalizedColumns(t, b);
      if !(Year in columns && Duration in columns && TotalPlayCounts in columns && TotalListenersCounts in columns) {
        PlannedMissing(t, b, encode, sqrt, timestamp);
        return Err(MissingColumn);
      }
      var numerics := [FillCell(columns[Year]), FillCell(columns[Duration]), FillCell(columns[TotalPlayCounts]),
                       FillCell(columns[TotalListenersCounts]), popNormalized];
      FeaturesFromColumns(t, b);
      PlannedOk(t, b, encode, sqrt, timestamp);
      r := Ok(EmbeddingDoc(t.songId, t.spotifyId, t.lastfmId, Embedding(text, numerics, sqrt), timestamp));
    }

    /**
     * `start`: load the song, build its vector, upsert it into the embeddings
     * collection and mark the track "done" with its popularity. A run that
     * stops writes nothing; the bounds cache is filled before a failed
     * scaling or a missing column is noticed.
     */
    method Start(encode: string -> Vec, sqrt: real -> real, now: int, timestamp: string) returns (r: Result<EmbeddingDoc, Error>)
      requires Valid() && IsSqrt(sqrt)
      modifies this
      ensures Valid()
      ensures FindFirst(old(tracks), TrackKey, songId).None? ==>
        r == Err(SongNotFound) && cachedMinMax == old(cachedMinMax)
      ensures FindFirst(old(tracks), TrackKey, songId).Some? ==>
        var t := old(tracks)[FindFirst(old(tracks), TrackKey, songId).value];
        r == Planned(t, CacheOrFresh(old(cachedMinMax), false, old(tracks)), encode, sqrt, timestamp)
        && (r.Ok? ==>
              embeddings == UpsertEmbedding(old(embeddings), r.value)
              && tracks == UpsertStatus(old(tracks), songId, NewPopularity(t)))
      ensures r.Err? ==> tracks == old(tracks) && embeddings == old(embeddings)
    {
      var found := FindFirst(tracks, TrackKey, songId);
      if found.None? {
        return Err(SongNotFound);
      }
      var t := tracks[found.value];
      r := BuildEmbedding(t, encode, sqrt, now, timestamp);
      if r.Ok? {
        StoreRun(t, r.value);
      }
    }

    /** The two upserts of a successful run: the vector, then the track's status and popularity. */
    method StoreRun(t: TrackDoc, doc: EmbeddingDoc)
      requires Valid() && FindFirst(tracks, TrackKey, songId).Some?
      modifies this
      ensures Valid()
      ensures embeddings == UpsertEmbedding(old(embeddings), doc)
      ensures tracks == UpsertStatus(old(tracks), songId, NewPopularity(t))
      ensures cachedMinMax == old(cachedMinMax) && lastCacheUpdate == old(lastCacheUpdate)
    {
      var pop := NewPopularity(t);
      UpsertStatusKeepsBounds(tracks, songId, pop);
      embeddings := UpsertEmbedding(embeddings, doc);
      tracks := UpsertStatus(tracks, songId, pop);
    }
  }

  /**
   * A fresh job on a collection holding the song, whose artists are named
   * and in which every numeric field takes two different values, stores the
   * song even when the song itself lacks some of those fields: each missing
   * one becomes NaN, then the feature 0.
   */
  lemma StartSucceeds(tracks: seq<TrackDoc>, songId: string, encode: string -> Vec, sqrt: real -> real, timestamp: string)
    requires IsSqrt(sqrt)
    requires FindFirst(tracks, TrackKey, songId).Some?
    requires ArtistNames(tracks[FindFirst(tracks, TrackKey, songId).value].artists).Some?
    requires forall f :: Varies(tracks, f)
    ensures var t := tracks[FindFirst(tracks, TrackKey, songId).value];
      Planned(t, CacheOrFresh(map[], false, tracks), encode, sqrt, timestamp).Ok?
    ensures ScalesUpTo(tracks[FindFirst(tracks, TrackKey, songId).value], FreshBounds(tracks), 4)
    ensures var t := tracks[FindFirst(tracks, TrackKey, songId).value];
      forall k :: 0 <= k < 4 && Field(t, NumericFields[k]).None? ==> NumericFeatures(t, FreshBounds(tracks))[k] == 0.0
  {
    var t := tracks[FindFirst(tracks, TrackKey, songId).value];
    var b := FreshBounds(tracks);
    forall f
      ensures f in b && b[f].lo != b[f].hi
    {
      VariesBounds(tracks, f);
    }
    PlannedFreshOk(tracks, t, encode, sqrt, timestamp);
    FreshBoundsScale(tracks, t);
    forall k | 0 <= k < 4 && Field(t, NumericFields[k]).None?
      ensures NumericFeatures(t, b)[k] == 0.0
    {
      NumericFeaturesAt(t, b, k);
      NumericalsInRange(tracks, t, NumericFields[k]);
    }
  }

  /**
   * A collection in which every track has the same year but two tracks have
   * different durations stops every run with the ValueError of `np.array`:
   * the year scales to the scalar 0.5 and the duration to a Series.
   */
  lemma MixedBoundsRaise(tracks: seq<TrackDoc>, t: TrackDoc, year: real,
                         encode: string -> Vec, sqrt: real -> real, timestamp: string)
    requires IsSqrt(sqrt)
    requires t in tracks && ArtistNames(t.artists).Some?
    requires forall i :: 0 <= i < |tracks| ==> tracks[i].year == Some(year)
    requires Varies(tracks, Duration)
    ensures Planned(t, FreshBounds(tracks), encode, sqrt, timestamp) == Err(RaggedFeatures)
  {
    assert forall i :: 0 <= i < |tracks| ==> Field(tracks[i], Year) == tracks[i].year;
    ConstantBounds(tracks, Year, year);
    VariesBounds(tracks, Duration);
    PlannedFreshOk(tracks, t, encode, sqrt, timestamp);
  }

  /**
   * A song without a year, against different numeric bounds for the year,
   * gets a NaN cell that `fillna(0)` turns into the feature 0; when no song
   * has a year the field is the scalar 0.5 instead.
   */
  lemma MissingYearCases(b: map<NumericField, Bounds>, t: TrackDoc)
    requires t.year.None? && Year in b
    ensures b[Year].lo.Some? && b[Year].hi.Some? && b[Year].lo != b[Year].hi ==>
      && !ScaleFails(t, b, Year)
      && FeatureAt(t, b, Year) == Series(None)
      && FillCell(CellOf(FeatureAt(t, b, Year))) == 0.0
    ensures b[Year] == Bounds(None, None) ==> !ScaleFails(t, b, Year) && FeatureAt(t, b, Year) == Scalar(0.5)
  {
  }
}

=== FILE: song_tile.dfy ===
/**
 * A track as the mobile screens hold it, and the song tile's choice of the
 * like and dislike icons from the user's liked-songs list.
 */
module SongTile {
  import opened Common

  /**
   * A `TrackType` object. The ids never change; the score is assigned in
   * place when the user likes or dislikes the track.
   */
  class TrackItem {
    const songId: Option<string>
    const spotifyId: Option<string>
    var score: Option<int>

    constructor(songId: Option<string>, spotifyId: Option<string>, score: Option<int>)
      ensures this.songId == songId && this.spotifyId == spotifyId && this.score == score
    {
      this.songId := songId;
      this.spotifyId := spotifyId;
      this.score := score;
    }
  }

  /** `score || 0`: a missing or zero score reads as 0. */
  function ScoreOrZero(score: Option<int>): int
  {
    if score.Some? then score.value else 0
  }

  /** `likedSongs?.find(a => a.spotify_id === item?.spotify_id)`: the first entry with the same Spotify id. */
  function FindBySpotifyId(liked: seq<TrackItem>, spotifyId: Option<string>): (r: Option<TrackItem>)
    ensures r.Some? <==> exists k :: 0 <= k < |liked| && liked[k].spotifyId == spotifyId
    ensures r.Some? ==> r.value in liked && r.value.spotifyId == spotifyId
  {
    if liked == [] then None
    else if liked[0].spotifyId == spotifyId then Some(liked[0])
    else
      var rest := FindBySpotifyId(liked[1..], spotifyId);
      assert forall k :: 1 <= k < |liked| ==> liked[k] == liked[1..][k - 1];
      rest
  }

  /** The pair (like icon, dislike icon). */
  datatype Icons = Icons(like: string, dislike: string)

  /**
   * The effect run when the liked songs change: a filled thumbs-up for a
   * liked song with a positive score, a filled thumbs-down for a liked song
   * with any other score, and both outlines for a song not in the list.
   */
  function ButtonNames(liked: seq<TrackItem>, item: TrackItem): (r: Icons)
    reads set t | t in liked
  {
    var found := FindBySpotifyId(liked, item.spotifyId);
    if found.Some? then
      if ScoreOrZero(found.value.score) > 0 then Icons("thumbs-up", "thumbs-o-down")
      else Icons("thumbs-o-up", "thumbs-down")
    else Icons("thumbs-o-up", "thumbs-o-down")
  }

  /**
   * The two icons are never both filled; the like icon is filled exactly
   * when the first liked entry with the item's Spotify id has a positive
   * score, and the dislike icon exactly when that entry exists with a
   * score that is missing, zero or negative.
   */
  lemma ButtonNamesPairing(liked: seq<TrackItem>, item: TrackItem)
    ensures var r := ButtonNames(liked, item);
      var found := FindBySpotifyId(liked, item.spotifyId);
      && !(r.like == "thumbs-up" && r.dislike == "thumbs-down")
      && (r.like == "thumbs-up" <==> found.Some? && ScoreOrZero(found.value.score) > 0)
      && (r.dislike == "thumbs-down" <==> found.Some? && ScoreOrZero(found.value.score) <= 0)
      && (found.None? ==> r == Icons("thumbs-o-up", "thumbs-o-down"))
  {
  }

  /** A track absent from the liked list shows both outlines, whatever the other entries' scores. */
  lemma AbsentShowsOutlines(liked: seq<TrackItem>, item: TrackItem)
    requires forall k :: 0 <= k < |liked| ==> liked[k].spotifyId != item.spotifyId
    ensures ButtonNames(liked, item) == Icons("thumbs-o-up", "thumbs-o-down")
  {
  }
}

=== FILE: songs_list.dfy ===
/**
 * The song-list screen of the mobile app: the like/dislike score
 * transition, the removal of a disliked track from the recommended list with
 * its pending deletion, the undo of the last removal, the snackbar dismissal
 * that sends the pending deletions, and the disliked-songs view.
 */
module SongsList {
  import opened Common
  import opened SongTile

  /** Which list the screen shows (`typeOfData`). */
  datatype View = RecommendedSongs | DislikedSongs | OtherView(name: string)

  /** `{ score, song_id, user_id }`: a pending deletion, and the payload of one interaction mutation. */
  datatype Interaction = Interaction(score: int, songId: Option<string>, userId: string)

  /**
   * The score a press of `button` gives a track scored `score`: from 0 a
   * like gives 5 and anything else -1; from -1 a like gives 5 and anything
   * else 0; from 5 a like gives 0 and anything else -1; any other score
   * gives 0.
   */
  function NewScore(score: Option<int>, button: string): (r: int)
    ensures r == -1 || r == 0 || r == 5
  {
    var s := ScoreOrZero(score);
    if s == 0 then (if button == "like" then 5 else -1)
    else if s == -1 then (if button == "like" then 5 else 0)
    else if s == 5 then (if button == "like" then 0 else -1)
    else 0
  }

  /**
   * The transition table, and pressing the same button twice from an
   * unscored track returns it to 0.
   */
  lemma NewScoreTable(button: string, other: int)
    requires other !in {0, -1, 5}
    ensures NewScore(None, button) == NewScore(Some(0), button)
    ensures button == "like" ==>
      NewScore(Some(0), button) == 5 && NewScore(Some(-1), button) == 5 && NewScore(Some(5), button) == 0
    ensures button != "like" ==>
      NewScore(Some(0), button) == -1 && NewScore(Some(-1), button) == 0 && NewScore(Some(5), button) == -1
    ensures NewScore(Some(other), button) == 0
    ensures NewScore(Some(NewScore(Some(0), button)), button) == 0
  {
  }

  /** `list.filter(a => a.song_id !== songId)`. */
  function WithoutSong(list: seq<TrackItem>, songId: Option<string>): (r: seq<TrackItem>)
    ensures |r| <= |list|
    ensures forall k :: 0 <= k < |r| ==> r[k] in list && r[k].songId != songId
    ensures forall k :: 0 <= k < |list| && list[k].songId != songId ==> list[k] in r
  {
    if list == [] then []
    else
      var rest := WithoutSong(list[1..], songId);
      assert forall k :: 1 <= k < |list| ==> list[k] == list[1..][k - 1];
      if list[0].songId != songId then [list[0]] + rest else rest
  }

  /** `fav_tracks?.filter(a => a?.score && a?.score < 0) || []`. */
  function DislikedOf(favTracks: Option<seq<TrackItem>>): (r: seq<TrackItem>)
    reads if favTracks.Some? then set t | t in favTracks.value else {}
    ensures favTracks.Some? ==> r == NegativeScores(favTracks.value)
    ensures favTracks.None? ==> r == []
  {
    if favTracks.None? then [] else NegativeScores(favTracks.value)
  }

  function NegativeScores(list: seq<TrackItem>): (r: seq<TrackItem>)
    reads set t | t in list
    ensures forall k :: 0 <= k < |r| ==> r[k] in list && r[k].score.Some? && r[k].score.value < 0
    ensures forall k :: 0 <= k < |list| && list[k].score.Some? && list[k].score.value < 0 ==> list[k] in r
  {
    if list == [] then []
    else
      var rest := NegativeScores(list[1..]);
      assert forall k :: 1 <= k < |list| ==> list[k] == list[1..][k - 1];
      if list[0].score.Some? && list[0].score.value < 0 then [list[0]] + rest else rest
  }

  /** The mutations `onDismissSnackBar` sends: one per pending deletion, in order. */
  function Resend(pending: seq<Interaction>, userId: string): (r: seq<Interaction>)
    ensures |r| == |pending|
    ensures forall k :: 0 <= k < |r| ==> r[k] == pending[k].(userId := userId)
  {
    seq(|pending|, k requires 0 <= k < |pending| => pending[k].(userId := userId))
  }

  /** `userId || ""`. */
  function UserText(userId: Option<string>): string
  {
    if userId.Some? then userId.value else ""
  }

  /**
   * `SongsListScreen`'s state: the lists it shows, the recommended list saved
   * before the last removal, the pending deletions, the interaction
   * mutations sent so far (in order) and the snackbar's visibility.
   */
  class SongListScreen {
    const view: View
    const userId: Option<string>
    var recommended: seq<TrackItem>
    var prevRecommended: seq<TrackItem>
    var disliked: seq<TrackItem>
    var pending: seq<Interaction>
    var sent: seq<Interaction>
    var snackbarVisible: bool

    constructor(view: View, userId: Option<string>)
      ensures this.view == view && this.userId == userId
      ensures recommended == [] && prevRecommended == [] && disliked == [] && pending == [] && sent == []
      ensures !snackbarVisible
    {
      this.view := view;
      this.userId := userId;
      recommended, prevRecommended, disliked := [], [], [];
      pending, sent := [], [];
      snackbarVisible := false;
    }

    /**
     * The disliked-songs effect: in the disliked view, once the liked songs
     * have loaded, the shown list is their negatively scored tracks.
     */
    method ShowDisliked(loaded: bool, favTracks: Option<seq<TrackItem>>)
      modifies this
      ensures view == DislikedSongs && loaded ==> disliked == DislikedOf(favTracks)
      ensures !(view == DislikedSongs && loaded) ==> disliked == old(disliked)
      ensures recommended == old(recommended) && prevRecommended == old(prevRecommended)
      ensures pending == old(pending) && sent == old(sent) && snackbarVisible == old(snackbarVisible)
    {
      if view == DislikedSongs && loaded {
        disliked := DislikedOf(favTracks);
      }
    }

    /**
     * `registerLikeOrDislike({data, button})`: stores the new score in the
     * track. A negative score in the recommended view removes every entry
     * with the track's `song_id`, after saving the list; in other views it is
     * sent at once. Either way it is appended to the pending deletions and
     * the snackbar shows. A non-negative score in the disliked view removes
     * the track from that list; every non-negative score is sent.
     */
    method RegisterLikeOrDislike(data: TrackItem, button: string) returns (newScore: int)
      modifies this, data
      ensures newScore == NewScore(old(data.score), button)
      ensures data.score == Some(newScore)
      ensures var record := Interaction(newScore, data.songId, UserText(userId));
        && (newScore < 0 ==>
              && pending == old(pending) + [record]
              && snackbarVisible
              && disliked == old(disliked)
              && (view == RecommendedSongs ==>
                    recommended == WithoutSong(old(recommended), data.songId)
                    && prevRecommended == old(recommended) && sent == old(sent))
              && (view != RecommendedSongs ==>
                    recommended == old(recommended) && prevRecommended == old(prevRecommended)
                    && sent == old(sent) + [record]))
        && (newScore >= 0 ==>
              && pending == old(pending) && snackbarVisible == old(snackbarVisible)
              && recommended == old(recommended) && prevRecommended == old(prevRecommended)
              && sent == old(sent) + [record]
              && disliked == (if view == DislikedSongs then WithoutSong(old(disliked), data.songId) else old(disliked)))
    {
      newScore := NewScore(data.score, button);
      data.score := Some(newScore);
      var record := Interaction(newScore, data.songId, UserText(userId));
      if newScore < 0 {
        if view == RecommendedSongs {
          var updated := WithoutSong(recommended, data.songId);
          prevRecommended := recommended;
          recommended := updated;
        } else {
          sent := sent + [record];
        }
        pending := pending + [record];
        snackbarVisible := true;
      } else if view == DislikedSongs {
        disliked := WithoutSong(disliked, data.songId);
        sent := sent + [record];
      } else {
        sent := sent + [record];
      }
    }

    /**
     * `undoRemoval`: drops the last pending deletion (nothing when there is
     * none) and, in the recommended view, restores the saved list.
     */
    method UndoRemoval()
      modifies this
      ensures pending == if old(pending) == [] then [] else old(pending)[..|old(pending)| - 1]
      ensures recommended == if view == RecommendedSongs then old(prevRecommended) else old(recommended)
      ensures prevRecommended == old(prevRecommended) && disliked == old(disliked)
      ensures sent == old(sent) && snackbarVisible == old(snackbarVisible)
    {
      if pending != [] {
        pending := pending[..|pending| - 1];
      }
      if view == RecommendedSongs {
        recommended := prevRecommended;
      }
    }

    /**
     * `onDismissSnackBar`: sends one mutation per pending deletion, in
     * order, without clearing them, and hides the snackbar.
     */
    method OnDismissSnackBar()
      modifies this
      ensures sent == old(sent) + Resend(pending, UserText(userId))
      ensures pending == old(pending) && !snackbarVisible
      ensures recommended == old(recommended) && prevRecommended == old(prevRecommended) && disliked == old(disliked)
    {
      var songsToDelete := pending;
      var i := 0;
      while i < |songsToDelete|
        invariant 0 <= i <= |songsToDelete|
        invariant sent == old(sent) + Resend(songsToDelete[..i], UserText(userId))
        invariant pending == old(pending) && recommended == old(recommended)
        invariant prevRecommended == old(prevRecommended) && disliked == old(disliked)
      {
        var song := songsToDelete[i];
        sent := sent + [Interaction(song.score, song.songId, UserText(userId))];
        assert Resend(songsToDelete[..i + 1], UserText(userId))
            == Resend(songsToDelete[..i], UserText(userId)) + [song.(userId := UserText(userId))];
        i := i + 1;
      }
      assert songsToDelete[..i] == songsToDelete;
      snackbarVisible := false;
    }
  }

  /**
   * Disliking an unscored recommended track and undoing: the recommended
   * list and the pending deletions are as before, nothing was sent, and the
   * track keeps the score -1 it was given.
   */
  method DislikeThenUndo(screen: SongListScreen, track: TrackItem)
    requires screen.view == RecommendedSongs
    requires track.score == None || track.score == Some(0)
    modifies screen, track
    ensures screen.recommended == old(screen.recommended)
    ensures screen.pending == old(screen.pending)
    ensures screen.sent == old(screen.sent)
    ensures track.score == Some(-1)
  {
    var s := screen.RegisterLikeOrDislike(track, "dislike");
    screen.UndoRemoval();
    assert (old(screen.pending) + [Interaction(-1, track.songId, UserText(screen.userId))])[..|old(screen.pending)|]
        == old(screen.pending);
  }

  /**
   * Two removals followed by one undo: only the last pending deletion is
   * dropped and the list comes back as it was before the second removal,
   * so the first removed track stays removed.
   */
  method TwoRemovalsOneUndo(screen: SongListScreen, t1: TrackItem, t2: TrackItem)
    requires screen.view == RecommendedSongs && t1 != t2
    requires t1.score == Some(0) && t2.score == Some(0)
    modifies screen, t1, t2
    ensures screen.recommended == WithoutSong(old(screen.recommended), t1.songId)
    ensures |screen.pending| == |old(screen.pending)| + 1
  {
    var s1 := screen.RegisterLikeOrDislike(t1, "dislike");
    var s2 := screen.RegisterLikeOrDislike(t2, "dislike");
    screen.UndoRemoval();
  }
}

=== FILE: spotify_service.dfy ===
/**
 * The Spotify service of the Express back end: ordering search results by
 * popularity, the title cleaning that decides which search results are the
 * requested song, the artist and track lookups built on those two, and the
 * batch refresh of artist images. HTTP responses are parameters; `None`
 * stands for a request that threw.
 */
module SpotifyService {
  import opened Common
  import opened Helper

  // ---------------------------------------------------------------------------
  // sortByPopularity
  // ---------------------------------------------------------------------------

  /** `x.popularity || 0`: a missing popularity sorts as 0. */
  function PopularityOrZero(p: Option<real>): real
  {
    if p.Some? then p.value else 0.0
  }

  function TrackPopularity(t: SpotifyTrack): real
  {
    PopularityOrZero(t.popularity)
  }

  /**
   * `sortByPopularity`: sorts the array in place by descending popularity.
   * `Array.prototype.sort` is stable, so equal popularities keep their order.
   */
  method SortByPopularity<T(==,!new)>(a: array<T>, popularity: T -> real)
    modifies a
    ensures a[..] == SortDesc(old(a[..]), popularity)
  {
    var sorted := SortDesc(a[..], popularity);
    forall i | 0 <= i < a.Length {
      a[i] := sorted[i];
    }
    assert a[..] == sorted;
  }

  /** The first element of a popularity sort is a most popular one. */
  lemma SortDescHead<T(!new)>(xs: seq<T>, key: T -> real)
    requires xs != []
    ensures SortDesc(xs, key)[0] in xs
    ensures forall y :: y in xs ==> key(y) <= key(SortDesc(xs, key)[0])
  {
    var s := SortDesc(xs, key);
    SortDescSorted(xs, key);
    HeadBounds(s, key);
    assert s[0] in multiset(s);
    forall y | y in xs
      ensures y in s
    {
      assert y in multiset(xs);
    }
  }

  /**
   * The first element that `p` accepts once `items` is sorted by popularity:
   * `sortByPopularity(items).filter(p)[0]`, which is also what `find` on the
   * sorted array returns.
   */
  function MostPopularMatch<T(==,!new)>(items: seq<T>, key: T -> real, p: T -> bool): Option<T>
  {
    var m := Where(SortDesc(items, key), p);
    if m == [] then None else Some(m[0])
  }

  /** The chosen element is a match, no match is more popular, and there is a choice exactly when something matches. */
  lemma MostPopularMatchSpec<T(!new)>(items: seq<T>, key: T -> real, p: T -> bool)
    ensures MostPopularMatch(items, key, p).Some? ==>
      var a := MostPopularMatch(items, key, p).value;
      a in items && p(a) && forall b :: b in items && p(b) ==> key(b) <= key(a)
    ensures MostPopularMatch(items, key, p).None? <==> forall b :: b in items ==> !p(b)
  {
    var s := SortDesc(items, key);
    var m := Where(s, p);
    SortDescSorted(items, key);
    WhereSorted(s, p, key);
    forall b | b in items
      ensures b in s
    {
      assert b in multiset(items);
    }
    if m != [] {
      HeadBounds(m, key);
      assert m[0] in m;
      assert m[0] in multiset(s);
    }
  }

  // ---------------------------------------------------------------------------
  // cleanTitle
  // ---------------------------------------------------------------------------

  /** Where `.*` starting at `k` stops: the next line terminator, or the end. */
  function LineEnd(s: string, k: nat): (e: nat)
    requires k <= |s|
    ensures k <= e <= |s|
    ensures forall p :: k <= p < e ==> !LineTerminator(s[p])
    ensures e == |s| || LineTerminator(s[e])
    decreases |s| - k
  {
    if k < |s| && !LineTerminator(s[k]) then LineEnd(s, k + 1) else k
  }

  predicate SingleLine(s: string)
  {
    forall p :: 0 <= p < |s| ==> !LineTerminator(s[p])
  }

  /** No "(" is followed, anywhere later, by a ")". */
  predicate NoClosedGroup(s: string)
  {
    forall p, q :: 0 <= p < q < |s| && s[p] == '(' ==> s[q] != ')'
  }

  /**
   * `replace(/\s*\(.*?\)/g, "")`: scanning left to right, each group from "("
   * to the next ")" on the same line is removed together with the white
   * space before it. A white-space run is taken whole: a shorter run would
   * leave a white-space character where the "(" is needed.
   */
  function RemoveGroups(s: string): (r: string)
    ensures |r| <= |s|
    ensures forall x :: x in r ==> x in s
    ensures '(' !in s ==> r == s
    decreases |s|
  {
    if |s| == 0 then s
    else
      match GroupAt(s)
      case Some(e) => RemoveGroups(s[e..])
      case None => [s[0]] + RemoveGroups(s[1..])
  }

  /** Where a match of `\s*\(.*?\)` starting at the front of `s` ends, if there is one. */
  function GroupAt(s: string): (e: Option<nat>)
    ensures e.Some? ==> 0 < e.value <= |s| && '(' in s
  {
    if |s| == 0 then None
    else
      var j := JsSpaceRun(s, 0);
      if j < |s| && s[j] == '(' then
        match CloseParen(s, j + 1)
        case Some(c) => Some(c + 1)
        case None => None
      else None
  }

  /**
   * The replacement of the pattern `\s*c.*` by "" searching from `i`: the leftmost match, the white
   * space before the first `c` and everything after it up to the end of the
   * line, is removed.
   */
  function CutFrom(s: string, c: char, i: nat): (r: string)
    requires i <= |s|
    requires !JsSpace(c)
    ensures |r| <= |s|
    ensures forall x :: x in r ==> x in s
    ensures (forall p :: i <= p < |s| ==> s[p] != c) ==> r == s
    decreases |s| - i
  {
    if i == |s| then s
    else
      var j := JsSpaceRun(s, i);
      if j < |s| && s[j] == c then s[..i] + s[LineEnd(s, j + 1)..]
      else CutFrom(s, c, i + 1)
  }

  /** `cleanTitle(title)`. */
  function CleanTitle(title: string): (r: string)
    ensures r == [] || (!JsSpace(r[0]) && !JsSpace(r[|r| - 1]))
  {
    JsTrim(CutFrom(CutFrom(RemoveGroups(Lower(title)), '-', 0), '!', 0))
  }

  lemma ExampleLower()
    ensures Lower("Hey (Live)") == "hey (live)"
  {
  }

  lemma ExampleGroupAt()
    ensures GroupAt(" (live)") == Some(7)
  {
    assert JsSpaceRun(" (live)", 0) == 1;
    assert CloseParen(" (live)", 2) == Some(6);
  }

  lemma ExampleTail()
    ensures RemoveGroups(" (live)") == ""
  {
    ExampleGroupAt();
    assert " (live)"[7..] == "";
  }

  lemma {:induction false} RemoveGroupsPlainPrefix(x: string, y: string)
    requires forall k :: 0 <= k < |x| ==> x[k] != '(' && !JsSpace(x[k])
    ensures RemoveGroups(x + y) == x + RemoveGroups(y)
  {
    if x != [] {
      var s := x + y;
      ConsConcat(x, y);
      ConsConcat(x, RemoveGroups(y));
      assert JsSpaceRun(s, 0) == 0;
      assert GroupAt(s) == None;
      assert RemoveGroups(s) == [x[0]] + RemoveGroups(s[1..]);
      RemoveGroupsPlainPrefix(x[1..], y);
    } else {
      assert x + y == y;
    }
  }

  lemma ExamplePlainPrefix()
    ensures RemoveGroups("hey" + " (live)") == "hey" + RemoveGroups(" (live)")
  {
    var x := "hey";
    assert x[0] == 'h' && x[1] == 'e' && x[2] == 'y';
    RemoveGroupsPlainPrefix(x, " (live)");
  }

  lemma ExampleRemoveGroups()
    ensures RemoveGroups("hey (live)") == "hey"
  {
    ExampleTail();
    ExamplePlainPrefix();
    assert "hey" + " (live)" == "hey (live)";
  }

  lemma ExampleCuts()
    ensures CutFrom(CutFrom("hey", '-', 0), '!', 0) == "hey"
  {
  }

  lemma ExampleTrim()
    ensures JsTrim("hey") == "hey"
  {
    var s := "hey";
    assert !JsSpace(s[0]) && !JsSpace(s[|s| - 1]);
    TrimPlain(s, JsSpace);
  }

  /** A live release is cleaned to the bare title, so it matches a search for that title. */
  lemma CleanTitleExample()
    ensures CleanTitle("Hey (Live)") == "hey"
  {
    ExampleLower();
    ExampleRemoveGroups();
    ExampleCuts();
    ExampleTrim();
    CleanTitleSteps("Hey (Live)", "hey (live)", "hey", "hey", "hey");
  }

  lemma CleanTitleSteps(title: string, lowered: string, ungrouped: string, cut: string, r: string)
    requires Lower(title) == lowered && RemoveGroups(lowered) == ungrouped
    requires CutFrom(CutFrom(ungrouped, '-', 0), '!', 0) == cut && JsTrim(cut) == r
    ensures CleanTitle(title) == r
  {
  }

  /** A property of every character of `s` holds of every character of a string made of characters of `s`. */
  lemma CharsKeep(r: string, s: string, ok: char -> bool)
    requires forall x :: x in r ==> x in s
    requires forall k :: 0 <= k < |s| ==> ok(s[k])
    ensures forall k :: 0 <= k < |r| ==> ok(r[k])
  {
    forall k | 0 <= k < |r|
      ensures ok(r[k])
    {
      assert r[k] in s;
      var m :| 0 <= m < |s| && s[m] == r[k];
    }
  }

  predicate NotCapital(c: char)
  {
    !('A' <= c <= 'Z')
  }

  predicate NotLineTerminator(c: char)
  {
    !LineTerminator(c)
  }

  /** The cleaned title has no ASCII capital letter. */
  lemma CleanTitleLower(title: string)
    ensures forall i :: 0 <= i < |CleanTitle(title)| ==> NotCapital(CleanTitle(title)[i])
  {
    var l := Lower(title);
    assert forall k :: 0 <= k < |l| ==> NotCapital(l[k]);
    var g := RemoveGroups(l);
    CharsKeep(g, l, NotCapital);
    var d := CutFrom(g, '-', 0);
    CharsKeep(d, g, NotCapital);
    var e := CutFrom(d, '!', 0);
    CharsKeep(e, d, NotCapital);
    TrimChars(e);
    CharsKeep(JsTrim(e), e, NotCapital);
  }

  lemma SingleLineSuffix(s: string, k: nat)
    requires k <= |s| && SingleLine(s)
    ensures SingleLine(s[k..])
  {
    forall p | 0 <= p < |s[k..]|
      ensures !LineTerminator(s[k..][p])
    {
      assert s[k..][p] == s[k + p];
    }
  }

  lemma ConsNoClosedGroup(h: char, tail: string)
    requires NoClosedGroup(tail)
    requires h == '(' ==> ')' !in tail
    ensures NoClosedGroup([h] + tail)
  {
    var r := [h] + tail;
    forall p, q | 0 <= p < q < |r| && r[p] == '('
      ensures r[q] != ')'
    {
      assert r[q] == tail[q - 1];
      if p == 0 {
        assert tail[q - 1] in tail;
      } else {
        assert r[p] == tail[p - 1];
      }
    }
  }

  /** On a single line, a group left open has no ")" after it. */
  lemma {:induction false} OpenGroupNoClose(s: string, k: nat)
    requires k <= |s| && SingleLine(s) && CloseParen(s, k).None?
    ensures forall p :: k <= p < |s| ==> s[p] != ')'
    decreases |s| - k
  {
    if k < |s| {
      OpenGroupNoClose(s, k + 1);
    }
  }

  lemma KeepFirstNoClosedGroup(s: string)
    requires |s| > 0 && SingleLine(s) && GroupAt(s).None?
    requires NoClosedGroup(RemoveGroups(s[1..]))
    ensures NoClosedGroup(RemoveGroups(s))
  {
    var tail := RemoveGroups(s[1..]);
    assert RemoveGroups(s) == [s[0]] + tail;
    if s[0] == '(' {
      assert JsSpaceRun(s, 0) == 0;
      OpenGroupNoClose(s, 1);
      assert ')' !in s[1..];
    }
    ConsNoClosedGroup(s[0], tail);
  }

  lemma {:induction false} RemoveGroupsNoClosedGroup(s: string)
    requires SingleLine(s)
    ensures NoClosedGroup(RemoveGroups(s))
    decreases |s|
  {
    if |s| > 0 {
      match GroupAt(s)
      case Some(e) =>
        SingleLineSuffix(s, e);
        RemoveGroupsNoClosedGroup(s[e..]);
      case None =>
        SingleLineSuffix(s, 1);
        RemoveGroupsNoClosedGroup(s[1..]);
        KeepFirstNoClosedGroup(s);
    }
  }

  /** On a single line, the cut keeps a prefix free of `c`. */
  lemma {:induction false} CutFromPrefix(s: string, c: char, i: nat)
    requires i <= |s| && !JsSpace(c) && SingleLine(s)
    requires forall p :: 0 <= p < i ==> s[p] != c
    ensures IsPrefix(CutFrom(s, c, i), s)
    ensures c !in CutFrom(s, c, i)
    decreases |s| - i
  {
    if i < |s| {
      var j := JsSpaceRun(s, i);
      if j < |s| && s[j] == c {
        assert LineEnd(s, j + 1) == |s|;
        assert s[..i] + s[|s|..] == s[..i];
      } else {
        assert s[i] != c;
        CutFromPrefix(s, c, i + 1);
      }
    }
  }

  lemma PrefixKeeps(p: string, s: string)
    requires IsPrefix(p, s)
    ensures SingleLine(s) ==> SingleLine(p)
    ensures NoClosedGroup(s) ==> NoClosedGroup(p)
  {
    assert forall k :: 0 <= k < |p| ==> p[k] == s[k];
  }

  lemma SliceKeepsNoClosedGroup(s: string, a: nat, b: nat)
    requires a <= b <= |s| && NoClosedGroup(s)
    ensures NoClosedGroup(s[a..b])
  {
    var t := s[a..b];
    forall p, q | 0 <= p < q < |t| && t[p] == '('
      ensures t[q] != ')'
    {
      assert t[p] == s[a + p] && t[q] == s[a + q];
    }
  }

  /**
   * For a one-line title, the cleaned title keeps no "-" and no "!" (the
   * two cuts run to the end), and no parenthesised group.
   */
  lemma CleanTitleShape(title: string)
    requires SingleLine(title)
    ensures '-' !in CleanTitle(title)
    ensures '!' !in CleanTitle(title)
    ensures NoClosedGroup(CleanTitle(title))
  {
    var l := Lower(title);
    assert SingleLine(l);
    var g := RemoveGroups(l);
    CharsKeep(g, l, NotLineTerminator);
    RemoveGroupsNoClosedGroup(l);
    var d := CutFrom(g, '-', 0);
    CutFromPrefix(g, '-', 0);
    PrefixKeeps(d, g);
    var e := CutFrom(d, '!', 0);
    CutFromPrefix(d, '!', 0);
    PrefixKeeps(e, d);
    assert '-' !in e;
    TrimChars(e);
    var a := TrimSlice(e);
    SliceKeepsNoClosedGroup(e, a, a + |JsTrim(e)|);
  }

  // ---------------------------------------------------------------------------
  // Search replies
  // ---------------------------------------------------------------------------

  /**
   * What an async lookup resolves to: a value, `undefined` (a status other
   * than 200, or nothing chosen), `{}` or `null` (what the `catch` blocks
   * return when something threw).
   */
  datatype Reply<T> = Value(value: T) | Undefined | EmptyObject | Null

  datatype Image = Image(url: Option<string>, height: Option<int>, width: Option<int>)

  /** The properties of a Spotify artist object the service reads; `followers` is `followers.total`. */
  datatype ArtistObject = ArtistObject(
    id: Option<string>,
    name: Option<string>,
    genres: Option<seq<string>>,
    popularity: Option<real>,
    images: Option<seq<Image>>,
    followers: Option<int>)

  /** A response of `GET /search`: its status and the `items` of the requested kind. */
  datatype SearchResponse<T> = SearchResponse(status: int, items: Option<seq<T>>)

  function ArtistPopularity(a: ArtistObject): real
  {
    PopularityOrZero(a.popularity)
  }

  // ---------------------------------------------------------------------------
  // spotify_searchSongByArtistAndName
  // ---------------------------------------------------------------------------

  /**
   * The selection the track search makes: keep what `titleOk` accepts; when
   * `narrow` holds and some of those are accepted by `artistOk`, keep only
   * those; then sort by popularity and take the first.
   */
  function Pick<T(==,!new)>(data: seq<T>, key: T -> real, titleOk: T -> bool, artistOk: T -> bool, narrow: bool): Option<T>
  {
    var required := Where(data, titleOk);
    var byArtist := Where(required, artistOk);
    var filtered := if narrow && |byArtist| > 0 then byArtist else required;
    var sorted := SortDesc(filtered, key);
    if sorted == [] then None else Some(sorted[0])
  }

  /** Some element passes both filters, so the narrowing applies. */
  predicate SomeBoth<T(==)>(data: seq<T>, titleOk: T -> bool, artistOk: T -> bool)
  {
    exists u :: u in data && titleOk(u) && artistOk(u)
  }

  /** The elements `Pick` chooses among. */
  predicate Eligible<T>(t: T, titleOk: T -> bool, artistOk: T -> bool, narrowed: bool)
  {
    titleOk(t) && (narrowed ==> artistOk(t))
  }

  /**
   * `Pick` chooses exactly when some element passes the title filter; the
   * choice passes it, passes the artist filter whenever the narrowing
   * applies, and no eligible element is more popular.
   */
  lemma PickSpec<T(!new)>(data: seq<T>, key: T -> real, titleOk: T -> bool, artistOk: T -> bool, narrow: bool)
    ensures Pick(data, key, titleOk, artistOk, narrow).Some? <==> exists t :: t in data && titleOk(t)
    ensures Pick(data, key, titleOk, artistOk, narrow).Some? ==>
      var r := Pick(data, key, titleOk, artistOk, narrow).value;
      var narrowed := narrow && SomeBoth(data, titleOk, artistOk);
      && r in data
      && Eligible(r, titleOk, artistOk, narrowed)
      && forall t :: t in data && Eligible(t, titleOk, artistOk, narrowed) ==> key(t) <= key(r)
  {
    var required := Where(data, titleOk);
    var byArtist := Where(required, artistOk);
    var filtered := if narrow && |byArtist| > 0 then byArtist else required;
    assert SomeBoth(data, titleOk, artistOk) <==> |byArtist| > 0 by {
      if SomeBoth(data, titleOk, artistOk) {
        var u :| u in data && titleOk(u) && artistOk(u);
        assert u in byArtist;
      }
      if |byArtist| > 0 {
        assert byArtist[0] in byArtist;
      }
    }
    if exists t :: t in data && titleOk(t) {
      var t :| t in data && titleOk(t);
      assert t in required;
    }
    if filtered != [] {
      SortDescHead(filtered, key);
    }
  }

  predicate TitleMatches(t: SpotifyTrack, cleaned: string)
  {
    t.name.Some? && CleanTitle(t.name.value) == cleaned
  }

  function TitleMatcher(cleaned: string): SpotifyTrack -> bool
  {
    t => TitleMatches(t, cleaned)
  }

  /** `a.artists.map(a => a.name.trim().toLowerCase())` can be computed. */
  predicate ArtistNamesReadable(t: SpotifyTrack)
  {
    t.artists.Some? && forall a :: a in t.artists.value ==> a.name.Some?
  }

  /** `spotifyArtistNames.includes(wanted)`. */
  predicate ListsArtist(t: SpotifyTrack, wanted: string)
  {
    t.artists.Some? && exists a :: a in t.artists.value && a.name.Some? && Lower(JsTrim(a.name.value)) == wanted
  }

  function ArtistMatcher(wanted: string): SpotifyTrack -> bool
  {
    t => ListsArtist(t, wanted)
  }

  /**
   * `spotify_searchSongByArtistAndName(title, artist)` given the search
   * response. `cleanTitle` of a track without a name throws, and so does
   * reading the artist names of a title match without them; the `catch`
   * returns `null`.
   */
  function SearchSong(title: string, artist: string, res: Option<SearchResponse<SpotifyTrack>>): (r: Reply<SpotifyTrack>)
    ensures r != EmptyObject
  {
    if res.None? then Null
    else if res.value.status != 200 then Undefined
    else if res.value.items.None? then Null
    else SearchItems(title, artist, res.value.items.value)
  }

  /** Some result has no `name`, so `cleanTitle` throws on it. */
  predicate SomeUnnamed(data: seq<SpotifyTrack>)
  {
    exists t :: t in data && t.name.None?
  }

  /** Some title match has artist names that cannot be read. */
  predicate SomeUnreadable(matches: seq<SpotifyTrack>)
  {
    exists t :: t in matches && !ArtistNamesReadable(t)
  }

  /** The search over the items of a 200 response. */
  function SearchItems(title: string, artist: string, items: seq<SpotifyTrack>): (r: Reply<SpotifyTrack>)
    ensures r != EmptyObject
  {
    var data := SortDesc(items, TrackPopularity);
    if SomeUnnamed(data) then Null
    else
      var titleOk := TitleMatcher(CleanTitle(title));
      if |artist| > 0 && SomeUnreadable(Where(data, titleOk)) then Null
      else
        match Pick(data, TrackPopularity, titleOk, ArtistMatcher(JsTrim(Lower(artist))), |artist| > 0)
        case Some(t) => Value(t)
        case None => Undefined
  }

  /** Nothing throws: every track is named and, when the artist is given, every title match's artists are named. */
  predicate SearchSucceeds(titleOk: SpotifyTrack -> bool, artist: string, items: seq<SpotifyTrack>)
  {
    (forall t :: t in items ==> t.name.Some?)
    && (|artist| > 0 ==> forall t :: t in items && titleOk(t) ==> ArtistNamesReadable(t))
  }

  lemma SortedSame<T(!new)>(xs: seq<T>, key: T -> real)
    ensures forall t :: t in SortDesc(xs, key) <==> t in xs
  {
    forall t
      ensures t in SortDesc(xs, key) <==> t in xs
    {
      assert t in SortDesc(xs, key) <==> t in multiset(SortDesc(xs, key));
      assert t in xs <==> t in multiset(xs);
    }
  }

  /** A successful search reduces to `Pick` over the sorted results. */
  lemma SearchSongPicks(title: string, artist: string, items: seq<SpotifyTrack>)
    requires SearchSucceeds(TitleMatcher(CleanTitle(title)), artist, items)
    ensures var p := Pick(SortDesc(items, TrackPopularity), TrackPopularity, TitleMatcher(CleanTitle(title)),
                          ArtistMatcher(JsTrim(Lower(artist))), |artist| > 0);
      SearchSong(title, artist, Some(SearchResponse(200, Some(items)))) == if p.Some? then Value(p.value) else Undefined
  {
    var data := SortDesc(items, TrackPopularity);
    var titleOk := TitleMatcher(CleanTitle(title));
    SortedSame(items, TrackPopularity);
    assert !SomeUnnamed(data) by {
      forall t | t in data
        ensures t.name.Some?
      {
        assert t in items;
      }
    }
    if |artist| > 0 {
      assert !SomeUnreadable(Where(data, titleOk)) by {
        forall t | t in Where(data, titleOk)
          ensures ArtistNamesReadable(t)
        {
          assert t in items && titleOk(t);
        }
      }
    }
    assert SearchSong(title, artist, Some(SearchResponse(200, Some(items)))) == SearchItems(title, artist, items);
  }

  /**
   * A search reply that is a track exactly when some item passes the title
   * filter and `undefined` otherwise; the track is an item, is eligible and
   * no eligible item is more popular.
   */
  predicate SearchOutcome(r: Reply<SpotifyTrack>, items: seq<SpotifyTrack>, titleOk: SpotifyTrack -> bool,
                          artistOk: SpotifyTrack -> bool, narrowed: bool)
  {
    && (r.Value? <==> exists t :: t in items && titleOk(t))
    && (!r.Value? ==> r == Undefined)
    && (r.Value? ==> r.value in items && Eligible(r.value, titleOk, artistOk, narrowed))
    && (r.Value? ==> forall t :: t in items && Eligible(t, titleOk, artistOk, narrowed) ==>
          TrackPopularity(t) <= TrackPopularity(r.value))
  }

  /**
   * When nothing throws, the search returns a track exactly when some
   * result's cleaned title equals the cleaned query title, and otherwise
   * `undefined`. The track returned is such a result; it lists the artist
   * whenever the artist is non-empty and some title match lists it; and
   * no other result that qualifies is more popular.
   */
  lemma SearchSongSpec(title: string, artist: string, items: seq<SpotifyTrack>)
    requires SearchSucceeds(TitleMatcher(CleanTitle(title)), artist, items)
    ensures var titleOk := TitleMatcher(CleanTitle(title));
      var artistOk := ArtistMatcher(JsTrim(Lower(artist)));
      SearchOutcome(SearchSong(title, artist, Some(SearchResponse(200, Some(items)))), items, titleOk, artistOk,
                    |artist| > 0 && SomeBoth(items, titleOk, artistOk))
  {
    var titleOk := TitleMatcher(CleanTitle(title));
    var artistOk := ArtistMatcher(JsTrim(Lower(artist)));
    SearchSongPicks(title, artist, items);
    PickOutcome(items, titleOk, artistOk, |artist| > 0);
  }

  /** `Pick` over the results sorted by popularity gives a reply with the promised outcome. */
  lemma PickOutcome(items: seq<SpotifyTrack>, titleOk: SpotifyTrack -> bool, artistOk: SpotifyTrack -> bool, narrow: bool)
    ensures var p := Pick(SortDesc(items, TrackPopularity), TrackPopularity, titleOk, artistOk, narrow);
      SearchOutcome(if p.Some? then Value(p.value) else Undefined, items, titleOk, artistOk,
                    narrow && SomeBoth(items, titleOk, artistOk))
  {
    var data := SortDesc(items, TrackPopularity);
    var p := Pick(data, TrackPopularity, titleOk, artistOk, narrow);
    var r := if p.Some? then Value(p.value) else Undefined;
    SortedSame(items, TrackPopularity);
    PickSpec(data, TrackPopularity, titleOk, artistOk, narrow);
    assert SomeBoth(data, titleOk, artistOk) <==> SomeBoth(items, titleOk, artistOk) by {
      if SomeBoth(items, titleOk, artistOk) {
        var u :| u in items && titleOk(u) && artistOk(u);
        assert u in data;
      }
      if SomeBoth(data, titleOk, artistOk) {
        var u :| u in data && titleOk(u) && artistOk(u);
        assert u in items;
      }
    }
    var narrowed := narrow && SomeBoth(items, titleOk, artistOk);
    assert r.Value? <==> exists t :: t in items && titleOk(t) by {
      if exists t :: t in items && titleOk(t) {
        var t :| t in items && titleOk(t);
        assert t in data;
      }
    }
    if r.Value? {
      assert r.value == p.value && r.value in items;
      forall t | t in items && Eligible(t, titleOk, artistOk, narrowed)
        ensures TrackPopularity(t) <= TrackPopularity(r.value)
      {
        assert t in data;
      }
    }
    assert SearchOutcome(r, items, titleOk, artistOk, narrowed);
  }

  /** The query artist is lower-cased then trimmed, the listed names trimmed then lower-cased; the two agree. */
  lemma ArtistKeysAgree(name: string)
    ensures JsTrim(Lower(name)) == Lower(JsTrim(name))
  {
    TrimLowerCommute(name, JsSpace);
  }

  // ---------------------------------------------------------------------------
  // getArtistIdByArtistName_spotify
  // ---------------------------------------------------------------------------

  /** `name?.trim().toLowerCase()`: `undefined` stays `undefined`. */
  function NameKey(name: Option<string>): Option<string>
  {
    if name.Some? then Some(Lower(JsTrim(name.value))) else None
  }

  predicate SameNameKey(a: ArtistObject, name: Option<string>)
  {
    NameKey(a.name) == NameKey(name)
  }

  function NameKeyMatcher(name: Option<string>): ArtistObject -> bool
  {
    a => SameNameKey(a, name)
  }

  /**
   * `getArtistIdByArtistName_spotify(name)` given the search response: the
   * first artist of the popularity-sorted items whose key equals the
   * query's (`===`, so a missing query name finds a nameless artist).
   * Sorting missing items throws and the `catch` returns `{}`.
   */
  function ArtistIdByName(name: Option<string>, res: Option<SearchResponse<ArtistObject>>): (r: Reply<ArtistObject>)
    ensures r != Null
  {
    if res.None? then EmptyObject
    else if res.value.status != 200 then Undefined
    else if res.value.items.None? then EmptyObject
    else
      match MostPopularMatch(res.value.items.value, ArtistPopularity, NameKeyMatcher(name))
      case Some(a) => Value(a)
      case None => Undefined
  }

  /**
   * The artist found has the query's name key and no artist with that key
   * is more popular; `undefined` comes back exactly when none has it.
   */
  lemma ArtistIdByNameSpec(name: Option<string>, items: seq<ArtistObject>)
    ensures var r := ArtistIdByName(name, Some(SearchResponse(200, Some(items))));
      && (r.Value? || r == Undefined)
      && (r == Undefined <==> forall b :: b in items ==> !SameNameKey(b, name))
      && (r.Value? ==> r.value in items && SameNameKey(r.value, name))
      && (r.Value? ==> forall b :: b in items && SameNameKey(b, name) ==> ArtistPopularity(b) <= ArtistPopularity(r.value))
  {
    MostPopularMatchSpec(items, ArtistPopularity, NameKeyMatcher(name));
  }

  // ---------------------------------------------------------------------------
  // getArtistInfo_spotify
  // ---------------------------------------------------------------------------

  datatype ImageDetails = ImageDetails(url: Option<string>, height: Option<int>, width: Option<int>)

  /** The object `getArtistInfo_spotify` builds; `None` is `undefined`. */
  datatype ArtistDetails = ArtistDetails(
    artistSpotifyId: Option<string>,
    name: Option<string>,
    genres: Option<seq<string>>,
    popularity: Option<real>,
    image: ImageDetails,
    followers: Option<int>)

  /** The object built when no artist matched: every property `undefined`. */
  const NoDetails := ArtistDetails(None, None, None, None, ImageDetails(None, None, None), None)

  /** The details of an artist whose `images` are present (`images[0]?.url` and so on). */
  function DetailsOf(a: ArtistObject): (d: ArtistDetails)
    requires a.images.Some?
    ensures d.artistSpotifyId == a.id && d.name == a.name && d.popularity == a.popularity
    ensures a.images.value != [] ==> d.image.url == a.images.value[0].url
  {
    var image :=
      if a.images.value == [] then ImageDetails(None, None, None)
      else ImageDetails(a.images.value[0].url, a.images.value[0].height, a.images.value[0].width);
    ArtistDetails(a.id, a.name, a.genres, a.popularity, image, a.followers)
  }

  /** `a.name.trim().toLowerCase() == artist_name?.trim().toLowerCase()`: never true for a missing query name. */
  predicate InfoMatches(a: ArtistObject, name: Option<string>)
  {
    a.name.Some? && name.Some? && Lower(JsTrim(a.name.value)) == Lower(JsTrim(name.value))
  }

  function InfoMatcher(name: Option<string>): ArtistObject -> bool
  {
    a => InfoMatches(a, name)
  }

  /**
   * `getArtistInfo_spotify(name)` given the search response. Missing items
   * give `undefined`; a nameless item makes the filter throw, and so does a
   * chosen artist without images; the `catch` returns `{}`.
   */
  function ArtistInfo(name: Option<string>, res: Option<SearchResponse<ArtistObject>>): (r: Reply<ArtistDetails>)
    ensures r != Null
  {
    if res.None? then EmptyObject
    else if res.value.status != 200 || res.value.items.None? then Undefined
    else if exists a :: a in res.value.items.value && a.name.None? then EmptyObject
    else
      match MostPopularMatch(res.value.items.value, ArtistPopularity, InfoMatcher(name))
      case None => Value(NoDetails)
      case Some(a) => if a.images.None? then EmptyObject else Value(DetailsOf(a))
  }

  /** With every item named, nothing throws before the choice. */
  lemma ArtistInfoChooses(name: Option<string>, items: seq<ArtistObject>)
    requires forall a :: a in items ==> a.name.Some?
    ensures var m := MostPopularMatch(items, ArtistPopularity, InfoMatcher(name));
      ArtistInfo(name, Some(SearchResponse(200, Some(items))))
        == if m.None? then Value(NoDetails) else if m.value.images.None? then EmptyObject else Value(DetailsOf(m.value))
  {
  }

  /**
   * With every item named, the details are all `undefined` exactly when no
   * item's trimmed lower-case name equals the query's, which is always the
   * case for a missing query name.
   */
  lemma ArtistInfoNoMatch(name: Option<string>, items: seq<ArtistObject>)
    requires forall a :: a in items ==> a.name.Some?
    ensures var r := ArtistInfo(name, Some(SearchResponse(200, Some(items))));
      && (r == Value(NoDetails) <==> forall b :: b in items ==> !InfoMatches(b, name))
      && (name.None? ==> r == Value(NoDetails))
  {
    ArtistInfoChooses(name, items);
    MostPopularMatchSpec(items, ArtistPopularity, InfoMatcher(name));
    var m := MostPopularMatch(items, ArtistPopularity, InfoMatcher(name));
    if m.Some? && m.value.images.Some? {
      assert DetailsOf(m.value).name.Some?;
    }
  }

  /**
   * Otherwise the details are those of the most popular item whose name
   * matches, and no matching item is more popular.
   */
  lemma ArtistInfoMostPopular(name: Option<string>, items: seq<ArtistObject>)
    requires forall a :: a in items ==> a.name.Some?
    ensures var r := ArtistInfo(name, Some(SearchResponse(200, Some(items))));
      r.Value? && r.value != NoDetails ==>
        exists a :: a in items && InfoMatches(a, name) && a.images.Some? && r.value == DetailsOf(a)
          && forall b :: b in items && InfoMatches(b, name) ==> ArtistPopularity(b) <= ArtistPopularity(a)
  {
    ArtistInfoChooses(name, items);
    MostPopularMatchSpec(items, ArtistPopularity, InfoMatcher(name));
  }

  // ---------------------------------------------------------------------------
  // getMultipleArtistsFromSpotify
  // ---------------------------------------------------------------------------

  /** A stored artist as the refresh reads it: `image_spotify?.url` and `artist_spotify_id`. */
  datatype ArtistDoc = ArtistDoc(imageUrl: Option<string>, artistSpotifyId: Option<string>)

  /** `!a?.image_spotify?.url || a?.image_spotify?.url == ""`. */
  predicate LacksImage(a: ArtistDoc)
  {
    !Truthy(a.imageUrl)
  }

  /** The ids the `map` pushes: every `artist_spotify_id` that is neither null nor "". */
  function IdsOf(docs: seq<ArtistDoc>): seq<string>
  {
    if docs == [] then []
    else
      var last := docs[|docs| - 1];
      IdsOf(docs[..|docs| - 1]) + (if Truthy(last.artistSpotifyId) then [last.artistSpotifyId.value] else [])
  }

  /** An id is requested exactly when it is non-empty and some of the documents carries it. */
  lemma {:induction false} IdsOfSpec(docs: seq<ArtistDoc>)
    ensures forall x :: x in IdsOf(docs) <==> x != "" && exists d :: d in docs && d.artistSpotifyId == Some(x)
  {
    if docs != [] {
      var init := docs[..|docs| - 1];
      IdsOfSpec(init);
      assert docs == init + [docs[|docs| - 1]];
      forall x
        ensures x in IdsOf(docs) <==> x != "" && exists d :: d in docs && d.artistSpotifyId == Some(x)
      {
        if x != "" && exists d :: d in docs && d.artistSpotifyId == Some(x) {
          var d :| d in docs && d.artistSpotifyId == Some(x);
          if d != docs[|docs| - 1] {
            assert d in init;
          }
        }
      }
    }
  }

  /** `s.replace(c, "")` with a string pattern: only the first occurrence goes. */
  function ReplaceFirst(s: string, c: char): (r: string)
    ensures c !in s ==> r == s
    ensures forall x :: x in s && x != c ==> x in r
  {
    if s == [] then s
    else if s[0] == c then s[1..]
    else [s[0]] + ReplaceFirst(s[1..], c)
  }

  /** The guard `ids.replace(",", "").trim().length == 0` fails, so the request is made. */
  predicate RequestMade(ids: seq<string>)
  {
    |JsTrim(ReplaceFirst(Join(ids, ","), ','))| != 0
  }

  lemma {:induction false} JoinContains(parts: seq<string>, sep: string, i: nat, x: char)
    requires i < |parts| && x in parts[i]
    ensures x in Join(parts, sep)
  {
    if |parts| > 1 {
      if i > 0 {
        JoinContains(parts[1..], sep, i - 1, x);
      }
      assert Join(parts, sep) == parts[0] + sep + Join(parts[1..], sep);
    }
  }

  lemma TrimKeepsNonSpace(s: string, p: nat)
    requires p < |s| && !JsSpace(s[p])
    ensures JsTrim(s) != []
  {
    var t := TrimStart(s, JsSpace);
    var a := |s| - |t|;
    assert p >= a;
    assert t[p - a] == s[p];
    var u := TrimEnd(t, JsSpace);
    assert p - a < |u|;
    assert JsTrim(s) == u;
  }

  /** An id holding a character other than white space and "," is enough for the request to be made. */
  lemma RequestedWhenIdReadable(ids: seq<string>, i: nat, x: char)
    requires i < |ids| && x in ids[i] && !JsSpace(x) && x != ','
    ensures RequestMade(ids)
  {
    JoinContains(ids, ",", i, x);
    var r := ReplaceFirst(Join(ids, ","), ',');
    assert x in r;
    var p :| 0 <= p < |r| && r[p] == x;
    TrimKeepsNonSpace(r, p);
  }

  lemma TwoBlankIdsJoined()
    ensures Join([" ", " "], ",") == " , "
  {
  }

  lemma TwoBlankIdsReplaced()
    ensures ReplaceFirst(" , ", ',') == "  "
  {
  }

  lemma BlankTrimmed(s: string)
    requires forall k :: 0 <= k < |s| ==> JsSpace(s[k])
    ensures JsTrim(s) == ""
  {
  }

  lemma TwoBlankIdsTrimmed()
    ensures JsTrim("  ") == ""
  {
    BlankTrimmed("  ");
  }

  /** Two blank ids: removing the one comma leaves white space only, so no request is made. */
  lemma TwoBlankIdsNotRequested()
    ensures !RequestMade([" ", " "])
  {
    TwoBlankIdsJoined();
    TwoBlankIdsReplaced();
    TwoBlankIdsTrimmed();
  }

  lemma ThreeBlankIdsJoined()
    ensures Join([" ", " ", " "], ",") == " , , "
  {
    assert [" ", " ", " "][1..] == [" ", " "];
    TwoBlankIdsJoined();
  }

  lemma ThreeBlankIdsReplaced()
    ensures ReplaceFirst(" , , ", ',') == "  , "
  {
  }

  /** Three blank ids: only the first comma is removed, the second survives the trim, and the request is made. */
  lemma ThreeBlankIdsRequested()
    ensures RequestMade([" ", " ", " "])
  {
    ThreeBlankIdsJoined();
    ThreeBlankIdsReplaced();
    TrimKeepsNonSpace("  , ", 2);
  }

  /** A response of `GET /artists`. */
  datatype ArtistsResponse = ArtistsResponse(status: int, artists: Option<seq<ArtistObject>>)

  datatype StoredImage = StoredImage(url: string, height: int, width: int)

  /** The `formatted` object pushed for each artist of the response. */
  datatype FormattedArtist = FormattedArtist(
    followers: Option<int>,
    genres: Option<seq<string>>,
    popularity: Option<real>,
    artistSpotifyId: Option<string>,
    name: Option<string>,
    image: StoredImage)

  /** `n || 300` on an image dimension. */
  function DimensionOr300(n: Option<int>): int
  {
    if n.Some? && n.value != 0 then n.value else 300
  }

  /**
   * The `formatted` object of an artist whose `images` are present. The
   * image fields always have a value: "" for a missing url, 300 for a
   * missing or zero dimension.
   */
  function Format(a: ArtistObject): (f: FormattedArtist)
    requires a.images.Some?
    ensures f.artistSpotifyId == a.id && f.name == a.name && f.popularity == a.popularity
    ensures f.image.height != 0 && f.image.width != 0
    ensures f.image.url != "" <==> a.images.value != [] && Truthy(a.images.value[0].url)
  {
    var first := if a.images.value == [] then Image(None, None, None) else a.images.value[0];
    var url := if Truthy(first.url) then first.url.value else "";
    FormattedArtist(a.followers, a.genres, a.popularity, a.id, a.name,
                    StoredImage(url, DimensionOr300(first.height), DimensionOr300(first.width)))
  }

  /**
   * `out` formats the artists of `xs` in order up to the first one whose
   * `images` are missing, where reading `images[0]` throws and the loop stops.
   */
  predicate FormattedUpToThrow(out: seq<FormattedArtist>, xs: seq<ArtistObject>)
  {
    && |out| <= |xs|
    && (forall m :: 0 <= m < |out| ==> xs[m].images.Some? && out[m] == Format(xs[m]))
    && (|out| < |xs| ==> xs[|out|].images.None?)
  }

  /**
   * `getMultipleArtistsFromSpotify(artistList)`. `api` answers `GET
   * /artists` for an ids string (`None` when the request throws). Returns
   * the ids string requested, if any, and `artistData`: the `finally` block
   * hands `artistData` to `updateOrInsertArtist` whichever way the `try`
   * ended, so the early `return {}` statements never reach the caller.
   */
  method MultipleArtistsFromSpotify(artistList: Option<seq<ArtistDoc>>, api: string -> Option<ArtistsResponse>)
    returns (request: Option<string>, artistData: seq<FormattedArtist>)
    ensures request.Some? <==> artistList.Some? && RequestMade(IdsOf(Where(artistList.value, LacksImage)))
    ensures request.Some? ==> request.value == JsTrim(Join(IdsOf(Where(artistList.value, LacksImage)), ","))
    ensures request.None? ==> artistData == []
    ensures request.Some? ==>
      var res := api(request.value);
      if res.Some? && res.value.status == 200 && res.value.artists.Some? then FormattedUpToThrow(artistData, res.value.artists.value)
      else artistData == []
  {
    artistData := [];
    request := None;
    if artistList.None? {
      return;
    }
    var noData := Where(artistList.value, LacksImage);
    if |noData| == 0 {
      assert IdsOf(noData) == [];
      return;
    }
    var ids := CollectIds(noData);
    var joined := Join(ids, ",");
    if |JsTrim(ReplaceFirst(joined, ','))| == 0 {
      return;
    }
    request := Some(JsTrim(joined));
    var res := api(request.value);
    if res.Some? && res.value.status == 200 && res.value.artists.Some? {
      artistData := FormatArtists(res.value.artists.value);
    }
  }

  /** The `map` over the artists lacking an image, pushing every id that is neither null nor "". */
  method CollectIds(noData: seq<ArtistDoc>) returns (ids: seq<string>)
    ensures ids == IdsOf(noData)
  {
    ids := [];
    var i := 0;
    while i < |noData|
      invariant 0 <= i <= |noData|
      invariant ids == IdsOf(noData[..i])
    {
      var id := noData[i].artistSpotifyId;
      assert noData[..i + 1][..i] == noData[..i];
      if id == None || id == Some("") {
      } else {
        ids := ids + [id.value];
      }
      i := i + 1;
    }
    assert noData[..i] == noData;
  }

  /** The `for ... of` loop pushing one `formatted` object per artist of the response. */
  method FormatArtists(xs: seq<ArtistObject>) returns (artistData: seq<FormattedArtist>)
    ensures FormattedUpToThrow(artistData, xs)
  {
    artistData := [];
    var k := 0;
    while k < |xs| && xs[k].images.Some?
      invariant 0 <= k <= |xs|
      invariant |artistData| == k
      invariant forall m :: 0 <= m < k ==> xs[m].images.Some? && artistData[m] == Format(xs[m])
    {
      artistData := artistData + [Format(xs[k])];
      k := k + 1;
    }
  }
}

=== FILE: user_details.dfy ===
/**
 * The mobile app's user-details context: the reducer over the user and
 * device ids and the provider that loads them from the device's key-value
 * storage, generating the missing ones, or deletes them.
 */
module UserDetails {
  import opened Common

  /** `UserState`; a null id is None. */
  datatype UserState = UserState(userId: Option<string>, deviceId: Option<string>, loading: bool)

  datatype UserAction =
    | SetIdsAction(userId: string, deviceId: string)
    | ClearIdsAction
    | StopLoadingAction
    | OtherAction(tag: string)

  /** The keys "user_id" and "device_id". */
  datatype IdStorage = IdStorage(userId: Option<string>, deviceId: Option<string>)

  /** Both ids null, still loading. */
  const InitialState := UserState(None, None, true)

  /** `userReducer(state, action)`. */
  function Reduce(s: UserState, a: UserAction): (r: UserState)
    ensures r.loading == (s.loading && !a.StopLoadingAction?)
  {
    match a
    case SetIdsAction(u, d) => s.(userId := Some(u), deviceId := Some(d))
    case ClearIdsAction => s.(userId := None, deviceId := None)
    case StopLoadingAction => s.(loading := false)
    case OtherAction(_) => s
  }

  /**
   * SET_IDS sets both ids and CLEAR_IDS nulls both, each keeping `loading`;
   * STOP_LOADING changes only `loading`; other actions change nothing; and
   * clearing after setting leaves the same state as clearing alone.
   */
  lemma ReduceSpec(s: UserState, a: UserAction)
    ensures a.SetIdsAction? ==> Reduce(s, a) == UserState(Some(a.userId), Some(a.deviceId), s.loading)
    ensures a.ClearIdsAction? ==> Reduce(s, a) == UserState(None, None, s.loading)
    ensures a.StopLoadingAction? ==> Reduce(s, a).userId == s.userId && Reduce(s, a).deviceId == s.deviceId
    ensures a.OtherAction? ==> Reduce(s, a) == s
    ensures a.SetIdsAction? ==> Reduce(Reduce(s, a), ClearIdsAction) == Reduce(s, ClearIdsAction)
  {
  }

  /** The device id generated when none is stored: `osInternalBuildId ?? \`dev-${Date.now()}\``. */
  function GeneratedDeviceId(buildId: Option<string>, now: nat): (r: string)
    ensures buildId.None? ==> IsPrefix("dev-", r)
  {
    if buildId.Some? then buildId.value else "dev-" + NatToString(now)
  }

  /** The ids `initUser` settles on: a truthy stored id is kept, a missing or empty one is generated. */
  function ChosenIds(st: IdStorage, uuid: string, buildId: Option<string>, now: nat): (r: IdStorage)
    ensures r.userId.Some? && r.deviceId.Some?
    ensures Truthy(st.userId) ==> r.userId == st.userId
    ensures !Truthy(st.userId) ==> r.userId == Some(uuid)
    ensures Truthy(st.deviceId) ==> r.deviceId == st.deviceId
    ensures !Truthy(st.deviceId) ==> r.deviceId == Some(GeneratedDeviceId(buildId, now))
  {
    IdStorage(if Truthy(st.userId) then st.userId else Some(uuid),
              if Truthy(st.deviceId) then st.deviceId else Some(GeneratedDeviceId(buildId, now)))
  }

  /**
   * Once both ids are stored (and non-empty), a second `initUser` keeps them
   * whatever fresh values it would have generated.
   */
  lemma ChosenIdsStable(st: IdStorage, uuid1: string, uuid2: string, b1: Option<string>, b2: Option<string>, now1: nat, now2: nat)
    requires uuid1 != ""
    requires b1.Some? ==> b1.value != ""
    ensures var first := ChosenIds(st, uuid1, b1, now1);
      ChosenIds(first, uuid2, b2, now2) == first
  {
    var first := ChosenIds(st, uuid1, b1, now1);
    if !Truthy(st.deviceId) && b1.None? {
      assert IsPrefix("dev-", first.deviceId.value);
    }
  }

  /**
   * `UserDetailsProvider`: the reducer state and the two stored ids. The
   * generated uuid, the build id and the clock are parameters.
   */
  class UserDetailsProvider {
    var state: UserState
    var storage: IdStorage

    constructor(stored: IdStorage)
      ensures state == InitialState && storage == stored
    {
      state := InitialState;
      storage := stored;
    }

    /**
     * `initUser`: reuses the stored ids, generates and stores only the
     * missing ones, dispatches SET_IDS and always ends with STOP_LOADING.
     */
    method InitUser(uuid: string, buildId: Option<string>, now: nat)
      modifies this
      ensures storage == ChosenIds(old(storage), uuid, buildId, now)
      ensures state == Reduce(Reduce(old(state), SetIdsAction(storage.userId.value, storage.deviceId.value)), StopLoadingAction)
      ensures !state.loading
    {
      var userId := storage.userId;
      var deviceId := storage.deviceId;
      if !(userId.Some? && userId.value != "") {
        userId := Some(uuid);
        storage := storage.(userId := userId);
      }
      if !(deviceId.Some? && deviceId.value != "") {
        deviceId := Some(if buildId.Some? then buildId.value else "dev-" + NatToString(now));
        storage := storage.(deviceId := deviceId);
      }
      state := Reduce(state, SetIdsAction(userId.value, deviceId.value));
      state := Reduce(state, StopLoadingAction);
    }

    /** `deleteAccount`: removes both keys, then dispatches CLEAR_IDS. */
    method DeleteAccount()
      modifies this
      ensures storage == IdStorage(None, None)
      ensures state == Reduce(old(state), ClearIdsAction)
    {
      storage := storage.(userId := None);
      storage := storage.(deviceId := None);
      state := Reduce(state, ClearIdsAction);
    }
  }

  /**
   * A first start stores the generated ids; deleting the account and
   * starting again generates new ones rather than reusing the old.
   */
  method StartDeleteRestart(uuid1: string, uuid2: string, now: nat) returns (first: UserState, second: UserState)
    ensures first.userId == Some(uuid1) && !first.loading
    ensures second.userId == Some(uuid2) && !second.loading
  {
    var p := new UserDetailsProvider(IdStorage(None, None));
    p.InitUser(uuid1, None, now);
    first := p.state;
    p.DeleteAccount();
    var q := new UserDetailsProvider(p.storage);
    q.InitUser(uuid2, None, now);
    second := q.state;
  }
}

=== FILE: user_preferences.dfy ===
/**
 * The mobile app's preferences context: the reducer over the preferences
 * state and the provider whose operations write the device's key-value
 * storage and then dispatch to the reducer.
 */
module UserPreferences {
  import opened Common

  /** `PreferencesState`; a null list is None. */
  datatype PrefState = PrefState(
    genres: Option<seq<string>>,
    artists: Option<seq<string>>,
    onboardingCompleted: bool,
    loading: bool)

  /** The actions the reducer understands, and any other action type. */
  datatype PrefAction =
    | SetGenresAction(genres: seq<string>)
    | SetArtistsAction(artists: seq<string>)
    | ResetPreferencesAction
    | StopLoadingAction
    | SetOnboardingAction
    | OtherAction(tag: string)

  /**
   * The three storage keys the provider uses: "onboarding_status" (a raw
   * string) and the JSON-encoded lists under "genres_selected" and
   * "artists_selected", held decoded.
   */
  datatype PrefStorage = PrefStorage(
    onboardingStatus: Option<string>,
    genresSelected: Option<seq<string>>,
    artistsSelected: Option<seq<string>>)

  /** No genres, no artists, onboarding not completed, still loading. */
  const InitialState := PrefState(None, None, false, true)

  /** `preferencesReducer(state, action)`. */
  function Reduce(s: PrefState, a: PrefAction): (r: PrefState)
    ensures r.loading == (s.loading && !a.StopLoadingAction?)
  {
    match a
    case SetGenresAction(g) => s.(genres := Some(g))
    case SetArtistsAction(ar) => s.(artists := Some(ar))
    case ResetPreferencesAction => s.(artists := None, genres := None, onboardingCompleted := false)
    case StopLoadingAction => s.(loading := false)
    case SetOnboardingAction => s.(onboardingCompleted := true)
    case OtherAction(_) => s
  }

  /**
   * Each action touches only its own fields: SET_GENRES and SET_ARTISTS
   * replace one list, RESET_PREFERENCES clears both lists and the
   * onboarding flag and keeps `loading`, STOP_LOADING and SET_ONBOARDING set
   * one flag, and any other action returns the state unchanged.
   */
  lemma ReduceFrames(s: PrefState, a: PrefAction)
    ensures a.SetGenresAction? ==> Reduce(s, a).genres == Some(a.genres) && Reduce(s, a).(genres := s.genres) == s
    ensures a.SetArtistsAction? ==> Reduce(s, a).artists == Some(a.artists) && Reduce(s, a).(artists := s.artists) == s
    ensures a.ResetPreferencesAction? ==>
      Reduce(s, a) == PrefState(None, None, false, s.loading)
    ensures a.StopLoadingAction? ==> !Reduce(s, a).loading && Reduce(s, a).(loading := s.loading) == s
    ensures a.SetOnboardingAction? ==>
      Reduce(s, a).onboardingCompleted && Reduce(s, a).(onboardingCompleted := s.onboardingCompleted) == s
    ensures a.OtherAction? ==> Reduce(s, a) == s
  {
  }

  /** Dispatching the same action twice is the same as dispatching it once. */
  lemma ReduceIdempotent(s: PrefState, a: PrefAction)
    ensures Reduce(Reduce(s, a), a) == Reduce(s, a)
  {
  }

  /** Setting genres and setting artists commute. */
  lemma SetsCommute(s: PrefState, g: seq<string>, ar: seq<string>)
    ensures Reduce(Reduce(s, SetGenresAction(g)), SetArtistsAction(ar))
         == Reduce(Reduce(s, SetArtistsAction(ar)), SetGenresAction(g))
  {
  }

  /**
   * The state `init` leaves behind, from state `s` and storage `st`:
   * SET_ONBOARDING when the stored status is truthy, SET_GENRES and
   * SET_ARTISTS for the stored lists, then STOP_LOADING.
   */
  function AfterInit(s: PrefState, st: PrefStorage): (r: PrefState)
    ensures !r.loading
  {
    var s1 := if Truthy(st.onboardingStatus) then Reduce(s, SetOnboardingAction) else s;
    var s2 := if st.genresSelected.Some? then Reduce(s1, SetGenresAction(st.genresSelected.value)) else s1;
    var s3 := if st.artistsSelected.Some? then Reduce(s2, SetArtistsAction(st.artistsSelected.value)) else s2;
    Reduce(s3, StopLoadingAction)
  }

  /**
   * From the initial state, `init` restores every stored list, clears
   * `loading`, and marks onboarding complete exactly when some non-empty
   * status string is stored, whatever that string says.
   */
  lemma AfterInitSpec(st: PrefStorage)
    ensures var r := AfterInit(InitialState, st);
      && r.genres == st.genresSelected
      && r.artists == st.artistsSelected
      && (r.onboardingCompleted <==> st.onboardingStatus.Some? && st.onboardingStatus.value != "")
      && !r.loading
  {
  }

  /** The storage after `deletePreferences`: both lists removed and the status "false". */
  function AfterDelete(st: PrefStorage): (r: PrefStorage)
    ensures r.genresSelected.None? && r.artistsSelected.None?
  {
    PrefStorage(Some("false"), None, None)
  }

  /**
   * As written, `init` tests the stored status for truthiness, so the
   * "false" that `deletePreferences` stores marks onboarding complete at the
   * next start, although the reset cleared it.
   */
  lemma RestartAfterDeleteOnboarded(s: PrefState, st: PrefStorage)
    ensures !Reduce(s, ResetPreferencesAction).onboardingCompleted
    ensures AfterInit(InitialState, AfterDelete(st)).onboardingCompleted
  {
  }

  /** The evidently intended `init`: onboarding is complete only when the stored status is "true". */
  function AfterInitIntended(s: PrefState, st: PrefStorage): (r: PrefState)
    ensures !r.loading
  {
    var s1 := if st.onboardingStatus == Some("true") then Reduce(s, SetOnboardingAction) else s;
    var s2 := if st.genresSelected.Some? then Reduce(s1, SetGenresAction(st.genresSelected.value)) else s1;
    var s3 := if st.artistsSelected.Some? then Reduce(s2, SetArtistsAction(st.artistsSelected.value)) else s2;
    Reduce(s3, StopLoadingAction)
  }

  /**
   * With the intended test a restart agrees with the state the session left
   * behind: after `deletePreferences` onboarding is not complete, after
   * `setOnboardingStatus` it is.
   */
  lemma RestartIntendedAgrees(st: PrefStorage)
    ensures !AfterInitIntended(InitialState, AfterDelete(st)).onboardingCompleted
    ensures AfterInitIntended(InitialState, st.(onboardingStatus := Some("true"))).onboardingCompleted
    ensures AfterInitIntended(InitialState, st).genres == st.genresSelected
    ensures AfterInitIntended(InitialState, st).artists == st.artistsSelected
  {
  }

  /**
   * `PreferencesProvider`: the reducer state and the device storage it
   * writes. Every operation first writes storage and then dispatches.
   */
  class PreferencesProvider {
    var state: PrefState
    var storage: PrefStorage

    /** A provider starts from the initial state over whatever the device has stored. */
    constructor(stored: PrefStorage)
      ensures state == InitialState && storage == stored
    {
      state := InitialState;
      storage := stored;
    }

    /** `init`: reads the three keys, dispatches what they hold, and always ends with STOP_LOADING. */
    method Init()
      modifies this
      ensures storage == old(storage)
      ensures state == AfterInit(old(state), storage)
      ensures !state.loading
    {
      if storage.onboardingStatus.Some? && storage.onboardingStatus.value != "" {
        state := Reduce(state, SetOnboardingAction);
      }
      if storage.genresSelected.Some? {
        state := Reduce(state, SetGenresAction(storage.genresSelected.value));
      }
      if storage.artistsSelected.Some? {
        state := Reduce(state, SetArtistsAction(storage.artistsSelected.value));
      }
      state := Reduce(state, StopLoadingAction);
    }

    /** `setGenres(genres)`: stores the list, then dispatches SET_GENRES. */
    method SetGenres(genres: seq<string>)
      modifies this
      ensures storage == old(storage).(genresSelected := Some(genres))
      ensures state == Reduce(old(state), SetGenresAction(genres))
    {
      storage := storage.(genresSelected := Some(genres));
      state := Reduce(state, SetGenresAction(genres));
    }

    /** `setArtists(artists)`: stores the list, then dispatches SET_ARTISTS. */
    method SetArtists(artists: seq<string>)
      modifies this
      ensures storage == old(storage).(artistsSelected := Some(artists))
      ensures state == Reduce(old(state), SetArtistsAction(artists))
    {
      storage := storage.(artistsSelected := Some(artists));
      state := Reduce(state, SetArtistsAction(artists));
    }

    /** `deletePreferences`: removes both lists, stores the status "false", then resets. */
    method DeletePreferences()
      modifies this
      ensures storage == AfterDelete(old(storage))
      ensures state == Reduce(old(state), ResetPreferencesAction)
    {
      storage := storage.(genresSelected := None);
      storage := storage.(artistsSelected := None);
      storage := storage.(onboardingStatus := Some("false"));
      state := Reduce(state, ResetPreferencesAction);
    }

    /** `setOnboardingStatus`: stores "true", then dispatches SET_ONBOARDING. */
    method SetOnboardingStatus()
      modifies this
      ensures storage == old(storage).(onboardingStatus := Some("true"))
      ensures state == Reduce(old(state), SetOnboardingAction)
    {
      storage := storage.(onboardingStatus := Some("true"));
      state := Reduce(state, SetOnboardingAction);
    }
  }

  /**
   * A session that deletes the preferences and a later start of the app:
   * the running session shows onboarding as not completed, the restarted one
   * as completed.
   */
  method DeleteThenRestart(stored: PrefStorage) returns (before: PrefState, after: PrefState)
    ensures !before.onboardingCompleted && before.genres.None? && before.artists.None?
    ensures after.onboardingCompleted && after.genres.None? && after.artists.None? && !after.loading
  {
    var session := new PreferencesProvider(stored);
    session.Init();
    session.DeletePreferences();
    before := session.state;
    var restarted := new PreferencesProvider(session.storage);
    restarted.Init();
    after := restarted.state;
  }
}

=== FILE: vectors.dfy ===
/**
 * Real vectors as the embedding code uses them: dot products, squared norms,
 * scikit-learn's row-wise L2 `normalize` (a zero row is left unchanged) and
 * sentence-transformers' `cos_sim` (each norm is clamped below by an epsilon).
 *
 * Square roots are not part of Dafny's `real`, so every function that needs
 * one receives it as a parameter `sqrt` satisfying `IsSqrt`.
 */
module Vectors {

  type Vec = seq<real>

  /** `sqrt` is a square root on the non-negative reals. */
  ghost predicate IsSqrt(sqrt: real -> real)
  {
    forall x :: x >= 0.0 ==> sqrt(x) >= 0.0 && sqrt(x) * sqrt(x) == x
  }

  function Zeros(n: nat): (r: Vec)
    ensures |r| == n
    ensures forall i :: 0 <= i < n ==> r[i] == 0.0
  {
    seq(n, _ => 0.0)
  }

  function Add(u: Vec, v: Vec): (r: Vec)
    requires |u| == |v|
    ensures |r| == |u|
    ensures forall i :: 0 <= i < |u| ==> r[i] == u[i] + v[i]
  {
    seq(|u|, i requires 0 <= i < |u| => u[i] + v[i])
  }

  function Scale(v: Vec, c: real): (r: Vec)
    ensures |r| == |v|
    ensures forall i :: 0 <= i < |v| ==> r[i] == c * v[i]
  {
    seq(|v|, i requires 0 <= i < |v| => c * v[i])
  }

  function Dot(u: Vec, v: Vec): real
    requires |u| == |v|
  {
    if u == [] then 0.0 else u[0] * v[0] + Dot(u[1..], v[1..])
  }

  function SqNorm(v: Vec): real
  {
    Dot(v, v)
  }

  predicate IsZero(v: Vec)
  {
    forall i :: 0 <= i < |v| ==> v[i] == 0.0
  }

  lemma {:induction false} SqNormNonNegative(v: Vec)
    ensures SqNorm(v) >= 0.0
  {
    if v != [] {
      SqNormNonNegative(v[1..]);
      SquareSign(v[0]);
    }
  }

  lemma SquareSign(x: real)
    ensures x * x >= 0.0
  {
    if x < 0.0 {
      assert x * x == (-x) * (-x);
    }
  }

  lemma DotScale(u: Vec, v: Vec, c: real)
    requires |u| == |v|
    ensures Dot(Scale(u, c), v) == c * Dot(u, v)
    ensures Dot(u, Scale(v, c)) == c * Dot(u, v)
  {
    DotScaleLeft(u, v, c);
    DotScaleRight(u, v, c);
  }

  lemma {:induction false} DotScaleLeft(u: Vec, v: Vec, c: real)
    requires |u| == |v|
    ensures Dot(Scale(u, c), v) == c * Dot(u, v)
  {
    if u != [] {
      ScaleTail(u, c);
      DotScaleLeft(u[1..], v[1..], c);
      var su := Scale(u, c);
      assert Dot(su, v) == (c * u[0]) * v[0] + c * Dot(u[1..], v[1..]);
      ScaledStep(c, u[0], v[0], Dot(u[1..], v[1..]));
    }
  }

  lemma {:induction false} DotScaleRight(u: Vec, v: Vec, c: real)
    requires |u| == |v|
    ensures Dot(u, Scale(v, c)) == c * Dot(u, v)
  {
    if u != [] {
      ScaleTail(v, c);
      DotScaleRight(u[1..], v[1..], c);
      var sv := Scale(v, c);
      assert Dot(u, sv) == u[0] * (c * v[0]) + c * Dot(u[1..], v[1..]);
      ScaledStep(c, u[0], v[0], Dot(u[1..], v[1..]));
    }
  }

  /** One step of the induction: scaling a product and a partial sum scales their sum. */
  lemma ScaledStep(c: real, x: real, y: real, d: real)
    ensures (c * x) * y + c * d == c * (x * y + d)
    ensures x * (c * y) + c * d == c * (x * y + d)
  {
  }

  lemma ScaleTail(v: Vec, c: real)
    requires v != []
    ensures Scale(v, c)[1..] == Scale(v[1..], c)
  {
    forall i | 0 <= i < |v| - 1
      ensures Scale(v, c)[1..][i] == Scale(v[1..], c)[i]
    {
      assert Scale(v, c)[1..][i] == Scale(v, c)[i + 1];
    }
  }

  lemma SqNormScale(v: Vec, c: real)
    ensures SqNorm(Scale(v, c)) == c * c * SqNorm(v)
  {
    DotScale(Scale(v, c), v, c);
    DotScale(v, v, c);
  }

  lemma {:induction false} DotConcat(u1: Vec, u2: Vec, v1: Vec, v2: Vec)
    requires |u1| == |v1| && |u2| == |v2|
    ensures Dot(u1 + u2, v1 + v2) == Dot(u1, v1) + Dot(u2, v2)
  {
    if u1 != [] {
      assert (u1 + u2)[1..] == u1[1..] + u2;
      assert (v1 + v2)[1..] == v1[1..] + v2;
      DotConcat(u1[1..], u2, v1[1..], v2);
    } else {
      assert u1 + u2 == u2 && v1 + v2 == v2;
    }
  }

  lemma SqrtOne(sqrt: real -> real)
    requires IsSqrt(sqrt)
    ensures sqrt(1.0) == 1.0
  {
    var one := sqrt(1.0);
    assert one >= 0.0 && one * one == 1.0;
    assert (one - 1.0) * (one + 1.0) == 0.0;
    assert one - 1.0 == 0.0 / (one + 1.0);
  }

  /** The Euclidean norm. */
  function Norm(v: Vec, sqrt: real -> real): real
  {
    sqrt(SqNorm(v))
  }

  lemma NormPositive(v: Vec, sqrt: real -> real)
    requires IsSqrt(sqrt)
    requires SqNorm(v) != 0.0
    ensures Norm(v, sqrt) > 0.0
  {
    SqNormNonNegative(v);
    var n := Norm(v, sqrt);
    assert n >= 0.0 && n * n == SqNorm(v);
  }

  /**
   * scikit-learn `normalize(X, norm="l2")` on one row: divide by the norm,
   * except that a row of norm 0 is returned unchanged.
   */
  function L2Normalize(v: Vec, sqrt: real -> real): (r: Vec)
    requires IsSqrt(sqrt)
    ensures |r| == |v|
    ensures SqNorm(v) == 0.0 ==> r == v
    ensures SqNorm(v) != 0.0 ==> SqNorm(r) == 1.0
  {
    SqNormNonNegative(v);
    if SqNorm(v) == 0.0 then v
    else
      NormPositive(v, sqrt);
      var n := Norm(v, sqrt);
      SqNormScale(v, 1.0 / n);
      assert (1.0 / n) * (1.0 / n) * (n * n) == 1.0;
      Scale(v, 1.0 / n)
  }

  /** Normalising twice changes nothing. */
  lemma L2NormalizeIdempotent(v: Vec, sqrt: real -> real)
    requires IsSqrt(sqrt)
    ensures L2Normalize(L2Normalize(v, sqrt), sqrt) == L2Normalize(v, sqrt)
  {
    var r := L2Normalize(v, sqrt);
    if SqNorm(r) != 0.0 {
      assert SqNorm(r) == 1.0;
      var one := sqrt(1.0);
      SqrtOne(sqrt);
      assert Scale(r, 1.0 / one) == r;
    }
  }

  /** Each direction is preserved: normalising multiplies by a positive factor. */
  lemma L2NormalizeDirection(v: Vec, sqrt: real -> real)
    requires IsSqrt(sqrt)
    ensures exists c :: c > 0.0 && L2Normalize(v, sqrt) == Scale(v, c)
  {
    if SqNorm(v) == 0.0 {
      assert Scale(v, 1.0) == v;
    } else {
      NormPositive(v, sqrt);
      assert L2Normalize(v, sqrt) == Scale(v, 1.0 / Norm(v, sqrt));
    }
  }

  function Max(a: real, b: real): real
  {
    if a >= b then a else b
  }

  /** The epsilon `torch.nn.functional.normalize` clamps norms with. */
  const CosEps: real := 0.000000000001

  /**
   * `util.cos_sim(a, b)` for one pair of rows: both rows are divided by
   * `max(norm, eps)` and the results are multiplied.
   */
  function CosSim(u: Vec, v: Vec, sqrt: real -> real): (r: real)
    requires |u| == |v|
    requires IsSqrt(sqrt)
  {
    SqNormNonNegative(u);
    SqNormNonNegative(v);
    Dot(u, v) / (Max(Norm(u, sqrt), CosEps) * Max(Norm(v, sqrt), CosEps))
  }

  lemma {:induction false} DotZero(u: Vec, v: Vec)
    requires |u| == |v| && IsZero(u)
    ensures Dot(u, v) == 0.0
  {
    if u != [] {
      assert IsZero(u[1..]) by {
        forall i | 0 <= i < |u[1..]|
          ensures u[1..][i] == 0.0
        {
          assert u[1..][i] == u[i + 1];
        }
      }
      DotZero(u[1..], v[1..]);
      assert u[0] == 0.0;
    }
  }

  /** A zero vector is equally (un)similar to everything: its similarity is 0. */
  lemma CosSimZero(u: Vec, v: Vec, sqrt: real -> real)
    requires |u| == |v| && IsSqrt(sqrt)
    requires IsZero(u)
    ensures CosSim(u, v, sqrt) == 0.0
  {
    DotZero(u, v);
  }

  /** For unit vectors the similarity is the plain dot product. */
  lemma CosSimUnit(u: Vec, v: Vec, sqrt: real -> real)
    requires |u| == |v| && IsSqrt(sqrt)
    requires SqNorm(u) == 1.0 && SqNorm(v) == 1.0
    ensures CosSim(u, v, sqrt) == Dot(u, v)
  {
    SqrtOne(sqrt);
  }
}
